=== FILE: README.md ===
# dmslogo in Dafny

A model of the plotting library dmslogo. The library draws sequence logos and line plots of per-site data from deep mutational scanning experiments. The model covers the parts of it that decide what is drawn and where, and proves what the library promises about them. Drawing through matplotlib is not modelled.

The modules follow the library's files:

- `Results`: the failure conditions of the library, one constructor per condition, and the result and option types. Most stand for a `ValueError` the library raises. A few stand for other failures. `EmptyData` is an `IndexError` or a `min` or `max` of nothing. `DivisionByZero` is a division by zero that Python raises or numpy turns into an infinite value. `AmbiguousTickLabel` in the older loops is an `assert`. `FloatSiteRange` is the `TypeError` that `range()` raises on float bounds. `NanHeight` is raised by the model only; see "## Left out".
- `Reals`: sums, extrema, sorting and numpy's default (linear) `quantile` over sequences of reals, plus Python's integer and truthiness conversions.
- `AxLim` (dmslogo/utils.py): `AxLimSetter`. This covers its argument checks and `get_lims`: data range, zero inclusion, quantile stretching, padding, and the upper and lower clamps.
- `Ticks` (dmslogo/utils.py): `breaksAndLabels`, which keeps the locator's candidate ticks that fall on axis points and labels them.
- `Colors` (dmslogo/colorschemes.py): the amino-acid colour tables and `ValueToColorMap`. The matplotlib colormap is a parameter: any function from `[0, 1]` to RGBA bytes.
- `Tables`: the data-frame side shared by the three logo functions. It covers rows, the per-site grouping of `sort_values([x, height]).groupby(x)`, breaks between non-consecutive sites, colour choice, and the shading cells of each row.
- `LogoLayout`, `Glyphs` and `Logo` (dmslogo/logo.py): `draw_logo`. This covers the input checks, the column layout with break columns and `pad_above`/`pad_below` tags, and the letter placement of `_draw_text_data_coord`. It also covers the zero-line policy, the figure size, and the y-limits.
- `Shading` (dmslogo/logo.py): the site shading at the end of `draw_logo`, as bands over the columns of the sites that ask for one.
- `Line` (dmslogo/line.py): `draw_line`. This covers the checks, the step path, the y-limits, the figure width, the relabelled ticks and the underlines.
- `Facet` and `Labels` (dmslogo/facet.py): `facet_plot`. This covers the checks, group consistency, per-row y-limit sharing, the height and width parameters, the grid cells and titles, and the centred shared axis labels.
- `LegacyLayout`, `LegacyDmsLogo` and `LegacyDrawLogo` (dmslogo/dmslogo.py and dmslogo/draw_logo.py): the two older versions of `draw_logo`, and `df_cols_one_to_one`.

Numbers are Dafny reals. Pandas frames are sequences of records whose column names are a set.

Rendering can only be measured by a live renderer. Those measurements are parameters: the axis size in inches, a font's fraction above the baseline, and each facet drawing's width, ticks and data limits. Each operation returns a `Result`, and its `Err` names the condition the library raises.

## Model

| member | source | states |
|---|---|---|
| AxLim.MakeSetter | dmslogo/utils.py:88-145 | the constructor succeeds exactly when `include_zero` is a bool, `datalim_pad` is not negative, each quantile argument is absent or a pair with quantile and frac strictly inside (0, 1), and `all_equal_data` is `'raise'` or an ordered pair (first ≤ 0 ≤ second, not equal); a non-bool `include_zero` is the first error; a built setter keeps every setting as given |
| AxLim.CheckQuantileArg | dmslogo/utils.py:108-124 | a quantile argument is accepted iff it is absent or a pair with both numbers strictly between 0 and 1, and then gives the matching rule |
| AxLim.ZeroRange | dmslogo/utils.py:149-154 | the data limits hold the data's min and max; with `include_zero` they also straddle 0, and each end is the data extreme or 0 |
| AxLim.StretchPlacesQuantile | dmslogo/utils.py:156-162 | the stretched bound puts the quantile exactly `frac` of the way from the opposite data bound, and lies beyond the quantile on its side |
| AxLim.Stretched | dmslogo/utils.py:156-164 | a quantile rule replaces a bound by the more extreme of the data bound and the stretched candidate; without a rule the bound is the data bound |
| AxLim.DataLimits | dmslogo/utils.py:149-175 | empty data fails (Python's `min` of an empty list); equal limits fail under `'raise'` and otherwise get the offsets added; any result has a positive extent and contains the stretched limits |
| AxLim.Pad | dmslogo/utils.py:174-177 | both ends move out by the same `datalim_pad` times the extent |
| AxLim.GetLims | dmslogo/utils.py:147-184 | the limits contain every datum, include 0 under `include_zero`, and are strictly ordered; with a truthy `min_upperlim` the upper limit is the larger of it and the padded data limit; with a truthy `max_lowerlim` the lower limit is the smaller of it and the padded data limit (the corrected step 6); otherwise each limit is the padded data limit |
| AxLim.GetLimsAsWritten | dmslogo/utils.py:179-184 | as written, a truthy `max_lowerlim` caps the upper limit and leaves the lower one padded |
| AxLim.MaxLowerlimInvertsLimits | dmslogo/utils.py:181-182 | with `max_lowerlim=-1` and the docstring data the as-written limits come out inverted, (-0.03, -1.0), while the corrected ones are (-1.0, 0.63) |
| AxLim.GetLimsFixedPoint | dmslogo/utils.py:147-184 | without padding or quantile rules, feeding the limits back in gives the same limits |
| AxLim.DefaultDoctest | dmslogo/utils.py:67-70 | the default setter gives (-0.03, 0.63) for the docstring data |
| AxLim.QuantileDoctest | dmslogo/utils.py:75-77 | `max_from_quantile=(0.5, 0.05)` gives (-0.45, 9.45) |
| AxLim.MinUpperlimDoctest | dmslogo/utils.py:81-84 | adding `min_upperlim=10` gives (-0.45, 10.0) |
| AxLim.QuantileStretch | dmslogo/utils.py:156-164 | the median rule stretches the docstring data's limits to (0, 9) before padding |
| AxLim.DoctestMedian | dmslogo/utils.py:160 | the median of the docstring data (numpy's linear interpolation) is 0.45 |
| Ticks.BreaksAndLabels | dmslogo/utils.py:217-227 | unequal lengths fail first and non-integer positions next; success needs non-empty, strictly increasing integer positions, and then every break lies between the first and last position, is one of them, and carries the label paired with that position |
| Ticks.InRange | dmslogo/utils.py:225 | only candidates between the first and last position are kept, truncated to integers, so there are never more breaks than candidates |
| Ticks.LabelsFor | dmslogo/utils.py:226 | labelling succeeds iff every break is one of the positions (Python's `list.index` raises otherwise), and the k-th label is the one paired with the first occurrence of the k-th break |
| Ticks.WellFormedAxis | dmslogo/utils.py:217-227 | for well-formed positions the result is exactly the filtered breaks with their labels, or the labelling error |
| Ticks.DocstringExample | dmslogo/utils.py:208-214 | positions 0..212 labelled "1".."213" with the locator's candidates 0, 50, …, 250 give breaks [0, 50, 100, 150, 200] and labels ["1", "51", "101", "151", "201"] |
| Colors.TwentyAminoAcids | dmslogo/colorschemes.py:27-70 | the colour tables are keyed by twenty distinct amino-acid letters |
| Colors.FunctionalGroupDomain | dmslogo/colorschemes.py:27-47 | `AA_FUNCTIONAL_GROUP` colours exactly the twenty amino acids |
| Colors.ChargeKeys | dmslogo/colorschemes.py:50-70 | `AA_CHARGE` colours exactly the twenty amino acids |
| Colors.ChargeBasicRed | dmslogo/colorschemes.py:50-70 | the charge scheme colours exactly the basic residues R, H and K red |
| Colors.ChargeAcidicBlue | dmslogo/colorschemes.py:50-70 | the charge scheme colours exactly the acidic residues D and E blue |
| Colors.MakeValueToColorMap | dmslogo/colorschemes.py:169-172 | a map is built iff `maxvalue` exceeds `minvalue`, and keeps both values |
| Colors.Normalize | dmslogo/colorschemes.py:202-203 | a value inside the map's range lands in [0, 1] |
| Colors.NormalizeInverse | dmslogo/colorschemes.py:202 | normalising is undone by scaling back, keeps order in both directions and sends the ends to 0 and 1 |
| Colors.HexDigitRoundTrip | dmslogo/colorschemes.py:217 | a hexadecimal digit and its value convert back and forth without loss |
| Colors.HexCodeRoundTrip | dmslogo/colorschemes.py:215-217 | parsing the `#rrggbb` code of three bytes gives back the bytes |
| Colors.ParseHexCodeRoundTrip | dmslogo/colorschemes.py:217 | every lower-case `#rrggbb` string is the code of the bytes it parses to |
| Colors.HexCode | dmslogo/colorschemes.py:217 | the code is `#` and six lower-case hexadecimal digits |
| Colors.Render | dmslogo/colorschemes.py:210-218 | `'rgb_triple'` drops alpha; `'rgb_hex_code'` gives a code that parses back to the colour's red, green and blue |
| Colors.ValToColor | dmslogo/colorschemes.py:193-225 | a value outside [minvalue, maxvalue] fails first and an unknown format next; otherwise each value gets the colormap's colour at its normalised position, a single number giving one colour and a list giving one colour per value in order |
| Colors.ScalarAsArray | dmslogo/colorschemes.py:193-198 | a single number behaves like a one-element list whose colour is returned alone |
| Colors.ViridisStartCode | dmslogo/colorschemes.py:120-122 | viridis's first colour, bytes (68, 1, 84), renders as `#440154` |
| Colors.DocstringPositions | dmslogo/colorschemes.py:103-124 | over the docstring's range 0..3 the values 1 and 2 sit at 1/3 and 2/3 of the gradient |
| Tables.CheckColumns | dmslogo/logo.py:352-354 | the check passes iff every required column is present, and otherwise names the first one missing |
| Tables.CheckOptionalColumn | dmslogo/logo.py:355-356 | an optional column passes iff it is absent or present, and otherwise names it |
| Tables.UppercaseLatin1 | dmslogo/logo.py:346-349 | accented and other Latin-1 lower-case letters (`é`, `ß`) fail the upper-case check; their upper-case forms and the signs `×` and `÷` pass |
| Tables.CheckLetter | dmslogo/logo.py:404-405 | a letter passes iff it is exactly one character |
| Tables.ResolveColor | dmslogo/logo.py:407-416 | the colour column wins when given; otherwise the scheme's entry; otherwise a truthy `missing_color`; otherwise the letter has no colour and fails |
| Tables.SitesOf | dmslogo/logo.py:381-384 | the groups are visited at the distinct sites, strictly ascending, each site exactly once and no other |
| Tables.Group | dmslogo/logo.py:381-384 | a site's group holds only that site's rows, sorted by height, and is non-empty when the site occurs; rows of equal height keep their order in the frame, as the stable multi-column `sort_values` keeps them |
| Tables.InsertKeepsTies | dmslogo/logo.py:381-382 | inserting a row puts it first among the rows of its height and keeps the order of every height's rows |
| Tables.SortKeepsTies | dmslogo/logo.py:381-382 | the height sort is stable: the rows of each height come out in the order they went in |
| Tables.GroupTieInFrameOrder | dmslogo/logo.py:381-384 | two letters of equal height at one site stack in frame order |
| Tables.GroupCounts | dmslogo/logo.py:381-384 | a site's group holds each of that site's rows exactly as many times as the table does, so grouping loses and invents nothing |
| Tables.BreakCount | dmslogo/logo.py:386-391 | breaks are only inserted when `addbreaks` is on, and at most one per site |
| Tables.BreakCountGrows | dmslogo/logo.py:386-391 | breaks only accumulate as the loop visits more sites |
| Tables.SiteColumnIncreasing | dmslogo/logo.py:379-427 | a later site always sits in a strictly later column, so no two sites share a column |
| Shading.SiteShade | dmslogo/logo.py:513-523 | the site's shading cells are those of one of its rows |
| Shading.AgreedShade | dmslogo/logo.py:514-523 | when `unique()` finds one colour and one alpha at a site, every row of the site carries them |
| Shading.SiteBand | dmslogo/logo.py:513-531 | a site with several colours fails first, then one with several alphas; a band, when drawn, is centred on the site's tick and one unit wide; any other failure of an agreeing site is the alpha range |
| Shading.SiteBandMeaning | dmslogo/logo.py:514-531 | a site is skipped iff its rows agree and carry a null or empty colour; it fails on the alpha iff its rows agree on a non-empty colour and an alpha that is null or outside [0, 1]; a band carries the non-empty colour and the in-range alpha of every row of the site |
| Shading.Bands | dmslogo/logo.py:513-531 | the loop succeeds iff every site's turn does; otherwise it fails with the error of the first failing site; its bands are exactly those that some site's turn draws |
| Shading.ShadeSites | dmslogo/logo.py:505-533 | no shading columns draw nothing; exactly one of the two columns is an error naming which; a column missing from the frame is an error naming it, colour first; only with both columns present does the loop run, and only then can bands appear |
| Shading.DrawShadedLogo | dmslogo/logo.py:226-535 | a failed logo fails the call with its error; a shaded logo is the plain logo plus the shading loop run over the validated rows at the layout's ticks |
| Shading.LayoutTicks | dmslogo/logo.py:379-427 | each site's tick in `x_to_xtick` is half a unit into the site's own column |
| Shading.BandsOnColumns | dmslogo/logo.py:513-531 | every band of the loop covers exactly one site's column [c, c + 1] with a non-empty colour and an alpha in [0, 1] that every row of that site names |
| Shading.BandOnSiteColumn | dmslogo/logo.py:505-533 | every band of a shaded logo covers exactly one site's column, with that site's colour and alpha |
| Shading.SeparateColumns | dmslogo/logo.py:379-531 | bands over two sites' columns are the same band or do not overlap |
| Shading.BandsDisjoint | dmslogo/logo.py:505-533 | two different bands of one shaded logo never overlap |
| Shading.ColumnOwner | dmslogo/logo.py:379-427 | a band over one site's column starts at no other site's column |
| Shading.ShadedSiteColored | dmslogo/logo.py:524-531 | a band at a site's column means every row of the site names a non-empty colour |
| Shading.ColoredSiteShaded | dmslogo/logo.py:524-531 | a site whose rows all name a non-empty colour gets a band at its column |
| Shading.BandsIffColored | dmslogo/logo.py:524-531 | a site's column carries a band iff the site's rows name a non-empty colour |
| Shading.ShadedIffColored | dmslogo/logo.py:505-533 | with both shading columns given, a site of a shaded logo is shaded iff its rows name a non-empty colour |
| LogoLayout.DropNa | dmslogo/logo.py:357-358 | dropping NaN heights keeps exactly the rows with a height, with their multiplicities |
| LogoLayout.ClipHeight | dmslogo/logo.py:361-363 | clipping makes heights non-negative and leaves non-negative ones alone |
| LogoLayout.ToClean | dmslogo/logo.py:361-365 | cleaning keeps each row's site, letter, tick label and colour and clips its height when asked |
| LogoLayout.RequiredColumns | dmslogo/logo.py:351-356 | the column checks pass iff the height, letter, site and tick columns and any colour column are all present |
| LogoLayout.Cleaned | dmslogo/logo.py:357-367 | after cleaning, sites map to one tick label each; with `drop_na_letter_heights` the rows are exactly the rows with heights and an all-NaN table fails; clipped heights are non-negative |
| LogoLayout.Validate | dmslogo/logo.py:346-367 | a lower-case letter fails first; success implies all needed columns are present, ticks are consistent per site, and the NaN and clip guarantees above; an all-NaN table with the right columns fails with "no data after dropping nan heights" |
| LogoLayout.Entries | dmslogo/logo.py:401-420 | a site's entries exist iff every row has a one-character letter and a colour; each entry keeps the letter, takes the absolute height, pads below for non-negative heights and above for negative ones, and takes the resolved colour |
| LogoLayout.SiteStack | dmslogo/logo.py:394-420 | a site's stack is built iff its letters are distinct and every row is good; a repeated letter fails with the site's "duplicate letters" error |
| LogoLayout.StepKeepsInvariant | dmslogo/logo.py:381-428 | one loop turn (an optional break column, then the site) keeps the layout invariant: every earlier site keeps its column, stack, sums, tick and label, and every break column stays empty with zero sums |
| LogoLayout.StepAddsSite | dmslogo/logo.py:397-428 | the new site's column holds its stack, its negative and positive sums and its tick at column index + 0.5 with the site's tick label |
| LogoLayout.StepAddsBreak | dmslogo/logo.py:386-391 | a turn adds at most one break, an empty column whose sums are 0 |
| LogoLayout.StepExtends | dmslogo/logo.py:381-428 | a loop turn only appends: every list built so far is a prefix of the new one |
| LogoLayout.LayoutRows | dmslogo/logo.py:369-430 | the layout loop succeeds iff every site has a stack, and then there is one column per site plus one per break, each site in its column with its stack, negative and positive sums, tick and label, and each break column empty with zero sums |
| LogoLayout.StackSums | dmslogo/logo.py:397-420 | a site's positive sum is the total height of its pad-below letters, its negative sum minus that of its pad-above letters, and the stack's total height is their difference |
| LogoLayout.AboveBeforeBelow | dmslogo/logo.py:382-420 | because rows are sorted by height, every pad-above (negative) letter comes before every pad-below one in a stack |
| LogoLayout.StackShape | dmslogo/logo.py:394-420 | a stack's letters are distinct single characters with non-negative heights and a valid pad location |
| Glyphs.Padding | dmslogo/logo.py:196 | a letter's padding is the smaller of half its height and the pad height |
| Glyphs.Scaled | dmslogo/logo.py:195 | with `letterheightscale` in [0.5, 1], the scaled height lies between half the height and the height |
| Glyphs.YPad | dmslogo/logo.py:197-202 | a pad-above letter starts at its cursor; a pad-below letter is lifted by its padding plus the height the scale removed; any other pad location fails |
| Glyphs.ScaleYCoversLetter | dmslogo/logo.py:216-221 | the vertical scale chosen for a letter makes it draw exactly its scaled height less its padding |
| Glyphs.PlaceLetter | dmslogo/logo.py:190-223 | a letter is placed iff its pad location is valid and the axis has height; it lands in its column with its letter, colour, horizontal scale, lifted y and vertical scale |
| Glyphs.PlaceColumn | dmslogo/logo.py:190-223 | a column is placed iff all its letters are; the k-th glyph is its letter placed at the running cursor, which starts at the column's `ystart` and climbs by each letter's height |
| Glyphs.PlaceColumns | dmslogo/logo.py:190-223 | all columns are placed iff each is, column i at x = i from its own `ystart` |
| Glyphs.CheckAxis | dmslogo/logo.py:167-181 | the axis check fails, in source order, on no columns (`max` of nothing), a length mismatch, a stack taller than the y extent, a positive `ymin`, or a start below `ymin`; it passes iff none of these holds |
| Glyphs.Place | dmslogo/logo.py:133-224 | drawing fails on a zero-width padded axis or a failed axis check; success implies the axis checks and letter checks hold and the glyphs are the columns placed with the shared horizontal scale and pad height |
| Glyphs.PlacedGlyphs | dmslogo/logo.py:190-214 | every placed glyph sits in its column's x position with its entry's letter and colour, one glyph per entry |
| Glyphs.GlyphWithinCell | dmslogo/logo.py:192-223 | with `letterheightscale` in [0.5, 1], a drawn letter stays inside its slot from the cursor to the cursor plus its height; pad-below letters touch the top of the slot and pad-above letters the bottom |
| Glyphs.CursorEnd | dmslogo/logo.py:192-223 | after a column the cursor has climbed by the column's total height |
| Glyphs.StackRestsOnZero | dmslogo/logo.py:397-493 | starting a stack at its negative sum, the negative (pad-above) letters end exactly at 0 and the positive ones end at the positive sum |
| Logo.LineAtZero | dmslogo/logo.py:432-442 | `'always'` draws the line and `'never'` does not; `'if_negative'` draws it iff some site's sum is negative and fails when there are no sites; any other policy is an error |
| Logo.NegativeSumSign | dmslogo/logo.py:397 | the sum of a site's heights clipped at 0 from above is never positive, and is negative iff one of the heights is |
| Logo.BySiteCovered | dmslogo/logo.py:386-399 | every entry of `min_by_site` is a break column's 0 or the negative sum of some site |
| Logo.NegativeSiteIffNegativeRow | dmslogo/logo.py:394-400 | some site's negative sum is below 0 iff some letter height is |
| Logo.SameNegatives | dmslogo/logo.py:386-400 | the 0 entries of break columns never add a negative value: `min_by_site` and `min_by_site_nonempty` have a negative entry in the same cases |
| Logo.LineAtZeroIffNegativeHeight | dmslogo/logo.py:432-440 | with `'if_negative'` and any data, the line at zero is drawn exactly when some letter height is negative |
| Logo.FigureWidthPerColumn | dmslogo/logo.py:445-452 | each extra column widens the figure by 0.35·`widthscale` inches and leaves its height unchanged |
| Logo.FigureHeightBounds | dmslogo/logo.py:445-452 | the figure is between 2 and 3 times `heightscale` inches high, and exactly 2 times with the axis hidden and no title |
| Logo.YLimits | dmslogo/logo.py:462-473 | the y-limits exist iff the setter gives limits for both the negative and the positive sums; each free end is the wider of the two and covers every sum (and 0 with `include_zero`); a fixed end replaces it; with no fixed end the range is non-empty |
| Logo.Wider | dmslogo/logo.py:467-472 | the result spans both ranges unless an end is fixed, and a fixed end is taken as given |
| Logo.DrawLayout | dmslogo/logo.py:432-503 | a drawn logo has the chosen line policy's answer, the setter's y-limits, the placed letters, x-limits padded by 0.2, one dashed line at the middle of every break column, a figure size iff no axis was passed, and axis text unless the axis is hidden; a bad line policy is an error |
| Logo.Assembled | dmslogo/logo.py:444-503 | the assembled logo keeps the given glyphs, line and y-limits, puts a dashed line at each break + 0.5, and sizes a figure only when it makes its own |
| Logo.DrawLogo | dmslogo/logo.py:226-503 | a validation error comes first, then a layout error; otherwise the logo is the one drawn for the layout of the validated rows |
| Logo.SiteLettersDrawn | dmslogo/logo.py:369-430 | in a drawn logo each site's letters, in ascending height, are drawn in that site's column with their own letter and resolved colour |
| Line.CheckLineColumns | dmslogo/line.py:143-152 | a truthy `show_col` is looked up first (missing, then not bool); otherwise the check passes iff every column read is present, and a failure names a missing one |
| Line.Dedup | dmslogo/line.py:154 | dropping duplicate rows keeps exactly the distinct rows, each once |
| Line.SortByX | dmslogo/line.py:154 | sorting by `x_col` gives a permutation of the rows in non-decreasing site order |
| Line.CheckSites | dmslogo/line.py:156-169 | the sorted rows pass iff every site is a whole number, there is a row, no site is a float, and the sites are exactly xmin, xmin+1, …, xmax with one row each; the errors come in source order: non-whole, then a gap (which no rows at all also are, since their NaN `min` fails the run check), then float sites failing at `range()`, then a repeated site |
| Line.FloatSitesRefused | dmslogo/line.py:156-166 | sites 1.0 and 2.0 pass the whole-number test and the count and then fail at `range()`, while sites 1 and 2 pass |
| Line.ConsecutiveFromChecks | dmslogo/line.py:162-169 | sorted sites that cover every integer from the first to the last and number xmax − xmin + 1 are exactly the consecutive run from xmin |
| Line.ConsecutiveMeetsChecks | dmslogo/line.py:162-169 | a consecutive run passes both the gap check and the one-row-per-site check |
| Line.DataRange | dmslogo/line.py:175-185 | the data range contains every height of both columns, and 0 under `include_zero` |
| Line.SetterLimits | dmslogo/line.py:174-183 | the setter's limits for both height columns, combined by min and max, contain every height and 0 under `include_zero`; either setter error is passed on, the first column's first |
| Line.FixedLimits | dmslogo/line.py:186-193 | a `fixed_ymax` below the data maximum fails first, then a `fixed_ymin` above the data minimum; otherwise each given fixed limit replaces the computed one |
| Line.LineYLimits | dmslogo/line.py:171-193 | the final y-limits contain every plotted height (and 0 under `include_zero`), whether or not fixed limits were given |
| Line.XWidth | dmslogo/line.py:198-201 | the width per site lies in [0.007, 0.02]: 0.02 up to 100 sites and 0.007 from 700 on |
| Line.XWidthNonIncreasing | dmslogo/line.py:198-201 | more sites never get a wider width per site |
| Line.LineFigureWidthBounds | dmslogo/line.py:202-206 | apart from the axis allowance, the figure width lies between 0.007 and 0.02 times `widthscale` per site |
| Line.TickCount | dmslogo/line.py:221 | the number of ticks asked for is `max(4, xlen // 50)` |
| Line.StepPath | dmslogo/line.py:237-252 | the step path has two more points than sites: xmin − 0.5 first, xmax + 0.5 last, the sites in between with their heights, and the first and last heights repeated at the ends |
| Line.StepCoversSite | dmslogo/line.py:239-244 | drawn with `where='mid'`, the step line shows each site's height over its whole unit cell [x − 0.5, x + 0.5) |
| Line.DataUnits | dmslogo/line.py:39-51 | a reference other than 'x' or 'y' fails; otherwise the width in data units, turned back into points over the axis length, is the line width |
| Line.PointsRoundTrip | dmslogo/line.py:48-51 | converting to data units and back gives the line width again |
| Line.UnderlineAsWritten | dmslogo/line.py:258-263 | as written, the underline of site x starts half a site plus a line width left of x and ends at x + 1.5, from the axis bottom to a line width below the data |
| Line.UnderlineAsWrittenSpills | dmslogo/line.py:258-263 | as written, the underline of site x reaches x + 1.5, a whole cell past its own, farther right than left |
| Line.Underline | dmslogo/line.py:254-264 | the corrected underline spans the site's cell widened by the line width on each side, is centred on the site, and runs from `ymin` to just below the data minimum |
| Line.Underlines | dmslogo/line.py:257-264 | there is one underline per row whose `show_col` is true, and every underline belongs to a shown site |
| Line.UnderlineOfShownRow | dmslogo/line.py:257-264 | the underline of a shown row is drawn right after those of the shown rows before it, so the underlines follow the rows in site order |
| Line.DrawLine | dmslogo/line.py:136-266 | a column error comes first and a site error next; success implies the columns exist, the sites are consecutive integers, and the plot is the step path, limits, ticks and underlines of those rows |
| Line.PlotWithin | dmslogo/line.py:195-264 | the plot keeps the y-limits, has x-limits padded by 0.5 + 0.02·xlen, one step path per height column, the tick count and ticks, the x and y axis labels (defaulting to the tick and height columns) unless the axis is hidden, and a figure size only when it made its own figure |
| Line.LinePlotContainsData | dmslogo/line.py:186-252 | every drawn point of the line lies strictly inside the x-limits and within the y-limits |
| Facet.CheckFacetColumns | dmslogo/facet.py:109-124 | a default grid column name already in the data fails, the row name first; otherwise the check passes iff every compared column (grid row, grid column, `x_col`, `show_col` when given) is present, and otherwise names the first missing one |
| Facet.CheckGroups | dmslogo/facet.py:127-145 | no groups fails; the check passes iff every group has the first group's `x_col` entries (and `show_col` entries when given); a failure reports the first differing group, `x_col` before `show_col` |
| Facet.GroupsConsistentPairwise | dmslogo/facet.py:127-145 | comparing every group with the first is the same as every two groups agreeing |
| Facet.CheckKwargs | dmslogo/facet.py:153-158 | a drawing function's keyword arguments pass iff they hold none of `ax`, `title`, `heightscale`, checked in that order |
| Facet.FuncFor | dmslogo/facet.py:151-169 | an absent drawing function is skipped; a present one fails on a forbidden keyword argument, then on having no rows to draw (for the logo, the rows `show_col` keeps) |
| Facet.Harmonize | dmslogo/facet.py:175-183 | a keyword argument `x_col` or `show_col` that differs from the top-level one fails, `x_col` first; otherwise `x_col` is set, `show_col` is set for the line plot and kept for the logo, and every other argument is unchanged |
| Facet.SelectDrawFuncs | dmslogo/facet.py:148-183 | the line plot's checks come first; no drawing function fails; the result holds one or two functions, line before logo, each with rows to draw, no forbidden argument, the top-level `x_col` and its own title suffix |
| Facet.CheckMeasures | dmslogo/facet.py:202-209 | the measurements pass iff every group's width, ticks and tick labels equal the first group's, and then they are the shared values; otherwise the first differing group and field is reported |
| Facet.Observe | dmslogo/facet.py:217-223 | folding one group into the row limits widens a known row to the smaller minimum and larger maximum and appends a new row, keeping rows distinct |
| Facet.RowLimitsAreExtremes | dmslogo/facet.py:210-223 | each row's limits are the smallest minimum and the largest maximum measured in that row, and every measured row has limits |
| Facet.ShareAcrossRows | dmslogo/facet.py:225-229 | sharing gives every row the global minimum and maximum, which are attained by some row |
| Facet.RowYlimsContain | dmslogo/facet.py:217-229 | shared or not, every group's measured limits lie inside its row's limits |
| Facet.SharedLimitsContainAll | dmslogo/facet.py:225-229 | shared limits contain every group's limits, whatever the row |
| Facet.ApplySetYlims | dmslogo/facet.py:229-248 | a falsy `set_ylims` (`None`, `False`, `0`, an empty tuple, list or dict) changes nothing; a truthy value that is neither tuple nor dict fails; otherwise it succeeds iff every row is named and its wanted limits contain the row's limits, and then every row takes its wanted limits; a dict lacking a row fails on that row |
| Facet.FacetYlimsContain | dmslogo/facet.py:217-248 | after sharing and `set_ylims`, every group's measured limits still lie inside its row's limits |
| Facet.GetHeightParams | dmslogo/facet.py:319-338 | the figure height is nrows·height_per_ax + tmargin + bmargin; `top` leaves exactly tmargin above, `bottom` exactly bmargin below, and `hspace` is relative to one axis height; a zero divisor fails |
| Facet.HeightParamsSpanRows | dmslogo/facet.py:334-338 | the band between `bottom` and `top` is exactly the rows' height, and with positive sizes 0 < bottom < top < 1 |
| Facet.WidthRatiosSum | dmslogo/facet.py:255-260 | the grid's width ratios (each function's width repeated per column group) add up to the columns times the summed widths |
| Facet.GetWidthParams | dmslogo/facet.py:259-268 | the figure width is lmargin + rmargin + ncols·Σwidths; `left` and `right` leave exactly the margins, the band between them is the plots' width, and `wspace` is scaled by the number of axes |
| Facet.Title | dmslogo/facet.py:429-434 | a cell's title joins the non-empty row name, column name and suffix with single spaces, and has no outer space when its parts have none |
| Facet.TitleAsWritten | dmslogo/facet.py:429-434 | as written, the title is the joined row and column names, followed by a space and the suffix whenever the suffix is non-empty |
| Facet.TitleAsWrittenDiffers | dmslogo/facet.py:429-434 | the title as written differs from the joined one exactly when row and column names are empty and the suffix is not, and then starts with a space |
| Facet.RowResult | dmslogo/facet.py:414-419 | a row with no column group fails with that row's error; otherwise its cells follow |
| Facet.RowCells | dmslogo/facet.py:421-452 | a row's cell icol sits at column ifunc·ncols + icol, has a plot iff icol is below the number of column groups, carries the joined title or the dummy title and dummy data, and hides x labels off the bottom row and y labels off the first column |
| Facet.GridCells | dmslogo/facet.py:402-454 | the grid succeeds iff every row of every drawing function has a column group, and then holds each function's cells; a failure is some function's first empty row |
| Facet.GridCellsTile | dmslogo/facet.py:421-424 | the cells tile the axes array: each cell has its own row and column, inside the array, and no two cells share a position |
| Labels.CenteredLabel | dmslogo/facet.py:353-387 | an axis type other than 'x' or 'y' fails, then an empty list, then differing font, rotation or text in that order; otherwise the label keeps the shared properties and goes to the x or y midpoint formula over the labels' boxes |
| Labels.CenteredLabelWithin | dmslogo/facet.py:378-383 | with well-formed boxes, the merged label's centre lies within the span of the labels' boxes |
| Labels.CenteredLabelSameElements | dmslogo/facet.py:358-383 | the merged label depends only on which labels take part, not on their order or repetition |
| Labels.XLabelAxes | dmslogo/facet.py:286-292 | the x labels merged for a drawing function are those of its columns in the bottom row |
| Labels.YLabelAxes | dmslogo/facet.py:302-307 | the y labels merged for a drawing function are those of its first column in every row |
| Labels.SharedXLabelAxes | dmslogo/facet.py:279-284 | with `share_xlabel`, the one merged x label takes the bottom-row axes of every column of every drawing function |
| Labels.SharedYLabelAxes | dmslogo/facet.py:294-300 | with `share_ylabel`, the one merged y label takes the first-column axes of every row of every drawing function |
| Labels.SharedXLabelAxesJoin | dmslogo/facet.py:279-292 | the shared x label merges exactly the axes the per-function x labels merge, so (the label depending only on its axes) it is centred over their union |
| Labels.SharedYLabelAxesJoin | dmslogo/facet.py:294-307 | the shared y label merges exactly the axes the per-function y labels merge |
| Labels.LabelledAxesShowTheirAxis | dmslogo/facet.py:279-452 | every axis whose label is merged is a grid cell that keeps that axis's labels |
| LegacyLayout.CheckFrame | dmslogo/draw_logo.py:182-191 | the checks run in source order (required columns, colour column, negative heights, non-integer sites) and pass iff none fails, giving the rows with integer sites |
| LegacyLayout.StackedOf | dmslogo/draw_logo.py:215-230 | a row gives a stack entry iff its letter is one character and it has a colour; the entry keeps letter and height and takes the resolved colour |
| LegacyLayout.Stack | dmslogo/draw_logo.py:214-231 | a site's stack is built iff every row is good, entry by entry; otherwise the first bad row's error is reported |
| LegacyLayout.SiteRow | dmslogo/draw_logo.py:211-234 | a site is rejected for duplicate letters first, then for a bad row, then if its rows disagree on the tick label (the loop's assertion) |
| LegacyLayout.MatrixOf | dmslogo/draw_logo.py:195-237 | the loop succeeds iff every site's turn does, and then has one column and one tick label per site and per break; otherwise the first failing site's error is reported |
| LegacyLayout.MatrixSites | dmslogo/draw_logo.py:200-234 | each site's column holds its stack and its tick label |
| LegacyLayout.MatrixGaps | dmslogo/draw_logo.py:205-209 | a site that does not follow its predecessor is preceded by an empty column with an empty tick label |
| LegacyLayout.MatrixBreakIndices | dmslogo/draw_logo.py:205-209 | every recorded break index points at an empty column with an empty tick label |
| LegacyLayout.MatrixColumns | dmslogo/draw_logo.py:205-231 | every column is either a break column or some site's stack |
| LegacyLayout.SiteStackShape | dmslogo/draw_logo.py:200-231 | a stack has one entry per row of its site, in ascending height, with distinct one-character letters |
| LegacyLayout.MatrixNonNegative | dmslogo/draw_logo.py:188-231 | with no negative heights in the data, no stack holds one |
| LegacyLayout.MatrixNotAmbiguous | dmslogo/draw_logo.py:192-233 | once every site has a single tick label, the loop's assertion cannot fail |
| LegacyDmsLogo.SingleValuedIffFunctional | dmslogo/dmslogo.py:299-302 | "every group of the first column has one distinct second value" is the same as "equal first values always come with equal second values" |
| LegacyDmsLogo.ColsOneToOne | dmslogo/dmslogo.py:292-304 | a missing column fails, the first one first; the same column twice is one-to-one; otherwise the answer is true iff the mapping is a function both ways |
| LegacyDmsLogo.OneToOneDoctest | dmslogo/dmslogo.py:275-277 | {1, 2, 2} against {4, 5, 5} is one-to-one |
| LegacyDmsLogo.OneToManyDoctest | dmslogo/dmslogo.py:281-285 | {1, 2, 3} against {4, 5, 5} is not one-to-one, in either direction |
| LegacyDmsLogo.SameColumnDoctest | dmslogo/dmslogo.py:289-290 | a column against itself is one-to-one |
| LegacyDmsLogo.Checked | dmslogo/dmslogo.py:178-189 | the frame checks come first; then the sites and tick labels must map one-to-one unless they are the same column |
| LegacyDmsLogo.DrawLogo | dmslogo/dmslogo.py:178-255 | a check error or loop error is passed on; a passed axis is refused; no columns then fails (`max` of no stack heights when the letters are drawn, dmslogo.py:70); otherwise the figure shows the loop's matrix, so a drawn logo always has a column and no passed axis |
| LegacyDmsLogo.DrawLogoEmpty | dmslogo/dmslogo.py:67-71 | a frame with no rows that passes the checks, and no passed axis, fails at `max` of no stack heights |
| LegacyDmsLogo.Figure | dmslogo/dmslogo.py:233-242 | the figure has one tick per column at its index + 0.5, x-limits from 0 to the number of columns, and a width of 0.5·widthscale per column (plus one for the axis) |
| LegacyDmsLogo.DrawLogoTickLabels | dmslogo/dmslogo.py:227-243 | there are as many tick labels as columns and tick positions |
| LegacyDmsLogo.DrawLogoSites | dmslogo/dmslogo.py:195-242 | each site's column holds its stack and tick label, with its tick at column index + 0.5 |
| LegacyDmsLogo.DrawLogoBreaks | dmslogo/dmslogo.py:200-202 | a site that does not follow its predecessor is preceded by an empty column with an empty tick label |
| LegacyDmsLogo.DrawLogoNeverAmbiguous | dmslogo/dmslogo.py:188-227 | when ticks follow sites, the loop's single-tick assertion never fails after the one-to-one check |
| LegacyDrawLogo.Checked | dmslogo/draw_logo.py:182-193 | the frame checks come first; then every site must have a single tick label |
| LegacyDrawLogo.DrawLogo | dmslogo/draw_logo.py:182-274 | a check error or loop error is passed on; no columns fails (`max` of nothing); otherwise the figure is drawn for the tallest stack |
| LegacyDrawLogo.Figure | dmslogo/draw_logo.py:241-269 | the y-limits are (−0.03·top, 1.03·top); there is one tick per column at its index + 0.5 and a dashed line at each break index + 0.5; a figure size is given only for a new figure |
| LegacyDrawLogo.YlimFitsStacks | dmslogo/draw_logo.py:238-251 | every stack fits between the y-limits, and the upper limit is 1.03 times some stack's height |
| LegacyDrawLogo.StacksNonNegative | dmslogo/draw_logo.py:188-239 | every stack has a non-negative height |
| LegacyDrawLogo.BreakLinesOnBreaks | dmslogo/draw_logo.py:205-269 | each dashed line sits at index + 0.5 of an empty break column with an empty tick label |
| LegacyDrawLogo.DrawLogoCounts | dmslogo/draw_logo.py:195-252 | the columns are one per site plus one per break, and the tick labels and tick positions number the same |
| LegacyDrawLogo.DrawLogoEmpty | dmslogo/draw_logo.py:238-239 | an empty frame that passes the checks fails at `max` of no stacks |
| LegacyDrawLogo.DrawLogoNeverAmbiguous | dmslogo/draw_logo.py:192-233 | after the tick-label check, the loop's single-tick assertion never fails |

## Left out

- All drawing through matplotlib: figures, axes, patches, text paths, `despine`, `scale_bar` in dmslogo/colorschemes.py and the colour-bar legend. What is drawn is modelled as data (glyph rectangles, limits, tick positions, line and break positions).
- Font metrics and the axis size in inches are not computable without a renderer. Glyph placement takes the font's fraction above the baseline and the axis size as parameters.
- The name check of the colormap in `ValueToColorMap.__init__` (dmslogo/colorschemes.py:162-167) is left out. It asks matplotlib whether a name is registered, and the colormap itself is a parameter here.
- The colour-blind palettes `CBPALETTE` and `CBBPALETTE` (dmslogo/colorschemes.py:18-24) are plain constants that no modelled operation uses.
- `MaxNLocator`'s candidate tick positions are a parameter of `breaksAndLabels` and of the line plot's ticks, because the locator's algorithm belongs to matplotlib.
- Floating-point rounding is not modelled: heights, limits and sizes are exact reals. NaN heights appear only in `draw_logo` of dmslogo/logo.py, as a missing value that is dropped or rejected (see `LogoLayout.Cleaned` below); the older functions take real heights.
- `numpy.quantile` is modelled by its default linear interpolation on the sorted data; other interpolation methods are never requested.
- Tick labels are strings given with the data. The model does not format numbers as Python's `str` would.
- The older letter-drawing functions `_draw_text_data_coord` in dmslogo/dmslogo.py and dmslogo/draw_logo.py are not modelled. Only the stacks they are given are, and the one failure they add, the `max` of no stack heights (`EmptyData`).
- The drawing functions that `facet_plot` calls are opaque. What they report back (width, ticks, tick labels, data limits) is a parameter of the facet model.
- LegacyDmsLogo.DrawLogoNeverAmbiguous: when `xtick_col` is `x_col`, the source's tick label is `str` of the site, so it always agrees within a site. The lemma states this as a requirement (`TicksFollowSites`) because tick labels are given with the rows.
- The comment at dmslogo/line.py:198-199 gives a per-site width factor of 0.07, while the code computes 0.007. The model follows the code.
- Shading cells are modelled as an optional string colour and an optional real alpha per row. A colour of another type, and the way `unique()` groups different kinds of missing value, are left out. When the shading fails, the figure the library has already drawn is not modelled; the call is an error.
- LogoLayout.Cleaned: with `drop_na_letter_heights=False`, a NaN height that is kept fails with `NanHeight`. The library raises nothing there. It stacks the letter with `abs(nan)` and `pad_above`, leaves it out of the per-site sums, and draws it at a NaN position. Exact reals have no NaN to carry through the stacks and the placement.
- LogoLayout.Validate: inherits the `NanHeight` failure of `LogoLayout.Cleaned` for kept NaN heights. Its upper-case check knows what `str.upper()` changes only for the first 256 code points (`a`-`z`, `µ`, `ß`-`ö`, `ø`-`ÿ`); lower-case letters beyond them, such as Greek `ω`, pass where the library refuses them, because Unicode's case tables are not modelled. A frame without `letter_col` gets `MissingColumn(letter_col)` where the library raises a `KeyError` on reading the letters, because the rows here already hold their letters.
- Logo.YLimits: calls the corrected `AxLim.GetLims` (see "## Findings"). With a truthy `max_lowerlim` it lowers the bottom limit, where dmslogo/logo.py:464-467 through dmslogo/utils.py:181-182 caps the top one.
- Logo.DrawLayout: takes its y-limits from `Logo.YLimits`, so it has the same corrected `max_lowerlim` step.
- Logo.DrawLogo: has the corrected `max_lowerlim` step of `Logo.YLimits`, fails with `NanHeight` on kept NaN heights, as `LogoLayout.Cleaned` does, and accepts lower-case letters beyond the first 256 code points, as `LogoLayout.Validate` does.
- Shading.DrawShadedLogo: draws the logo of `Logo.DrawLogo`, with its corrected `max_lowerlim` step, its `NanHeight` failure and its upper-case check limited to the first 256 code points.
- Line.SetterLimits: calls the corrected `AxLim.GetLims`, so a truthy `max_lowerlim` lowers the bottom limit where dmslogo/line.py:174-183 caps the top one.
- Line.LineYLimits: builds on `Line.SetterLimits` and has the same corrected `max_lowerlim` step.
- Line.Underlines: draws the corrected `Line.Underline`, `1 + 2 * lw` wide, where dmslogo/line.py:258-263 draws `2 + lw` (see "## Findings").
- Line.PlotWithin: draws the underlines of `Line.Underlines`, so they are the corrected ones.
- Line.DrawLine: its limits and underlines are those of `Line.LineYLimits` and `Line.Underlines`, so both are the corrected ones.
- Facet.RowCells: titles the cells with the corrected `Facet.Title`, so empty row and column names with a suffix give the bare suffix, where dmslogo/facet.py:429-434 puts a space before it. Grid row and column values are modelled as strings, so the `TypeError` that the title's string concatenation at dmslogo/facet.py:428-432 raises for non-string values (numeric replicate numbers, say) is not modelled.
- Facet.GridCells: its cells come from `Facet.RowCells`, so their titles are the corrected ones.
- Files outside the library package (setup.py, the documentation notebooks and scripts) are not part of this model.

## Findings

| source | as written | input that shows it | evidently intended | confidence | as-written member | corrected member |
|---|---|---|---|---|---|---|
| dmslogo/utils.py:181-182 | a truthy `max_lowerlim` caps the upper limit `datamax` | the docstring data `[0.5, 0.6, 0.4, 0.4, 0.3, 0.5]` with `max_lowerlim=-1` gives `(-0.03, -1.0)`, an inverted range | the lower limit is at most `max_lowerlim`, giving `(-1.0, 0.63)` | not executed; high | AxLim.GetLimsAsWritten (shown by AxLim.MaxLowerlimInvertsLimits) | AxLim.GetLims |
| dmslogo/line.py:258-263 | the underline of site `x` is `2 + 1 * lw` wide, starting at `x - 0.5 - lw` | any shown site `x` with line width 0: the underline runs to `x + 1.5`, covering the next site's cell | width `1 + 2 * lw`: the site's cell widened by one line width on each side | not executed; medium | Line.UnderlineAsWritten (shown by Line.UnderlineAsWrittenSpills) | Line.Underline |
| dmslogo/facet.py:429-434 | the space before the title suffix is added whenever the suffix is non-empty | empty row and column names with suffix `"s"` give the title `" s"` | a space only between non-empty parts, giving `"s"` | not executed; low | Facet.TitleAsWritten (shown by Facet.TitleAsWrittenDiffers) | Facet.Title |

=== FILE: axlim.dfy ===
/** The axis-limit policy (`AxLimSetter` in dmslogo/utils.py): limits are the
    data range, optionally widened to include zero, optionally stretched so
    that a quantile of the data sits a given fraction of the way across the
    axis, then padded and clamped. */
module AxLim {
  import opened Results
  import opened Reals

  /** Constructor arguments as the caller passes them; the `Not...` and
      `Malformed...` constructors stand for values of the wrong shape. */
  datatype BoolArg = Bool(b: bool) | NotBool
  datatype QuantileArg = NoQuantile | QuantilePair(quantile: real, frac: real) | MalformedQuantile
  datatype AllEqualArg = RaiseOnEqual | EqualOffsets(minus: real, plus: real) | MalformedAllEqual

  datatype SetterArgs = SetterArgs(
    datalimPad: real,
    includeZero: BoolArg,
    maxFromQuantile: QuantileArg,
    minFromQuantile: QuantileArg,
    allEqualData: AllEqualArg,
    minUpperlim: Option<real>,
    maxLowerlim: Option<real>)

  /** The keyword defaults of the constructor. */
  const DefaultArgs := SetterArgs(0.05, Bool(true), NoQuantile, NoQuantile,
                                  EqualOffsets(-0.001, 0.001), None, None)

  datatype QuantileRule = QuantileRule(quantile: real, frac: real)

  /** A constructed setter. `allEqual == None` is the `'raise'` policy. */
  datatype Setter = Setter(
    includeZero: bool,
    datalimPad: real,
    maxRule: Option<QuantileRule>,
    minRule: Option<QuantileRule>,
    allEqual: Option<(real, real)>,
    minUpperlim: Option<real>,
    maxLowerlim: Option<real>)

  predicate ValidRule(r: Option<QuantileRule>) {
    r.Some? ==> 0.0 < r.value.quantile < 1.0 && 0.0 < r.value.frac < 1.0
  }

  /** What the constructor guarantees of every setter it returns. */
  predicate Valid(s: Setter) {
    && s.datalimPad >= 0.0
    && ValidRule(s.maxRule)
    && ValidRule(s.minRule)
    && (s.allEqual.Some? ==>
          s.allEqual.value.0 <= 0.0 <= s.allEqual.value.1
          && s.allEqual.value.0 != s.allEqual.value.1)
  }

  /** Python truthiness of an optional float: `None` and `0.0` are false. */
  predicate Truthy(v: Option<real>) {
    v.Some? && v.value != 0.0
  }

  predicate QuantileArgOk(a: QuantileArg) {
    a.NoQuantile? || (a.QuantilePair? && 0.0 < a.quantile < 1.0 && 0.0 < a.frac < 1.0)
  }

  predicate AllEqualArgOk(a: AllEqualArg) {
    a.RaiseOnEqual? || (a.EqualOffsets? && a.minus <= 0.0 && a.plus >= 0.0 && a.minus != a.plus)
  }

  function ToRule(a: QuantileArg): Option<QuantileRule> {
    if a.QuantilePair? then Some(QuantileRule(a.quantile, a.frac)) else None
  }

  function CheckQuantileArg(a: QuantileArg, name: string): (r: Result<Option<QuantileRule>>)
    ensures r.Ok? <==> QuantileArgOk(a)
    ensures r.Ok? ==> r.value == ToRule(a) && ValidRule(r.value)
  {
    match a
    case NoQuantile => Ok(None)
    case QuantilePair(q, f) =>
      if !(0.0 < q < 1.0) then Err(InvalidSetting(name + ".quantile"))
      else if !(0.0 < f < 1.0) then Err(InvalidSetting(name + ".frac"))
      else Ok(Some(QuantileRule(q, f)))
    case MalformedQuantile => Err(InvalidSetting(name))
  }

  /** `AxLimSetter.__init__`: validates every argument in the order the
      constructor checks them. */
  function MakeSetter(args: SetterArgs): (r: Result<Setter>)
    ensures r.Ok? <==>
      && args.includeZero.Bool?
      && args.datalimPad >= 0.0
      && QuantileArgOk(args.maxFromQuantile)
      && QuantileArgOk(args.minFromQuantile)
      && AllEqualArgOk(args.allEqualData)
    ensures r.Ok? ==> Valid(r.value)
    ensures r.Ok? ==>
      && r.value.includeZero == args.includeZero.b
      && r.value.datalimPad == args.datalimPad
      && r.value.maxRule == ToRule(args.maxFromQuantile)
      && r.value.minRule == ToRule(args.minFromQuantile)
      && (r.value.allEqual.None? <==> args.allEqualData.RaiseOnEqual?)
      && r.value.minUpperlim == args.minUpperlim
      && r.value.maxLowerlim == args.maxLowerlim
    ensures args.includeZero.NotBool? ==> r == Err(InvalidSetting("include_zero"))
  {
    if args.includeZero.NotBool? then Err(InvalidSetting("include_zero"))
    else if args.datalimPad < 0.0 then Err(InvalidSetting("datalim_pad"))
    else
      var maxRule :- CheckQuantileArg(args.maxFromQuantile, "max_from_quantile");
      var minRule :- CheckQuantileArg(args.minFromQuantile, "min_from_quantile");
      var allEqual :- match args.allEqualData
        case RaiseOnEqual => Ok(None)
        case EqualOffsets(a, b) =>
          if a > 0.0 then Err(InvalidSetting("all_equal_data[0]"))
          else if b < 0.0 then Err(InvalidSetting("all_equal_data[1]"))
          else if a == b then Err(InvalidSetting("all_equal_data"))
          else Ok(Some((a, b)))
        case MalformedAllEqual => Err(InvalidSetting("all_equal_data"));
      Ok(Setter(args.includeZero.b, args.datalimPad, maxRule, minRule, allEqual,
                args.minUpperlim, args.maxLowerlim))
  }

  /** Steps 1-2 of `get_lims`: the data range, widened to include zero when
      the setter asks for it. */
  function ZeroRange(s: Setter, data: seq<real>): (lim: (real, real))
    requires |data| > 0
    ensures lim.0 <= Min(data) && Max(data) <= lim.1
    ensures s.includeZero ==> lim.0 <= 0.0 <= lim.1
    ensures lim.0 == Min(data) || (s.includeZero && lim.0 == 0.0)
    ensures lim.1 == Max(data) || (s.includeZero && lim.1 == 0.0)
  {
    if s.includeZero then (Min2(0.0, Min(data)), Max2(0.0, Max(data)))
    else (Min(data), Max(data))
  }

  /** The axis bound that puts value `qv` at fraction `frac` of the way from
      `other` to the bound. */
  function Stretch(other: real, qv: real, frac: real): real
    requires frac != 0.0
  {
    other + (qv - other) / frac
  }

  /** The stretched bound places the quantile exactly `frac` of the way
      from the opposite bound, and lies beyond the quantile on its side. */
  lemma StretchPlacesQuantile(other: real, qv: real, frac: real)
    requires 0.0 < frac < 1.0
    ensures qv - other == frac * (Stretch(other, qv, frac) - other)
    ensures qv >= other ==> Stretch(other, qv, frac) >= qv
    ensures qv <= other ==> Stretch(other, qv, frac) <= qv
  {
    var d := qv - other;
    assert (d / frac) * frac == d;
    if d >= 0.0 {
      assert d / frac >= d by { DivideByFraction(d, frac); }
    } else {
      assert (-d) / frac >= -d by { DivideByFraction(-d, frac); }
      assert (-d) / frac == -(d / frac);
    }
  }

  lemma DivideByFraction(d: real, frac: real)
    requires d >= 0.0 && 0.0 < frac < 1.0
    ensures d / frac >= d
  {
    assert (d / frac) * frac == d;
  }

  /** Steps 3-4 of `get_lims`: each active quantile rule proposes a bound
      from the opposite (zero-widened) data bound, and the more extreme of
      the proposal and the data bound is kept. */
  function Stretched(s: Setter, data: seq<real>): (lim: (real, real))
    requires Valid(s) && |data| > 0
    ensures lim.0 <= ZeroRange(s, data).0 && ZeroRange(s, data).1 <= lim.1
    ensures s.maxRule.None? ==> lim.1 == ZeroRange(s, data).1
    ensures s.minRule.None? ==> lim.0 == ZeroRange(s, data).0
    ensures s.maxRule.Some? ==>
      lim.1 == Max2(ZeroRange(s, data).1,
                    Stretch(ZeroRange(s, data).0, Quantile(data, s.maxRule.value.quantile),
                            s.maxRule.value.frac))
    ensures s.minRule.Some? ==>
      lim.0 == Min2(ZeroRange(s, data).0,
                    Stretch(ZeroRange(s, data).1, Quantile(data, s.minRule.value.quantile),
                            s.minRule.value.frac))
  {
    var (lo, hi) := ZeroRange(s, data);
    var qmax := if s.maxRule.Some? then
                  Stretch(lo, Quantile(data, s.maxRule.value.quantile), s.maxRule.value.frac)
                else hi;
    var qmin := if s.minRule.Some? then
                  Stretch(hi, Quantile(data, s.minRule.value.quantile), s.minRule.value.frac)
                else lo;
    (Min2(lo, qmin), Max2(hi, qmax))
  }

  /** Steps 1-4 plus the all-equal policy: the unpadded limits. */
  function DataLimits(s: Setter, data: seq<real>): (r: Result<(real, real)>)
    requires Valid(s)
    ensures |data| == 0 ==> r == Err(EmptyData)
    ensures |data| > 0 && s.allEqual.Some? ==> r.Ok?
    ensures r.Err? ==> r == Err(EmptyData) || (r == Err(AllEqualData) && s.allEqual.None?)
    ensures r.Ok? ==> r.value.0 < r.value.1
    ensures r.Ok? ==> r.value.0 <= Stretched(s, data).0 && Stretched(s, data).1 <= r.value.1
    ensures r.Ok? && Stretched(s, data).0 != Stretched(s, data).1 ==> r.value == Stretched(s, data)
  {
    if |data| == 0 then Err(EmptyData)
    else
      var (lo, hi) := Stretched(s, data);
      if lo == hi then
        match s.allEqual
        case None => Err(AllEqualData)
        case Some((minus, plus)) => Ok((lo + minus, hi + plus))
      else Ok((lo, hi))
  }

  /** Step 5: symmetric padding by `datalimPad` times the extent. */
  function Pad(s: Setter, lim: (real, real)): (p: (real, real))
    requires Valid(s) && lim.0 < lim.1
    ensures p.0 <= lim.0 && lim.1 <= p.1
    ensures lim.0 - p.0 == p.1 - lim.1 == s.datalimPad * (lim.1 - lim.0)
  {
    var extent := lim.1 - lim.0;
    (lim.0 - s.datalimPad * extent, lim.1 + s.datalimPad * extent)
  }

  /** `get_lims` with step 6 as documented: a truthy `min_upperlim` raises
      the upper limit to at least that value and a truthy `max_lowerlim`
      lowers the lower limit to at most that value. */
  function GetLims(s: Setter, data: seq<real>): (r: Result<(real, real)>)
    requires Valid(s)
    ensures r.Ok? <==> DataLimits(s, data).Ok?
    ensures r.Err? ==> r.error == DataLimits(s, data).error
    ensures r.Ok? ==> r.value.0 < r.value.1
    ensures r.Ok? ==> r.value.0 <= Min(data) && Max(data) <= r.value.1
    ensures r.Ok? && s.includeZero ==> r.value.0 <= 0.0 <= r.value.1
    ensures r.Ok? && Truthy(s.minUpperlim) ==>
      var padded := Pad(s, DataLimits(s, data).value).1;
      && r.value.1 >= s.minUpperlim.value && r.value.1 >= padded
      && (r.value.1 == s.minUpperlim.value || r.value.1 == padded)
    ensures r.Ok? && Truthy(s.maxLowerlim) ==>
      var padded := Pad(s, DataLimits(s, data).value).0;
      && r.value.0 <= s.maxLowerlim.value && r.value.0 <= padded
      && (r.value.0 == s.maxLowerlim.value || r.value.0 == padded)
    ensures r.Ok? && !Truthy(s.minUpperlim) ==> r.value.1 == Pad(s, DataLimits(s, data).value).1
    ensures r.Ok? && !Truthy(s.maxLowerlim) ==> r.value.0 == Pad(s, DataLimits(s, data).value).0
  {
    var lim :- DataLimits(s, data);
    var (lo, hi) := Pad(s, lim);
    var hi' := if Truthy(s.minUpperlim) then Max2(hi, s.minUpperlim.value) else hi;
    var lo' := if Truthy(s.maxLowerlim) then Min2(lo, s.maxLowerlim.value) else lo;
    Ok((lo', hi'))
  }

  /** `get_lims` exactly as utils.py writes step 6: a truthy `max_lowerlim`
      caps the UPPER limit, so the "lower limit at most this" promise does
      not hold and the limits can come out inverted. */
  function GetLimsAsWritten(s: Setter, data: seq<real>): (r: Result<(real, real)>)
    requires Valid(s)
    ensures r.Ok? <==> GetLims(s, data).Ok?
    ensures r.Ok? && Truthy(s.maxLowerlim) ==> r.value.1 <= s.maxLowerlim.value
    ensures r.Ok? ==> r.value.0 == Pad(s, DataLimits(s, data).value).0
    ensures !Truthy(s.maxLowerlim) ==> r == GetLims(s, data)
  {
    var lim :- DataLimits(s, data);
    var (lo, hi) := Pad(s, lim);
    var hi' := if Truthy(s.minUpperlim) then Max2(hi, s.minUpperlim.value) else hi;
    var hi'' := if Truthy(s.maxLowerlim) then Min2(hi', s.maxLowerlim.value) else hi';
    Ok((lo, hi''))
  }

  /** With no padding and no quantile rules, feeding the limits back in as
      data returns the same limits: `get_lims` is a fixed point on its own
      output. */
  lemma GetLimsFixedPoint(s: Setter, data: seq<real>)
    requires Valid(s) && s.datalimPad == 0.0 && s.maxRule.None? && s.minRule.None?
    requires GetLims(s, data).Ok?
    ensures GetLims(s, [GetLims(s, data).value.0, GetLims(s, data).value.1]) == GetLims(s, data)
  {
    var (lo, hi) := GetLims(s, data).value;
    var again := [lo, hi];
    assert Min(again) == lo && Max(again) == hi;
    assert ZeroRange(s, again) == (lo, hi);
    assert DataLimits(s, again) == Ok((lo, hi));
    assert Pad(s, (lo, hi)) == (lo, hi);
  }

  /** The data of the `AxLimSetter` docstring examples. */
  const DoctestData: seq<real> := [0.5, 0.6, 0.4, 0.4, 0.3, 0.5]

  /** Docstring example: the default setter gives `(-0.03, 0.63)`. */
  lemma DefaultDoctest()
    ensures MakeSetter(DefaultArgs).Ok?
    ensures GetLims(MakeSetter(DefaultArgs).value, DoctestData) == Ok((-0.03, 0.63))
  {
    var s := Setter(true, 0.05, None, None, Some((-0.001, 0.001)), None, None);
    assert MakeSetter(DefaultArgs) == Ok(s);
    DoctestExtrema();
    assert ZeroRange(s, DoctestData) == (0.0, 0.6);
    assert DataLimits(s, DoctestData) == Ok((0.0, 0.6));
  }

  lemma DoctestExtrema()
    ensures Min(DoctestData) == 0.3 && Max(DoctestData) == 0.6
  {
    var d := DoctestData;
    assert d[4] == 0.3 && d[1] == 0.6;
    forall i | 0 <= i < |d|
      ensures 0.3 <= d[i] <= 0.6
    {
      assert i in {0, 1, 2, 3, 4, 5};
    }
    MinIs(d, 0.3);
    MaxIs(d, 0.6);
  }

  /** The median of the docstring data interpolates between 0.4 and 0.5. */
  lemma DoctestMedian()
    ensures Quantile(DoctestData, 0.5) == 0.45
  {
    DoctestSorted();
    MedianOfSorted();
  }

  lemma DoctestSorted()
    ensures Sort(DoctestData) == [0.3, 0.4, 0.4, 0.5, 0.5, 0.6]
  {
    DoctestArrangement();
    SortIs(DoctestData, [0.3, 0.4, 0.4, 0.5, 0.5, 0.6]);
  }

  /** The ascending arrangement of the docstring data. */
  lemma DoctestArrangement()
    ensures Sorted([0.3, 0.4, 0.4, 0.5, 0.5, 0.6])
    ensures multiset(DoctestData) == multiset([0.3, 0.4, 0.4, 0.5, 0.5, 0.6])
  {
    DoctestAscending([0.3, 0.4, 0.4, 0.5, 0.5, 0.6]);
    DoctestSameValues(DoctestData, [0.3, 0.4, 0.4, 0.5, 0.5, 0.6]);
  }

  lemma DoctestAscending(s: seq<real>)
    requires s == [0.3, 0.4, 0.4, 0.5, 0.5, 0.6]
    ensures Sorted(s)
  {
    forall i, j | 0 <= i < j < |s|
      ensures s[i] <= s[j]
    {
      assert 0.3 <= s[i] <= s[j] by {
        assert i in {0, 1, 2, 3, 4} && j in {1, 2, 3, 4, 5};
      }
    }
  }

  /** Two arrangements of the six docstring values. */
  lemma DoctestSameValues(xs: seq<real>, ys: seq<real>)
    requires xs == [0.5, 0.6, 0.4, 0.4, 0.3, 0.5] && ys == [0.3, 0.4, 0.4, 0.5, 0.5, 0.6]
    ensures multiset(xs) == multiset(ys)
  {
    assert multiset(xs) == multiset{0.5, 0.6, 0.4, 0.4, 0.3, 0.5};
    assert multiset(ys) == multiset{0.3, 0.4, 0.4, 0.5, 0.5, 0.6};
    assert forall v :: multiset(xs)[v] == multiset(ys)[v];
  }


  lemma MedianOfSorted()
    ensures Interpolate([0.3, 0.4, 0.4, 0.5, 0.5, 0.6], Position(5, 0.5)) == 0.45
  {
    assert Position(5, 0.5) == 2.5;
  }

  /** Docstring example: `max_from_quantile=(0.5, 0.05)` gives `(-0.45, 9.45)`. */
  lemma QuantileDoctest()
    ensures MakeSetter(DefaultArgs.(maxFromQuantile := QuantilePair(0.5, 0.05))).Ok?
    ensures GetLims(MakeSetter(DefaultArgs.(maxFromQuantile := QuantilePair(0.5, 0.05))).value,
                    DoctestData) == Ok((-0.45, 9.45))
  {
    var s := Setter(true, 0.05, Some(QuantileRule(0.5, 0.05)), None, Some((-0.001, 0.001)), None, None);
    assert MakeSetter(DefaultArgs.(maxFromQuantile := QuantilePair(0.5, 0.05))) == Ok(s);
    QuantileStretch(s);
  }

  /** Docstring example: adding `min_upperlim=10` gives `(-0.45, 10.0)`. */
  lemma MinUpperlimDoctest()
    ensures MakeSetter(DefaultArgs.(maxFromQuantile := QuantilePair(0.5, 0.05),
                                    minUpperlim := Some(10.0))).Ok?
    ensures GetLims(MakeSetter(DefaultArgs.(maxFromQuantile := QuantilePair(0.5, 0.05),
                                            minUpperlim := Some(10.0))).value,
                    DoctestData) == Ok((-0.45, 10.0))
  {
    var s := Setter(true, 0.05, Some(QuantileRule(0.5, 0.05)), None, Some((-0.001, 0.001)),
                    Some(10.0), None);
    assert MakeSetter(DefaultArgs.(maxFromQuantile := QuantilePair(0.5, 0.05),
                                   minUpperlim := Some(10.0))) == Ok(s);
    QuantileStretch(s);
    assert Pad(s, (0.0, 9.0)) == (-0.45, 9.45);
    assert Truthy(s.minUpperlim) && !Truthy(s.maxLowerlim);
  }

  /** The median rule stretches the docstring data's upper limit to 9. */
  lemma QuantileStretch(s: Setter)
    requires Valid(s) && s.includeZero && s.maxRule == Some(QuantileRule(0.5, 0.05))
    requires s.minRule.None?
    ensures DataLimits(s, DoctestData) == Ok((0.0, 9.0))
  {
    DoctestExtrema();
    DoctestMedian();
    assert ZeroRange(s, DoctestData) == (0.0, 0.6);
    assert Stretch(0.0, 0.45, 0.05) == 9.0;
  }

  /** The input that shows the step-6 slip: with `max_lowerlim=-1` on the
      docstring data, the code as written returns an upper limit below the
      lower one, where the documented rule gives `(-1, 0.63)`. */
  lemma MaxLowerlimInvertsLimits()
    ensures var s := MakeSetter(DefaultArgs.(maxLowerlim := Some(-1.0)));
      && s.Ok?
      && GetLimsAsWritten(s.value, DoctestData) == Ok((-0.03, -1.0))
      && GetLims(s.value, DoctestData) == Ok((-1.0, 0.63))
  {
    var s := Setter(true, 0.05, None, None, Some((-0.001, 0.001)), None, Some(-1.0));
    assert MakeSetter(DefaultArgs.(maxLowerlim := Some(-1.0))) == Ok(s);
    assert DataLimits(s, DoctestData) == Ok((0.0, 0.6)) by {
      DoctestExtrema();
      assert ZeroRange(s, DoctestData) == (0.0, 0.6);
    }
    assert Pad(s, (0.0, 0.6)) == (-0.03, 0.63);
    assert Truthy(s.maxLowerlim) && !Truthy(s.minUpperlim);
  }
}

=== FILE: colors.dfy ===
/** Colour schemes (dmslogo/colorschemes.py): the amino-acid colour tables
    and `ValueToColorMap`, which maps numbers in a range onto a colour
    gradient and formats the colour as `#rrggbb` or an RGB triple. The
    gradient itself (a matplotlib colormap) is a parameter: any function
    from `[0, 1]` to RGBA bytes. */
module Colors {
  import opened Results

  type Byte = b: int | 0 <= b < 256

  /** What a colormap returns with `bytes=True`. */
  datatype Rgba = Rgba(r: Byte, g: Byte, b: Byte, a: Byte)

  /** The twenty standard amino-acid one-letter codes. */
  const AminoAcidLetters: string := "ARNDCQEGHILKMFPSTWYV"

  predicate Distinct(s: string) {
    forall i, j :: 0 <= i < j < |s| ==> s[i] != s[j]
  }

  /** A sequence without repeats has as many distinct elements as entries. */
  lemma {:induction false} DistinctCard(s: string)
    requires Distinct(s)
    ensures |set c | c in s| == |s|
  {
    if |s| > 0 {
      var rest := s[1..];
      assert Distinct(rest);
      DistinctCard(rest);
      assert (set c | c in s) == {s[0]} + (set c | c in rest);
      assert s[0] !in (set c | c in rest);
    }
  }

  /** `AA_FUNCTIONAL_GROUP`: amino acids coloured by functional group. */
  const AaFunctionalGroup: map<char, string> :=
    map['G' := "#f76ab4", 'A' := "#f76ab4",
        'S' := "#ff7f00", 'T' := "#ff7f00", 'C' := "#ff7f00",
        'V' := "#12ab0d", 'L' := "#12ab0d", 'I' := "#12ab0d", 'M' := "#12ab0d", 'P' := "#12ab0d",
        'F' := "#84380b", 'Y' := "#84380b", 'W' := "#84380b",
        'D' := "#e41a1c", 'E' := "#e41a1c",
        'H' := "#3c58e5", 'K' := "#3c58e5", 'R' := "#3c58e5",
        'N' := "#972aa8", 'Q' := "#972aa8"]

  /** `AA_CHARGE`: amino acids coloured by charge. */
  const AaCharge: map<char, string> :=
    map['A' := "#000000", 'R' := "#FF0000", 'N' := "#000000", 'D' := "#0000FF",
        'C' := "#000000", 'Q' := "#000000", 'E' := "#0000FF", 'G' := "#000000",
        'H' := "#FF0000", 'I' := "#000000", 'L' := "#000000", 'K' := "#FF0000",
        'M' := "#000000", 'F' := "#000000", 'P' := "#000000", 'S' := "#000000",
        'T' := "#000000", 'W' := "#000000", 'Y' := "#000000", 'V' := "#000000"]

  /** There are twenty amino-acid letters. */
  lemma TwentyAminoAcids()
    ensures |AminoAcidLetters| == 20 && |set c | c in AminoAcidLetters| == 20
  {
    assert Distinct(AminoAcidLetters);
    DistinctCard(AminoAcidLetters);
  }

  /** `AA_FUNCTIONAL_GROUP` colours exactly the twenty amino acids. */
  lemma FunctionalGroupDomain()
    ensures AaFunctionalGroup.Keys == set c | c in AminoAcidLetters
  {
  }

  /** `AA_CHARGE` colours exactly the twenty amino acids. */
  lemma ChargeKeys()
    ensures AaCharge.Keys == set c | c in AminoAcidLetters
  {
  }

  /** `AA_CHARGE` marks exactly the basic residues red. */
  lemma ChargeBasicRed()
    ensures forall c :: c in AaCharge && AaCharge[c] == "#FF0000" <==> c in "RHK"
  {
  }

  /** `AA_CHARGE` marks exactly the acidic residues blue. */
  lemma ChargeAcidicBlue()
    ensures forall c :: c in AaCharge && AaCharge[c] == "#0000FF" <==> c in "DE"
  {
  }

  // ---------------------------------------------------------------- hex codes

  predicate IsLowerHexDigit(c: char) {
    '0' <= c <= '9' || 'a' <= c <= 'f'
  }

  /** The lower-case hexadecimal digit of `d` (format spec `x`). */
  function HexDigit(d: int): (c: char)
    requires 0 <= d < 16
    ensures IsLowerHexDigit(c)
  {
    if d < 10 then ('0' as int + d) as char else ('a' as int + d - 10) as char
  }

  /** The value of a lower-case hexadecimal digit. */
  function HexValue(c: char): (d: int)
    requires IsLowerHexDigit(c)
    ensures 0 <= d < 16
  {
    if c <= '9' then c as int - '0' as int else c as int - 'a' as int + 10
  }

  lemma HexDigitRoundTrip(d: int, c: char)
    ensures 0 <= d < 16 ==> HexValue(HexDigit(d)) == d
    ensures IsLowerHexDigit(c) ==> HexDigit(HexValue(c)) == c
  {
  }

  /** `f"{b:02x}"`: a byte as exactly two lower-case hex digits. */
  function HexByte(b: Byte): (s: string)
    ensures |s| == 2 && IsLowerHexDigit(s[0]) && IsLowerHexDigit(s[1])
  {
    [HexDigit(b / 16), HexDigit(b % 16)]
  }

  /** `f"#{r:02x}{g:02x}{b:02x}"`. */
  function HexCode(r: Byte, g: Byte, b: Byte): (s: string)
    ensures |s| == 7 && s[0] == '#'
    ensures forall i :: 1 <= i < 7 ==> IsLowerHexDigit(s[i])
  {
    "#" + HexByte(r) + HexByte(g) + HexByte(b)
  }

  /** Reads a `#rrggbb` code back into its three bytes; the partner of
      `HexCode`. */
  function ParseHexCode(s: string): Option<(Byte, Byte, Byte)>
  {
    if |s| == 7 && s[0] == '#' && forall i :: 1 <= i < 7 ==> IsLowerHexDigit(s[i]) then
      Some((16 * HexValue(s[1]) + HexValue(s[2]),
            16 * HexValue(s[3]) + HexValue(s[4]),
            16 * HexValue(s[5]) + HexValue(s[6])))
    else None
  }

  lemma HexByteRoundTrip(b: Byte, c: char, d: char)
    ensures 16 * HexValue(HexByte(b)[0]) + HexValue(HexByte(b)[1]) == b
    ensures IsLowerHexDigit(c) && IsLowerHexDigit(d) ==>
      HexByte(16 * HexValue(c) + HexValue(d)) == [c, d]
  {
    HexDigitRoundTrip(b / 16, c);
    HexDigitRoundTrip(b % 16, d);
  }

  /** The hex code holds red, green and blue in that order: parsing it
      gives back the three bytes. */
  lemma HexCodeRoundTrip(r: Byte, g: Byte, b: Byte)
    ensures ParseHexCode(HexCode(r, g, b)) == Some((r, g, b))
  {
    var h := HexCode(r, g, b);
    assert h[1..3] == HexByte(r) && h[3..5] == HexByte(g) && h[5..7] == HexByte(b);
    HexByteRoundTrip(r, 'a', 'a');
    HexByteRoundTrip(g, 'a', 'a');
    HexByteRoundTrip(b, 'a', 'a');
  }

  /** Every well-formed lower-case `#rrggbb` code is the code of the bytes
      it parses to. */
  lemma ParseHexCodeRoundTrip(s: string)
    requires ParseHexCode(s).Some?
    ensures var t := ParseHexCode(s).value; HexCode(t.0, t.1, t.2) == s
  {
    var t := ParseHexCode(s).value;
    HexByteRoundTrip(0, s[1], s[2]);
    HexByteRoundTrip(0, s[3], s[4]);
    HexByteRoundTrip(0, s[5], s[6]);
    var u := HexCode(t.0, t.1, t.2);
    assert u == "#" + [s[1], s[2]] + [s[3], s[4]] + [s[5], s[6]];
    assert u == s;
  }

  /** Docstring example: viridis at 0 is the bytes (68, 1, 84). */
  lemma ViridisStartCode()
    ensures HexCode(68, 1, 84) == "#440154"
  {
  }

  // -------------------------------------------------------- value-to-color map

  /** A `ValueToColorMap` after construction (its colormap is passed
      separately to `ValToColor`). */
  datatype ValueToColorMap = ValueToColorMap(minValue: real, maxValue: real) {
    predicate Valid() {
      minValue < maxValue
    }
  }

  /** `ValueToColorMap(minvalue, maxvalue)`. */
  function MakeValueToColorMap(minValue: real, maxValue: real): (r: Result<ValueToColorMap>)
    ensures r.Ok? <==> minValue < maxValue
    ensures r.Ok? ==> r.value.Valid() && r.value == ValueToColorMap(minValue, maxValue)
    ensures r.Err? ==> r.error == MaxNotAboveMin
  {
    if maxValue <= minValue then Err(MaxNotAboveMin) else Ok(ValueToColorMap(minValue, maxValue))
  }

  /** The position of `v` along the gradient. */
  function Normalize(m: ValueToColorMap, v: real): (t: real)
    requires m.Valid() && m.minValue <= v <= m.maxValue
    ensures 0.0 <= t <= 1.0
  {
    var d := m.maxValue - m.minValue;
    assert v - m.minValue <= d;
    (v - m.minValue) / d
  }

  /** Normalisation is the affine map sending `minValue` to 0 and `maxValue`
      to 1: it can be undone, so it keeps values apart, and it keeps their
      order. */
  lemma NormalizeInverse(m: ValueToColorMap, v: real, w: real)
    requires m.Valid() && m.minValue <= v <= m.maxValue && m.minValue <= w <= m.maxValue
    ensures m.minValue + Normalize(m, v) * (m.maxValue - m.minValue) == v
    ensures v <= w <==> Normalize(m, v) <= Normalize(m, w)
    ensures Normalize(m, m.minValue) == 0.0 && Normalize(m, m.maxValue) == 1.0
  {
    var d := m.maxValue - m.minValue;
    assert Normalize(m, v) * d == v - m.minValue;
    assert Normalize(m, w) * d == w - m.minValue;
    if Normalize(m, v) <= Normalize(m, w) {
      assert Normalize(m, v) * d <= Normalize(m, w) * d;
    }
  }

  /** The colour of one value, as returned. */
  datatype Color = HexColor(code: string) | RgbTriple(r: Byte, g: Byte, b: Byte)

  /** The `values` argument: one number, or an array of them. */
  datatype Values = Scalar(v: real) | Many(vs: seq<real>)

  datatype Colors = One(color: Color) | PerValue(colors: seq<Color>)

  predicate InRange(m: ValueToColorMap, vs: seq<real>) {
    forall i :: 0 <= i < |vs| ==> m.minValue <= vs[i] <= m.maxValue
  }

  function AsArray(values: Values): seq<real> {
    match values
    case Scalar(v) => [v]
    case Many(vs) => vs
  }

  predicate KnownFormat(format: string) {
    format == "rgb_triple" || format == "rgb_hex_code"
  }

  /** Formats one colormap output: the triple drops alpha, the hex code is
      `#rrggbb`. */
  function Render(c: Rgba, format: string): (r: Color)
    requires KnownFormat(format)
    ensures format == "rgb_triple" ==> r == RgbTriple(c.r, c.g, c.b)
    ensures format == "rgb_hex_code" ==> r.HexColor? && ParseHexCode(r.code) == Some((c.r, c.g, c.b))
  {
    if format == "rgb_triple" then RgbTriple(c.r, c.g, c.b)
    else
      HexCodeRoundTrip(c.r, c.g, c.b);
      HexColor(HexCode(c.r, c.g, c.b))
  }

  function RenderAll(m: ValueToColorMap, cmap: real -> Rgba, vs: seq<real>, format: string)
    : (cs: seq<Color>)
    requires m.Valid() && InRange(m, vs) && KnownFormat(format)
    ensures |cs| == |vs|
    ensures forall i :: 0 <= i < |vs| ==> cs[i] == Render(cmap(Normalize(m, vs[i])), format)
  {
    seq(|vs|, i requires 0 <= i < |vs| => Render(cmap(Normalize(m, vs[i])), format))
  }

  /** `val_to_color(values, return_color_as=format)` with colormap `cmap`:
      out-of-range values are rejected before the format is looked at; a
      scalar gives one colour, an array one colour per value in order. */
  function ValToColor(m: ValueToColorMap, cmap: real -> Rgba, values: Values, format: string)
    : (r: Result<Colors>)
    requires m.Valid()
    ensures r.Ok? <==> InRange(m, AsArray(values)) && KnownFormat(format)
    ensures !InRange(m, AsArray(values)) ==> r == Err(ValueOutOfRange)
    ensures InRange(m, AsArray(values)) && !KnownFormat(format) ==> r == Err(InvalidColorFormat(format))
    ensures r.Ok? && values.Scalar? ==>
      r.value == One(Render(cmap(Normalize(m, values.v)), format))
    ensures r.Ok? && values.Many? ==>
      && r.value.PerValue? && |r.value.colors| == |values.vs|
      && forall i :: 0 <= i < |values.vs| ==>
           r.value.colors[i] == Render(cmap(Normalize(m, values.vs[i])), format)
  {
    var vs := AsArray(values);
    if !InRange(m, vs) then Err(ValueOutOfRange)
    else if !KnownFormat(format) then Err(InvalidColorFormat(format))
    else
      var cs := RenderAll(m, cmap, vs, format);
      if values.Scalar? then Ok(One(cs[0])) else Ok(PerValue(cs))
  }

  /** A scalar is coloured as the one-element array holding it. */
  lemma ScalarAsArray(m: ValueToColorMap, cmap: real -> Rgba, v: real, format: string)
    requires m.Valid()
    ensures var one := ValToColor(m, cmap, Scalar(v), format);
      var many := ValToColor(m, cmap, Many([v]), format);
      one.Ok? == many.Ok? && (one.Ok? ==> one.value == One(many.value.colors[0]))
  {
  }

  /** Docstring example: on the range 0..3 the values 1 and 2 read the
      colormap at 1/3 and 2/3 (the ends go to 0 and 1 by `NormalizeInverse`). */
  lemma DocstringPositions()
    ensures Normalize(ValueToColorMap(0.0, 3.0), 1.0) == 1.0 / 3.0
    ensures Normalize(ValueToColorMap(0.0, 3.0), 2.0) == 2.0 / 3.0
  {
  }
}

=== FILE: facet.dfy ===
/** `facet_plot` of dmslogo/facet.py: line and logo plots of the same data,
    one axis per (row, column) group of the data and per drawing function,
    on one figure. The drawing functions themselves are opaque here; what is
    modelled is the deterministic part around them: the input checks, the
    consistency of the groups and of what each drawing measured, the
    per-row y-limits and their overrides, the figure's size parameters, the
    assignment of groups to grid cells, and where a shared axis label goes. */
module Facet {
  import opened Results
  import opened Reals
  import opened Tables

  // -------------------------------------------------------------- columns

  /** The column names used for a grid dimension that is not given. */
  const DefaultGridrow := "_gridrow_col_"
  const DefaultGridcol := "_gridcol_col_"

  function GridrowOf(gridrowCol: Option<string>): string {
    if gridrowCol.Some? then gridrowCol.value else DefaultGridrow
  }

  function GridcolOf(gridcolCol: Option<string>): string {
    if gridcolCol.Some? then gridcolCol.value else DefaultGridcol
  }

  /** The columns `facet_plot` groups and compares by: the two grid
      columns, `x_col`, and `show_col` when it is not `None`. */
  function FacetCols(xCol: string, showCol: Option<string>, gridrowCol: Option<string>, gridcolCol: Option<string>)
    : seq<string>
  {
    [GridrowOf(gridrowCol), GridcolOf(gridcolCol), xCol] + (if showCol.Some? then [showCol.value] else [])
  }

  /** The columns after the missing grid columns were added (as constant
      empty strings). */
  function WithDefaults(columns: set<string>, gridrowCol: Option<string>, gridcolCol: Option<string>): set<string> {
    columns + (if gridrowCol.None? then {DefaultGridrow} else {})
             + (if gridcolCol.None? then {DefaultGridcol} else {})
  }

  /** The column checks of `facet_plot`: a default grid column name may not
      be taken already (rows first), then every compared column must exist. */
  function CheckFacetColumns(columns: set<string>, xCol: string, showCol: Option<string>,
                             gridrowCol: Option<string>, gridcolCol: Option<string>): (r: Result<seq<string>>)
    ensures gridrowCol.None? && DefaultGridrow in columns ==> r == Err(ReservedColumn(DefaultGridrow))
    ensures (!(gridrowCol.None? && DefaultGridrow in columns)
             && gridcolCol.None? && DefaultGridcol in columns) ==> r == Err(ReservedColumn(DefaultGridcol))
    ensures r.Ok? <==>
      && !(gridrowCol.None? && DefaultGridrow in columns)
      && !(gridcolCol.None? && DefaultGridcol in columns)
      && forall i :: 0 <= i < |FacetCols(xCol, showCol, gridrowCol, gridcolCol)| ==>
           FacetCols(xCol, showCol, gridrowCol, gridcolCol)[i] in WithDefaults(columns, gridrowCol, gridcolCol)
    ensures r.Ok? ==>
      && |r.value| == (if showCol.Some? then 4 else 3) && r.value[2] == xCol
      && (showCol.Some? ==> r.value[3] == showCol.value)
    ensures (r.Err? && !r.error.ReservedColumn?) ==>
      exists i :: && 0 <= i < |FacetCols(xCol, showCol, gridrowCol, gridcolCol)|
                  && FirstMissing(WithDefaults(columns, gridrowCol, gridcolCol), FacetCols(xCol, showCol, gridrowCol, gridcolCol), i)
                  && r.error == MissingColumn(FacetCols(xCol, showCol, gridrowCol, gridcolCol)[i])
  {
    if gridrowCol.None? && DefaultGridrow in columns then Err(ReservedColumn(DefaultGridrow))
    else if gridcolCol.None? && DefaultGridcol in columns then Err(ReservedColumn(DefaultGridcol))
    else
      var cols := FacetCols(xCol, showCol, gridrowCol, gridcolCol);
      var all := WithDefaults(columns, gridrowCol, gridcolCol);
      match CheckColumns(all, cols)
      case Err(e) => Err(e)
      case Ok(_) => Ok(cols)
  }

  // ---------------------------------------------------------- consistency

  /** One (row, column) group of the data: its grid labels and its `x_col`
      and `show_col` entries once duplicates are dropped and the entries
      are sorted by `x_col`. */
  datatype FacetGroup = FacetGroup(row: string, col: string, xs: seq<real>, shows: seq<bool>)

  /** Two groups have the same entries in every compared column. */
  predicate SameEntries(g: FacetGroup, h: FacetGroup, showCol: Option<string>) {
    g.xs == h.xs && (showCol.Some? ==> g.shows == h.shows)
  }

  /** The error for a group that differs from the first: `x_col` is
      compared before `show_col`. */
  function Mismatch(g: FacetGroup, first: FacetGroup, xCol: string, showCol: Option<string>): Error
    requires !SameEntries(g, first, showCol)
  {
    if g.xs != first.xs then InconsistentGroups(xCol) else InconsistentGroups(showCol.value)
  }

  /** Each group's comparison with the first. */
  function Comparisons(groups: seq<FacetGroup>, first: FacetGroup, xCol: string, showCol: Option<string>)
    : (r: seq<Result<()>>)
    ensures |r| == |groups|
    ensures forall j :: 0 <= j < |groups| ==>
      && (r[j].Ok? <==> SameEntries(groups[j], first, showCol))
      && (r[j].Err? ==> r[j].error == Mismatch(groups[j], first, xCol, showCol))
  {
    seq(|groups|, j requires 0 <= j < |groups| =>
      if SameEntries(groups[j], first, showCol) then Ok(()) else Err(Mismatch(groups[j], first, xCol, showCol)))
  }

  /** "All groups have the same `x_col` and `show_col` entries": each group
      is compared with the first, in order. No group at all fails at taking
      the first one. */
  function CheckGroups(groups: seq<FacetGroup>, xCol: string, showCol: Option<string>): (r: Result<()>)
    ensures |groups| == 0 ==> r == Err(EmptyData)
    ensures r.Ok? <==> |groups| > 0 && forall j :: 0 <= j < |groups| ==> SameEntries(groups[j], groups[0], showCol)
    ensures (r.Err? && |groups| > 0) ==>
      exists j :: && 0 < j < |groups| && !SameEntries(groups[j], groups[0], showCol)
                  && (forall i :: 0 <= i < j ==> SameEntries(groups[i], groups[0], showCol))
                  && r.error == Mismatch(groups[j], groups[0], xCol, showCol)
  {
    if |groups| == 0 then Err(EmptyData)
    else
      match CollectFrom(Comparisons(groups, groups[0], xCol, showCol), 0)
      case Ok(_) => Ok(())
      case Err(e) => Err(e)
  }

  /** The verdict does not depend on which group comes first: the check
      passes exactly when every two groups have the same entries. */
  lemma GroupsConsistentPairwise(groups: seq<FacetGroup>, xCol: string, showCol: Option<string>)
    ensures CheckGroups(groups, xCol, showCol).Ok? <==>
      |groups| > 0 && forall i, j :: 0 <= i < |groups| && 0 <= j < |groups| ==>
        SameEntries(groups[i], groups[j], showCol)
  {
    if CheckGroups(groups, xCol, showCol).Ok? {
      forall i, j | 0 <= i < |groups| && 0 <= j < |groups|
        ensures SameEntries(groups[i], groups[j], showCol)
      {
        assert SameEntries(groups[i], groups[0], showCol) && SameEntries(groups[j], groups[0], showCol);
      }
    }
  }

  // --------------------------------------------------------------- kwargs

  datatype DrawName = DrawLine | DrawLogo

  function NameOf(n: DrawName): string {
    match n
    case DrawLine => "draw_line"
    case DrawLogo => "draw_logo"
  }

  /** Keyword arguments for a drawing function, with the values the checks
      look at: a string or `None`. */
  type Kwargs = map<string, Option<string>>

  /** A drawing function in use: its keyword arguments, how many data rows
      it draws, and the suffix of its titles. */
  datatype DrawFunc = DrawFunc(name: DrawName, kwargs: Kwargs, rowCount: nat, titleSuffix: string)

  /** The keyword arguments `facet_plot` sets itself may not be passed. */
  function CheckKwargs(kw: Kwargs): (r: Result<()>)
    ensures r.Ok? <==> "ax" !in kw && "title" !in kw && "heightscale" !in kw
    ensures "ax" in kw ==> r == Err(ForbiddenKwarg("ax"))
    ensures "ax" !in kw && "title" in kw ==> r == Err(ForbiddenKwarg("title"))
    ensures "ax" !in kw && "title" !in kw && "heightscale" in kw ==> r == Err(ForbiddenKwarg("heightscale"))
  {
    if "ax" in kw then Err(ForbiddenKwarg("ax"))
    else if "title" in kw then Err(ForbiddenKwarg("title"))
    else if "heightscale" in kw then Err(ForbiddenKwarg("heightscale"))
    else Ok(())
  }

  /** One entry of the list of possible drawing functions: absent when its
      keyword arguments are `None`; otherwise they are checked, and the data
      it draws (for logos with a `show_col`, only the shown rows) may not
      be empty. */
  function FuncFor(name: DrawName, kw: Option<Kwargs>, suffix: string, showCol: Option<string>,
                   nRows: nat, nShown: nat): (r: Result<Option<DrawFunc>>)
    ensures kw.None? ==> r == Ok(None)
    ensures kw.Some? && CheckKwargs(kw.value).Err? ==> r == Err(CheckKwargs(kw.value).error)
    ensures r.Ok? && kw.Some? ==>
      var rows := if name == DrawLogo && showCol.Some? then nShown else nRows;
      && CheckKwargs(kw.value).Ok? && rows > 0
      && r.value == Some(DrawFunc(name, kw.value, rows, suffix))
    ensures (kw.Some? && CheckKwargs(kw.value).Ok?
             && (if name == DrawLogo && showCol.Some? then nShown else nRows) == 0) ==> r == Err(NoDataForFunction)
  {
    if kw.None? then Ok(None)
    else
      match CheckKwargs(kw.value)
      case Err(e) => Err(e)
      case Ok(_) =>
        var rows := if name == DrawLogo && showCol.Some? then nShown else nRows;
        if rows == 0 then Err(NoDataForFunction) else Ok(Some(DrawFunc(name, kw.value, rows, suffix)))
  }

  /** An `x_col` or `show_col` passed to a drawing function must equal the
      top-level one; then `x_col` is set for both functions and `show_col`
      for the line plot only. */
  function Harmonize(name: DrawName, kw: Kwargs, xCol: string, showCol: Option<string>): (r: Result<Kwargs>)
    ensures r.Ok? <==> ("x_col" in kw ==> kw["x_col"] == Some(xCol)) && ("show_col" in kw ==> kw["show_col"] == showCol)
    ensures "x_col" in kw && kw["x_col"] != Some(xCol) ==> r == Err(KwargConflict("x_col"))
    ensures (("x_col" !in kw || kw["x_col"] == Some(xCol))
             && "show_col" in kw && kw["show_col"] != showCol) ==> r == Err(KwargConflict("show_col"))
    ensures r.Ok? ==> "x_col" in r.value && r.value["x_col"] == Some(xCol)
    ensures r.Ok? ==> ("show_col" in r.value <==> "show_col" in kw || name == DrawLine)
    ensures r.Ok? && "show_col" in r.value ==> r.value["show_col"] == showCol
    ensures r.Ok? ==> forall k :: k != "x_col" && k != "show_col" ==> (k in r.value <==> k in kw)
    ensures r.Ok? ==> forall k :: k in kw && k != "x_col" && k != "show_col" ==> r.value[k] == kw[k]
  {
    if "x_col" in kw && kw["x_col"] != Some(xCol) then Err(KwargConflict("x_col"))
    else if "show_col" in kw && kw["show_col"] != showCol then Err(KwargConflict("show_col"))
    else
      var withX := kw["x_col" := Some(xCol)];
      Ok(if name == DrawLine then withX["show_col" := showCol] else withX)
  }

  /** Harmonizes every function in use, in order. */
  function HarmonizeAll(fs: seq<DrawFunc>, xCol: string, showCol: Option<string>): (r: Result<seq<DrawFunc>>)
    ensures r.Ok? <==> forall i :: 0 <= i < |fs| ==> Harmonize(fs[i].name, fs[i].kwargs, xCol, showCol).Ok?
    ensures r.Ok? ==> |r.value| == |fs| && forall i :: 0 <= i < |fs| ==>
      r.value[i] == fs[i].(kwargs := Harmonize(fs[i].name, fs[i].kwargs, xCol, showCol).value)
    ensures r.Err? ==>
      exists i :: 0 <= i < |fs| && Harmonize(fs[i].name, fs[i].kwargs, xCol, showCol) == Err(r.error)
  {
    if |fs| == 0 then Ok([])
    else
      match Harmonize(fs[0].name, fs[0].kwargs, xCol, showCol)
      case Err(e) => Err(e)
      case Ok(kw) =>
        match HarmonizeAll(fs[1..], xCol, showCol)
        case Err(e) => Err(e)
        case Ok(rest) => Ok([fs[0].(kwargs := kw)] + rest)
  }

  function Present(f: Option<DrawFunc>): seq<DrawFunc> {
    if f.Some? then [f.value] else []
  }

  /** The drawing functions in use, line plot first: each one's checks,
      then "at least one of them", then the harmonized column arguments. */
  function SelectDrawFuncs(lineKw: Option<Kwargs>, logoKw: Option<Kwargs>, lineSuffix: string, logoSuffix: string,
                           xCol: string, showCol: Option<string>, nRows: nat, nShown: nat): (r: Result<seq<DrawFunc>>)
    ensures FuncFor(DrawLine, lineKw, lineSuffix, showCol, nRows, nShown).Err? ==>
      r == Err(FuncFor(DrawLine, lineKw, lineSuffix, showCol, nRows, nShown).error)
    ensures lineKw.None? && logoKw.None? ==> r == Err(NoDrawFunction)
    ensures r.Ok? ==> 1 <= |r.value| <= 2
    ensures r.Ok? ==> (lineKw.Some? <==> r.value[0].name == DrawLine)
    ensures r.Ok? ==> (logoKw.Some? <==> r.value[|r.value| - 1].name == DrawLogo)
    ensures r.Ok? ==> forall i :: 0 <= i < |r.value| ==>
      var f := r.value[i];
      && f.rowCount > 0
      && "ax" !in f.kwargs && "title" !in f.kwargs && "heightscale" !in f.kwargs
      && "x_col" in f.kwargs && f.kwargs["x_col"] == Some(xCol)
      && f.titleSuffix == (if f.name == DrawLine then lineSuffix else logoSuffix)
  {
    match FuncFor(DrawLine, lineKw, lineSuffix, showCol, nRows, nShown)
    case Err(e) => Err(e)
    case Ok(line) =>
      match FuncFor(DrawLogo, logoKw, logoSuffix, showCol, nRows, nShown)
      case Err(e) => Err(e)
      case Ok(logo) =>
        var fs := Present(line) + Present(logo);
        if |fs| == 0 then Err(NoDrawFunction)
        else HarmonizeAll(fs, xCol, showCol)
  }

  // ------------------------------------------------------------- measures

  /** What drawing one group on its own figure measured: the figure width,
      the x ticks and their labels, and the y-limits. */
  datatype Measure = Measure(width: real, xticks: seq<real>, xticklabels: seq<string>, ymin: real, ymax: real)

  /** The first of width, xticks and xticklabels on which `m` differs from
      `ref`. */
  function FirstDifference(m: Measure, ref: Measure): (d: Option<string>)
    ensures d.None? <==> m.width == ref.width && m.xticks == ref.xticks && m.xticklabels == ref.xticklabels
    ensures d.Some? ==> d.value in {"width", "xticks", "xticklabels"}
  {
    if m.width != ref.width then Some("width")
    else if m.xticks != ref.xticks then Some("xticks")
    else if m.xticklabels != ref.xticklabels then Some("xticklabels")
    else None
  }

  function CheckMeasuresFrom(ms: seq<Measure>, k: nat): (r: Result<()>)
    requires 0 < |ms| && k <= |ms|
    ensures r.Ok? <==> forall j :: k <= j < |ms| ==> FirstDifference(ms[j], ms[0]).None?
    ensures r.Err? ==>
      exists j :: && k <= j < |ms| && FirstDifference(ms[j], ms[0]).Some?
                  && (forall i :: k <= i < j ==> FirstDifference(ms[i], ms[0]).None?)
                  && r.error == InconsistentMeasure(FirstDifference(ms[j], ms[0]).value)
    decreases |ms| - k
  {
    if k == |ms| then Ok(())
    else
      match FirstDifference(ms[k], ms[0])
      case Some(key) => Err(InconsistentMeasure(key))
      case None => CheckMeasuresFrom(ms, k + 1)
  }

  /** The groups of one drawing function must all have measured the same
      width, xticks and xticklabels (as the first); the common values are
      what the faceted figure uses. */
  function CheckMeasures(ms: seq<Measure>): (r: Result<(real, seq<real>, seq<string>)>)
    requires |ms| > 0
    ensures r.Ok? <==> forall j :: 0 <= j < |ms| ==> FirstDifference(ms[j], ms[0]).None?
    ensures r.Ok? ==> forall j :: 0 <= j < |ms| ==>
      r.value == (ms[j].width, ms[j].xticks, ms[j].xticklabels)
    ensures r.Err? ==>
      exists j :: && 0 < j < |ms| && FirstDifference(ms[j], ms[0]).Some?
                  && (forall i :: 0 <= i < j ==> FirstDifference(ms[i], ms[0]).None?)
                  && r.error == InconsistentMeasure(FirstDifference(ms[j], ms[0]).value)
  {
    match CheckMeasuresFrom(ms, 0)
    case Err(e) => Err(e)
    case Ok(_) => Ok((ms[0].width, ms[0].xticks, ms[0].xticklabels))
  }

  // ------------------------------------------------------------- y-limits

  /** The y-limits of one grid row; also what one drawn group, in that row,
      measured. */
  datatype RowLim = RowLim(row: string, ymin: real, ymax: real)

  predicate DistinctRows(lims: seq<RowLim>) {
    forall i, j :: 0 <= i < j < |lims| ==> lims[i].row != lims[j].row
  }

  predicate HasRow(lims: seq<RowLim>, row: string) {
    exists k :: 0 <= k < |lims| && lims[k].row == row
  }

  /** `v` is the smallest minimum measured in `row`. */
  ghost predicate IsRowMin(obs: seq<RowLim>, row: string, v: real) {
    && (forall i :: 0 <= i < |obs| && obs[i].row == row ==> v <= obs[i].ymin)
    && (exists i :: 0 <= i < |obs| && obs[i].row == row && obs[i].ymin == v)
  }

  /** `v` is the largest maximum measured in `row`. */
  ghost predicate IsRowMax(obs: seq<RowLim>, row: string, v: real) {
    && (forall i :: 0 <= i < |obs| && obs[i].row == row ==> obs[i].ymax <= v)
    && (exists i :: 0 <= i < |obs| && obs[i].row == row && obs[i].ymax == v)
  }

  function Merge(l: RowLim, o: RowLim): RowLim {
    RowLim(l.row, Min2(o.ymin, l.ymin), Max2(o.ymax, l.ymax))
  }

  /** One measured group folded into the per-row limits: a row seen before
      keeps the smaller minimum and the larger maximum, a new row is added
      after the others. */
  function Observe(lims: seq<RowLim>, o: RowLim): (r: seq<RowLim>)
    requires DistinctRows(lims)
    ensures DistinctRows(r)
    ensures HasRow(lims, o.row) ==>
      && |r| == |lims|
      && forall k :: 0 <= k < |lims| ==> r[k] == if lims[k].row == o.row then Merge(lims[k], o) else lims[k]
    ensures !HasRow(lims, o.row) ==> r == lims + [o]
  {
    if HasRow(lims, o.row) then
      seq(|lims|, k requires 0 <= k < |lims| => if lims[k].row == o.row then Merge(lims[k], o) else lims[k])
    else lims + [o]
  }

  /** The per-row limits of `facet_plot`, over the groups in the order they
      were drawn: rows in order of first appearance. */
  function RowLimits(obs: seq<RowLim>): (lims: seq<RowLim>)
    ensures DistinctRows(lims)
  {
    if |obs| == 0 then [] else Observe(RowLimits(obs[..|obs| - 1]), obs[|obs| - 1])
  }

  /** Each row's limits are the smallest minimum and the largest maximum
      measured in that row, and every row measured has limits. */
  ghost predicate Extremes(obs: seq<RowLim>, lims: seq<RowLim>) {
    && (forall k :: 0 <= k < |lims| ==> IsRowMin(obs, lims[k].row, lims[k].ymin) && IsRowMax(obs, lims[k].row, lims[k].ymax))
    && (forall i :: 0 <= i < |obs| ==> HasRow(lims, obs[i].row))
  }

  lemma ObserveMin(prev: seq<RowLim>, o: RowLim, before: seq<RowLim>, k: int)
    requires DistinctRows(before) && Extremes(prev, before) && 0 <= k < |Observe(before, o)|
    ensures IsRowMin(prev + [o], Observe(before, o)[k].row, Observe(before, o)[k].ymin)
  {
    var obs := prev + [o];
    var n := |prev|;
    var lims := Observe(before, o);
    assert forall i :: 0 <= i < n ==> obs[i] == prev[i];
    assert obs[n] == o;
    if k < |before| {
      var row := before[k].row;
      assert IsRowMin(prev, row, before[k].ymin);
      var a :| 0 <= a < n && prev[a].row == row && prev[a].ymin == before[k].ymin;
      if row == o.row {
        assert lims[k] == Merge(before[k], o);
        if o.ymin <= before[k].ymin { assert obs[n].row == row && obs[n].ymin == lims[k].ymin; }
        else { assert obs[a].row == row && obs[a].ymin == lims[k].ymin; }
      } else {
        assert lims[k] == before[k];
        assert obs[a].row == row && obs[a].ymin == lims[k].ymin;
      }
    } else {
      assert !HasRow(before, o.row) && lims[k] == o;
      forall i | 0 <= i < n ensures obs[i].row != o.row {
        assert HasRow(before, prev[i].row);
      }
      assert obs[n].row == o.row && obs[n].ymin == lims[k].ymin;
    }
  }

  lemma ObserveMax(prev: seq<RowLim>, o: RowLim, before: seq<RowLim>, k: int)
    requires DistinctRows(before) && Extremes(prev, before) && 0 <= k < |Observe(before, o)|
    ensures IsRowMax(prev + [o], Observe(before, o)[k].row, Observe(before, o)[k].ymax)
  {
    var obs := prev + [o];
    var n := |prev|;
    var lims := Observe(before, o);
    assert forall i :: 0 <= i < n ==> obs[i] == prev[i];
    assert obs[n] == o;
    if k < |before| {
      var row := before[k].row;
      assert IsRowMax(prev, row, before[k].ymax);
      var b :| 0 <= b < n && prev[b].row == row && prev[b].ymax == before[k].ymax;
      if row == o.row {
        assert lims[k] == Merge(before[k], o);
        if o.ymax >= before[k].ymax { assert obs[n].row == row && obs[n].ymax == lims[k].ymax; }
        else { assert obs[b].row == row && obs[b].ymax == lims[k].ymax; }
      } else {
        assert lims[k] == before[k];
        assert obs[b].row == row && obs[b].ymax == lims[k].ymax;
      }
    } else {
      assert !HasRow(before, o.row) && lims[k] == o;
      forall i | 0 <= i < n ensures obs[i].row != o.row {
        assert HasRow(before, prev[i].row);
      }
      assert obs[n].row == o.row && obs[n].ymax == lims[k].ymax;
    }
  }

  lemma ObserveCovers(prev: seq<RowLim>, o: RowLim, before: seq<RowLim>)
    requires DistinctRows(before) && Extremes(prev, before)
    ensures forall i :: 0 <= i < |prev| + 1 ==> HasRow(Observe(before, o), (prev + [o])[i].row)
  {
    var obs := prev + [o];
    var n := |prev|;
    var lims := Observe(before, o);
    forall i | 0 <= i < n + 1 ensures HasRow(lims, obs[i].row) {
      if i < n {
        assert obs[i] == prev[i];
        var k :| 0 <= k < |before| && before[k].row == prev[i].row;
        assert lims[k].row == obs[i].row;
      } else if HasRow(before, o.row) {
        var k :| 0 <= k < |before| && before[k].row == o.row;
        assert lims[k].row == obs[i].row;
      } else {
        assert lims[|before|].row == obs[i].row;
      }
    }
  }

  lemma {:induction false} RowLimitsAreExtremes(obs: seq<RowLim>)
    ensures Extremes(obs, RowLimits(obs))
  {
    if |obs| > 0 {
      var n := |obs| - 1;
      var prev := obs[..n];
      var o := obs[n];
      assert obs == prev + [o];
      RowLimitsAreExtremes(prev);
      var before := RowLimits(prev);
      var lims := Observe(before, o);
      assert RowLimits(obs) == lims;
      forall k | 0 <= k < |lims|
        ensures IsRowMin(obs, lims[k].row, lims[k].ymin) && IsRowMax(obs, lims[k].row, lims[k].ymax)
      {
        ObserveMin(prev, o, before, k);
        ObserveMax(prev, o, before, k);
      }
      ObserveCovers(prev, o, before);
    }
  }

  function Mins(lims: seq<RowLim>): (m: seq<real>)
    ensures |m| == |lims| && forall k :: 0 <= k < |lims| ==> m[k] == lims[k].ymin
  {
    seq(|lims|, k requires 0 <= k < |lims| => lims[k].ymin)
  }

  function Maxs(lims: seq<RowLim>): (m: seq<real>)
    ensures |m| == |lims| && forall k :: 0 <= k < |lims| ==> m[k] == lims[k].ymax
  {
    seq(|lims|, k requires 0 <= k < |lims| => lims[k].ymax)
  }

  /** `share_ylim_across_rows`: every row gets the smallest minimum and the
      largest maximum of all rows. */
  function ShareAcrossRows(lims: seq<RowLim>): (r: seq<RowLim>)
    ensures |r| == |lims| && forall k :: 0 <= k < |r| ==> r[k].row == lims[k].row
    ensures forall k, j :: 0 <= k < |r| && 0 <= j < |lims| ==>
      r[k].ymin <= lims[j].ymin && lims[j].ymax <= r[k].ymax
    ensures forall k :: 0 <= k < |r| ==>
      && (exists j :: 0 <= j < |lims| && r[k].ymin == lims[j].ymin)
      && (exists j :: 0 <= j < |lims| && r[k].ymax == lims[j].ymax)
  {
    if |lims| == 0 then []
    else
      var lo := Min(Mins(lims));
      var hi := Max(Maxs(lims));
      seq(|lims|, k requires 0 <= k < |lims| => RowLim(lims[k].row, lo, hi))
  }

  /** The rows' limits before `set_ylims`. */
  function RowYlims(obs: seq<RowLim>, share: bool): (lims: seq<RowLim>)
    ensures DistinctRows(lims)
  {
    var lims := RowLimits(obs);
    if share then
      var r := ShareAcrossRows(lims);
      assert forall k :: 0 <= k < |r| ==> r[k].row == lims[k].row;
      r
    else lims
  }

  /** The group `o` lies within the limits of its row. */
  ghost predicate InItsRow(lims: seq<RowLim>, o: RowLim) {
    exists k :: 0 <= k < |lims| && lims[k].row == o.row && lims[k].ymin <= o.ymin && o.ymax <= lims[k].ymax
  }

  /** Limits that are the rows' extremes contain every group drawn. */
  lemma ExtremesContain(obs: seq<RowLim>, lims: seq<RowLim>)
    requires Extremes(obs, lims)
    ensures forall i :: 0 <= i < |obs| ==> InItsRow(lims, obs[i])
  {
    forall i | 0 <= i < |obs|
      ensures InItsRow(lims, obs[i])
    {
      assert HasRow(lims, obs[i].row);
      var k :| 0 <= k < |lims| && lims[k].row == obs[i].row;
      assert IsRowMin(obs, lims[k].row, lims[k].ymin) && IsRowMax(obs, lims[k].row, lims[k].ymax);
    }
  }

  /** Every group drawn lies within its own row's limits. */
  lemma RowLimitsContain(obs: seq<RowLim>)
    ensures var lims := RowLimits(obs);
      forall i :: 0 <= i < |obs| ==> InItsRow(lims, obs[i])
  {
    RowLimitsAreExtremes(obs);
    ExtremesContain(obs, RowLimits(obs));
  }

  /** Shared limits contain whatever the rows' limits contained. */
  lemma ShareContains(obs: seq<RowLim>, before: seq<RowLim>)
    requires forall i :: 0 <= i < |obs| ==> InItsRow(before, obs[i])
    ensures var lims := ShareAcrossRows(before);
      forall k, i :: 0 <= k < |lims| && 0 <= i < |obs| ==>
        lims[k].ymin <= obs[i].ymin && obs[i].ymax <= lims[k].ymax
  {
    var lims := ShareAcrossRows(before);
    forall k, i | 0 <= k < |lims| && 0 <= i < |obs|
      ensures lims[k].ymin <= obs[i].ymin && obs[i].ymax <= lims[k].ymax
    {
      assert InItsRow(before, obs[i]);
      var j :| 0 <= j < |before| && before[j].row == obs[i].row
        && before[j].ymin <= obs[i].ymin && obs[i].ymax <= before[j].ymax;
      assert lims[k].ymin <= before[j].ymin && before[j].ymax <= lims[k].ymax;
    }
  }

  /** Shared across rows, every row's limits contain every group drawn, in
      whatever row. */
  lemma SharedLimitsContainAll(obs: seq<RowLim>)
    ensures var lims := RowYlims(obs, true);
      forall k, i :: 0 <= k < |lims| && 0 <= i < |obs| ==>
        lims[k].ymin <= obs[i].ymin && obs[i].ymax <= lims[k].ymax
  {
    RowLimitsContain(obs);
    ShareContains(obs, RowLimits(obs));
    assert RowYlims(obs, true) == ShareAcrossRows(RowLimits(obs));
  }

  /** With or without sharing, every group drawn lies within its row's
      limits. */
  lemma RowYlimsContain(obs: seq<RowLim>, share: bool)
    ensures var lims := RowYlims(obs, share);
      forall i :: 0 <= i < |obs| ==> InItsRow(lims, obs[i])
  {
    RowLimitsContain(obs);
    if share {
      SharedLimitsContainAll(obs);
      SharedInItsRow(obs, RowLimits(obs), RowYlims(obs, share));
    }
  }

  /** Limits over the same rows that contain every group drawn keep every
      group in its row. */
  lemma SharedInItsRow(obs: seq<RowLim>, before: seq<RowLim>, lims: seq<RowLim>)
    requires |lims| == |before| && forall k :: 0 <= k < |lims| ==> lims[k].row == before[k].row
    requires forall k, i :: 0 <= k < |lims| && 0 <= i < |obs| ==>
      lims[k].ymin <= obs[i].ymin && obs[i].ymax <= lims[k].ymax
    requires forall i :: 0 <= i < |obs| ==> InItsRow(before, obs[i])
    ensures forall i :: 0 <= i < |obs| ==> InItsRow(lims, obs[i])
  {
    forall i | 0 <= i < |obs|
      ensures InItsRow(lims, obs[i])
    {
      assert InItsRow(before, obs[i]);
      var k :| 0 <= k < |before| && before[k].row == obs[i].row;
      assert lims[k].row == obs[i].row;
    }
  }

  // ------------------------------------------------------------ set_ylims

  /** The `set_ylims` argument: any falsy value that is not a dict
      (`None`, `False`, `0`, `""`, an empty tuple or list), one
      `(ymin, ymax)` for all rows, a dict of them by row, or a truthy value
      that is neither a tuple nor a dict. */
  datatype SetYlims = NoSetYlims | YlimTuple(lo: real, hi: real) | YlimDict(byRow: map<string, (real, real)>) | YlimOther

  /** `if set_ylims:` skips every falsy value: those of `NoSetYlims` and
      the empty dict. */
  predicate Falsy(s: SetYlims) {
    s.NoSetYlims? || (s.YlimDict? && |s.byRow| == 0)
  }

  /** The limits `set_ylims` asks for in `row`, if any. */
  function Wanted(s: SetYlims, row: string): Option<(real, real)>
    requires s.YlimTuple? || s.YlimDict?
  {
    if s.YlimTuple? then Some((s.lo, s.hi))
    else if row in s.byRow then Some(s.byRow[row])
    else None
  }

  /** `set_ylims` names the row of `l` with a minimum at most the row's. */
  predicate MinFits(s: SetYlims, l: RowLim)
    requires s.YlimTuple? || s.YlimDict?
  {
    Wanted(s, l.row).Some? && Wanted(s, l.row).value.0 <= l.ymin
  }

  /** The error for a row whose minimum does not fit. */
  function MinError(s: SetYlims, l: RowLim): Error
    requires s.YlimTuple? || s.YlimDict?
  {
    if Wanted(s, l.row).None? then MissingRow(l.row) else SetYlimTooNarrow
  }

  /** The pass over the minima, from row `k` on: a row `set_ylims` does not
      name fails the lookup, a minimum above the row's fails the check. */
  function MinPass(lims: seq<RowLim>, s: SetYlims, k: nat): (r: Result<()>)
    requires (s.YlimTuple? || s.YlimDict?) && k <= |lims|
    ensures r.Ok? <==> forall j :: k <= j < |lims| ==> MinFits(s, lims[j])
    ensures r.Err? ==>
      exists j :: && k <= j < |lims| && !MinFits(s, lims[j])
                  && (forall i :: k <= i < j ==> MinFits(s, lims[i]))
                  && r.error == MinError(s, lims[j])
    decreases |lims| - k
  {
    if k == |lims| then Ok(())
    else if !MinFits(s, lims[k]) then Err(MinError(s, lims[k]))
    else MinPass(lims, s, k + 1)
  }

  /** The pass over the maxima, once every row was found. */
  function MaxPass(lims: seq<RowLim>, s: SetYlims, k: nat): (r: Result<()>)
    requires (s.YlimTuple? || s.YlimDict?) && k <= |lims|
    requires forall j :: 0 <= j < |lims| ==> Wanted(s, lims[j].row).Some?
    ensures r.Ok? <==> forall j :: k <= j < |lims| ==> lims[j].ymax <= Wanted(s, lims[j].row).value.1
    ensures r.Err? ==> r.error == SetYlimTooNarrow
    decreases |lims| - k
  {
    if k == |lims| then Ok(())
    else if lims[k].ymax > Wanted(s, lims[k].row).value.1 then Err(SetYlimTooNarrow)
    else MaxPass(lims, s, k + 1)
  }

  /** `set_ylims`: the limits asked for replace the rows' limits, but only
      when they contain them. */
  function ApplySetYlims(lims: seq<RowLim>, s: SetYlims): (r: Result<seq<RowLim>>)
    ensures Falsy(s) ==> r == Ok(lims)
    ensures s.YlimOther? ==> r == Err(InvalidSetYlims)
    ensures (!Falsy(s) && !s.YlimOther?) ==>
      (r.Ok? <==> forall k :: 0 <= k < |lims| ==>
         && Wanted(s, lims[k].row).Some?
         && Wanted(s, lims[k].row).value.0 <= lims[k].ymin && lims[k].ymax <= Wanted(s, lims[k].row).value.1)
    ensures r.Ok? ==> |r.value| == |lims| && forall k :: 0 <= k < |lims| ==>
      && r.value[k].row == lims[k].row
      && r.value[k].ymin <= lims[k].ymin && lims[k].ymax <= r.value[k].ymax
    ensures (r.Ok? && !Falsy(s)) ==> forall k :: 0 <= k < |lims| ==>
      Wanted(s, lims[k].row) == Some((r.value[k].ymin, r.value[k].ymax))
    ensures (r.Err? && s.YlimTuple?) ==> r.error == SetYlimTooNarrow
    ensures (r.Err? && r.error.MissingRow?) ==>
      s.YlimDict? && r.error.row !in s.byRow && HasRow(lims, r.error.row)
  {
    if Falsy(s) then Ok(lims)
    else if s.YlimOther? then Err(InvalidSetYlims)
    else
      match MinPass(lims, s, 0)
      case Err(e) => Err(e)
      case Ok(_) =>
        match MaxPass(lims, s, 0)
        case Err(e) => Err(e)
        case Ok(_) =>
          Ok(seq(|lims|, k requires 0 <= k < |lims| =>
            RowLim(lims[k].row, Wanted(s, lims[k].row).value.0, Wanted(s, lims[k].row).value.1)))
  }

  /** The y-limits each row of the faceted figure is drawn with. */
  function FacetYlims(obs: seq<RowLim>, share: bool, s: SetYlims): (r: Result<seq<RowLim>>)
    ensures r == ApplySetYlims(RowYlims(obs, share), s)
  {
    ApplySetYlims(RowYlims(obs, share), s)
  }

  /** Whatever `set_ylims` says, a faceted figure that is drawn shows every
      group's data: each group's measured limits lie within its row's. */
  lemma FacetYlimsContain(obs: seq<RowLim>, share: bool, s: SetYlims)
    requires FacetYlims(obs, share, s).Ok?
    ensures var lims := FacetYlims(obs, share, s).value;
      forall i :: 0 <= i < |obs| ==> InItsRow(lims, obs[i])
  {
    RowYlimsContain(obs, share);
    var before := RowYlims(obs, share);
    var lims := FacetYlims(obs, share, s).value;
    forall i | 0 <= i < |obs|
      ensures InItsRow(lims, obs[i])
    {
      assert InItsRow(before, obs[i]);
      var k :| 0 <= k < |before| && before[k].row == obs[i].row
        && before[k].ymin <= obs[i].ymin && obs[i].ymax <= before[k].ymax;
      assert lims[k].row == obs[i].row && lims[k].ymin <= obs[i].ymin && obs[i].ymax <= lims[k].ymax;
    }
  }

  // ---------------------------------------------------------- figure size

  /** `height_params`: the figure height and the vertical parameters of
      `subplots_adjust`, as fractions of that height. */
  datatype HeightParams = HeightParams(height: real, top: real, bottom: real, hspace: real)

  /** `a / b * b == a`, for the fractions below. */
  lemma DivTimes(a: real, b: real)
    requires b != 0.0
    ensures (a / b) * b == a
  {
  }

  function GetHeightParams(nrows: nat, heightPerAx: real, hspace: real, tmargin: real, bmargin: real)
    : (r: Result<HeightParams>)
    ensures r.Ok? <==> nrows as real * heightPerAx + tmargin + bmargin != 0.0 && heightPerAx != 0.0
    ensures r.Ok? ==> r.value.height == nrows as real * heightPerAx + tmargin + bmargin
    ensures r.Ok? ==>
      && (1.0 - r.value.top) * r.value.height == tmargin
      && r.value.bottom * r.value.height == bmargin
      && r.value.hspace * heightPerAx == hspace
  {
    var height := nrows as real * heightPerAx + tmargin + bmargin;
    if height == 0.0 || heightPerAx == 0.0 then Err(DivisionByZero)
    else
      DivTimes(tmargin, height);
      DivTimes(bmargin, height);
      DivTimes(hspace, heightPerAx);
      Ok(HeightParams(height, 1.0 - tmargin / height, bmargin / height, hspace / heightPerAx))
  }

  /** Between `bottom` and `top` lie exactly the rows' axes (with their
      spacing): the fraction is `nrows * height_per_ax` of the height. With
      positive sizes, `0 < bottom < top < 1`. */
  lemma HeightParamsSpanRows(nrows: nat, heightPerAx: real, hspace: real, tmargin: real, bmargin: real)
    requires GetHeightParams(nrows, heightPerAx, hspace, tmargin, bmargin).Ok?
    ensures var p := GetHeightParams(nrows, heightPerAx, hspace, tmargin, bmargin).value;
      (p.top - p.bottom) * p.height == nrows as real * heightPerAx
    ensures (nrows > 0 && heightPerAx > 0.0 && tmargin > 0.0 && bmargin > 0.0) ==>
      var p := GetHeightParams(nrows, heightPerAx, hspace, tmargin, bmargin).value;
      0.0 < p.bottom < p.top < 1.0
  {
    var p := GetHeightParams(nrows, heightPerAx, hspace, tmargin, bmargin).value;
    var h := p.height;
    assert (p.top - p.bottom) * h == (1.0 - p.top) * h * -1.0 + h - p.bottom * h;
    if nrows > 0 && heightPerAx > 0.0 && tmargin > 0.0 && bmargin > 0.0 {
      assert h > 0.0 by {
        assert nrows as real * heightPerAx > 0.0;
      }
      assert nrows as real * heightPerAx > 0.0;
      Fraction(bmargin, h, p.bottom);
      Fraction(tmargin, h, 1.0 - p.top);
      Fraction(nrows as real * heightPerAx, h, p.top - p.bottom);
    }
  }

  /** A part `a` of a positive whole `h`, as the fraction `f` of it. */
  lemma Fraction(a: real, h: real, f: real)
    requires h > 0.0 && f * h == a && a > 0.0
    ensures f > 0.0
  {
  }

  /** `n` copies of `w`. */
  function Repeat(w: real, n: nat): (r: seq<real>)
    ensures |r| == n && forall i :: 0 <= i < n ==> r[i] == w
  {
    if n == 0 then [] else Repeat(w, n - 1) + [w]
  }

  /** The widths handed to `gridspec_kw['width_ratios']`: each drawing
      function's width, once per grid column. */
  function WidthRatios(widths: seq<real>, ncols: nat): (r: seq<real>)
    ensures |r| == |widths| * ncols
  {
    if |widths| == 0 then []
    else WidthRatios(widths[..|widths| - 1], ncols) + Repeat(widths[|widths| - 1], ncols)
  }

  lemma {:induction false} SumConcat(a: seq<real>, b: seq<real>)
    ensures Sum(a + b) == Sum(a) + Sum(b)
  {
    if |b| == 0 {
      assert a + b == a;
    } else {
      assert (a + b)[..|a + b| - 1] == a + b[..|b| - 1];
      assert (a + b)[|a + b| - 1] == b[|b| - 1];
      SumConcat(a, b[..|b| - 1]);
    }
  }

  /** `x` added up `n` times. */
  function Times(n: nat, x: real): real
  {
    if n == 0 then 0.0 else Times(n - 1, x) + x
  }

  /** Adding `x` up `n` times is multiplying it by `n`. */
  lemma {:induction false} TimesIsProduct(n: nat, x: real)
    ensures Times(n, x) == n as real * x
  {
    if n > 0 {
      TimesIsProduct(n - 1, x);
      assert (n - 1) as real * x + x == n as real * x;
    }
  }

  lemma {:induction false} TimesAdds(n: nat, a: real, b: real)
    ensures Times(n, a + b) == Times(n, a) + Times(n, b)
  {
    if n > 0 {
      TimesAdds(n - 1, a, b);
    }
  }

  lemma {:induction false} SumRepeat(w: real, n: nat)
    ensures Sum(Repeat(w, n)) == Times(n, w)
  {
    if n > 0 {
      assert Repeat(w, n)[..n - 1] == Repeat(w, n - 1);
      SumRepeat(w, n - 1);
    }
  }

  /** The width ratios add up to `ncols_per_func` times the drawing
      functions' widths (a product, by `TimesIsProduct`). */
  lemma {:induction false} WidthRatiosSum(widths: seq<real>, ncols: nat)
    ensures Sum(WidthRatios(widths, ncols)) == Times(ncols, Sum(widths))
  {
    if |widths| > 0 {
      var n := |widths| - 1;
      var prev, last := WidthRatios(widths[..n], ncols), Repeat(widths[n], ncols);
      assert WidthRatios(widths, ncols) == prev + last;
      SumConcat(prev, last);
      WidthRatiosSum(widths[..n], ncols);
      SumRepeat(widths[n], ncols);
      assert Sum(widths) == Sum(widths[..n]) + widths[n];
      TimesAdds(ncols, Sum(widths[..n]), widths[n]);
      assert Sum(prev + last) == Times(ncols, Sum(widths[..n])) + Times(ncols, widths[n]);
    } else {
      assert WidthRatios(widths, ncols) == [];
      TimesZero(ncols);
    }
  }

  lemma TimesZero(n: nat)
    ensures Times(n, 0.0) == 0.0
  {
    TimesAdds(n, 0.0, 0.0);
  }

  /** Between the fractions `l / w` and `1 - r / w` lies what remains of
      `w` without `l` and `r`. */
  lemma FractionSpan(l: real, r: real, w: real)
    requires w != 0.0
    ensures ((1.0 - r / w) - l / w) * w == w - r - l
  {
    DivTimes(l, w);
    DivTimes(r, w);
    assert ((1.0 - r / w) - l / w) * w == w - (r / w) * w - (l / w) * w;
  }

  /** The horizontal parameters: the figure width and, as fractions of it,
      the left and right edges of the axes and the spacing between them. */
  datatype WidthParams = WidthParams(width: real, left: real, right: real, wspace: real)

  /** The figure is the two margins plus every grid column's axis; the
      axes take up exactly the width ratios' total (see `WidthRatiosSum`). */
  function GetWidthParams(lmargin: real, rmargin: real, wspace: real, ncols: nat, widths: seq<real>)
    : (r: Result<WidthParams>)
    ensures r.Ok? <==> lmargin + rmargin + ncols as real * Sum(widths) != 0.0
    ensures r.Ok? ==> r.value.width == lmargin + rmargin + ncols as real * Sum(widths)
    ensures r.Ok? ==>
      && r.value.left * r.value.width == lmargin
      && (1.0 - r.value.right) * r.value.width == rmargin
      && (r.value.right - r.value.left) * r.value.width == ncols as real * Sum(widths)
      && r.value.wspace * r.value.width == wspace * (|widths| * ncols) as real
  {
    var total := ncols as real * Sum(widths);
    var width := lmargin + rmargin + total;
    if width == 0.0 then Err(DivisionByZero)
    else
      DivTimes(lmargin, width);
      DivTimes(rmargin, width);
      var spaces := wspace * (|widths| * ncols) as real;
      DivTimes(spaces, width);
      FractionSpan(lmargin, rmargin, width);
      Ok(WidthParams(width, lmargin / width, 1.0 - rmargin / width, spaces / width))
  }

  // ------------------------------------------------------------ the grid

  /** The column groups of one grid row, as one drawing function's data has
      them (in groupby order). */
  datatype RowGroups = RowGroups(row: string, cols: seq<string>)

  /** What is drawn in one grid cell: its position, whether it holds a plot
      (otherwise it is drawn with dummy data and hidden), its title, the
      column group whose data it draws, and whether its x and y labels and
      tick labels are blanked. */
  datatype Cell = Cell(irow: nat, column: nat, hasPlot: bool, title: string, dataCol: string,
                       hideX: bool, hideY: bool)

  const DummyTitle := "dummy data (error if you see this)"

  /** The non-empty parts, joined by single spaces. */
  function JoinNonEmpty(parts: seq<string>): string {
    if |parts| == 0 then ""
    else
      var init := JoinNonEmpty(parts[..|parts| - 1]);
      var last := parts[|parts| - 1];
      if last == "" then init else if init == "" then last else init + " " + last
  }

  predicate NoOuterSpace(t: string) {
    t == "" || (t[0] != ' ' && t[|t| - 1] != ' ')
  }

  /** Joined parts without outer spaces have none either. */
  lemma {:induction false} JoinNoOuterSpace(parts: seq<string>)
    requires forall i :: 0 <= i < |parts| ==> NoOuterSpace(parts[i])
    ensures NoOuterSpace(JoinNonEmpty(parts))
  {
    if |parts| > 0 {
      var init := parts[..|parts| - 1];
      assert forall i :: 0 <= i < |init| ==> init[i] == parts[i];
      JoinNoOuterSpace(init);
      var j := JoinNonEmpty(init);
      var last := parts[|parts| - 1];
      if last != "" && j != "" {
        assert (j + " " + last)[0] == j[0];
        assert (j + " " + last)[|j + " " + last| - 1] == last[|last| - 1];
      }
    }
  }

  /** A cell's title as the source builds it: a space between row and
      column names when both are non-empty, and one before the suffix
      whenever the suffix is non-empty. */
  function TitleAsWritten(row: string, col: string, suffix: string): (t: string)
    ensures suffix == "" ==> t == JoinNonEmpty([row, col])
    ensures suffix != "" ==> t == JoinNonEmpty([row, col]) + " " + suffix
  {
    var head := row + (if row != "" && col != "" then " " else "") + col;
    assert [row, col][..1] == [row];
    assert JoinNonEmpty([row]) == row by { assert [row][..0] == []; }
    assert JoinNonEmpty([row, col]) == head;
    head + (if suffix != "" then " " else "") + suffix
  }

  /** A cell's title: row name, column name and title suffix, a single
      space only between the non-empty ones. */
  function Title(row: string, col: string, suffix: string): (t: string)
    ensures t == JoinNonEmpty([row, col, suffix])
    ensures (NoOuterSpace(row) && NoOuterSpace(col) && NoOuterSpace(suffix)) ==> NoOuterSpace(t)
  {
    var head := row + (if row != "" && col != "" then " " else "") + col;
    assert [row, col, suffix][..2] == [row, col] && [row, col][..1] == [row];
    assert JoinNonEmpty([row]) == row by { assert [row][..0] == []; }
    assert JoinNonEmpty([row, col]) == head;
    assert (NoOuterSpace(row) && NoOuterSpace(col) && NoOuterSpace(suffix)) ==>
      NoOuterSpace(JoinNonEmpty([row, col, suffix])) by {
      if NoOuterSpace(row) && NoOuterSpace(col) && NoOuterSpace(suffix) {
        JoinNoOuterSpace([row, col, suffix]);
      }
    }
    head + (if head != "" && suffix != "" then " " else "") + suffix
  }

  /** The title as written differs from the intended one exactly when there
      are neither row nor column names but a suffix: it then starts with a
      space. */
  lemma TitleAsWrittenDiffers(row: string, col: string, suffix: string)
    ensures TitleAsWritten(row, col, suffix) != Title(row, col, suffix) <==> row == "" && col == "" && suffix != ""
    ensures row == "" && col == "" && suffix != "" ==> TitleAsWritten(row, col, suffix) == " " + suffix
  {
    if row == "" && col == "" && suffix != "" {
      assert |TitleAsWritten(row, col, suffix)| == |suffix| + 1;
    }
  }

  /** The cells of one grid row for drawing function `ifunc`: the `icol`-th
      column group goes to the `icol`-th of the function's columns; the
      remaining columns get the first group's data as dummy data and no
      plot. Only the bottom row keeps x labels, only the first column y
      labels. */
  function RowCells(ifunc: nat, ncols: nat, nrows: nat, irow: nat, g: RowGroups, suffix: string): (cs: seq<Cell>)
    requires 0 < |g.cols| <= ncols
    ensures |cs| == ncols
    ensures forall icol :: 0 <= icol < ncols ==>
      && cs[icol].irow == irow && cs[icol].column == ifunc * ncols + icol
      && (cs[icol].hasPlot <==> icol < |g.cols|)
      && cs[icol].title == (if icol < |g.cols| then Title(g.row, g.cols[icol], suffix) else DummyTitle)
      && cs[icol].dataCol == (if icol < |g.cols| then g.cols[icol] else g.cols[0])
      && (cs[icol].hideX <==> irow != nrows - 1)
      && (cs[icol].hideY <==> icol != 0)
  {
    seq(ncols, icol requires 0 <= icol < ncols =>
      if icol < |g.cols|
      then Cell(irow, ifunc * ncols + icol, true, Title(g.row, g.cols[icol], suffix), g.cols[icol], irow != nrows - 1, icol != 0)
      else Cell(irow, ifunc * ncols + icol, false, DummyTitle, g.cols[0], irow != nrows - 1, icol != 0))
  }

  /** One grid row's cells, or the error for a row without any column group. */
  function RowResult(ifunc: nat, ncols: nat, nrows: nat, irow: nat, g: RowGroups, suffix: string)
    : (r: Result<seq<Cell>>)
    requires |g.cols| <= ncols
    ensures r.Ok? <==> |g.cols| > 0
    ensures r.Ok? ==> r.value == RowCells(ifunc, ncols, nrows, irow, g, suffix)
    ensures r.Err? ==> r.error == NoDataForRow(g.row)
  {
    if |g.cols| == 0 then Err(NoDataForRow(g.row)) else Ok(RowCells(ifunc, ncols, nrows, irow, g, suffix))
  }

  /** The cells drawing function `ifunc` draws, by row, then by column. The
      source asserts that there is one entry per grid row and at most
      `ncols_per_func` column groups in each. */
  function FuncCells(ifunc: nat, ncols: nat, nrows: nat, rows: seq<RowGroups>, suffix: string)
    : (r: Result<seq<seq<Cell>>>)
    requires |rows| == nrows && forall i :: 0 <= i < |rows| ==> |rows[i].cols| <= ncols
    ensures r.Ok? <==> forall i :: 0 <= i < nrows ==> |rows[i].cols| > 0
    ensures r.Ok? ==> |r.value| == nrows && forall i :: 0 <= i < nrows ==>
      r.value[i] == RowCells(ifunc, ncols, nrows, i, rows[i], suffix)
    ensures r.Err? ==>
      exists i :: && 0 <= i < nrows && |rows[i].cols| == 0
                  && (forall j :: 0 <= j < i ==> |rows[j].cols| > 0)
                  && r.error == NoDataForRow(rows[i].row)
  {
    CollectFrom(RowResults(ifunc, ncols, nrows, rows, suffix), 0)
  }

  function RowResults(ifunc: nat, ncols: nat, nrows: nat, rows: seq<RowGroups>, suffix: string)
    : (r: seq<Result<seq<Cell>>>)
    requires |rows| == nrows && forall i :: 0 <= i < |rows| ==> |rows[i].cols| <= ncols
    ensures |r| == nrows && forall i :: 0 <= i < nrows ==> r[i] == RowResult(ifunc, ncols, nrows, i, rows[i], suffix)
  {
    seq(nrows, i requires 0 <= i < nrows => RowResult(ifunc, ncols, nrows, i, rows[i], suffix))
  }

  /** One drawing function's rows of column groups and its title suffix. */
  datatype FuncGroups = FuncGroups(rows: seq<RowGroups>, suffix: string)

  predicate GroupsFit(fs: seq<FuncGroups>, ncols: nat, nrows: nat) {
    forall f :: 0 <= f < |fs| ==>
      |fs[f].rows| == nrows && forall i :: 0 <= i < nrows ==> |fs[f].rows[i].cols| <= ncols
  }

  /** Each drawing function's cells, as a result of its own. */
  function FuncResults(fs: seq<FuncGroups>, ncols: nat, nrows: nat): (r: seq<Result<seq<seq<Cell>>>>)
    requires GroupsFit(fs, ncols, nrows)
    ensures |r| == |fs| && forall f :: 0 <= f < |fs| ==> r[f] == FuncCells(f, ncols, nrows, fs[f].rows, fs[f].suffix)
  {
    seq(|fs|, f requires 0 <= f < |fs| => FuncCells(f, ncols, nrows, fs[f].rows, fs[f].suffix))
  }

  /** `_draw_facet_plots`: the cells of every drawing function, in order;
      the first drawing function with an empty row stops the drawing. */
  function GridCells(fs: seq<FuncGroups>, ncols: nat, nrows: nat): (r: Result<seq<seq<seq<Cell>>>>)
    requires GroupsFit(fs, ncols, nrows)
    ensures r.Ok? <==> forall f :: 0 <= f < |fs| ==> FuncCells(f, ncols, nrows, fs[f].rows, fs[f].suffix).Ok?
    ensures r.Ok? ==> |r.value| == |fs| && forall f :: 0 <= f < |fs| ==>
      r.value[f] == FuncCells(f, ncols, nrows, fs[f].rows, fs[f].suffix).value
    ensures r.Err? ==>
      exists f :: && 0 <= f < |fs| && FuncCells(f, ncols, nrows, fs[f].rows, fs[f].suffix).Err?
                  && r.error == FuncCells(f, ncols, nrows, fs[f].rows, fs[f].suffix).error
  {
    CollectFrom(FuncResults(fs, ncols, nrows), 0)
  }

  /** Later drawing functions' columns start at least `ncols` further. */
  lemma {:induction false} ColumnsApart(f1: nat, f2: nat, ncols: nat)
    requires f1 < f2
    ensures f1 * ncols + ncols <= f2 * ncols
  {
    if f2 > f1 + 1 {
      ColumnsApart(f1, f2 - 1, ncols);
      assert f2 * ncols == (f2 - 1) * ncols + ncols;
    } else {
      assert f2 * ncols == f1 * ncols + ncols;
    }
  }

  /** A grid column splits uniquely into drawing function and column. */
  lemma ColumnSplit(f1: nat, i1: nat, f2: nat, i2: nat, ncols: nat)
    requires i1 < ncols && i2 < ncols && f1 * ncols + i1 == f2 * ncols + i2
    ensures f1 == f2 && i1 == i2
  {
    if f1 < f2 {
      ColumnsApart(f1, f2, ncols);
    } else if f2 < f1 {
      ColumnsApart(f2, f1, ncols);
    }
  }

  /** The cells tile the `nrows` by `nfuncs * ncols_per_func` grid: cell
      `[f][i][c]` sits at row `i`, column `f * ncols + c`, inside the grid,
      and no two cells share a position. */
  lemma GridCellsTile(fs: seq<FuncGroups>, ncols: nat, nrows: nat)
    requires GroupsFit(fs, ncols, nrows) && GridCells(fs, ncols, nrows).Ok?
    ensures var g := GridCells(fs, ncols, nrows).value;
      && (forall f, i, c :: 0 <= f < |fs| && 0 <= i < nrows && 0 <= c < ncols ==>
            && g[f][i][c].irow == i && g[f][i][c].column == f * ncols + c
            && g[f][i][c].column < |fs| * ncols)
      && (forall f1, i1, c1, f2, i2, c2 ::
            (0 <= f1 < |fs| && 0 <= i1 < nrows && 0 <= c1 < ncols
             && 0 <= f2 < |fs| && 0 <= i2 < nrows && 0 <= c2 < ncols
             && g[f1][i1][c1].irow == g[f2][i2][c2].irow
             && g[f1][i1][c1].column == g[f2][i2][c2].column) ==>
            f1 == f2 && i1 == i2 && c1 == c2)
  {
    var g: seq<seq<seq<Cell>>> := GridCells(fs, ncols, nrows).value;
    forall f: int, i: int, c: int | 0 <= f < |fs| && 0 <= i < nrows && 0 <= c < ncols
      ensures g[f][i][c].irow == i && g[f][i][c].column == f * ncols + c && g[f][i][c].column < |fs| * ncols
    {
      assert g[f] == FuncCells(f, ncols, nrows, fs[f].rows, fs[f].suffix).value;
      assert g[f][i] == RowCells(f, ncols, nrows, i, fs[f].rows[i], fs[f].suffix);
      ColumnsApart(f, |fs|, ncols);
    }
    forall f1: int, i1: int, c1: int, f2: int, i2: int, c2: int |
      (0 <= f1 < |fs| && 0 <= i1 < nrows && 0 <= c1 < ncols
       && 0 <= f2 < |fs| && 0 <= i2 < nrows && 0 <= c2 < ncols
       && g[f1][i1][c1].irow == g[f2][i2][c2].irow
       && g[f1][i1][c1].column == g[f2][i2][c2].column)
      ensures f1 == f2 && i1 == i2 && c1 == c2
    {
      ColumnSplit(f1, c1, f2, c2, ncols);
    }
  }
}

=== FILE: glyphs.dfy ===
/** Letter placement (`_draw_text_data_coord` in dmslogo/logo.py): checks
    the stacks against the y-axis, then walks each stack with a vertical
    cursor, placing every letter at the cursor plus its padding offset with
    horizontal and vertical scale factors, and advancing the cursor by the
    letter's unpadded height. The renderer's measurements (axis size in
    inches, the font's fraction above the baseline) are inputs. */
module Glyphs {
  import opened Results
  import opened Reals
  import opened Tables
  import opened LogoLayout

  /** What rendering supplies: the axis bounding box in inches and the
      fraction of the 72-point font's height that lies above its baseline. */
  datatype Measure = Measure(axisWidth: real, axisHeight: real, fracAboveBaseline: real) {
    predicate Valid() {
      axisWidth > 0.0 && axisHeight > 0.0 && fracAboveBaseline > 0.0
    }
  }

  /** The remaining arguments: the y-limits set on the axis and the
      typographic knobs of `draw_logo`. */
  datatype PlaceArgs = PlaceArgs(
    ymin: real,
    ymax: real,
    fontaspect: real,
    letterpad: real,
    letterheightscale: real,
    xpad: real)

  /** One drawn letter: its column, baseline, text and colour, and the
      `Scale` path effect's two factors. */
  datatype Glyph = Glyph(x: nat, y: real, letter: string, color: string, scaleX: real, scaleY: real)

  /** `sum(abs(h) for h in stack)`. */
  function StackHeight(es: seq<Entry>): (t: real)
    ensures t >= 0.0
  {
    if |es| == 0 then 0.0 else StackHeight(es[..|es| - 1]) + Abs(es[|es| - 1].height)
  }

  function StackHeights(columns: seq<seq<Entry>>): (hs: seq<real>)
    ensures |hs| == |columns| && forall i :: 0 <= i < |columns| ==> hs[i] == StackHeight(columns[i])
  {
    seq(|columns|, i requires 0 <= i < |columns| => StackHeight(columns[i]))
  }

  /** `letterpadheight = yextent * letterpad`. */
  function PadHeight(yextent: real, letterpad: real): (p: real)
    ensures yextent >= 0.0 && letterpad >= 0.0 ==> p >= 0.0
  {
    yextent * letterpad
  }

  /** `letterheightscale * letterheight`. */
  function Scaled(s: real, h: real): (r: real)
    ensures 0.0 <= s <= 1.0 && h >= 0.0 ==> 0.0 <= r <= h
    ensures s >= 0.5 && h >= 0.0 ==> r >= h / 2.0
  {
    ScaledBounds(s, h);
    s * h
  }

  lemma ScaledBounds(s: real, h: real)
    ensures 0.0 <= s <= 1.0 && h >= 0.0 ==> 0.0 <= s * h <= h
    ensures s >= 0.5 && h >= 0.0 ==> s * h >= h / 2.0
  {
    if 0.0 <= s <= 1.0 && h >= 0.0 { ScaleBetween(h, s); }
    if s >= 0.5 && h >= 0.0 { assert s * h >= 0.5 * h; }
  }

  /** The padding of one letter: half its height, at most the fixed pad. */
  function Padding(h: real, padHeight: real): (p: real)
    ensures p <= h / 2.0 && p <= padHeight
    ensures p == h / 2.0 || p == padHeight
  {
    Min2(h / 2.0, padHeight)
  }

  /** The baseline offset above the cursor: a `pad_below` letter is pushed
      up so its scaled top meets the top of its cell; a `pad_above` letter
      sits on the cursor. */
  function YPad(e: Entry, padHeight: real, scale: real): (r: Result<real>)
    ensures r.Ok? <==> e.padLoc == PadBelow || e.padLoc == PadAbove
    ensures r.Err? ==> r.error == InvalidPadLoc(e.padLoc)
    ensures e.padLoc == PadAbove ==> r == Ok(0.0)
    ensures e.padLoc == PadBelow ==>
      r == Ok(Padding(e.height, padHeight) + e.height - Scaled(scale, e.height))
  {
    if e.padLoc == PadBelow then Ok(Padding(e.height, padHeight) + e.height - Scaled(scale, e.height))
    else if e.padLoc == PadAbove then Ok(0.0)
    else Err(InvalidPadLoc(e.padLoc))
  }

  /** The vertical `Scale` factor: the scaled letter height minus its
      padding, in font units, converted from data units to inches. */
  function ScaleY(adj: real, padding: real, frac: real, height: real, yextent: real): real
    requires frac != 0.0 && yextent != 0.0
  {
    (adj / frac - padding / frac) * height / yextent
  }

  /** The height the glyph covers above its baseline, in data units: the
      72-point font is one inch tall, `frac` of it above the baseline,
      stretched by `scaleY`, and `height` inches span `yextent` data units. */
  function DrawnHeight(scaleY: real, frac: real, height: real, yextent: real): real
    requires height != 0.0
  {
    scaleY * frac * yextent / height
  }

  /** The vertical scale makes the glyph cover exactly its scaled height
      minus its padding. */
  lemma ScaleYCoversLetter(adj: real, padding: real, frac: real, height: real, yextent: real)
    requires frac != 0.0 && yextent != 0.0 && height != 0.0
    ensures DrawnHeight(ScaleY(adj, padding, frac, height, yextent), frac, height, yextent) == adj - padding
  {
    var q := adj / frac - padding / frac;
    assert q * frac == adj - padding;
    var sy := q * height / yextent;
    assert sy * yextent == q * height;
    calc {
      sy * frac * yextent / height;
      == (sy * yextent) * frac / height;
      == (q * height) * frac / height;
      == (q * frac) * height / height;
      == q * frac;
    }
  }

  /** The cursor before the `k`-th letter of a stack starting at `ystart`. */
  function Cursor(es: seq<Entry>, ystart: real, k: int): real
    requires 0 <= k <= |es|
  {
    ystart + Total(es[..k])
  }

  /** The glyph of one letter at cursor `ypos`. */
  function PlaceLetter(e: Entry, x: nat, ypos: real, a: PlaceArgs, m: Measure, scaleX: real, padHeight: real)
    : (r: Result<Glyph>)
    requires m.Valid()
    ensures r.Ok? <==> (e.padLoc == PadBelow || e.padLoc == PadAbove) && a.ymax - a.ymin != 0.0
    ensures r.Ok? ==>
      && r.value.x == x && r.value.letter == e.letter && r.value.color == e.color
      && r.value.scaleX == scaleX
      && r.value.y == ypos + YPad(e, padHeight, a.letterheightscale).value
      && r.value.scaleY == ScaleY(Scaled(a.letterheightscale, e.height), Padding(e.height, padHeight),
                                  m.fracAboveBaseline, m.axisHeight, a.ymax - a.ymin)
    ensures r.Err? && !(e.padLoc == PadBelow || e.padLoc == PadAbove) ==> r.error == InvalidPadLoc(e.padLoc)
  {
    var ypad :- YPad(e, padHeight, a.letterheightscale);
    var yextent := a.ymax - a.ymin;
    if yextent == 0.0 then Err(DivisionByZero)
    else
      var sy := ScaleY(Scaled(a.letterheightscale, e.height), Padding(e.height, padHeight),
                       m.fracAboveBaseline, m.axisHeight, yextent);
      Ok(Glyph(x, ypos + ypad, e.letter, e.color, scaleX, sy))
  }

  predicate LettersOk(es: seq<Entry>, a: PlaceArgs) {
    (forall i :: 0 <= i < |es| ==> es[i].padLoc == PadBelow || es[i].padLoc == PadAbove)
    && (|es| > 0 ==> a.ymax - a.ymin != 0.0)
  }

  lemma ColumnPrefix(es: seq<Entry>, ystart: real, a: PlaceArgs)
    requires |es| > 0
    ensures var n := |es| - 1;
      && (forall k :: 0 <= k < n ==> es[..n][k] == es[k] && Cursor(es[..n], ystart, k) == Cursor(es, ystart, k))
      && (LettersOk(es, a) <==>
            LettersOk(es[..n], a) && (es[n].padLoc == PadBelow || es[n].padLoc == PadAbove)
            && a.ymax - a.ymin != 0.0)
  {
    var n := |es| - 1;
    assert forall k :: 0 <= k < n ==> es[..n][..k] == es[..k];
  }

  /** The glyphs of one stack drawn in column `x` from `ystart` upward. */
  function PlaceColumn(es: seq<Entry>, x: nat, ystart: real, a: PlaceArgs, m: Measure, scaleX: real, padHeight: real)
    : (r: Result<seq<Glyph>>)
    requires m.Valid()
    ensures r.Ok? <==> LettersOk(es, a)
    ensures r.Ok? ==> |r.value| == |es| && forall k :: 0 <= k < |es| ==>
      PlaceLetter(es[k], x, Cursor(es, ystart, k), a, m, scaleX, padHeight) == Ok(r.value[k])
  {
    if |es| == 0 then Ok([])
    else
      var n := |es| - 1;
      ColumnPrefix(es, ystart, a);
      match PlaceColumn(es[..n], x, ystart, a, m, scaleX, padHeight)
      case Err(e) => Err(e)
      case Ok(prev) =>
        match PlaceLetter(es[n], x, Cursor(es, ystart, n), a, m, scaleX, padHeight)
        case Err(e) => Err(e)
        case Ok(g) => Ok(prev + [g])
  }

  predicate AllLettersOk(columns: seq<seq<Entry>>, a: PlaceArgs) {
    forall i :: 0 <= i < |columns| ==> LettersOk(columns[i], a)
  }

  /** Each column's glyphs, as a result of its own. */
  function ColumnResults(columns: seq<seq<Entry>>, ystarts: seq<real>, a: PlaceArgs, m: Measure, scaleX: real, padHeight: real)
    : (r: seq<Result<seq<Glyph>>>)
    requires m.Valid() && |ystarts| == |columns|
    ensures |r| == |columns| && forall i :: 0 <= i < |columns| ==>
      r[i] == PlaceColumn(columns[i], i, ystarts[i], a, m, scaleX, padHeight)
  {
    seq(|columns|, i requires 0 <= i < |columns| => PlaceColumn(columns[i], i, ystarts[i], a, m, scaleX, padHeight))
  }

  /** The glyphs of every column, or the first failing letter's error. */
  function PlaceColumns(columns: seq<seq<Entry>>, ystarts: seq<real>, a: PlaceArgs, m: Measure, scaleX: real, padHeight: real)
    : (r: Result<seq<seq<Glyph>>>)
    requires m.Valid() && |ystarts| == |columns|
    ensures r.Ok? <==> AllLettersOk(columns, a)
    ensures r.Ok? ==> |r.value| == |columns| && forall i :: 0 <= i < |columns| ==>
      PlaceColumn(columns[i], i, ystarts[i], a, m, scaleX, padHeight) == Ok(r.value[i])
  {
    CollectFrom(ColumnResults(columns, ystarts, a, m, scaleX, padHeight), 0)
  }

  /** The axis checks of the placement, in source order. */
  predicate AxisOk(columns: seq<seq<Entry>>, ystarts: seq<real>, a: PlaceArgs) {
    && |columns| > 0
    && |ystarts| == |columns|
    && Max(StackHeights(columns)) <= a.ymax - a.ymin
    && a.ymin <= 0.0
    && Min(ystarts) >= a.ymin
  }

  /** `fontwidthscale`: the axis width shared by the `n` columns (the
      x-axis is padded by `xpad` on both sides) over the font's aspect. */
  function ScaleX(m: Measure, a: PlaceArgs, n: nat): real
    requires 2.0 * a.xpad + n as real != 0.0 && a.fontaspect * n as real != 0.0
  {
    m.axisWidth * n as real / (2.0 * a.xpad + n as real) / (a.fontaspect * n as real)
  }

  /** The checks `_draw_text_data_coord` makes of its inputs before drawing
      anything, in source order. */
  function CheckAxis(columns: seq<seq<Entry>>, ystarts: seq<real>, a: PlaceArgs): (r: Result<()>)
    ensures r.Ok? <==> AxisOk(columns, ystarts, a)
    ensures |columns| == 0 ==> r == Err(EmptyData)
    ensures |columns| > 0 && |ystarts| != |columns| ==> r == Err(LengthMismatch)
    ensures |columns| > 0 && |ystarts| == |columns| && Max(StackHeights(columns)) > a.ymax - a.ymin ==>
      r == Err(StackTooTall)
    ensures (|columns| > 0 && |ystarts| == |columns| && Max(StackHeights(columns)) <= a.ymax - a.ymin
             && a.ymin > 0.0) ==> r == Err(PositiveYmin)
    ensures (|columns| > 0 && |ystarts| == |columns| && Max(StackHeights(columns)) <= a.ymax - a.ymin
             && a.ymin <= 0.0 && Min(ystarts) < a.ymin) ==> r == Err(YstartBelowYmin)
  {
    if |columns| == 0 then Err(EmptyData)
    else if |ystarts| != |columns| then Err(LengthMismatch)
    else if Max(StackHeights(columns)) > a.ymax - a.ymin then Err(StackTooTall)
    else if a.ymin > 0.0 then Err(PositiveYmin)
    else if Min(ystarts) < a.ymin then Err(YstartBelowYmin)
    else Ok(())
  }

  /** `_draw_text_data_coord(height_matrix, ystarts, ...)`: the x-axis
      padding is divided out first, then the axis checks run, then every
      column is drawn with the shared horizontal scale and letter pad. */
  function Place(columns: seq<seq<Entry>>, ystarts: seq<real>, a: PlaceArgs, m: Measure)
    : (r: Result<seq<seq<Glyph>>>)
    requires m.Valid()
    ensures 2.0 * a.xpad + |columns| as real == 0.0 ==> r == Err(DivisionByZero)
    ensures 2.0 * a.xpad + |columns| as real != 0.0 && CheckAxis(columns, ystarts, a).Err? ==>
      r == Err(CheckAxis(columns, ystarts, a).error)
    ensures r.Ok? ==> AxisOk(columns, ystarts, a) && AllLettersOk(columns, a)
    ensures r.Ok? ==> 2.0 * a.xpad + |columns| as real != 0.0 && a.fontaspect * |columns| as real != 0.0
    ensures r.Ok? ==>
      r == PlaceColumns(columns, ystarts, a, m, ScaleX(m, a, |columns|), PadHeight(a.ymax - a.ymin, a.letterpad))
    ensures AxisOk(columns, ystarts, a) && 2.0 * a.xpad + |columns| as real != 0.0 && a.fontaspect * |columns| as real != 0.0 ==>
      && (r.Ok? <==> AllLettersOk(columns, a))
      && r == PlaceColumns(columns, ystarts, a, m, ScaleX(m, a, |columns|), PadHeight(a.ymax - a.ymin, a.letterpad))
  {
    var n := |columns| as real;
    if 2.0 * a.xpad + n == 0.0 then Err(DivisionByZero)
    else
      match CheckAxis(columns, ystarts, a)
      case Err(e) => Err(e)
      case Ok(_) =>
        if a.fontaspect * n == 0.0 then Err(DivisionByZero)
        else PlaceColumns(columns, ystarts, a, m, ScaleX(m, a, |columns|), PadHeight(a.ymax - a.ymin, a.letterpad))
  }

  /** Every entry of every column becomes one glyph in that column, with
      its letter and colour, in stack order. */
  lemma PlacedGlyphs(columns: seq<seq<Entry>>, ystarts: seq<real>, a: PlaceArgs, m: Measure, gs: seq<seq<Glyph>>)
    requires m.Valid() && Place(columns, ystarts, a, m) == Ok(gs)
    ensures |gs| == |columns|
    ensures forall i :: 0 <= i < |columns| ==>
      |gs[i]| == |columns[i]|
      && forall j :: 0 <= j < |columns[i]| ==>
           gs[i][j].x == i && gs[i][j].letter == columns[i][j].letter && gs[i][j].color == columns[i][j].color
  {
    ColumnsGlyphs(columns, ystarts, a, m, ScaleX(m, a, |columns|), PadHeight(a.ymax - a.ymin, a.letterpad), gs);
  }

  /** The glyphs of every column, column by column. */
  lemma ColumnsGlyphs(columns: seq<seq<Entry>>, ystarts: seq<real>, a: PlaceArgs, m: Measure, scaleX: real,
                      padHeight: real, gs: seq<seq<Glyph>>)
    requires m.Valid() && |ystarts| == |columns|
    requires PlaceColumns(columns, ystarts, a, m, scaleX, padHeight) == Ok(gs)
    ensures |gs| == |columns|
    ensures forall i :: 0 <= i < |columns| ==>
      |gs[i]| == |columns[i]|
      && forall j :: 0 <= j < |columns[i]| ==>
           gs[i][j].x == i && gs[i][j].letter == columns[i][j].letter && gs[i][j].color == columns[i][j].color
  {
    forall i: int | 0 <= i < |columns|
      ensures |gs[i]| == |columns[i]|
      ensures forall j :: 0 <= j < |columns[i]| ==>
        gs[i][j].x == i && gs[i][j].letter == columns[i][j].letter && gs[i][j].color == columns[i][j].color
    {
      ColumnGlyphs(columns[i], i, ystarts[i], a, m, scaleX, padHeight, gs[i]);
    }
  }

  /** One column's glyphs: one per entry, in that column, with the entry's
      letter and colour. */
  lemma ColumnGlyphs(es: seq<Entry>, x: nat, ystart: real, a: PlaceArgs, m: Measure, scaleX: real, padHeight: real,
                     gs: seq<Glyph>)
    requires m.Valid() && PlaceColumn(es, x, ystart, a, m, scaleX, padHeight) == Ok(gs)
    ensures |gs| == |es| && forall j :: 0 <= j < |es| ==>
      gs[j].x == x && gs[j].letter == es[j].letter && gs[j].color == es[j].color
  {
    forall j: int | 0 <= j < |es|
      ensures gs[j].x == x && gs[j].letter == es[j].letter && gs[j].color == es[j].color
    {
      assert PlaceLetter(es[j], x, Cursor(es, ystart, j), a, m, scaleX, padHeight) == Ok(gs[j]);
    }
  }

  // ------------------------------------------------------------- geometry

  /** Each letter's glyph lies within its cell `[cursor, cursor + h]`: a
      `pad_below` glyph ends exactly at the top of the cell, a `pad_above`
      glyph starts at its bottom. This needs letter scales in `[1/2, 1]`,
      a non-negative pad and a non-negative height. */
  lemma GlyphWithinCell(e: Entry, x: nat, ypos: real, a: PlaceArgs, m: Measure, scaleX: real, padHeight: real)
    requires m.Valid() && PlaceLetter(e, x, ypos, a, m, scaleX, padHeight).Ok?
    requires 0.5 <= a.letterheightscale <= 1.0 && padHeight >= 0.0 && e.height >= 0.0
    ensures var g := PlaceLetter(e, x, ypos, a, m, scaleX, padHeight).value;
      var top := g.y + DrawnHeight(g.scaleY, m.fracAboveBaseline, m.axisHeight, a.ymax - a.ymin);
      && ypos <= g.y <= top <= ypos + e.height
      && (e.padLoc == PadBelow ==> top == ypos + e.height)
      && (e.padLoc == PadAbove ==> g.y == ypos)
  {
    var g := PlaceLetter(e, x, ypos, a, m, scaleX, padHeight).value;
    var adj := Scaled(a.letterheightscale, e.height);
    var padding := Padding(e.height, padHeight);
    ScaleYCoversLetter(adj, padding, m.fracAboveBaseline, m.axisHeight, a.ymax - a.ymin);
    assert 0.0 <= padding <= e.height / 2.0 <= adj <= e.height;
  }

  /** The cursor advances by the unpadded height of every letter: it ends at
      `ystart` plus the stack's total. */
  lemma CursorEnd(es: seq<Entry>, ystart: real)
    ensures Cursor(es, ystart, |es|) == ystart + Total(es)
  {
    assert es[..|es|] == es;
  }

  // ------------------------------------------------------ stacks on zero

  /** The index of the first entry that is not `pad_above` (or the length). */
  function FirstBelow(es: seq<Entry>): (k: nat)
    ensures k <= |es|
    ensures forall i :: 0 <= i < k ==> es[i].padLoc == PadAbove
    ensures k < |es| ==> es[k].padLoc != PadAbove
  {
    if |es| == 0 || es[0].padLoc != PadAbove then 0
    else 1 + FirstBelow(es[1..])
  }

  /** When every entry carries `tag`, the tagged total is the total. */
  lemma {:induction false} AllTagged(es: seq<Entry>, tag: string)
    requires forall i :: 0 <= i < |es| ==> es[i].padLoc == tag
    ensures TaggedTotal(es, tag) == Total(es)
  {
    if |es| > 0 {
      AllTagged(es[..|es| - 1], tag);
    }
  }

  /** When exactly the first `k` entries carry `tag`, the tagged total is
      the total of those `k`. */
  lemma {:induction false} TaggedPrefix(es: seq<Entry>, tag: string, k: nat)
    requires k <= |es|
    requires forall i :: 0 <= i < |es| ==> (es[i].padLoc == tag <==> i < k)
    ensures TaggedTotal(es, tag) == Total(es[..k])
  {
    if |es| > k {
      var n := |es| - 1;
      TaggedPrefix(es[..n], tag, k);
      assert es[..n][..k] == es[..k];
    } else {
      AllTagged(es, tag);
      assert es[..k] == es;
    }
  }

  /** In a stack whose `pad_above` entries all come first, they are exactly
      the entries before `FirstBelow`. */
  lemma SplitAtFirstBelow(es: seq<Entry>)
    requires forall i, j :: 0 <= i < j < |es| && es[j].padLoc == PadAbove ==> es[i].padLoc == PadAbove
    ensures forall i :: 0 <= i < |es| ==> (es[i].padLoc == PadAbove <==> i < FirstBelow(es))
  {
    var k := FirstBelow(es);
    forall i | k < i < |es|
      ensures es[i].padLoc != PadAbove
    {
      assert es[k].padLoc != PadAbove;
    }
  }

  /** A site's stack drawn from `min_by_site` rests on zero: the negative
      (`pad_above`) letters come first and fill `[min_by_site, 0]`, the
      cursor reaches 0 exactly where the positive (`pad_below`) letters
      begin, and the column ends at `max_by_site`. */
  lemma StackRestsOnZero(a: LayoutArgs, rows: seq<Clean>, s: int)
    requires SiteStack(a, rows, s).Ok?
    ensures var es := SiteStack(a, rows, s).value;
      var g := Group(rows, s);
      && (forall i :: FirstBelow(es) <= i < |es| ==> es[i].padLoc == PadBelow)
      && Cursor(es, NegativeSum(g), FirstBelow(es)) == 0.0
      && Cursor(es, NegativeSum(g), |es|) == PositiveSum(g)
  {
    var es := SiteStack(a, rows, s).value;
    var g := Group(rows, s);
    var k := FirstBelow(es);
    AboveBeforeBelow(a, rows, s);
    StackShape(a, rows, s);
    SplitAtFirstBelow(es);
    TaggedPrefix(es, PadAbove, k);
    StackSums(ColoringOf(a), g);
    CursorEnd(es, NegativeSum(g));
  }
}

=== FILE: labels.dfy ===
/** `_axes_to_centered_fig_label` of dmslogo/facet.py: the axis labels of
    several aligned axes are replaced by one figure label, centred on them.
    Which axes take part is decided by `facet_plot`: the bottom row for the
    x label, the first column of each drawing function for the y label. */
module Labels {
  import opened Results
  import opened Reals
  import opened Facet

  /** An axis label as drawn: its bounding box in figure coordinates and the
      properties that must agree among the labels that are merged. */
  datatype AxisLabel = AxisLabel(x0: real, x1: real, y0: real, y1: real, text: string, rotation: real, font: string)

  /** `fig.text(x, y, text, ha='center', va='center', rotation=..., fontproperties=...)`. */
  datatype FigText = FigText(x: real, y: real, text: string, rotation: real, font: string)

  function X0s(labels: seq<AxisLabel>): (r: seq<real>)
    ensures |r| == |labels| && forall i :: 0 <= i < |labels| ==> r[i] == labels[i].x0
  {
    seq(|labels|, i requires 0 <= i < |labels| => labels[i].x0)
  }

  function X1s(labels: seq<AxisLabel>): (r: seq<real>)
    ensures |r| == |labels| && forall i :: 0 <= i < |labels| ==> r[i] == labels[i].x1
  {
    seq(|labels|, i requires 0 <= i < |labels| => labels[i].x1)
  }

  function Y0s(labels: seq<AxisLabel>): (r: seq<real>)
    ensures |r| == |labels| && forall i :: 0 <= i < |labels| ==> r[i] == labels[i].y0
  {
    seq(|labels|, i requires 0 <= i < |labels| => labels[i].y0)
  }

  function Y1s(labels: seq<AxisLabel>): (r: seq<real>)
    ensures |r| == |labels| && forall i :: 0 <= i < |labels| ==> r[i] == labels[i].y1
  {
    seq(|labels|, i requires 0 <= i < |labels| => labels[i].y1)
  }

  /** The set of the labels' font properties has one element at most. */
  predicate SameFont(labels: seq<AxisLabel>) {
    forall i, j :: 0 <= i < |labels| && 0 <= j < |labels| ==> labels[i].font == labels[j].font
  }

  predicate SameRotation(labels: seq<AxisLabel>) {
    forall i, j :: 0 <= i < |labels| && 0 <= j < |labels| ==> labels[i].rotation == labels[j].rotation
  }

  predicate SameText(labels: seq<AxisLabel>) {
    forall i, j :: 0 <= i < |labels| && 0 <= j < |labels| ==> labels[i].text == labels[j].text
  }

  /** The figure label that replaces the labels of `axistype` ('x' or 'y').
      The properties are checked in the order the source collects them:
      font properties, rotation, text. An x label is centred between the
      leftmost left edge and the rightmost right edge, at the height of the
      lowest label; a y label is centred between the lowest bottom edge and
      the highest top edge, at the position of the leftmost label. */
  function CenteredLabel(labels: seq<AxisLabel>, axisType: string): (r: Result<FigText>)
    ensures r.Ok? <==>
      && (axisType == "x" || axisType == "y") && |labels| > 0
      && SameFont(labels) && SameRotation(labels) && SameText(labels)
    ensures axisType != "x" && axisType != "y" ==> r == Err(InvalidAxisType(axisType))
    ensures (axisType == "x" || axisType == "y") && |labels| == 0 ==> r == Err(EmptyAxList)
    ensures (axisType == "x" || axisType == "y") && |labels| > 0 && !SameFont(labels) ==>
      r == Err(MultipleLabelProperties("fontproperties"))
    ensures (axisType == "x" || axisType == "y") && |labels| > 0 && SameFont(labels) && !SameRotation(labels) ==>
      r == Err(MultipleLabelProperties("rotation"))
    ensures ((axisType == "x" || axisType == "y") && |labels| > 0 && SameFont(labels) && SameRotation(labels)
             && !SameText(labels)) ==> r == Err(MultipleLabelProperties("text"))
    ensures r.Ok? ==> forall i :: 0 <= i < |labels| ==>
      && r.value.text == labels[i].text && r.value.rotation == labels[i].rotation
      && r.value.font == labels[i].font
    ensures r.Ok? && axisType == "x" ==>
      && r.value.x == (Min(X0s(labels)) + Max(X1s(labels))) / 2.0
      && r.value.y == (Min(Y0s(labels)) + Min(Y1s(labels))) / 2.0
    ensures r.Ok? && axisType == "y" ==>
      && r.value.x == (Min(X0s(labels)) + Min(X1s(labels))) / 2.0
      && r.value.y == (Min(Y0s(labels)) + Max(Y1s(labels))) / 2.0
  {
    if axisType != "x" && axisType != "y" then Err(InvalidAxisType(axisType))
    else if |labels| == 0 then Err(EmptyAxList)
    else if !SameFont(labels) then Err(MultipleLabelProperties("fontproperties"))
    else if !SameRotation(labels) then Err(MultipleLabelProperties("rotation"))
    else if !SameText(labels) then Err(MultipleLabelProperties("text"))
    else Ok(Merged(labels, axisType))
  }

  /** The merged label once the checks have passed. */
  function Merged(labels: seq<AxisLabel>, axisType: string): (t: FigText)
    requires |labels| > 0 && SameFont(labels) && SameRotation(labels) && SameText(labels)
    ensures forall i :: 0 <= i < |labels| ==>
      t.text == labels[i].text && t.rotation == labels[i].rotation && t.font == labels[i].font
  {
    var p := Position(ExtentsOf(labels), axisType);
    FigText(p.0, p.1, labels[0].text, labels[0].rotation, labels[0].font)
  }

  /** The extremes of the labels' edges that the placement uses. */
  datatype Extents = Extents(left: real, right: real, rightMost: real, bottom: real, top: real, topMost: real)

  function ExtentsOf(labels: seq<AxisLabel>): Extents
    requires |labels| > 0
  {
    Extents(Min(X0s(labels)), Min(X1s(labels)), Max(X1s(labels)), Min(Y0s(labels)), Min(Y1s(labels)), Max(Y1s(labels)))
  }

  /** Where the merged label is centred. */
  function Position(e: Extents, axisType: string): (real, real)
  {
    if axisType == "x" then ((e.left + e.rightMost) / 2.0, (e.bottom + e.top) / 2.0)
    else ((e.left + e.right) / 2.0, (e.bottom + e.topMost) / 2.0)
  }

  /** Every label's box has its left edge left of its right edge and its
      bottom below its top. */
  predicate WellFormedBoxes(labels: seq<AxisLabel>) {
    forall i :: 0 <= i < |labels| ==> labels[i].x0 <= labels[i].x1 && labels[i].y0 <= labels[i].y1
  }

  /** With well-formed boxes the merged label's centre lies inside the box
      that spans all the labels. */
  lemma CenteredLabelWithin(labels: seq<AxisLabel>, axisType: string)
    requires CenteredLabel(labels, axisType).Ok? && WellFormedBoxes(labels)
    ensures var t := CenteredLabel(labels, axisType).value;
      && (exists i :: 0 <= i < |labels| && labels[i].x0 <= t.x)
      && (exists j :: 0 <= j < |labels| && t.x <= labels[j].x1)
      && (exists i :: 0 <= i < |labels| && labels[i].y0 <= t.y)
      && (exists j :: 0 <= j < |labels| && t.y <= labels[j].y1)
  {
    var t := CenteredLabel(labels, axisType).value;
    var left, right, rightMost := Min(X0s(labels)), Min(X1s(labels)), Max(X1s(labels));
    var bottom, top, topMost := Min(Y0s(labels)), Min(Y1s(labels)), Max(Y1s(labels));
    var il :| 0 <= il < |labels| && X0s(labels)[il] == left;
    var ir :| 0 <= ir < |labels| && X1s(labels)[ir] == right;
    var iR :| 0 <= iR < |labels| && X1s(labels)[iR] == rightMost;
    var ib :| 0 <= ib < |labels| && Y0s(labels)[ib] == bottom;
    var it :| 0 <= it < |labels| && Y1s(labels)[it] == top;
    var iT :| 0 <= iT < |labels| && Y1s(labels)[iT] == topMost;
    assert left <= labels[ir].x0 <= right <= rightMost;
    assert bottom <= labels[it].y0 <= top <= topMost;
    if axisType == "x" {
      assert t.x == (left + rightMost) / 2.0 && t.y == (bottom + top) / 2.0;
      assert labels[il].x0 <= t.x <= labels[iR].x1;
      assert labels[ib].y0 <= t.y <= labels[it].y1;
    } else {
      assert t.x == (left + right) / 2.0 && t.y == (bottom + topMost) / 2.0;
      assert labels[il].x0 <= t.x <= labels[ir].x1;
      assert labels[ib].y0 <= t.y <= labels[iT].y1;
    }
  }

  /** The smallest and largest of two sequences with the same elements
      agree. */
  lemma ExtremesOfSameElements(xs: seq<real>, ys: seq<real>)
    requires |xs| > 0 && |ys| > 0
    requires forall i :: 0 <= i < |xs| ==> xs[i] in ys
    requires forall j :: 0 <= j < |ys| ==> ys[j] in xs
    ensures Min(xs) == Min(ys) && Max(xs) == Max(ys)
  {
    assert xs[0] in ys;
    var i :| 0 <= i < |xs| && xs[i] == Min(xs);
    var j :| 0 <= j < |ys| && ys[j] == Min(ys);
    assert Min(ys) <= Min(xs) by { assert xs[i] in ys; }
    assert Min(xs) <= Min(ys) by { assert ys[j] in xs; }
    var k :| 0 <= k < |xs| && xs[k] == Max(xs);
    var l :| 0 <= l < |ys| && ys[l] == Max(ys);
    assert Max(xs) <= Max(ys) by { assert xs[k] in ys; }
    assert Max(ys) <= Max(xs) by { assert ys[l] in xs; }
  }

  /** Each label of `a` is among those of `b`, so is each of its edges. */
  lemma EdgesAmong(a: seq<AxisLabel>, b: seq<AxisLabel>)
    requires forall i :: 0 <= i < |a| ==> a[i] in b
    ensures forall i :: 0 <= i < |a| ==>
      && X0s(a)[i] in X0s(b) && X1s(a)[i] in X1s(b)
      && Y0s(a)[i] in Y0s(b) && Y1s(a)[i] in Y1s(b)
  {
    forall i | 0 <= i < |a|
      ensures && X0s(a)[i] in X0s(b) && X1s(a)[i] in X1s(b)
              && Y0s(a)[i] in Y0s(b) && Y1s(a)[i] in Y1s(b)
    {
      var j :| 0 <= j < |b| && b[j] == a[i];
      assert X0s(b)[j] == a[i].x0 && X1s(b)[j] == a[i].x1;
      assert Y0s(b)[j] == a[i].y0 && Y1s(b)[j] == a[i].y1;
    }
  }

  /** Whether the labels agree on a property depends only on which labels
      there are. */
  lemma SamePropertiesOfSameElements(a: seq<AxisLabel>, b: seq<AxisLabel>)
    requires forall i :: 0 <= i < |a| ==> a[i] in b
    requires forall j :: 0 <= j < |b| ==> b[j] in a
    ensures SameFont(a) <==> SameFont(b)
    ensures SameRotation(a) <==> SameRotation(b)
    ensures SameText(a) <==> SameText(b)
  {
    SameOneWay(a, b);
    SameOneWay(b, a);
  }

  lemma SameOneWay(a: seq<AxisLabel>, b: seq<AxisLabel>)
    requires forall j :: 0 <= j < |b| ==> b[j] in a
    ensures SameFont(a) ==> SameFont(b)
    ensures SameRotation(a) ==> SameRotation(b)
    ensures SameText(a) ==> SameText(b)
  {
    forall i, j | 0 <= i < |b| && 0 <= j < |b|
      ensures SameFont(a) ==> b[i].font == b[j].font
      ensures SameRotation(a) ==> b[i].rotation == b[j].rotation
      ensures SameText(a) ==> b[i].text == b[j].text
    {
      assert b[i] in a && b[j] in a;
    }
  }

  /** The source collects the edges in lists and the properties in sets and
      only takes their extremes and single elements: the merged label does
      not depend on the order of the axes, nor on repeated ones. */
  lemma CenteredLabelSameElements(a: seq<AxisLabel>, b: seq<AxisLabel>, axisType: string)
    requires forall i :: 0 <= i < |a| ==> a[i] in b
    requires forall j :: 0 <= j < |b| ==> b[j] in a
    ensures CenteredLabel(a, axisType) == CenteredLabel(b, axisType)
  {
    if |a| > 0 {
      assert a[0] in b;
      var j0 :| 0 <= j0 < |b| && b[j0] == a[0];
      assert b[0] in a;
      SamePropertiesOfSameElements(a, b);
      ExtentsOfSameElements(a, b);
    }
  }

  lemma ExtentsOfSameElements(a: seq<AxisLabel>, b: seq<AxisLabel>)
    requires |a| > 0 && |b| > 0
    requires forall i :: 0 <= i < |a| ==> a[i] in b
    requires forall j :: 0 <= j < |b| ==> b[j] in a
    ensures ExtentsOf(a) == ExtentsOf(b)
  {
    assert Min(X0s(a)) == Min(X0s(b)) by {
      EdgesAmong(a, b);
      EdgesAmong(b, a);
      ExtremesOfSameElements(X0s(a), X0s(b));
    }
    assert Min(X1s(a)) == Min(X1s(b)) && Max(X1s(a)) == Max(X1s(b)) by {
      EdgesAmong(a, b);
      EdgesAmong(b, a);
      ExtremesOfSameElements(X1s(a), X1s(b));
    }
    assert Min(Y0s(a)) == Min(Y0s(b)) by {
      EdgesAmong(a, b);
      EdgesAmong(b, a);
      ExtremesOfSameElements(Y0s(a), Y0s(b));
    }
    assert Min(Y1s(a)) == Min(Y1s(b)) && Max(Y1s(a)) == Max(Y1s(b)) by {
      EdgesAmong(a, b);
      EdgesAmong(b, a);
      ExtremesOfSameElements(Y1s(a), Y1s(b));
    }
  }

  // ------------------------------------------------- which axes are labelled

  /** A grid position: row and column of the axes array. */
  datatype Pos = Pos(irow: nat, column: nat)

  /** Without `share_xlabel`: for each drawing function, the axes of its
      columns in the bottom row. */
  function XLabelAxes(nrows: nat, nfuncs: nat, ncols: nat): (r: seq<seq<Pos>>)
    requires nrows > 0
    ensures |r| == nfuncs && forall f :: 0 <= f < nfuncs ==>
      |r[f]| == ncols && forall c :: 0 <= c < ncols ==> r[f][c] == Pos(nrows - 1, f * ncols + c)
  {
    seq(nfuncs, f requires 0 <= f < nfuncs => seq(ncols, c requires 0 <= c < ncols => Pos(nrows - 1, f * ncols + c)))
  }

  /** Without `share_ylabel`: for each drawing function, the axes of its
      first column in every row. */
  function YLabelAxes(nrows: nat, nfuncs: nat, ncols: nat): (r: seq<seq<Pos>>)
    ensures |r| == nfuncs && forall f :: 0 <= f < nfuncs ==>
      |r[f]| == nrows && forall i :: 0 <= i < nrows ==> r[f][i] == Pos(i, f * ncols)
  {
    seq(nfuncs, f requires 0 <= f < nfuncs => seq(nrows, i requires 0 <= i < nrows => Pos(i, f * ncols)))
  }

  /** Column `c` of the bottom row, for every drawing function in turn. */
  function XColumnAcross(nrows: nat, nfuncs: nat, ncols: nat, c: nat): (r: seq<Pos>)
    requires nrows > 0
    ensures |r| == nfuncs && forall f :: 0 <= f < nfuncs ==> r[f] == Pos(nrows - 1, f * ncols + c)
  {
    seq(nfuncs, f requires 0 <= f < nfuncs => Pos(nrows - 1, f * ncols + c))
  }

  /** With `share_xlabel`: one list of the bottom-row axes of every drawing
      function, column by column (the first `upto` columns) and, within a
      column, function by function. */
  function SharedXLabelAxes(nrows: nat, nfuncs: nat, ncols: nat, upto: nat): (r: seq<Pos>)
    requires nrows > 0
    ensures forall p :: p in r <==> exists c :: 0 <= c < upto && p in XColumnAcross(nrows, nfuncs, ncols, c)
  {
    if upto == 0 then []
    else
      var prev := SharedXLabelAxes(nrows, nfuncs, ncols, upto - 1);
      var last := XColumnAcross(nrows, nfuncs, ncols, upto - 1);
      assert forall p :: p in prev + last <==> p in prev || p in last;
      prev + last
  }

  /** Row `i` of the first column, for every drawing function in turn. */
  function YRowAcross(nfuncs: nat, ncols: nat, i: nat): (r: seq<Pos>)
    ensures |r| == nfuncs && forall f :: 0 <= f < nfuncs ==> r[f] == Pos(i, f * ncols)
  {
    seq(nfuncs, f requires 0 <= f < nfuncs => Pos(i, f * ncols))
  }

  /** With `share_ylabel`: one list of the first-column axes of every
      drawing function, row by row (the first `upto` rows) and, within a
      row, function by function. */
  function SharedYLabelAxes(nfuncs: nat, ncols: nat, upto: nat): (r: seq<Pos>)
    ensures forall p :: p in r <==> exists i :: 0 <= i < upto && p in YRowAcross(nfuncs, ncols, i)
  {
    if upto == 0 then []
    else
      var prev := SharedYLabelAxes(nfuncs, ncols, upto - 1);
      var last := YRowAcross(nfuncs, ncols, upto - 1);
      assert forall p :: p in prev + last <==> p in prev || p in last;
      prev + last
  }

  /** Sharing the x label merges exactly the axes that are merged function
      by function without it, so by `CenteredLabelSameElements` the one
      label sits where the union of the separate groups puts it. */
  lemma SharedXLabelAxesJoin(nrows: nat, nfuncs: nat, ncols: nat)
    requires nrows > 0
    ensures forall p :: p in SharedXLabelAxes(nrows, nfuncs, ncols, ncols) <==>
      exists f :: 0 <= f < nfuncs && p in XLabelAxes(nrows, nfuncs, ncols)[f]
  {
    var per := XLabelAxes(nrows, nfuncs, ncols);
    forall p, c | 0 <= c < ncols && p in XColumnAcross(nrows, nfuncs, ncols, c)
      ensures exists f :: 0 <= f < nfuncs && p in per[f]
    {
      var col := XColumnAcross(nrows, nfuncs, ncols, c);
      var f :| 0 <= f < nfuncs && col[f] == p;
      assert per[f][c] == p;
    }
    forall p, f | 0 <= f < nfuncs && p in per[f]
      ensures exists c :: 0 <= c < ncols && p in XColumnAcross(nrows, nfuncs, ncols, c)
    {
      var c :| 0 <= c < ncols && per[f][c] == p;
      assert XColumnAcross(nrows, nfuncs, ncols, c)[f] == p;
    }
  }

  /** Sharing the y label merges exactly the axes that are merged function
      by function without it. */
  lemma SharedYLabelAxesJoin(nrows: nat, nfuncs: nat, ncols: nat)
    ensures forall p :: p in SharedYLabelAxes(nfuncs, ncols, nrows) <==>
      exists f :: 0 <= f < nfuncs && p in YLabelAxes(nrows, nfuncs, ncols)[f]
  {
    var per := YLabelAxes(nrows, nfuncs, ncols);
    forall p, i | 0 <= i < nrows && p in YRowAcross(nfuncs, ncols, i)
      ensures exists f :: 0 <= f < nfuncs && p in per[f]
    {
      var row := YRowAcross(nfuncs, ncols, i);
      var f :| 0 <= f < nfuncs && row[f] == p;
      assert per[f][i] == p;
    }
    forall p, f | 0 <= f < nfuncs && p in per[f]
      ensures exists i :: 0 <= i < nrows && p in YRowAcross(nfuncs, ncols, i)
    {
      var i :| 0 <= i < nrows && per[f][i] == p;
      assert YRowAcross(nfuncs, ncols, i)[f] == p;
    }
  }

  /** The labels that are merged come from axes that show that axis: the
      x labels from cells whose x axis is not hidden, the y labels from
      cells whose y axis is not hidden, and each such axes is a cell of the
      drawing function it is grouped with. */
  lemma LabelledAxesShowTheirAxis(fs: seq<FuncGroups>, ncols: nat, nrows: nat)
    requires nrows > 0 && ncols > 0
    requires GroupsFit(fs, ncols, nrows) && GridCells(fs, ncols, nrows).Ok?
    ensures var g := GridCells(fs, ncols, nrows).value;
      var xs, ys := XLabelAxes(nrows, |fs|, ncols), YLabelAxes(nrows, |fs|, ncols);
      && (forall f, c :: 0 <= f < |fs| && 0 <= c < ncols ==>
            && g[f][xs[f][c].irow][c].irow == xs[f][c].irow
            && g[f][xs[f][c].irow][c].column == xs[f][c].column
            && !g[f][xs[f][c].irow][c].hideX)
      && (forall f, i :: 0 <= f < |fs| && 0 <= i < nrows ==>
            && g[f][ys[f][i].irow][0].irow == ys[f][i].irow
            && g[f][ys[f][i].irow][0].column == ys[f][i].column
            && !g[f][ys[f][i].irow][0].hideY)
  {
    var g: seq<seq<seq<Cell>>> := GridCells(fs, ncols, nrows).value;
    var last := nrows - 1;
    forall f: int, c: int | 0 <= f < |fs| && 0 <= c < ncols
      ensures && g[f][last][c].irow == last
              && g[f][last][c].column == f * ncols + c
              && !g[f][last][c].hideX
    {
      assert g[f] == FuncCells(f, ncols, nrows, fs[f].rows, fs[f].suffix).value;
      assert g[f][last] == RowCells(f, ncols, nrows, last, fs[f].rows[last], fs[f].suffix);
    }
    forall f: int, i: int | 0 <= f < |fs| && 0 <= i < nrows
      ensures && g[f][i][0].irow == i
              && g[f][i][0].column == f * ncols
              && !g[f][i][0].hideY
    {
      assert g[f] == FuncCells(f, ncols, nrows, fs[f].rows, fs[f].suffix).value;
      assert g[f][i] == RowCells(f, ncols, nrows, i, fs[f].rows[i], fs[f].suffix);
    }
  }
}

=== FILE: layout.dfy ===
/** The column layout of `draw_logo` (dmslogo/logo.py): input validation,
    then one pass over the sites in ascending order that inserts an empty
    break column before every site that does not follow its predecessor,
    encodes each letter as its absolute height plus a `pad_below` /
    `pad_above` tag, and records the per-site negative and positive sums,
    tick positions and tick labels. */
module LogoLayout {
  import opened Results
  import opened Reals
  import opened Tables

  const PadBelow: string := "pad_below"
  const PadAbove: string := "pad_above"

  /** One letter of a stack: `(letter, abs(height), color, pad_loc)`. */
  datatype Entry = Entry(letter: string, height: real, color: string, padLoc: string)

  function Abs(x: real): real {
    if x < 0.0 then -x else x
  }

  /** The arguments of `draw_logo` that shape the layout. */
  datatype LayoutArgs = LayoutArgs(
    xCol: string,
    letterCol: string,
    heightCol: string,
    xtickCol: Option<string>,
    colorCol: Option<string>,
    scheme: map<char, string>,
    missingColor: Option<string>,
    addBreaks: bool,
    clipNegativeHeights: bool,
    dropNaHeights: bool)

  /** `xtick_col` defaults to `x_col`. */
  function XtickCol(a: LayoutArgs): string {
    if a.xtickCol.Some? then a.xtickCol.value else a.xCol
  }

  function ColoringOf(a: LayoutArgs): Coloring {
    Coloring(a.colorCol.Some?, a.scheme, a.missingColor)
  }

  // ------------------------------------------------------------- validation

  /** `data[-data[letter_height_col].isna()]`. */
  function DropNa(rows: seq<Row>): (r: seq<Row>)
    ensures forall i :: 0 <= i < |r| ==> r[i].height.Some?
    ensures forall x: Row :: x.height.Some? ==> multiset(r)[x] == multiset(rows)[x]
    ensures |r| <= |rows|
  {
    if |rows| == 0 then []
    else
      var prefix := rows[..|rows| - 1];
      assert rows == prefix + [rows[|rows| - 1]];
      var kept := DropNa(prefix);
      if rows[|rows| - 1].height.Some? then kept + [rows[|rows| - 1]] else kept
  }

  predicate AllKnown(rows: seq<Row>) {
    forall i :: 0 <= i < |rows| ==> rows[i].height.Some?
  }

  predicate AllWhole(rows: seq<Row>) {
    forall i :: 0 <= i < |rows| ==> rows[i].site.IsWhole()
  }

  /** `numpy.clip(h, 0, None)` when clipping is on. */
  function ClipHeight(h: real, clip: bool): (r: real)
    ensures clip ==> r >= 0.0 && (h >= 0.0 ==> r == h)
    ensures !clip ==> r == h
  {
    if clip && h < 0.0 then 0.0 else h
  }

  /** The rows with integer sites and known heights, clipped if asked. */
  function ToClean(rows: seq<Row>, clip: bool): (r: seq<Clean>)
    requires AllKnown(rows) && AllWhole(rows)
    ensures |r| == |rows|
    ensures forall i :: 0 <= i < |rows| ==>
      && r[i].site as real == rows[i].site.AsReal()
      && r[i].letter == rows[i].letter && r[i].tick == rows[i].tick && r[i].color == rows[i].color
      && r[i].height == ClipHeight(rows[i].height.value, clip)
      && r[i].shade == rows[i].shade
  {
    seq(|rows|, i requires 0 <= i < |rows| =>
      Clean(rows[i].site.AsReal().Floor, rows[i].letter, ClipHeight(rows[i].height.value, clip),
            rows[i].tick, rows[i].color, rows[i].shade))
  }

  /** Every site has one tick label: `len(set(g[xtick_col])) == 1` for
      every group. */
  predicate TicksConsistent(rows: seq<Clean>) {
    forall i, j :: 0 <= i < |rows| && 0 <= j < |rows| && rows[i].site == rows[j].site ==>
      rows[i].tick == rows[j].tick
  }

  /** The checks of `draw_logo` before the layout loop, in source order.
      The rows here already carry their letters, so a frame without
      `letter_col`, for which the library raises a `KeyError` while reading
      the letters, gets the upper-case check on the rows and then
      `MissingColumn(letter_col)`. */
  function Validate(a: LayoutArgs, t: Table): (r: Result<seq<Clean>>)
    ensures !AllUppercase(t.rows) ==> r == Err(LettersNotUppercase)
    ensures r.Ok? ==>
      && AllUppercase(t.rows)
      && a.heightCol in t.columns && a.letterCol in t.columns
      && a.xCol in t.columns && XtickCol(a) in t.columns
      && (a.colorCol.Some? ==> a.colorCol.value in t.columns)
      && TicksConsistent(r.value)
    ensures r.Ok? && a.dropNaHeights ==> |r.value| > 0
    ensures r.Ok? && a.clipNegativeHeights ==> forall i :: 0 <= i < |r.value| ==> r.value[i].height >= 0.0
    ensures a.dropNaHeights && AllUppercase(t.rows) && r.Ok? ==>
      |r.value| == |DropNa(t.rows)| && exists i :: 0 <= i < |t.rows| && t.rows[i].height.Some?
    ensures AllUppercase(t.rows) && a.dropNaHeights
      && (forall i :: 0 <= i < |t.rows| ==> t.rows[i].height.None?)
      && a.heightCol in t.columns && a.letterCol in t.columns
      && a.xCol in t.columns && XtickCol(a) in t.columns
      && (a.colorCol.Some? ==> a.colorCol.value in t.columns)
      ==> r == Err(NoDataAfterDroppingNan)
  {
    var _ :- Check(AllUppercase(t.rows), LettersNotUppercase);
    var _ :- RequiredColumns(a, t.columns);
    Cleaned(a, t.rows)
  }

  /** The columns `draw_logo` reads are in the frame. */
  function RequiredColumns(a: LayoutArgs, columns: set<string>): (r: Result<()>)
    ensures r.Ok? <==>
      && a.heightCol in columns && a.letterCol in columns
      && a.xCol in columns && XtickCol(a) in columns
      && (a.colorCol.Some? ==> a.colorCol.value in columns)
  {
    var required := [a.heightCol, a.letterCol, a.xCol, XtickCol(a)];
    var _ :- CheckColumns(columns, required);
    assert required[0] in columns && required[1] in columns;
    assert required[2] in columns && required[3] in columns;
    CheckOptionalColumn(columns, a.colorCol)
  }

  /** The rows once heights are dropped or checked, sites made whole and
      heights clipped; a site's rows must agree on their tick label. A NaN
      height that is kept has no real value to carry on with, so it is
      rejected here, where the library would stack it. */
  function Cleaned(a: LayoutArgs, rows0: seq<Row>): (r: Result<seq<Clean>>)
    ensures r.Ok? ==> TicksConsistent(r.value)
    ensures r.Ok? && a.dropNaHeights ==> |r.value| > 0
    ensures r.Ok? && a.clipNegativeHeights ==> forall i :: 0 <= i < |r.value| ==> r.value[i].height >= 0.0
    ensures a.dropNaHeights && r.Ok? ==>
      |r.value| == |DropNa(rows0)| && exists i :: 0 <= i < |rows0| && rows0[i].height.Some?
    ensures a.dropNaHeights && (forall i :: 0 <= i < |rows0| ==> rows0[i].height.None?) ==>
      r == Err(NoDataAfterDroppingNan)
  {
    var rows := if a.dropNaHeights then DropNa(rows0) else rows0;
    if a.dropNaHeights && |rows| == 0 then
      Err(NoDataAfterDroppingNan)
    else
      assert a.dropNaHeights ==> exists i :: 0 <= i < |rows0| && rows0[i].height.Some? by {
        if a.dropNaHeights {
          assert rows[0] in multiset(rows);
          assert rows[0] in multiset(rows0);
        }
      }
      var _ :- Check(AllKnown(rows), NanHeight);
      var _ :- Check(AllWhole(rows), NonIntegerSite);
      var clean := ToClean(rows, a.clipNegativeHeights);
      var _ :- Check(TicksConsistent(clean), AmbiguousTickLabel);
      Ok(clean)
  }

  // ------------------------------------------------------------- stacks

  /** The tag saying where a letter's padding goes. */
  function PadLocOf(h: real): string {
    if h >= 0.0 then PadBelow else PadAbove
  }

  /** A row passes the per-letter checks: a one-character letter with a
      colour. */
  predicate RowOk(c: Coloring, row: Clean) {
    |row.letter| == 1 && ResolveColor(c, row.letter, row.color).Ok?
  }

  /** The entries of one site's rows, or the first row's error. */
  function Entries(c: Coloring, g: seq<Clean>): (r: Result<seq<Entry>>)
    ensures r.Ok? <==> forall i :: 0 <= i < |g| ==> RowOk(c, g[i])
    ensures r.Ok? ==> |r.value| == |g| && forall i :: 0 <= i < |g| ==>
      && r.value[i].letter == g[i].letter
      && r.value[i].height == Abs(g[i].height)
      && r.value[i].padLoc == PadLocOf(g[i].height)
      && r.value[i].color == ResolveColor(c, g[i].letter, g[i].color).value
  {
    if |g| == 0 then Ok([])
    else
      var prefix := g[..|g| - 1];
      var row := g[|g| - 1];
      var prev :- Entries(c, prefix);
      var _ :- CheckLetter(row.letter);
      var color :- ResolveColor(c, row.letter, row.color);
      Ok(prev + [Entry(row.letter, Abs(row.height), color, PadLocOf(row.height))])
  }

  /** The stack of site `s`: duplicate letters are rejected first, then each
      row in height order. */
  function SiteStack(a: LayoutArgs, rows: seq<Clean>, s: int): (r: Result<seq<Entry>>)
    ensures r.Ok? <==> DistinctLetters(Group(rows, s)) && Entries(ColoringOf(a), Group(rows, s)).Ok?
    ensures r.Ok? ==> r == Entries(ColoringOf(a), Group(rows, s))
    ensures !DistinctLetters(Group(rows, s)) ==> r == Err(DuplicateLetter(s))
  {
    var g := Group(rows, s);
    var _ :- Check(DistinctLetters(g), DuplicateLetter(s));
    Entries(ColoringOf(a), g)
  }

  // ------------------------------------------------------------- layout

  /** The state of the layout loop: `height_matrix`, the per-site sums (with
      zeros for break columns), the sums of real sites only, tick positions
      and labels, the break column indices, and the running `xtick`. */
  datatype Layout = Layout(
    columns: seq<seq<Entry>>,
    minBySite: seq<real>,
    maxBySite: seq<real>,
    minNonempty: seq<real>,
    maxNonempty: seq<real>,
    xticks: seq<real>,
    labels: seq<string>,
    breaks: seq<nat>,
    nextTick: real)

  const EmptyLayout := Layout([], [], [], [], [], [], [], [], 0.5)

  /** Appends an empty break column. */
  function AddBreak(l: Layout): Layout {
    l.(columns := l.columns + [[]], minBySite := l.minBySite + [0.0], maxBySite := l.maxBySite + [0.0],
       breaks := l.breaks + [|l.columns|], nextTick := l.nextTick + 1.0)
  }

  /** Appends the stack of a site with its sums and tick. */
  function AddSite(l: Layout, stack: seq<Entry>, lo: real, hi: real, tickLabel: string): Layout {
    l.(columns := l.columns + [stack], minBySite := l.minBySite + [lo], maxBySite := l.maxBySite + [hi],
       minNonempty := l.minNonempty + [lo], maxNonempty := l.maxNonempty + [hi],
       xticks := l.xticks + [l.nextTick], labels := l.labels + [tickLabel], nextTick := l.nextTick + 1.0)
  }

  predicate SitesPresent(rows: seq<Clean>, ss: seq<int>) {
    forall k :: 0 <= k < |ss| ==> HasSite(rows, ss[k])
  }

  /** Every site has a stack: no duplicate letter, bad letter or missing
      colour anywhere. */
  predicate AllStacksOk(a: LayoutArgs, rows: seq<Clean>, ss: seq<int>) {
    forall k :: 0 <= k < |ss| ==> SiteStack(a, rows, ss[k]).Ok?
  }

  /** Column `c` is site `k`'s: its stack, sums, tick and label. */
  predicate SiteAt(a: LayoutArgs, rows: seq<Clean>, ss: seq<int>, l: Layout, k: int, c: int)
    requires 0 <= k < |ss| && SitesPresent(rows, ss) && AllStacksOk(a, rows, ss)
    requires 0 <= c < |l.columns| && |l.minBySite| == |l.maxBySite| == |l.columns|
    requires |l.minNonempty| == |l.maxNonempty| == |l.xticks| == |l.labels| == |ss|
  {
    var g := Group(rows, ss[k]);
    && l.columns[c] == SiteStack(a, rows, ss[k]).value
    && l.minBySite[c] == l.minNonempty[k] == NegativeSum(g)
    && l.maxBySite[c] == l.maxNonempty[k] == PositiveSum(g)
    && l.xticks[k] == c as real + 0.5
    && l.labels[k] == g[0].tick
  }

  /** What the layout loop has built after the sites `ss`: one column per
      site plus one per break, the tick of every site at its column index
      plus one half, and empty break columns with zero sums. */
  predicate LayoutInvariant(a: LayoutArgs, rows: seq<Clean>, ss: seq<int>, l: Layout)
    requires SitesPresent(rows, ss) && AllStacksOk(a, rows, ss)
  {
    && |l.columns| == |l.minBySite| == |l.maxBySite| == |ss| + BreakCount(a.addBreaks, ss)
    && |l.minNonempty| == |l.maxNonempty| == |l.xticks| == |l.labels| == |ss|
    && |l.breaks| == BreakCount(a.addBreaks, ss)
    && l.nextTick == |l.columns| as real + 0.5
    && (forall k :: 0 <= k < |ss| ==>
          SiteColumn(a.addBreaks, ss, k) < |l.columns|
          && SiteAt(a, rows, ss, l, k, SiteColumn(a.addBreaks, ss, k)))
    && (forall b :: 0 <= b < |l.breaks| ==>
          l.breaks[b] < |l.columns| && l.columns[l.breaks[b]] == []
          && l.minBySite[l.breaks[b]] == 0.0 && l.maxBySite[l.breaks[b]] == 0.0)
  }

  /** One turn of the loop: an optional break, then the site `ss[|ss|-1]`. */
  function Step(a: LayoutArgs, rows: seq<Clean>, ss: seq<int>, p: Layout): Layout
    requires |ss| > 0 && HasSite(rows, ss[|ss| - 1]) && SiteStack(a, rows, ss[|ss| - 1]).Ok?
  {
    var n := |ss| - 1;
    var withBreak := if BreakBefore(a.addBreaks, ss, n) then AddBreak(p) else p;
    AddSite(withBreak, StackOf(a, rows, ss[n]), SiteNegative(rows, ss[n]), SitePositive(rows, ss[n]),
            SiteTick(rows, ss[n]))
  }

  /** The sum of a site's negative heights. */
  function SiteNegative(rows: seq<Clean>, s: int): real {
    NegativeSum(Group(rows, s))
  }

  /** The sum of a site's positive heights. */
  function SitePositive(rows: seq<Clean>, s: int): real {
    PositiveSum(Group(rows, s))
  }

  /** The stack of a site whose rows are all good. */
  function StackOf(a: LayoutArgs, rows: seq<Clean>, s: int): seq<Entry>
    requires SiteStack(a, rows, s).Ok?
  {
    SiteStack(a, rows, s).value
  }

  /** The tick label of a site: its first row's. */
  function SiteTick(rows: seq<Clean>, s: int): string
    requires HasSite(rows, s)
  {
    Group(rows, s)[0].tick
  }

  lemma PrefixFacts(a: LayoutArgs, rows: seq<Clean>, ss: seq<int>)
    requires |ss| > 0 && SitesPresent(rows, ss)
    ensures SitesPresent(rows, ss[..|ss| - 1])
    ensures AllStacksOk(a, rows, ss) <==>
      AllStacksOk(a, rows, ss[..|ss| - 1]) && SiteStack(a, rows, ss[|ss| - 1]).Ok?
  {
    PrefixPresent(rows, ss);
    PrefixStacks(a, rows, ss);
  }

  lemma PrefixPresent(rows: seq<Clean>, ss: seq<int>)
    requires |ss| > 0 && SitesPresent(rows, ss)
    ensures SitesPresent(rows, ss[..|ss| - 1])
  {
    var prefix := ss[..|ss| - 1];
    forall k | 0 <= k < |prefix|
      ensures HasSite(rows, prefix[k])
    {
      assert prefix[k] == ss[k];
    }
  }

  lemma PrefixStacks(a: LayoutArgs, rows: seq<Clean>, ss: seq<int>)
    requires |ss| > 0
    ensures AllStacksOk(a, rows, ss) <==>
      AllStacksOk(a, rows, ss[..|ss| - 1]) && SiteStack(a, rows, ss[|ss| - 1]).Ok?
  {
    PrefixAll(ss, ss[..|ss| - 1], s => SiteStack(a, rows, s).Ok?);
  }

  /** A property holds of every element exactly when it holds of every
      element but the last, and of the last. */
  lemma PrefixAll(ss: seq<int>, prefix: seq<int>, ok: int -> bool)
    requires |ss| > 0 && prefix == ss[..|ss| - 1]
    ensures (forall k :: 0 <= k < |ss| ==> ok(ss[k])) <==>
      (forall k :: 0 <= k < |prefix| ==> ok(prefix[k])) && ok(ss[|ss| - 1])
  {
    assert forall k :: 0 <= k < |prefix| ==> prefix[k] == ss[k];
  }

  /** A site that is not the last keeps its column when the list grows. */
  lemma SiteColumnPrefix(addBreaks: bool, ss: seq<int>, k: int)
    requires 0 <= k < |ss| - 1
    ensures SiteColumn(addBreaks, ss, k) == SiteColumn(addBreaks, ss[..|ss| - 1], k)
  {
    assert ss[..k + 1] == ss[..|ss| - 1][..k + 1];
  }

  /** Appending keeps every earlier column, sum, tick and label. */
  lemma StepExtends(a: LayoutArgs, rows: seq<Clean>, ss: seq<int>, p: Layout)
    requires |ss| > 0 && SitesPresent(rows, ss) && SiteStack(a, rows, ss[|ss| - 1]).Ok?
    ensures var l := Step(a, rows, ss, p);
      && l.columns[..|p.columns|] == p.columns
      && l.minBySite[..|p.minBySite|] == p.minBySite
      && l.maxBySite[..|p.maxBySite|] == p.maxBySite
      && l.minNonempty[..|p.minNonempty|] == p.minNonempty
      && l.maxNonempty[..|p.maxNonempty|] == p.maxNonempty
      && l.xticks[..|p.xticks|] == p.xticks
      && l.labels[..|p.labels|] == p.labels
      && l.breaks[..|p.breaks|] == p.breaks
  {
  }

  lemma StepSizes(a: LayoutArgs, rows: seq<Clean>, ss: seq<int>, p: Layout)
    requires |ss| > 0 && SitesPresent(rows, ss) && SiteStack(a, rows, ss[|ss| - 1]).Ok?
    requires |p.columns| == |p.minBySite| == |p.maxBySite| == |ss| - 1 + BreakCount(a.addBreaks, ss[..|ss| - 1])
    requires |p.minNonempty| == |p.maxNonempty| == |p.xticks| == |p.labels| == |ss| - 1
    requires |p.breaks| == BreakCount(a.addBreaks, ss[..|ss| - 1])
    requires p.nextTick == |p.columns| as real + 0.5
    ensures var l := Step(a, rows, ss, p);
      && |l.columns| == |l.minBySite| == |l.maxBySite| == |ss| + BreakCount(a.addBreaks, ss)
      && |l.minNonempty| == |l.maxNonempty| == |l.xticks| == |l.labels| == |ss|
      && |l.breaks| == BreakCount(a.addBreaks, ss)
      && l.nextTick == |l.columns| as real + 0.5
      && SiteColumn(a.addBreaks, ss, |ss| - 1) == |l.columns| - 1
      && l.xticks[|ss| - 1] == (|l.columns| - 1) as real + 0.5
  {
    var n := |ss| - 1;
    assert ss[..n + 1] == ss;
  }

  /** An earlier site keeps its column and everything recorded for it. */
  lemma StepKeepsSite(a: LayoutArgs, rows: seq<Clean>, ss: seq<int>, p: Layout, k: int)
    requires |ss| > 0 && SitesPresent(rows, ss) && AllStacksOk(a, rows, ss)
    requires SitesPresent(rows, ss[..|ss| - 1]) && AllStacksOk(a, rows, ss[..|ss| - 1])
    requires 0 <= k < |ss| - 1
    requires |p.columns| == |p.minBySite| == |p.maxBySite|
    requires |p.minNonempty| == |p.maxNonempty| == |p.xticks| == |p.labels| == |ss| - 1
    requires SiteColumn(a.addBreaks, ss[..|ss| - 1], k) < |p.columns|
    requires SiteAt(a, rows, ss[..|ss| - 1], p, k, SiteColumn(a.addBreaks, ss[..|ss| - 1], k))
    requires var l := Step(a, rows, ss, p);
      |l.columns| == |l.minBySite| == |l.maxBySite|
      && |l.minNonempty| == |l.maxNonempty| == |l.xticks| == |l.labels| == |ss|
    ensures SiteColumn(a.addBreaks, ss, k) < |Step(a, rows, ss, p).columns|
    ensures SiteAt(a, rows, ss, Step(a, rows, ss, p), k, SiteColumn(a.addBreaks, ss, k))
  {
    var l := Step(a, rows, ss, p);
    var prefix := ss[..|ss| - 1];
    SiteColumnPrefix(a.addBreaks, ss, k);
    StepExtends(a, rows, ss, p);
    var c := SiteColumn(a.addBreaks, ss, k);
    assert ss[k] == prefix[k];
    assert l.columns[c] == p.columns[c] && l.minBySite[c] == p.minBySite[c];
    assert l.maxBySite[c] == p.maxBySite[c];
    assert l.minNonempty[k] == p.minNonempty[k] && l.maxNonempty[k] == p.maxNonempty[k];
    assert l.xticks[k] == p.xticks[k] && l.labels[k] == p.labels[k];
  }

  /** An earlier break column stays an empty column with zero sums. */
  lemma StepKeepsBreak(a: LayoutArgs, rows: seq<Clean>, ss: seq<int>, p: Layout, b: int)
    requires |ss| > 0 && SitesPresent(rows, ss) && SiteStack(a, rows, ss[|ss| - 1]).Ok?
    requires |p.columns| == |p.minBySite| == |p.maxBySite|
    requires 0 <= b < |p.breaks| && p.breaks[b] < |p.columns| && p.columns[p.breaks[b]] == []
    requires p.minBySite[p.breaks[b]] == 0.0 && p.maxBySite[p.breaks[b]] == 0.0
    ensures var l := Step(a, rows, ss, p);
      b < |l.breaks| && l.breaks[b] < |l.columns| && l.columns[l.breaks[b]] == []
      && l.minBySite[l.breaks[b]] == 0.0 && l.maxBySite[l.breaks[b]] == 0.0
  {
    StepExtends(a, rows, ss, p);
    var l := Step(a, rows, ss, p);
    var c := p.breaks[b];
    assert l.breaks[b] == c;
    assert l.columns[c] == p.columns[c] && l.minBySite[c] == p.minBySite[c];
    assert l.maxBySite[c] == p.maxBySite[c];
  }

  /** The site just added sits in the last column. */
  lemma StepAddsSite(a: LayoutArgs, rows: seq<Clean>, ss: seq<int>, p: Layout)
    requires |ss| > 0 && SitesPresent(rows, ss) && AllStacksOk(a, rows, ss)
    requires |p.columns| == |p.minBySite| == |p.maxBySite| == |ss| - 1 + BreakCount(a.addBreaks, ss[..|ss| - 1])
    requires |p.minNonempty| == |p.maxNonempty| == |p.xticks| == |p.labels| == |ss| - 1
    requires |p.breaks| == BreakCount(a.addBreaks, ss[..|ss| - 1])
    requires p.nextTick == |p.columns| as real + 0.5
    ensures SiteColumn(a.addBreaks, ss, |ss| - 1) < |Step(a, rows, ss, p).columns|
    ensures var l := Step(a, rows, ss, p);
      && |l.columns| == |l.minBySite| == |l.maxBySite|
      && |l.minNonempty| == |l.maxNonempty| == |l.xticks| == |l.labels| == |ss|
      && SiteAt(a, rows, ss, l, |ss| - 1, SiteColumn(a.addBreaks, ss, |ss| - 1))
  {
    StepSizes(a, rows, ss, p);
  }

  lemma {:induction false} StepKeepsInvariant(a: LayoutArgs, rows: seq<Clean>, ss: seq<int>, p: Layout)
    requires |ss| > 0 && SitesPresent(rows, ss) && AllStacksOk(a, rows, ss)
    requires SitesPresent(rows, ss[..|ss| - 1]) && AllStacksOk(a, rows, ss[..|ss| - 1])
    requires LayoutInvariant(a, rows, ss[..|ss| - 1], p)
    ensures LayoutInvariant(a, rows, ss, Step(a, rows, ss, p))
  {
    StepSizes(a, rows, ss, p);
    StepKeepsSites(a, rows, ss, p);
    StepKeepsBreaks(a, rows, ss, p);
  }

  lemma StepKeepsSites(a: LayoutArgs, rows: seq<Clean>, ss: seq<int>, p: Layout)
    requires |ss| > 0 && SitesPresent(rows, ss) && AllStacksOk(a, rows, ss)
    requires SitesPresent(rows, ss[..|ss| - 1]) && AllStacksOk(a, rows, ss[..|ss| - 1])
    requires LayoutInvariant(a, rows, ss[..|ss| - 1], p)
    ensures var l := Step(a, rows, ss, p);
      forall k :: 0 <= k < |ss| ==>
        SiteColumn(a.addBreaks, ss, k) < |l.columns|
        && SiteAt(a, rows, ss, l, k, SiteColumn(a.addBreaks, ss, k))
  {
    var n := |ss| - 1;
    var l := Step(a, rows, ss, p);
    forall k | 0 <= k < |ss|
      ensures SiteColumn(a.addBreaks, ss, k) < |l.columns|
      ensures SiteAt(a, rows, ss, l, k, SiteColumn(a.addBreaks, ss, k))
    {
      if k < n {
        StepKeepsSite(a, rows, ss, p, k);
      } else {
        StepAddsSite(a, rows, ss, p);
      }
    }
  }

  lemma StepKeepsBreaks(a: LayoutArgs, rows: seq<Clean>, ss: seq<int>, p: Layout)
    requires |ss| > 0 && SitesPresent(rows, ss) && AllStacksOk(a, rows, ss)
    requires SitesPresent(rows, ss[..|ss| - 1]) && AllStacksOk(a, rows, ss[..|ss| - 1])
    requires LayoutInvariant(a, rows, ss[..|ss| - 1], p)
    ensures var l := Step(a, rows, ss, p);
      forall b :: 0 <= b < |l.breaks| ==>
        l.breaks[b] < |l.columns| && l.columns[l.breaks[b]] == []
        && l.minBySite[l.breaks[b]] == 0.0 && l.maxBySite[l.breaks[b]] == 0.0
  {
    var l := Step(a, rows, ss, p);
    StepSizes(a, rows, ss, p);
    forall b | 0 <= b < |l.breaks|
      ensures l.breaks[b] < |l.columns| && l.columns[l.breaks[b]] == []
      ensures l.minBySite[l.breaks[b]] == 0.0 && l.maxBySite[l.breaks[b]] == 0.0
    {
      if b < |p.breaks| {
        StepKeepsBreak(a, rows, ss, p, b);
      } else {
        StepAddsBreak(a, rows, ss, p);
      }
    }
  }

  /** A break added in this turn is the empty column before the new site. */
  lemma StepAddsBreak(a: LayoutArgs, rows: seq<Clean>, ss: seq<int>, p: Layout)
    requires |ss| > 0 && SitesPresent(rows, ss) && SiteStack(a, rows, ss[|ss| - 1]).Ok?
    requires |p.columns| == |p.minBySite| == |p.maxBySite|
    ensures |Step(a, rows, ss, p).breaks| <= |p.breaks| + 1
    ensures var l := Step(a, rows, ss, p);
      |p.breaks| < |l.breaks| ==>
        && l.breaks[|p.breaks|] < |l.columns| && l.columns[l.breaks[|p.breaks|]] == []
        && l.minBySite[l.breaks[|p.breaks|]] == 0.0 && l.maxBySite[l.breaks[|p.breaks|]] == 0.0
  {
    var n := |ss| - 1;
    if BreakBefore(a.addBreaks, ss, n) {
      var q := AddBreak(p);
      var g := Group(rows, ss[n]);
      var l := AddSite(q, StackOf(a, rows, ss[n]), SiteNegative(rows, ss[n]), SitePositive(rows, ss[n]), SiteTick(rows, ss[n]));
      assert Step(a, rows, ss, p) == l;
      assert l.breaks[|p.breaks|] == |p.columns|;
      assert l.columns[|p.columns|] == q.columns[|p.columns|] == [];
    }
  }

  /** The layout loop over the ascending sites `ss`. */
  function LayoutOf(a: LayoutArgs, rows: seq<Clean>, ss: seq<int>): (r: Result<Layout>)
    requires SitesPresent(rows, ss)
    ensures r.Ok? <==> AllStacksOk(a, rows, ss)
    ensures r.Ok? ==> LayoutInvariant(a, rows, ss, r.value)
  {
    if |ss| == 0 then Ok(EmptyLayout)
    else
      PrefixFacts(a, rows, ss);
      var p :- LayoutOf(a, rows, ss[..|ss| - 1]);
      var _ :- SiteStack(a, rows, ss[|ss| - 1]);
      StepKeepsInvariant(a, rows, ss, p);
      Ok(Step(a, rows, ss, p))
  }

  /** The layout of validated rows: the loop over their ascending sites. */
  function LayoutRows(a: LayoutArgs, rows: seq<Clean>): (r: Result<Layout>)
    ensures r.Ok? <==> AllStacksOk(a, rows, SitesOf(rows))
    ensures r.Ok? ==> LayoutInvariant(a, rows, SitesOf(rows), r.value)
  {
    LayoutOf(a, rows, SitesOf(rows))
  }

  // ------------------------------------------------------------ stack facts

  /** The total height of a stack (where the placement cursor ends). */
  function Total(es: seq<Entry>): real
  {
    if |es| == 0 then 0.0 else Total(es[..|es| - 1]) + es[|es| - 1].height
  }

  /** The total height of the entries with tag `tag`. */
  function TaggedTotal(es: seq<Entry>, tag: string): real
  {
    if |es| == 0 then 0.0
    else TaggedTotal(es[..|es| - 1], tag) + if es[|es| - 1].padLoc == tag then es[|es| - 1].height else 0.0
  }

  lemma EntriesPrefix(c: Coloring, g: seq<Clean>)
    requires |g| > 0 && Entries(c, g).Ok?
    ensures Entries(c, g[..|g| - 1]).Ok?
    ensures Entries(c, g).value[..|g| - 1] == Entries(c, g[..|g| - 1]).value
  {
  }

  /** The recorded site sums are the tagged stack totals: `max_by_site` is
      the height of the `pad_below` letters and `min_by_site` minus the
      height of the `pad_above` letters. */
  lemma {:induction false} StackSums(c: Coloring, g: seq<Clean>)
    requires Entries(c, g).Ok?
    ensures PositiveSum(g) == TaggedTotal(Entries(c, g).value, PadBelow)
    ensures NegativeSum(g) == -TaggedTotal(Entries(c, g).value, PadAbove)
    ensures Total(Entries(c, g).value) == PositiveSum(g) - NegativeSum(g)
  {
    if |g| > 0 {
      var n := |g| - 1;
      var es := Entries(c, g).value;
      EntriesPrefix(c, g);
      StackSums(c, g[..n]);
      assert es[..n] == Entries(c, g[..n]).value;
    }
  }

  /** Within a stack, every `pad_above` (negative) letter comes before every
      `pad_below` one, because the rows are in ascending signed height. */
  lemma AboveBeforeBelow(a: LayoutArgs, rows: seq<Clean>, s: int)
    requires SiteStack(a, rows, s).Ok?
    ensures var es := SiteStack(a, rows, s).value;
      forall i, j :: 0 <= i < j < |es| && es[j].padLoc == PadAbove ==> es[i].padLoc == PadAbove
  {
    var g := Group(rows, s);
    var es := SiteStack(a, rows, s).value;
    forall i, j | 0 <= i < j < |es| && es[j].padLoc == PadAbove
      ensures es[i].padLoc == PadAbove
    {
      assert g[i].height <= g[j].height < 0.0;
    }
  }

  /** A stack never holds the same letter twice, every entry has a
      non-negative height and one of the two tags. */
  lemma StackShape(a: LayoutArgs, rows: seq<Clean>, s: int)
    requires SiteStack(a, rows, s).Ok?
    ensures var es := SiteStack(a, rows, s).value;
      && (forall i, j :: 0 <= i < j < |es| ==> es[i].letter != es[j].letter)
      && (forall i :: 0 <= i < |es| ==> |es[i].letter| == 1 && es[i].height >= 0.0)
      && (forall i :: 0 <= i < |es| ==> es[i].padLoc == PadBelow || es[i].padLoc == PadAbove)
  {
  }
}

=== FILE: legacy_dmslogo.dfy ===
/** The first version of the library's entry point (dmslogo/dmslogo.py):
    `df_cols_one_to_one`, which asks whether two data-frame columns map
    one-to-one, and the older `draw_logo`, which validates the data, builds
    the stacks with the shared loop of `LegacyLayout`, and refuses an
    existing axis. */
module LegacyDmsLogo {
  import opened Results
  import opened Reals
  import opened Tables
  import opened LegacyLayout
  import LogoLayout

  // ----------------------------------------------------- one-to-one columns

  /** The distinct second values paired with `key`: what
      `g[col2].unique()` holds for the group `g` of `key` in
      `df.groupby(col1)`. */
  function Image<A(==), B(==)>(pairs: seq<(A, B)>, key: A): set<B> {
    set j | 0 <= j < |pairs| && pairs[j].0 == key :: pairs[j].1
  }

  /** `not any(len(g[col2].unique()) != 1 for _, g in df.groupby(col1))`:
      the group of every first value has a single second value. */
  predicate SingleValued<A(==), B(==)>(pairs: seq<(A, B)>) {
    forall i :: 0 <= i < |pairs| ==> |Image(pairs, pairs[i].0)| == 1
  }

  /** Reference definition: equal first values always come with equal
      second values. */
  predicate Functional<A(==), B(==)>(pairs: seq<(A, B)>) {
    forall i, j :: 0 <= i < |pairs| && 0 <= j < |pairs| && pairs[i].0 == pairs[j].0 ==> pairs[i].1 == pairs[j].1
  }

  /** The pairs read the other way round: `groupby(col2)`. */
  function Swap<A, B>(pairs: seq<(A, B)>): (r: seq<(B, A)>)
    ensures |r| == |pairs| && forall i :: 0 <= i < |pairs| ==> r[i].0 == pairs[i].1 && r[i].1 == pairs[i].0
  {
    seq(|pairs|, i requires 0 <= i < |pairs| => (pairs[i].1, pairs[i].0))
  }

  /** Two members of a one-element set are equal. */
  lemma SingletonMembers<T>(s: set<T>, x: T, y: T)
    requires |s| == 1 && x in s && y in s
    ensures x == y
  {
    var rest := s - {x};
    assert |rest| == 0;
  }

  /** Counting the distinct second values of each group agrees with the
      reference definition. */
  lemma SingleValuedIffFunctional<A, B>(pairs: seq<(A, B)>)
    ensures SingleValued(pairs) <==> Functional(pairs)
  {
    if SingleValued(pairs) {
      forall i, j | 0 <= i < |pairs| && 0 <= j < |pairs| && pairs[i].0 == pairs[j].0
        ensures pairs[i].1 == pairs[j].1
      {
        var img := Image(pairs, pairs[i].0);
        assert pairs[i].1 in img;
        assert pairs[j].1 in img;
        SingletonMembers(img, pairs[i].1, pairs[j].1);
      }
    }
    if Functional(pairs) {
      forall i | 0 <= i < |pairs|
        ensures |Image(pairs, pairs[i].0)| == 1
      {
        var img := Image(pairs, pairs[i].0);
        assert pairs[i].1 in img;
        assert img == {pairs[i].1};
      }
    }
  }

  /** `df_cols_one_to_one(df, col1, col2)`, where `pairs` holds the
      `(col1, col2)` values of the rows: both columns must exist; a column
      maps one-to-one onto itself; otherwise the answer is whether each
      value of either column comes with a single value of the other. */
  function ColsOneToOne<A(==), B(==)>(columns: set<string>, col1: string, col2: string,
                                       pairs: seq<(A, B)>): (r: Result<bool>)
    ensures r.Ok? <==> col1 in columns && col2 in columns
    ensures col1 !in columns ==> r == Err(MissingColumn(col1))
    ensures col1 in columns && col2 !in columns ==> r == Err(MissingColumn(col2))
    ensures r.Ok? && col1 == col2 ==> r.value
    ensures r.Ok? && col1 != col2 ==> (r.value <==> Functional(pairs) && Functional(Swap(pairs)))
  {
    SingleValuedIffFunctional(pairs);
    SingleValuedIffFunctional(Swap(pairs));
    if col1 !in columns then Err(MissingColumn(col1))
    else if col2 !in columns then Err(MissingColumn(col2))
    else if col1 == col2 then Ok(true)
    else if !SingleValued(pairs) then Ok(false)
    else if !SingleValued(Swap(pairs)) then Ok(false)
    else Ok(true)
  }

  const DoctestColumns: set<string> := {"col1", "col2"}

  /** `{'col1': [1, 2, 2], 'col2': [4, 5, 5]}` is one-to-one. */
  lemma OneToOneDoctest()
    ensures ColsOneToOne(DoctestColumns, "col1", "col2", [(1, 4), (2, 5), (2, 5)]) == Ok(true)
  {
    var pairs := [(1, 4), (2, 5), (2, 5)];
    assert Functional(pairs);
    assert Functional(Swap(pairs));
  }

  /** `{'col1': [1, 2, 3], 'col2': [4, 5, 5]}` is not, read either way. */
  lemma OneToManyDoctest()
    ensures ColsOneToOne(DoctestColumns, "col1", "col2", [(1, 4), (2, 5), (3, 5)]) == Ok(false)
    ensures ColsOneToOne(DoctestColumns, "col2", "col1", [(4, 1), (5, 2), (5, 3)]) == Ok(false)
  {
    var pairs := [(1, 4), (2, 5), (3, 5)];
    assert Swap(pairs)[1].0 == Swap(pairs)[2].0 && Swap(pairs)[1].1 != Swap(pairs)[2].1;
    var swapped := [(4, 1), (5, 2), (5, 3)];
    assert swapped[1].0 == swapped[2].0 && swapped[1].1 != swapped[2].1;
  }

  /** A column is one-to-one with itself, whatever its values. */
  lemma SameColumnDoctest()
    ensures ColsOneToOne(DoctestColumns, "col1", "col1", [(1, 1), (2, 2), (3, 3)]) == Ok(true)
  {
  }

  // -------------------------------------------------------------- draw_logo

  /** The arguments of the older `draw_logo` that shape its result; `axGiven`
      says whether an existing axis was passed. */
  datatype Args = Args(
    xCol: string,
    letterCol: string,
    heightCol: string,
    xtickCol: Option<string>,
    colorCol: Option<string>,
    scheme: map<char, string>,
    missingColor: Option<string>,
    addBreaks: bool,
    widthscale: real,
    heightscale: real,
    showAxis: bool,
    axGiven: bool)

  /** What is drawn: the stacks, the x-limits, the tick positions and the
      figure size in inches. */
  datatype Logo = Logo(matrix: Matrix, xlim: (real, real), ticks: seq<real>, size: (real, real))

  /** `xtick_col`, defaulting to `x_col`. */
  function XtickCol(a: Args): string {
    if a.xtickCol.Some? then a.xtickCol.value else a.xCol
  }

  function ColoringOf(a: Args): Coloring {
    Coloring(a.colorCol.Some?, a.scheme, a.missingColor)
  }

  /** The `(x_col, xtick_col)` values of the rows. */
  function SiteTicks(rows: seq<Clean>): (r: seq<(int, string)>)
    ensures |r| == |rows| && forall i :: 0 <= i < |rows| ==> r[i] == (rows[i].site, rows[i].tick)
  {
    seq(|rows|, i requires 0 <= i < |rows| => (rows[i].site, rows[i].tick))
  }

  /** The rows' sites and tick labels map one-to-one. */
  predicate SitesTicksOneToOne(rows: seq<Clean>) {
    Functional(SiteTicks(rows)) && Functional(Swap(SiteTicks(rows)))
  }

  /** The checks before the loop, in source order: the frame checks, then
      the one-to-one mapping of `x_col` to `xtick_col`. */
  function Checked(a: Args, f: Frame): (r: Result<seq<Clean>>)
    ensures CheckFrame(a.heightCol, a.letterCol, a.xCol, XtickCol(a), a.colorCol, f).Err? ==>
      r == CheckFrame(a.heightCol, a.letterCol, a.xCol, XtickCol(a), a.colorCol, f)
    ensures CheckFrame(a.heightCol, a.letterCol, a.xCol, XtickCol(a), a.colorCol, f).Ok? ==>
      var rows := CheckFrame(a.heightCol, a.letterCol, a.xCol, XtickCol(a), a.colorCol, f).value;
      r == if XtickCol(a) == a.xCol || SitesTicksOneToOne(rows) then Ok(rows) else Err(NotOneToOne)
  {
    match CheckFrame(a.heightCol, a.letterCol, a.xCol, XtickCol(a), a.colorCol, f)
    case Err(e) => Err(e)
    case Ok(rows) =>
      assert [a.heightCol, a.letterCol, a.xCol, XtickCol(a)][2] in f.columns;
      assert [a.heightCol, a.letterCol, a.xCol, XtickCol(a)][3] in f.columns;
      var oneToOne := ColsOneToOne(f.columns, a.xCol, XtickCol(a), SiteTicks(rows));
      if oneToOne.Ok? && oneToOne.value then Ok(rows) else Err(NotOneToOne)
  }

  /** The figure for the stacks `m`: x-limits `(0, nstacks)`, one tick
      per column at its middle, and a figure `widthscale * 0.5` inches per
      column (one more with the axis shown) by `heightscale` inches. */
  function Figure(a: Args, m: Matrix): (lg: Logo)
    ensures lg.matrix == m
    ensures |lg.ticks| == |m.columns| && forall i :: 0 <= i < |m.columns| ==> lg.ticks[i] - 0.5 == i as real
    ensures lg.xlim.0 == 0.0 && lg.xlim.1 == |m.columns| as real
    ensures lg.size.0 == a.widthscale * 0.5 * (|m.columns| as real + Flag(a.showAxis))
    ensures lg.size.1 == a.heightscale
  {
    var n := |m.columns|;
    Logo(m, (0.0, n as real), TickPositions(n), (a.widthscale * 0.5 * (n as real + Flag(a.showAxis)), a.heightscale))
  }

  /** The older `draw_logo`: the checks, the loop, then the refusal of an
      existing axis. Drawing the letters takes the `max` of the stack
      heights, which fails when there are no stacks. */
  function DrawLogo(a: Args, f: Frame): (r: Result<Logo>)
    ensures r.Ok? ==> !a.axGiven && |r.value.matrix.columns| > 0
    ensures Checked(a, f).Err? ==> r == Err(Checked(a, f).error)
    ensures Checked(a, f).Ok? ==>
      var m := MatrixOfRows(ColoringOf(a), a.addBreaks, Checked(a, f).value);
      && (m.Err? ==> r == Err(m.error))
      && (m.Ok? && a.axGiven ==> r == Err(AxNotSupported))
      && (m.Ok? && !a.axGiven && |m.value.columns| == 0 ==> r == Err(EmptyData))
      && (m.Ok? && !a.axGiven && |m.value.columns| > 0 ==> r == Ok(Figure(a, m.value)))
  {
    match Checked(a, f)
    case Err(e) => Err(e)
    case Ok(rows) =>
      match MatrixOfRows(ColoringOf(a), a.addBreaks, rows)
      case Err(e) => Err(e)
      case Ok(m) =>
        if a.axGiven then Err(AxNotSupported)
        else if |m.columns| == 0 then Err(EmptyData)
        else Ok(Figure(a, m))
  }

  /** A frame with no rows that passes the checks fails at the `max` of no
      stack heights, unless an axis was passed. */
  lemma DrawLogoEmpty(a: Args, f: Frame)
    requires Checked(a, f).Ok? && |f.records| == 0 && !a.axGiven
    ensures DrawLogo(a, f) == Err(EmptyData)
  {
    var rows := Checked(a, f).value;
    assert SitesOf(rows) == [];
  }

  /** The logo has one tick label per column. */
  lemma DrawLogoTickLabels(a: Args, f: Frame, lg: Logo)
    requires DrawLogo(a, f) == Ok(lg)
    ensures |lg.matrix.xticks| == |lg.matrix.columns| == |lg.ticks|
  {
    var rows := Checked(a, f).value;
    assert LogoLayout.SitesPresent(rows, SitesOf(rows));
  }

  /** Sites mapping one-to-one onto tick labels agree on their labels
      within a site. */
  lemma OneToOneTicksConsistent(rows: seq<Clean>)
    requires SitesTicksOneToOne(rows)
    ensures LogoLayout.TicksConsistent(rows)
  {
    var p := SiteTicks(rows);
    forall i, j | 0 <= i < |rows| && 0 <= j < |rows| && rows[i].site == rows[j].site
      ensures rows[i].tick == rows[j].tick
    {
      assert p[i].0 == p[j].0;
    }
  }

  /** With `xtick_col` equal to `x_col` every row's tick label is the
      `str` of its site, so rows of one site agree on it. */
  predicate TicksFollowSites(a: Args, f: Frame) {
    XtickCol(a) == a.xCol ==>
      forall i, j :: 0 <= i < |f.records| && 0 <= j < |f.records| && f.records[i].site == f.records[j].site ==>
        f.records[i].tick == f.records[j].tick
  }

  /** Once the one-to-one check has passed, the loop's assertion of a
      single tick label per site never fails. */
  lemma DrawLogoNeverAmbiguous(a: Args, f: Frame)
    requires TicksFollowSites(a, f)
    ensures DrawLogo(a, f) != Err(AmbiguousTickLabel)
  {
    if Checked(a, f).Ok? {
      var rows := Checked(a, f).value;
      if XtickCol(a) == a.xCol {
        forall i, j | 0 <= i < |rows| && 0 <= j < |rows| && rows[i].site == rows[j].site
          ensures rows[i].tick == rows[j].tick
        {
          assert f.records[i].site == f.records[j].site;
        }
      } else {
        OneToOneTicksConsistent(rows);
      }
      MatrixNotAmbiguous(ColoringOf(a), a.addBreaks, rows);
    }
  }

  /** The stacks of a drawn logo are the loop's matrix for the checked
      rows. */
  lemma DrawLogoMatrix(a: Args, f: Frame, rows: seq<Clean>, lg: Logo)
    requires Checked(a, f) == Ok(rows) && DrawLogo(a, f) == Ok(lg)
    ensures LogoLayout.SitesPresent(rows, SitesOf(rows))
    ensures MatrixOf(ColoringOf(a), a.addBreaks, rows, SitesOf(rows)) == Ok(lg.matrix)
  {
  }

  /** A drawn logo is the figure of its stacks. */
  lemma DrawLogoFigure(a: Args, f: Frame, lg: Logo)
    requires DrawLogo(a, f) == Ok(lg)
    ensures lg == Figure(a, lg.matrix)
  {
  }

  /** Every site has its own column, under its tick label, with its tick
      at the column's middle. */
  lemma DrawLogoSites(a: Args, f: Frame, rows: seq<Clean>, ss: seq<int>, lg: Logo)
    requires Checked(a, f) == Ok(rows) && ss == SitesOf(rows) && DrawLogo(a, f) == Ok(lg)
    ensures |lg.matrix.columns| == |ss| + BreakCount(a.addBreaks, ss)
    ensures forall k :: 0 <= k < |ss| ==>
      && SiteColumn(a.addBreaks, ss, k) < |lg.matrix.columns|
      && lg.matrix.columns[SiteColumn(a.addBreaks, ss, k)] == SiteRow(ColoringOf(a), rows, ss[k]).value
      && lg.matrix.xticks[SiteColumn(a.addBreaks, ss, k)] == Group(rows, ss[k])[0].tick
      && lg.ticks[SiteColumn(a.addBreaks, ss, k)] - 0.5 == SiteColumn(a.addBreaks, ss, k) as real
  {
    DrawLogoMatrix(a, f, rows, lg);
    DrawLogoFigure(a, f, lg);
    MatrixSites(ColoringOf(a), a.addBreaks, rows, ss, lg.matrix);
  }

  /** `MatrixGaps` for the stacks of a logo. */
  lemma LogoGaps(a: Args, rows: seq<Clean>, ss: seq<int>, lg: Logo)
    requires LogoLayout.SitesPresent(rows, ss) && MatrixOf(ColoringOf(a), a.addBreaks, rows, ss) == Ok(lg.matrix)
    ensures forall k :: 0 <= k < |ss| && BreakBefore(a.addBreaks, ss, k) ==>
      && 1 <= SiteColumn(a.addBreaks, ss, k) < |lg.matrix.columns|
      && BreakColumnAt(lg.matrix, SiteColumn(a.addBreaks, ss, k) - 1)
  {
    MatrixGaps(ColoringOf(a), a.addBreaks, rows, ss, lg.matrix);
  }

  /** A break column with an empty label stands before every site that
      does not follow its predecessor. */
  lemma DrawLogoBreaks(a: Args, f: Frame, rows: seq<Clean>, ss: seq<int>, lg: Logo)
    requires Checked(a, f) == Ok(rows) && ss == SitesOf(rows) && DrawLogo(a, f) == Ok(lg)
    ensures forall k :: 0 <= k < |ss| && BreakBefore(a.addBreaks, ss, k) ==>
      && 1 <= SiteColumn(a.addBreaks, ss, k) < |lg.matrix.columns|
      && BreakColumnAt(lg.matrix, SiteColumn(a.addBreaks, ss, k) - 1)
  {
    DrawLogoMatrix(a, f, rows, lg);
    LogoGaps(a, rows, ss, lg);
  }
}

=== FILE: legacy_draw_logo.dfy ===
/** The second older `draw_logo` (dmslogo/draw_logo.py): heights must be
    non-negative, every site must have a single tick label, the loop also
    records where it put the break columns, and the y-limits follow the
    tallest stack. */
module LegacyDrawLogo {
  import opened Results
  import opened Reals
  import opened Tables
  import opened LegacyLayout
  import LogoLayout

  /** The arguments that shape the result; `axGiven` says whether an
      existing axis was passed. */
  datatype Args = Args(
    xCol: string,
    letterCol: string,
    heightCol: string,
    xtickCol: Option<string>,
    colorCol: Option<string>,
    scheme: map<char, string>,
    missingColor: Option<string>,
    addBreaks: bool,
    widthscale: real,
    heightscale: real,
    hideAxis: bool,
    axGiven: bool)

  /** What is drawn: the stacks, the axis limits, the tick positions, the
      x positions of the dashed break lines, and the figure size in inches
      when a new figure is made (`None` on an existing axis). */
  datatype Logo = Logo(
    matrix: Matrix,
    xlim: (real, real),
    ylim: (real, real),
    ticks: seq<real>,
    breakLines: seq<real>,
    size: Option<(real, real)>)

  /** `xtick_col`, defaulting to `x_col`. */
  function XtickCol(a: Args): string {
    if a.xtickCol.Some? then a.xtickCol.value else a.xCol
  }

  function ColoringOf(a: Args): Coloring {
    Coloring(a.colorCol.Some?, a.scheme, a.missingColor)
  }

  // ---------------------------------------------------------- stack heights

  /** `sum([tup[1] for tup in row])`: the height of a stack of the older
      loops, the counterpart of `Glyphs.StackHeight` over their entries. */
  function LegacyStackHeight(col: seq<Stacked>): real {
    if |col| == 0 then 0.0 else LegacyStackHeight(col[..|col| - 1]) + col[|col| - 1].height
  }

  /** The heights of all stacks, breaks included. */
  function LegacyStackHeights(m: Matrix): (r: seq<real>)
    ensures |r| == |m.columns| && forall i :: 0 <= i < |m.columns| ==> r[i] == LegacyStackHeight(m.columns[i])
  {
    seq(|m.columns|, i requires 0 <= i < |m.columns| => LegacyStackHeight(m.columns[i]))
  }

  /** A stack of non-negative heights has a non-negative height. */
  lemma {:induction false} StackHeightNonNegative(col: seq<Stacked>)
    requires forall i :: 0 <= i < |col| ==> col[i].height >= 0.0
    ensures LegacyStackHeight(col) >= 0.0
  {
    if |col| > 0 {
      StackHeightNonNegative(col[..|col| - 1]);
    }
  }

  // ------------------------------------------------------------- the figure

  /** The figure for stacks `m` whose tallest stack is `top`: x-limits
      `(0, nstacks)`, y-limits `(-0.03 * top, 1.03 * top)`, one tick per
      column at its middle, a dashed line in the middle of every break
      column, and for a new figure `widthscale * 0.8` inches per column
      (one more with the axis shown) by `heightscale * 2` inches (half as
      much again with the axis shown). */
  function Figure(a: Args, m: Matrix, top: real): (lg: Logo)
    ensures lg.matrix == m
    ensures lg.xlim.0 == 0.0 && lg.xlim.1 == |m.columns| as real
    ensures lg.ylim.0 == -0.03 * top && lg.ylim.1 == 1.03 * top
    ensures |lg.ticks| == |m.columns| && forall i :: 0 <= i < |m.columns| ==> lg.ticks[i] - 0.5 == i as real
    ensures |lg.breakLines| == |m.breaks| && forall b :: 0 <= b < |m.breaks| ==> lg.breakLines[b] - 0.5 == m.breaks[b] as real
    ensures a.axGiven <==> lg.size.None?
    ensures lg.size.Some? ==>
      && lg.size.value.0 == a.widthscale * 0.8 * (|m.columns| as real + Flag(!a.hideAxis))
      && lg.size.value.1 == a.heightscale * (2.0 + 0.5 * Flag(!a.hideAxis))
  {
    var n := |m.columns|;
    var size := if a.axGiven then None
                else Some((a.widthscale * 0.8 * (n as real + Flag(!a.hideAxis)),
                           a.heightscale * (2.0 + 0.5 * Flag(!a.hideAxis))));
    Logo(m, (0.0, n as real), (-0.03 * top, 1.03 * top), TickPositions(n),
         seq(|m.breaks|, b requires 0 <= b < |m.breaks| => m.breaks[b] as real + 0.5), size)
  }

  // --------------------------------------------------------------- draw_logo

  /** The checks before the loop, in source order: the frame checks, then
      a single tick label for every site. */
  function Checked(a: Args, f: Frame): (r: Result<seq<Clean>>)
    ensures CheckFrame(a.heightCol, a.letterCol, a.xCol, XtickCol(a), a.colorCol, f).Err? ==>
      r == CheckFrame(a.heightCol, a.letterCol, a.xCol, XtickCol(a), a.colorCol, f)
    ensures CheckFrame(a.heightCol, a.letterCol, a.xCol, XtickCol(a), a.colorCol, f).Ok? ==>
      var rows := CheckFrame(a.heightCol, a.letterCol, a.xCol, XtickCol(a), a.colorCol, f).value;
      r == if LogoLayout.TicksConsistent(rows) then Ok(rows) else Err(NotUniqueMapping)
  {
    match CheckFrame(a.heightCol, a.letterCol, a.xCol, XtickCol(a), a.colorCol, f)
    case Err(e) => Err(e)
    case Ok(rows) => if LogoLayout.TicksConsistent(rows) then Ok(rows) else Err(NotUniqueMapping)
  }

  /** dmslogo/draw_logo.py's `draw_logo`: the checks, the loop, the
      tallest stack (there must be one) and the figure. */
  function DrawLogo(a: Args, f: Frame): (r: Result<Logo>)
    ensures Checked(a, f).Err? ==> r == Err(Checked(a, f).error)
    ensures Checked(a, f).Ok? ==>
      var m := MatrixOfRows(ColoringOf(a), a.addBreaks, Checked(a, f).value);
      && (m.Err? ==> r == Err(m.error))
      && (m.Ok? && |m.value.columns| == 0 ==> r == Err(EmptyData))
      && (m.Ok? && |m.value.columns| > 0 ==> r == Ok(Figure(a, m.value, Max(LegacyStackHeights(m.value)))))
  {
    match Checked(a, f)
    case Err(e) => Err(e)
    case Ok(rows) =>
      match MatrixOfRows(ColoringOf(a), a.addBreaks, rows)
      case Err(e) => Err(e)
      case Ok(m) =>
        if |m.columns| == 0 then Err(EmptyData)
        else Ok(Figure(a, m, Max(LegacyStackHeights(m))))
  }

  /** The stacks of a drawn logo are the loop's matrix for the checked
      rows, and there is at least one. */
  lemma DrawLogoMatrix(a: Args, f: Frame, rows: seq<Clean>, lg: Logo)
    requires Checked(a, f) == Ok(rows) && DrawLogo(a, f) == Ok(lg)
    ensures LogoLayout.SitesPresent(rows, SitesOf(rows))
    ensures MatrixOfRows(ColoringOf(a), a.addBreaks, rows) == Ok(lg.matrix)
    ensures |lg.matrix.columns| > 0
    ensures lg == Figure(a, lg.matrix, Max(LegacyStackHeights(lg.matrix)))
  {
  }

  /** Data without rows leaves no stack, and `max` of no stacks fails. */
  lemma DrawLogoEmpty(a: Args, f: Frame)
    requires Checked(a, f).Ok? && |f.records| == 0
    ensures DrawLogo(a, f) == Err(EmptyData)
  {
    var rows := Checked(a, f).value;
    assert SitesOf(rows) == [];
  }

  /** The single-label check comes first, so the loop's assertion of a
      single tick label per site never fails. */
  lemma DrawLogoNeverAmbiguous(a: Args, f: Frame)
    ensures DrawLogo(a, f) != Err(AmbiguousTickLabel)
  {
    if Checked(a, f).Ok? {
      MatrixNotAmbiguous(ColoringOf(a), a.addBreaks, Checked(a, f).value);
    }
  }

  /** Every stack of a drawn logo has a non-negative height. */
  lemma StacksNonNegative(a: Args, f: Frame, rows: seq<Clean>, lg: Logo)
    requires Checked(a, f) == Ok(rows) && DrawLogo(a, f) == Ok(lg)
    ensures forall i :: 0 <= i < |lg.matrix.columns| ==> 0.0 <= LegacyStackHeight(lg.matrix.columns[i])
  {
    DrawLogoMatrix(a, f, rows, lg);
    assert NoNegativeRows(rows) by {
      assert CheckFrame(a.heightCol, a.letterCol, a.xCol, XtickCol(a), a.colorCol, f) == Ok(rows);
    }
    MatrixNonNegative(ColoringOf(a), a.addBreaks, rows);
    forall i | 0 <= i < |lg.matrix.columns|
      ensures 0.0 <= LegacyStackHeight(lg.matrix.columns[i])
    {
      StackHeightNonNegative(lg.matrix.columns[i]);
    }
  }

  /** The y-limits run from at most 0 to at least the tallest stack, so
      every stack fits, and the upper limit is set by a stack that is
      drawn. */
  lemma YlimFitsStacks(a: Args, f: Frame, rows: seq<Clean>, lg: Logo)
    requires Checked(a, f) == Ok(rows) && DrawLogo(a, f) == Ok(lg)
    ensures forall i :: 0 <= i < |lg.matrix.columns| ==>
      lg.ylim.0 <= 0.0 <= LegacyStackHeight(lg.matrix.columns[i]) <= lg.ylim.1
    ensures exists i :: 0 <= i < |lg.matrix.columns| && lg.ylim.1 == 1.03 * LegacyStackHeight(lg.matrix.columns[i])
  {
    StacksNonNegative(a, f, rows, lg);
    DrawLogoMatrix(a, f, rows, lg);
    FigureFits(a, lg.matrix);
  }

  /** `YlimFitsStacks` for the figure of any non-empty stacks of
      non-negative height. */
  lemma FigureFits(a: Args, m: Matrix)
    requires |m.columns| > 0 && forall i :: 0 <= i < |m.columns| ==> 0.0 <= LegacyStackHeight(m.columns[i])
    ensures var lg := Figure(a, m, Max(LegacyStackHeights(m)));
      && (forall i :: 0 <= i < |m.columns| ==> lg.ylim.0 <= 0.0 <= LegacyStackHeight(m.columns[i]) <= lg.ylim.1)
      && (exists i :: 0 <= i < |m.columns| && lg.ylim.1 == 1.03 * LegacyStackHeight(m.columns[i]))
  {
    var hs := LegacyStackHeights(m);
    var top := Max(hs);
    assert 0.0 <= hs[0] <= top;
    var j :| 0 <= j < |hs| && top == hs[j];
    assert Figure(a, m, top).ylim.1 == 1.03 * LegacyStackHeight(m.columns[j]);
  }

  /** The recorded breaks are the break columns, and the dashed line of
      each runs through the middle of its column. */
  lemma BreakLinesOnBreaks(a: Args, f: Frame, rows: seq<Clean>, lg: Logo)
    requires Checked(a, f) == Ok(rows) && DrawLogo(a, f) == Ok(lg)
    ensures |lg.breakLines| == |lg.matrix.breaks|
    ensures forall b :: 0 <= b < |lg.matrix.breaks| ==>
      && lg.matrix.breaks[b] < |lg.matrix.columns|
      && BreakColumnAt(lg.matrix, lg.matrix.breaks[b])
      && lg.breakLines[b] - 0.5 == lg.matrix.breaks[b] as real
  {
    DrawLogoMatrix(a, f, rows, lg);
    MatrixBreakIndices(ColoringOf(a), a.addBreaks, rows, SitesOf(rows), lg.matrix);
  }

  /** One break per site that does not follow its predecessor, and one
      tick label per column. */
  lemma DrawLogoCounts(a: Args, f: Frame, rows: seq<Clean>, lg: Logo)
    requires Checked(a, f) == Ok(rows) && DrawLogo(a, f) == Ok(lg)
    ensures |lg.matrix.breaks| == BreakCount(a.addBreaks, SitesOf(rows))
    ensures |lg.matrix.columns| == |SitesOf(rows)| + BreakCount(a.addBreaks, SitesOf(rows))
    ensures |lg.matrix.xticks| == |lg.matrix.columns| == |lg.ticks|
  {
    DrawLogoMatrix(a, f, rows, lg);
  }
}

=== FILE: legacy_layout.dfy ===
/** The layout loop shared by the two older `draw_logo` functions
    (dmslogo/dmslogo.py and dmslogo/draw_logo.py): the same input checks,
    then one pass over the sites in ascending order that inserts an empty
    column with an empty tick label before every site that does not follow
    its predecessor, and builds each site's stack of `(letter, height,
    color)` in ascending height. Heights must be non-negative here, so
    there are no padding tags and no per-site sums. */
module LegacyLayout {
  import opened Results
  import opened Reals
  import opened Tables
  import LogoLayout

  /** One data-frame row of the older functions: `site` from `x_col`,
      `letter` from `letter_col`, `height` from `letter_height_col`, `tick`
      the `str` of the `xtick_col` value and `color` the `color_col` value
      (only read when a colour column is given). `site` is an `IntNum` when
      the `x_col` column has integer dtype. */
  datatype Record = Record(site: Num, letter: string, height: real, tick: string, color: string)

  /** A data frame: its column names and its rows. */
  datatype Frame = Frame(columns: set<string>, records: seq<Record>)

  /** One letter of a stack: `(letter, letter_height, color)`. */
  datatype Stacked = Stacked(letter: string, height: real, color: string)

  /** What the loop builds: `height_matrix`, the tick labels `xticks` and
      the indices of the break columns (`breaks`, kept by
      dmslogo/draw_logo.py only). */
  datatype Matrix = Matrix(columns: seq<seq<Stacked>>, xticks: seq<string>, breaks: seq<nat>)

  const EmptyMatrix := Matrix([], [], [])

  // ------------------------------------------------------------ validation

  predicate NoNegative(records: seq<Record>) {
    forall i :: 0 <= i < |records| ==> records[i].height >= 0.0
  }

  /** `data[x_col].dtype == int`. */
  predicate IntegerSites(records: seq<Record>) {
    forall i :: 0 <= i < |records| ==> records[i].site.IntNum?
  }

  /** The rows with their integer sites; the older functions read no
      shading columns. */
  function CleanRows(records: seq<Record>): (r: seq<Clean>)
    requires IntegerSites(records)
    ensures |r| == |records|
    ensures forall i :: 0 <= i < |records| ==>
      r[i] == Clean(records[i].site.i, records[i].letter, records[i].height, records[i].tick, records[i].color, NoShade)
  {
    seq(|records|, i requires 0 <= i < |records| =>
      Clean(records[i].site.i, records[i].letter, records[i].height, records[i].tick, records[i].color, NoShade))
  }

  /** The checks both older functions make first, in source order: the
      four named columns, the colour column, no negative height, integer
      sites. */
  function CheckFrame(heightCol: string, letterCol: string, xCol: string, xtickCol: string,
                      colorCol: Option<string>, f: Frame): (r: Result<seq<Clean>>)
    ensures r.Ok? <==>
      && (forall i :: 0 <= i < 4 ==> [heightCol, letterCol, xCol, xtickCol][i] in f.columns)
      && (colorCol.Some? ==> colorCol.value in f.columns)
      && NoNegative(f.records) && IntegerSites(f.records)
    ensures r.Ok? ==> r.value == CleanRows(f.records)
    ensures CheckColumns(f.columns, [heightCol, letterCol, xCol, xtickCol]).Err? ==>
      r == Err(CheckColumns(f.columns, [heightCol, letterCol, xCol, xtickCol]).error)
    ensures CheckColumns(f.columns, [heightCol, letterCol, xCol, xtickCol]).Ok? && CheckOptionalColumn(f.columns, colorCol).Err? ==>
      r == Err(CheckOptionalColumn(f.columns, colorCol).error)
    ensures (&& CheckColumns(f.columns, [heightCol, letterCol, xCol, xtickCol]).Ok?
             && CheckOptionalColumn(f.columns, colorCol).Ok?
             && !NoNegative(f.records)) ==> r == Err(NegativeHeight)
    ensures (&& CheckColumns(f.columns, [heightCol, letterCol, xCol, xtickCol]).Ok?
             && CheckOptionalColumn(f.columns, colorCol).Ok?
             && NoNegative(f.records) && !IntegerSites(f.records)) ==> r == Err(NonIntegerSite)
  {
    var _ :- CheckColumns(f.columns, [heightCol, letterCol, xCol, xtickCol]);
    var _ :- CheckOptionalColumn(f.columns, colorCol);
    var _ :- Check(NoNegative(f.records), NegativeHeight);
    var _ :- Check(IntegerSites(f.records), NonIntegerSite);
    Ok(CleanRows(f.records))
  }

  // ---------------------------------------------------------------- stacks

  /** One row of a stack: its letter is checked, then its colour chosen. */
  function StackedOf(c: Coloring, row: Clean): (r: Result<Stacked>)
    ensures r.Ok? <==> LogoLayout.RowOk(c, row)
    ensures |row.letter| != 1 ==> r == Err(InvalidLetter(row.letter))
    ensures |row.letter| == 1 && ResolveColor(c, row.letter, row.color).Err? ==>
      r == Err(ResolveColor(c, row.letter, row.color).error)
    ensures r.Ok? ==> r.value == Stacked(row.letter, row.height, ResolveColor(c, row.letter, row.color).value)
  {
    var _ :- CheckLetter(row.letter);
    var color :- ResolveColor(c, row.letter, row.color);
    Ok(Stacked(row.letter, row.height, color))
  }

  function StackedResults(c: Coloring, g: seq<Clean>): (r: seq<Result<Stacked>>)
    ensures |r| == |g| && forall i :: 0 <= i < |g| ==> r[i] == StackedOf(c, g[i])
  {
    seq(|g|, i requires 0 <= i < |g| => StackedOf(c, g[i]))
  }

  /** The stack of a site's rows, in their order, or the first bad row's
      error. */
  function Stack(c: Coloring, g: seq<Clean>): (r: Result<seq<Stacked>>)
    ensures r.Ok? <==> forall i :: 0 <= i < |g| ==> LogoLayout.RowOk(c, g[i])
    ensures r.Ok? ==> |r.value| == |g| && forall i :: 0 <= i < |g| ==>
      r.value[i] == Stacked(g[i].letter, g[i].height, ResolveColor(c, g[i].letter, g[i].color).value)
    ensures r.Err? ==> exists i :: && 0 <= i < |g| && !LogoLayout.RowOk(c, g[i])
                                   && r.error == StackedOf(c, g[i]).error
                                   && forall j :: 0 <= j < i ==> LogoLayout.RowOk(c, g[j])
  {
    var rs := StackedResults(c, g);
    assert forall i :: 0 <= i < |g| ==> (rs[i].Ok? <==> LogoLayout.RowOk(c, g[i]));
    CollectFrom(rs, 0)
  }

  /** `len(xdata[xtick_col].unique()) == 1`. */
  predicate SameTicks(g: seq<Clean>) {
    forall i :: 0 <= i < |g| ==> g[i].tick == g[0].tick
  }

  /** One turn of the loop body for site `s`: duplicate letters are
      rejected, the stack is built, then the site's single tick label is
      asserted. */
  function SiteRow(c: Coloring, rows: seq<Clean>, s: int): (r: Result<seq<Stacked>>)
    ensures r.Ok? <==> DistinctLetters(Group(rows, s)) && Stack(c, Group(rows, s)).Ok? && SameTicks(Group(rows, s))
    ensures r.Ok? ==> r == Stack(c, Group(rows, s))
    ensures !DistinctLetters(Group(rows, s)) ==> r == Err(DuplicateLetter(s))
    ensures DistinctLetters(Group(rows, s)) && Stack(c, Group(rows, s)).Err? ==> r == Stack(c, Group(rows, s))
    ensures DistinctLetters(Group(rows, s)) && Stack(c, Group(rows, s)).Ok? && !SameTicks(Group(rows, s)) ==>
      r == Err(AmbiguousTickLabel)
  {
    var g := Group(rows, s);
    var _ :- Check(DistinctLetters(g), DuplicateLetter(s));
    var stack :- Stack(c, g);
    var _ :- Check(SameTicks(g), AmbiguousTickLabel);
    Ok(stack)
  }

  // ------------------------------------------------------------------ loop

  /** What one turn of the loop contributes for a site: its stack and its
      tick label `str(xdata[xtick_col].values[0])`. */
  datatype Turn = Turn(stack: seq<Stacked>, tick: string)

  function SiteTurn(c: Coloring, rows: seq<Clean>, s: int): (r: Result<Turn>)
    requires HasSite(rows, s)
    ensures r.Ok? <==> SiteRow(c, rows, s).Ok?
    ensures r.Err? ==> r.error == SiteRow(c, rows, s).error
    ensures r.Ok? ==> r.value == Turn(SiteRow(c, rows, s).value, Group(rows, s)[0].tick)
  {
    var stack :- SiteRow(c, rows, s);
    Ok(Turn(stack, Group(rows, s)[0].tick))
  }

  function Turns(c: Coloring, rows: seq<Clean>, ss: seq<int>): (r: seq<Result<Turn>>)
    requires LogoLayout.SitesPresent(rows, ss)
    ensures |r| == |ss| && forall k :: 0 <= k < |ss| ==> r[k] == SiteTurn(c, rows, ss[k])
  {
    seq(|ss|, k requires 0 <= k < |ss| => SiteTurn(c, rows, ss[k]))
  }

  /** A break: an empty column with an empty tick label, and its index. */
  function AddBreakColumn(m: Matrix): Matrix {
    m.(columns := m.columns + [[]], xticks := m.xticks + [""], breaks := m.breaks + [|m.columns|])
  }

  /** A site: its stack and its tick label. */
  function AddSiteColumn(m: Matrix, t: Turn): Matrix {
    m.(columns := m.columns + [t.stack], xticks := m.xticks + [t.tick])
  }

  /** The loop once every turn has succeeded: for each site in order, an
      optional break column, then the site's column. */
  function Build(addBreaks: bool, ss: seq<int>, ts: seq<Turn>): (m: Matrix)
    requires |ts| == |ss|
    ensures |m.columns| == |m.xticks| == |ss| + BreakCount(addBreaks, ss)
    ensures |m.breaks| == BreakCount(addBreaks, ss)
  {
    if |ss| == 0 then EmptyMatrix
    else
      var n := |ss| - 1;
      var p := Build(addBreaks, ss[..n], ts[..n]);
      var withBreak := if BreakBefore(addBreaks, ss, n) then AddBreakColumn(p) else p;
      AddSiteColumn(withBreak, ts[n])
  }

  /** Column `col` is a break: empty, with an empty tick label. */
  predicate BreakColumnAt(m: Matrix, col: int)
    requires 0 <= col < |m.columns| && |m.xticks| == |m.columns|
  {
    m.columns[col] == [] && m.xticks[col] == ""
  }

  /** One more site keeps every earlier column, tick label and break. */
  lemma BuildKeeps(addBreaks: bool, ss: seq<int>, ts: seq<Turn>, col: int)
    requires |ts| == |ss| > 0
    requires 0 <= col < |Build(addBreaks, ss[..|ss| - 1], ts[..|ss| - 1]).columns|
    ensures var p := Build(addBreaks, ss[..|ss| - 1], ts[..|ss| - 1]);
      var m := Build(addBreaks, ss, ts);
      col < |m.columns| && m.columns[col] == p.columns[col] && m.xticks[col] == p.xticks[col]
  {
  }

  /** One more site keeps every recorded break index. */
  lemma BuildKeepsBreak(addBreaks: bool, ss: seq<int>, ts: seq<Turn>, b: int)
    requires |ts| == |ss| > 0
    requires 0 <= b < |Build(addBreaks, ss[..|ss| - 1], ts[..|ss| - 1]).breaks|
    ensures var p := Build(addBreaks, ss[..|ss| - 1], ts[..|ss| - 1]);
      var m := Build(addBreaks, ss, ts);
      b < |m.breaks| && m.breaks[b] == p.breaks[b]
  {
  }

  /** The new site's column is the last; a break, when there is one, is
      the column before it and the last recorded break. */
  lemma BuildLast(addBreaks: bool, ss: seq<int>, ts: seq<Turn>)
    requires |ts| == |ss| > 0
    ensures var n := |ss| - 1;
      var p := Build(addBreaks, ss[..n], ts[..n]);
      var m := Build(addBreaks, ss, ts);
      && SiteColumn(addBreaks, ss, n) == |m.columns| - 1
      && m.columns[|m.columns| - 1] == ts[n].stack && m.xticks[|m.xticks| - 1] == ts[n].tick
      && (BreakBefore(addBreaks, ss, n) ==> |m.columns| == |p.columns| + 2 && BreakColumnAt(m, |p.columns|))
      && (BreakBefore(addBreaks, ss, n) ==> |m.breaks| == |p.breaks| + 1 && m.breaks[|p.breaks|] == |p.columns|)
      && (!BreakBefore(addBreaks, ss, n) ==> |m.columns| == |p.columns| + 1 && |m.breaks| == |p.breaks|)
  {
    var n := |ss| - 1;
    var p := Build(addBreaks, ss[..n], ts[..n]);
    var m := Build(addBreaks, ss, ts);
    assert ss[..n + 1] == ss;
    if BreakBefore(addBreaks, ss, n) {
      assert m == AddSiteColumn(AddBreakColumn(p), ts[n]);
    } else {
      assert m == AddSiteColumn(p, ts[n]);
    }
  }

  /** Site `k` is at column `SiteColumn(k)`, with its stack and tick label. */
  lemma {:induction false} BuildSite(addBreaks: bool, ss: seq<int>, ts: seq<Turn>, k: int)
    requires |ts| == |ss| && 0 <= k < |ss|
    ensures var m := Build(addBreaks, ss, ts);
      && SiteColumn(addBreaks, ss, k) < |m.columns|
      && m.columns[SiteColumn(addBreaks, ss, k)] == ts[k].stack
      && m.xticks[SiteColumn(addBreaks, ss, k)] == ts[k].tick
  {
    var n := |ss| - 1;
    if k < n {
      BuildSite(addBreaks, ss[..n], ts[..n], k);
      LogoLayout.SiteColumnPrefix(addBreaks, ss, k);
      BuildKeeps(addBreaks, ss, ts, SiteColumn(addBreaks, ss, k));
    } else {
      BuildLast(addBreaks, ss, ts);
    }
  }

  /** Site `k` has a break column just before its own. */
  predicate GapBefore(addBreaks: bool, ss: seq<int>, ts: seq<Turn>, k: int)
    requires |ts| == |ss| && 0 <= k < |ss|
  {
    var m := Build(addBreaks, ss, ts);
    1 <= SiteColumn(addBreaks, ss, k) < |m.columns| && BreakColumnAt(m, SiteColumn(addBreaks, ss, k) - 1)
  }

  /** A site that does not follow its predecessor has a break column just
      before its own. */
  lemma {:induction false} BuildGap(addBreaks: bool, ss: seq<int>, ts: seq<Turn>, k: int)
    requires |ts| == |ss| && 0 <= k < |ss| && BreakBefore(addBreaks, ss, k)
    ensures GapBefore(addBreaks, ss, ts, k)
  {
    var n := |ss| - 1;
    if k < n {
      BreakBeforePrefix(addBreaks, ss, k);
      BuildGap(addBreaks, ss[..n], ts[..n], k);
      BuildGapKept(addBreaks, ss, ts, k);
    } else {
      BuildGapLast(addBreaks, ss, ts);
    }
  }

  /** Dropping the last site does not change whether an earlier one
      follows its predecessor. */
  lemma BreakBeforePrefix(addBreaks: bool, ss: seq<int>, k: int)
    requires 0 <= k < |ss| - 1
    ensures BreakBefore(addBreaks, ss[..|ss| - 1], k) == BreakBefore(addBreaks, ss, k)
  {
  }

  /** The newest site, when it does not follow its predecessor, has the
      break column just before its own. */
  lemma BuildGapLast(addBreaks: bool, ss: seq<int>, ts: seq<Turn>)
    requires |ts| == |ss| > 0 && BreakBefore(addBreaks, ss, |ss| - 1)
    ensures GapBefore(addBreaks, ss, ts, |ss| - 1)
  {
    BuildLast(addBreaks, ss, ts);
  }

  /** A break column before an earlier site survives one more site. */
  lemma BuildGapKept(addBreaks: bool, ss: seq<int>, ts: seq<Turn>, k: int)
    requires |ts| == |ss| && 0 <= k < |ss| - 1
    requires GapBefore(addBreaks, ss[..|ss| - 1], ts[..|ss| - 1], k)
    ensures GapBefore(addBreaks, ss, ts, k)
  {
    LogoLayout.SiteColumnPrefix(addBreaks, ss, k);
    BuildKeeps(addBreaks, ss, ts, SiteColumn(addBreaks, ss, k) - 1);
  }

  /** Every recorded break index is a break column. */
  lemma {:induction false} BuildBreak(addBreaks: bool, ss: seq<int>, ts: seq<Turn>, b: int)
    requires |ts| == |ss| && 0 <= b < |Build(addBreaks, ss, ts).breaks|
    ensures var m := Build(addBreaks, ss, ts);
      m.breaks[b] < |m.columns| && BreakColumnAt(m, m.breaks[b])
  {
    var n := |ss| - 1;
    var p := Build(addBreaks, ss[..n], ts[..n]);
    BuildLast(addBreaks, ss, ts);
    if b < |p.breaks| {
      BuildBreak(addBreaks, ss[..n], ts[..n], b);
      BuildKeepsBreak(addBreaks, ss, ts, b);
      BuildKeeps(addBreaks, ss, ts, p.breaks[b]);
    }
  }

  /** Every column is a break or some site's stack. */
  lemma {:induction false} BuildColumns(addBreaks: bool, ss: seq<int>, ts: seq<Turn>, col: int)
    requires |ts| == |ss| && 0 <= col < |Build(addBreaks, ss, ts).columns|
    ensures var m := Build(addBreaks, ss, ts);
      m.columns[col] == [] || exists k :: 0 <= k < |ss| && m.columns[col] == ts[k].stack
  {
    var n := |ss| - 1;
    var p := Build(addBreaks, ss[..n], ts[..n]);
    var m := Build(addBreaks, ss, ts);
    BuildLast(addBreaks, ss, ts);
    if col < |p.columns| {
      BuildKeeps(addBreaks, ss, ts, col);
      BuildColumns(addBreaks, ss[..n], ts[..n], col);
      if p.columns[col] != [] {
        var k :| 0 <= k < n && p.columns[col] == ts[..n][k].stack;
        assert ts[..n][k] == ts[k];
      }
    } else if col == |m.columns| - 1 {
      assert m.columns[col] == ts[n].stack;
    }
  }

  predicate AllSiteRowsOk(c: Coloring, rows: seq<Clean>, ss: seq<int>) {
    forall k :: 0 <= k < |ss| ==> SiteRow(c, rows, ss[k]).Ok?
  }

  /** The loop over the ascending sites `ss`: the error of the first site
      whose turn fails, or else the matrix. The matrix has one column and
      one tick label per site and per break. */
  function MatrixOf(c: Coloring, addBreaks: bool, rows: seq<Clean>, ss: seq<int>): (r: Result<Matrix>)
    requires LogoLayout.SitesPresent(rows, ss)
    ensures r.Ok? <==> AllSiteRowsOk(c, rows, ss)
    ensures r.Ok? ==>
      && |r.value.columns| == |r.value.xticks| == |ss| + BreakCount(addBreaks, ss)
      && |r.value.breaks| == BreakCount(addBreaks, ss)
    ensures r.Err? ==> exists k :: && 0 <= k < |ss| && SiteRow(c, rows, ss[k]).Err?
                                   && r.error == SiteRow(c, rows, ss[k]).error
                                   && forall j :: 0 <= j < k ==> SiteRow(c, rows, ss[j]).Ok?
  {
    match CollectFrom(Turns(c, rows, ss), 0)
    case Err(e) => Err(e)
    case Ok(ts) => Ok(Build(addBreaks, ss, ts))
  }

  /** The turns of a successful loop. */
  lemma MatrixTurns(c: Coloring, addBreaks: bool, rows: seq<Clean>, ss: seq<int>, m: Matrix)
    requires LogoLayout.SitesPresent(rows, ss) && MatrixOf(c, addBreaks, rows, ss) == Ok(m)
    ensures AllSiteRowsOk(c, rows, ss) && CollectFrom(Turns(c, rows, ss), 0).Ok?
    ensures var ts := CollectFrom(Turns(c, rows, ss), 0).value;
      && |ts| == |ss|
      && m == Build(addBreaks, ss, ts)
      && forall k :: 0 <= k < |ss| ==> ts[k] == Turn(SiteRow(c, rows, ss[k]).value, Group(rows, ss[k])[0].tick)
  {
  }

  /** `BuildSite` for every site at once. */
  lemma BuildSites(addBreaks: bool, ss: seq<int>, ts: seq<Turn>, m: Matrix)
    requires |ts| == |ss| && m == Build(addBreaks, ss, ts)
    ensures forall k :: 0 <= k < |ss| ==>
      && SiteColumn(addBreaks, ss, k) < |m.columns|
      && m.columns[SiteColumn(addBreaks, ss, k)] == ts[k].stack
      && m.xticks[SiteColumn(addBreaks, ss, k)] == ts[k].tick
  {
    forall k | 0 <= k < |ss|
      ensures && SiteColumn(addBreaks, ss, k) < |m.columns|
              && m.columns[SiteColumn(addBreaks, ss, k)] == ts[k].stack
              && m.xticks[SiteColumn(addBreaks, ss, k)] == ts[k].tick
    {
      BuildSite(addBreaks, ss, ts, k);
    }
  }

  /** `BuildGap` for every site at once. */
  lemma BuildGaps(addBreaks: bool, ss: seq<int>, ts: seq<Turn>, m: Matrix)
    requires |ts| == |ss| && m == Build(addBreaks, ss, ts)
    ensures forall k :: 0 <= k < |ss| && BreakBefore(addBreaks, ss, k) ==>
      1 <= SiteColumn(addBreaks, ss, k) < |m.columns| && BreakColumnAt(m, SiteColumn(addBreaks, ss, k) - 1)
  {
    forall k | 0 <= k < |ss| && BreakBefore(addBreaks, ss, k)
      ensures 1 <= SiteColumn(addBreaks, ss, k) < |m.columns| && BreakColumnAt(m, SiteColumn(addBreaks, ss, k) - 1)
    {
      BuildGap(addBreaks, ss, ts, k);
      assert GapBefore(addBreaks, ss, ts, k);
    }
  }

  /** `BuildBreak` for every break at once. */
  lemma BuildBreaks(addBreaks: bool, ss: seq<int>, ts: seq<Turn>, m: Matrix)
    requires |ts| == |ss| && m == Build(addBreaks, ss, ts)
    ensures forall b :: 0 <= b < |m.breaks| ==> m.breaks[b] < |m.columns| && BreakColumnAt(m, m.breaks[b])
  {
    forall b | 0 <= b < |m.breaks|
      ensures m.breaks[b] < |m.columns| && BreakColumnAt(m, m.breaks[b])
    {
      BuildBreak(addBreaks, ss, ts, b);
    }
  }

  /** `BuildColumns` for every column at once. */
  lemma BuildAllColumns(addBreaks: bool, ss: seq<int>, ts: seq<Turn>, m: Matrix)
    requires |ts| == |ss| && m == Build(addBreaks, ss, ts)
    ensures forall col :: 0 <= col < |m.columns| ==>
      m.columns[col] == [] || exists k :: 0 <= k < |ss| && m.columns[col] == ts[k].stack
  {
    forall col | 0 <= col < |m.columns|
      ensures m.columns[col] == [] || exists k :: 0 <= k < |ss| && m.columns[col] == ts[k].stack
    {
      BuildColumns(addBreaks, ss, ts, col);
    }
  }

  /** Every site is in its column: the site's stack, under its tick label. */
  lemma MatrixSites(c: Coloring, addBreaks: bool, rows: seq<Clean>, ss: seq<int>, m: Matrix)
    requires LogoLayout.SitesPresent(rows, ss) && MatrixOf(c, addBreaks, rows, ss) == Ok(m)
    ensures AllSiteRowsOk(c, rows, ss)
    ensures forall k :: 0 <= k < |ss| ==>
      && SiteColumn(addBreaks, ss, k) < |m.columns|
      && m.columns[SiteColumn(addBreaks, ss, k)] == SiteRow(c, rows, ss[k]).value
      && m.xticks[SiteColumn(addBreaks, ss, k)] == Group(rows, ss[k])[0].tick
  {
    MatrixTurns(c, addBreaks, rows, ss, m);
    BuildSites(addBreaks, ss, CollectFrom(Turns(c, rows, ss), 0).value, m);
  }

  /** A break column stands just before every site that does not follow
      its predecessor. */
  lemma MatrixGaps(c: Coloring, addBreaks: bool, rows: seq<Clean>, ss: seq<int>, m: Matrix)
    requires LogoLayout.SitesPresent(rows, ss) && MatrixOf(c, addBreaks, rows, ss) == Ok(m)
    ensures forall k :: 0 <= k < |ss| && BreakBefore(addBreaks, ss, k) ==>
      1 <= SiteColumn(addBreaks, ss, k) < |m.columns| && BreakColumnAt(m, SiteColumn(addBreaks, ss, k) - 1)
  {
    MatrixTurns(c, addBreaks, rows, ss, m);
    BuildGaps(addBreaks, ss, CollectFrom(Turns(c, rows, ss), 0).value, m);
  }

  /** Every recorded break index is a break column. */
  lemma MatrixBreakIndices(c: Coloring, addBreaks: bool, rows: seq<Clean>, ss: seq<int>, m: Matrix)
    requires LogoLayout.SitesPresent(rows, ss) && MatrixOf(c, addBreaks, rows, ss) == Ok(m)
    ensures forall b :: 0 <= b < |m.breaks| ==> m.breaks[b] < |m.columns| && BreakColumnAt(m, m.breaks[b])
  {
    MatrixTurns(c, addBreaks, rows, ss, m);
    BuildBreaks(addBreaks, ss, CollectFrom(Turns(c, rows, ss), 0).value, m);
  }

  /** Every column is a break or some site's stack. */
  lemma MatrixColumns(c: Coloring, addBreaks: bool, rows: seq<Clean>, ss: seq<int>, m: Matrix)
    requires LogoLayout.SitesPresent(rows, ss) && MatrixOf(c, addBreaks, rows, ss) == Ok(m)
    ensures AllSiteRowsOk(c, rows, ss)
    ensures forall col :: 0 <= col < |m.columns| ==>
      m.columns[col] == [] || exists k :: 0 <= k < |ss| && m.columns[col] == SiteRow(c, rows, ss[k]).value
  {
    MatrixTurns(c, addBreaks, rows, ss, m);
    var ts := CollectFrom(Turns(c, rows, ss), 0).value;
    BuildAllColumns(addBreaks, ss, ts, m);
    forall col | 0 <= col < |m.columns| && m.columns[col] != []
      ensures exists k :: 0 <= k < |ss| && m.columns[col] == SiteRow(c, rows, ss[k]).value
    {
      var k :| 0 <= k < |ss| && m.columns[col] == ts[k].stack;
      assert m.columns[col] == SiteRow(c, rows, ss[k]).value;
    }
  }

  lemma AllSitesPresent(rows: seq<Clean>)
    ensures LogoLayout.SitesPresent(rows, SitesOf(rows))
  {
    var ss := SitesOf(rows);
    forall k | 0 <= k < |ss|
      ensures HasSite(rows, ss[k])
    {
      assert ss[k] in ss;
    }
  }

  /** The loop over the sites of the rows, in ascending order. */
  function MatrixOfRows(c: Coloring, addBreaks: bool, rows: seq<Clean>): (r: Result<Matrix>)
    ensures LogoLayout.SitesPresent(rows, SitesOf(rows))
    ensures r == MatrixOf(c, addBreaks, rows, SitesOf(rows))
  {
    AllSitesPresent(rows);
    MatrixOf(c, addBreaks, rows, SitesOf(rows))
  }

  // ----------------------------------------------------------- stack facts

  /** A site's stack is in ascending height, one entry per row of the site,
      with distinct letters of one character each. */
  lemma SiteStackShape(c: Coloring, rows: seq<Clean>, s: int)
    requires SiteRow(c, rows, s).Ok?
    ensures var es := SiteRow(c, rows, s).value;
      && |es| == |Group(rows, s)|
      && (forall i, j :: 0 <= i < j < |es| ==> es[i].height <= es[j].height)
      && (forall i, j :: 0 <= i < j < |es| ==> es[i].letter != es[j].letter)
      && (forall i :: 0 <= i < |es| ==> |es[i].letter| == 1)
  {
    var g := Group(rows, s);
    var es := SiteRow(c, rows, s).value;
    forall i, j | 0 <= i < j < |es|
      ensures es[i].height <= es[j].height && es[i].letter != es[j].letter
    {
      assert es[i].height == g[i].height && es[j].height == g[j].height;
    }
  }

  predicate NoNegativeRows(rows: seq<Clean>) {
    forall i :: 0 <= i < |rows| ==> rows[i].height >= 0.0
  }

  /** With no negative height in the data, no stack holds one. */
  lemma SiteStackNonNegative(c: Coloring, rows: seq<Clean>, s: int)
    requires SiteRow(c, rows, s).Ok? && NoNegativeRows(rows)
    ensures forall i :: 0 <= i < |SiteRow(c, rows, s).value| ==> SiteRow(c, rows, s).value[i].height >= 0.0
  {
    var g := Group(rows, s);
    var es := SiteRow(c, rows, s).value;
    forall i | 0 <= i < |es|
      ensures es[i].height >= 0.0
    {
      GroupMemberIsRow(rows, s, g[i]);
    }
  }

  /** With no negative height in the data, no column holds one. */
  lemma MatrixNonNegative(c: Coloring, addBreaks: bool, rows: seq<Clean>)
    requires MatrixOfRows(c, addBreaks, rows).Ok? && NoNegativeRows(rows)
    ensures var m := MatrixOfRows(c, addBreaks, rows).value;
      forall col, i :: 0 <= col < |m.columns| && 0 <= i < |m.columns[col]| ==> m.columns[col][i].height >= 0.0
  {
    var ss := SitesOf(rows);
    var m := MatrixOfRows(c, addBreaks, rows).value;
    MatrixColumns(c, addBreaks, rows, ss, m);
    forall col, i | 0 <= col < |m.columns| && 0 <= i < |m.columns[col]|
      ensures m.columns[col][i].height >= 0.0
    {
      var k :| 0 <= k < |ss| && m.columns[col] == SiteRow(c, rows, ss[k]).value;
      SiteStackNonNegative(c, rows, ss[k]);
    }
  }

  /** A stack's error is a letter or colour error, never the tick-label
      assertion. */
  lemma StackNotAmbiguous(c: Coloring, g: seq<Clean>)
    ensures Stack(c, g) != Err(AmbiguousTickLabel)
  {
    if Stack(c, g).Err? {
      var i :| 0 <= i < |g| && !LogoLayout.RowOk(c, g[i]) && Stack(c, g).error == StackedOf(c, g[i]).error;
      StackedOfNotAmbiguous(c, g[i]);
    }
  }

  lemma StackedOfNotAmbiguous(c: Coloring, row: Clean)
    ensures StackedOf(c, row) != Err(AmbiguousTickLabel)
  {
    if |row.letter| == 1 && ResolveColor(c, row.letter, row.color).Err? {
      assert ResolveColor(c, row.letter, row.color) == Err(NoColor(row.letter));
    }
  }

  /** When the rows of every site agree on their tick label, the loop's
      assertion that a site has a single tick label never fails. */
  lemma SiteRowNotAmbiguous(c: Coloring, rows: seq<Clean>, s: int)
    requires LogoLayout.TicksConsistent(rows)
    ensures SiteRow(c, rows, s) != Err(AmbiguousTickLabel)
  {
    var g := Group(rows, s);
    forall i | 0 <= i < |g|
      ensures g[i].tick == g[0].tick
    {
      GroupMemberIsRow(rows, s, g[i]);
      GroupMemberIsRow(rows, s, g[0]);
      var p :| 0 <= p < |rows| && rows[p] == g[i];
      var q :| 0 <= q < |rows| && rows[q] == g[0];
      assert rows[p].site == rows[q].site;
    }
    assert SameTicks(g);
    StackNotAmbiguous(c, g);
  }

  /** The same for the whole loop. */
  lemma MatrixNotAmbiguous(c: Coloring, addBreaks: bool, rows: seq<Clean>)
    requires LogoLayout.TicksConsistent(rows)
    ensures MatrixOfRows(c, addBreaks, rows) != Err(AmbiguousTickLabel)
  {
    var ss := SitesOf(rows);
    var r := MatrixOfRows(c, addBreaks, rows);
    if r.Err? {
      var k :| 0 <= k < |ss| && SiteRow(c, rows, ss[k]).Err? && r.error == SiteRow(c, rows, ss[k]).error;
      SiteRowNotAmbiguous(c, rows, ss[k]);
    }
  }

  // ------------------------------------------------------------------ ticks

  /** `numpy.arange(nstacks) + 0.5`: one tick in the middle of every
      column. */
  function TickPositions(n: nat): (r: seq<real>)
    ensures |r| == n && forall i :: 0 <= i < n ==> r[i] - 0.5 == i as real
  {
    seq(n, i => i as real + 0.5)
  }
}

=== FILE: line.dfy ===
/** `draw_line` of dmslogo/line.py: a step plot of one or two per-site
    heights over an unbroken run of integer sites, with y-limits from an
    `AxLimSetter` (fixed limits may override them but must contain the
    data), a figure width that shrinks per site as the run grows, relabelled
    x ticks, and optional underlines below the data at selected sites. The
    renderer's measurements and the tick locator's candidates are inputs. */
module Line {
  import opened Results
  import opened Reals
  import opened Tables
  import opened AxLim
  import opened Ticks

  /** One data-frame row read through the caller's columns: the site, the
      tick label (the `xtick_col` value as a string), the heights in
      `height_col` and `height_col2`, and the `show_col` flag. */
  datatype LineRow = LineRow(x: Num, xtick: string, height: real, height2: real, show: bool)

  /** The data frame: its columns, its rows, and whether the `show_col`
      column has `bool` dtype. */
  datatype LineTable = LineTable(columns: set<string>, rows: seq<LineRow>, showIsBool: bool)

  datatype LineArgs = LineArgs(
    xCol: string,
    heightCol: string,
    height2Col: Option<string>,
    xtickCol: Option<string>,
    showCol: Option<string>,
    xlabel: Option<string>,
    ylabel: Option<string>,
    title: Option<string>,
    showColor: Option<string>,
    linewidth: real,
    widthscale: real,
    heightscale: real,
    hideAxis: bool,
    ownAxis: bool,
    fixedYmin: Option<real>,
    fixedYmax: Option<real>)

  function XtickColOf(a: LineArgs): string {
    if a.xtickCol.Some? then a.xtickCol.value else a.xCol
  }

  /** `xlabel`, defaulting to the tick column. */
  function XLabelOf(a: LineArgs): string {
    if a.xlabel.Some? then a.xlabel.value else XtickColOf(a)
  }

  /** `ylabel`, defaulting to the height column. */
  function YLabelOf(a: LineArgs): string {
    if a.ylabel.Some? then a.ylabel.value else a.heightCol
  }

  // ------------------------------------------------------------ validation

  /** The columns `draw_line` reads. */
  function LineColumns(a: LineArgs): seq<string> {
    [a.xCol, XtickColOf(a), a.heightCol]
    + (if a.height2Col.Some? then [a.height2Col.value] else [])
    + (if TruthyString(a.showCol) then [a.showCol.value] else [])
  }

  /** The column checks: the `show_col` dtype is looked at first (a missing
      `show_col` raises there), then every column read must exist. */
  function CheckLineColumns(a: LineArgs, t: LineTable): (r: Result<()>)
    ensures r.Ok? <==>
      (TruthyString(a.showCol) ==> t.showIsBool)
      && forall i :: 0 <= i < |LineColumns(a)| ==> LineColumns(a)[i] in t.columns
    ensures TruthyString(a.showCol) && a.showCol.value !in t.columns ==> r == Err(MissingColumn(a.showCol.value))
    ensures TruthyString(a.showCol) && a.showCol.value in t.columns && !t.showIsBool ==> r == Err(ShowColNotBool)
    ensures r.Err? && r.error != ShowColNotBool ==>
      exists i :: 0 <= i < |LineColumns(a)| && r.error == MissingColumn(LineColumns(a)[i])
        && LineColumns(a)[i] !in t.columns
  {
    if TruthyString(a.showCol) && a.showCol.value !in t.columns then
      assert LineColumns(a)[|LineColumns(a)| - 1] == a.showCol.value;
      Err(MissingColumn(a.showCol.value))
    else if TruthyString(a.showCol) && !t.showIsBool then Err(ShowColNotBool)
    else
      CheckColumns(t.columns, LineColumns(a))
  }

  /** `data[cols]`: the fields `draw_line` does not read are blanked, so
      that rows differing only there count as duplicates. */
  function Project(a: LineArgs, r: LineRow): LineRow {
    r.(height2 := if a.height2Col.Some? then r.height2 else 0.0,
       show := if TruthyString(a.showCol) then r.show else false)
  }

  function ProjectAll(a: LineArgs, rows: seq<LineRow>): (r: seq<LineRow>)
    ensures |r| == |rows| && forall i :: 0 <= i < |rows| ==> r[i] == Project(a, rows[i])
  {
    seq(|rows|, i requires 0 <= i < |rows| => Project(a, rows[i]))
  }

  /** `drop_duplicates()`: the first occurrence of every row, in order. */
  function Dedup(rows: seq<LineRow>): (r: seq<LineRow>)
    ensures forall x :: x in r <==> x in rows
    ensures forall i, j :: 0 <= i < j < |r| ==> r[i] != r[j]
  {
    if |rows| == 0 then []
    else
      var prefix := Dedup(rows[..|rows| - 1]);
      var last := rows[|rows| - 1];
      assert forall x :: x in rows <==> x in rows[..|rows| - 1] || x == last;
      if last in prefix then prefix else prefix + [last]
  }

  ghost predicate ByX(rows: seq<LineRow>) {
    forall i, j :: 0 <= i < j < |rows| ==> rows[i].x.AsReal() <= rows[j].x.AsReal()
  }

  function InsertByX(rows: seq<LineRow>, r: LineRow): (s: seq<LineRow>)
    requires ByX(rows)
    ensures ByX(s)
    ensures multiset(s) == multiset(rows) + multiset{r}
    ensures |s| == |rows| + 1
    ensures s[0] == r || (|rows| > 0 && s[0] == rows[0])
  {
    if |rows| == 0 then [r]
    else if r.x.AsReal() < rows[0].x.AsReal() then [r] + rows
    else
      var tail := InsertByX(rows[1..], r);
      assert rows == [rows[0]] + rows[1..];
      [rows[0]] + tail
  }

  /** `sort_values(x_col)`. */
  function SortByX(rows: seq<LineRow>): (s: seq<LineRow>)
    ensures ByX(s)
    ensures multiset(s) == multiset(rows)
    ensures |s| == |rows|
  {
    if |rows| == 0 then []
    else
      assert rows == [rows[0]] + rows[1..];
      InsertByX(SortByX(rows[1..]), rows[0])
  }

  predicate WholeSites(rows: seq<LineRow>) {
    forall i :: 0 <= i < |rows| ==> rows[i].x.IsWhole()
  }

  /** pandas gives the whole column a float dtype once any site is a float. */
  predicate FloatSites(rows: seq<LineRow>) {
    exists i :: 0 <= i < |rows| && rows[i].x.FloatNum?
  }

  function SitesOfRows(rows: seq<LineRow>): (xs: seq<int>)
    ensures |xs| == |rows|
    ensures forall i :: 0 <= i < |rows| ==> xs[i] == rows[i].x.AsReal().Floor
  {
    seq(|rows|, i requires 0 <= i < |rows| => rows[i].x.AsReal().Floor)
  }

  predicate NonDecreasing(xs: seq<int>) {
    forall i, j :: 0 <= i < j < |xs| ==> xs[i] <= xs[j]
  }

  /** Every whole number from the smallest site to the largest occurs. */
  predicate Covers(xs: seq<int>)
    requires |xs| > 0
  {
    forall v :: xs[0] <= v <= xs[|xs| - 1] ==> v in xs
  }

  /** The sites are `xmin, xmin + 1, ..., xmax`, in that order. */
  predicate Consecutive(xs: seq<int>) {
    forall i :: 0 <= i < |xs| ==> xs[i] == xs[0] + i
  }

  /** The site checks of `draw_line` on the sorted rows: integer sites, then
      an unbroken run, then one row per site. With no rows `min()` is NaN,
      so the run check compares NaN with 0 and fails. The run check counts
      the distinct sites first and only then builds `range(xmin, xmax + 1)`,
      which refuses float bounds: whole-valued float sites that pass the
      count fail there. */
  function CheckSites(rows: seq<LineRow>): (r: Result<seq<int>>)
    requires ByX(rows)
    ensures r.Ok? <==> WholeSites(rows) && |rows| > 0 && !FloatSites(rows) && Consecutive(SitesOfRows(rows))
    ensures r.Ok? ==> r.value == SitesOfRows(rows)
    ensures !WholeSites(rows) ==> r == Err(NonIntegerSite)
    ensures WholeSites(rows) && |rows| == 0 ==> r == Err(NotSequential)
    ensures WholeSites(rows) && |rows| > 0 && !Covers(SitesOfRows(rows)) ==> r == Err(NotSequential)
    ensures WholeSites(rows) && |rows| > 0 && Covers(SitesOfRows(rows)) && FloatSites(rows) ==> r == Err(FloatSiteRange)
    ensures (WholeSites(rows) && |rows| > 0 && Covers(SitesOfRows(rows)) && !FloatSites(rows)
             && |rows| != SitesOfRows(rows)[|rows| - 1] - SitesOfRows(rows)[0] + 1) ==> r == Err(NotUniqueMapping)
  {
    if !WholeSites(rows) then Err(NonIntegerSite)
    else if |rows| == 0 then Err(NotSequential)
    else
      var xs := SitesOfRows(rows);
      assert NonDecreasing(xs) by {
        forall i, j | 0 <= i < j < |xs| ensures xs[i] <= xs[j] {
          assert rows[i].x.AsReal() <= rows[j].x.AsReal();
        }
      }
      assert Consecutive(xs) ==> Covers(xs) && |xs| == xs[|xs| - 1] - xs[0] + 1 by {
        if Consecutive(xs) { ConsecutiveMeetsChecks(xs); }
      }
      if !Covers(xs) then Err(NotSequential)
      else if FloatSites(rows) then Err(FloatSiteRange)
      else if |xs| != xs[|xs| - 1] - xs[0] + 1 then Err(NotUniqueMapping)
      else
        ConsecutiveFromChecks(xs);
        Ok(xs)
  }

  /** An unbroken run passes both checks. */
  lemma ConsecutiveMeetsChecks(xs: seq<int>)
    requires |xs| > 0 && Consecutive(xs)
    ensures Covers(xs) && |xs| == xs[|xs| - 1] - xs[0] + 1
  {
    forall v | xs[0] <= v <= xs[|xs| - 1]
      ensures v in xs
    {
      assert xs[v - xs[0]] == v;
    }
  }

  /** Sites 1.0 and 2.0 pass the integer test and the count, and then fail
      at `range()`; the same sites as integers pass. */
  lemma FloatSitesRefused()
    ensures CheckSites([LineRow(FloatNum(1.0), "1", 0.5, 0.5, true), LineRow(FloatNum(2.0), "2", 0.5, 0.5, true)])
            == Err(FloatSiteRange)
    ensures CheckSites([LineRow(IntNum(1), "1", 0.5, 0.5, true), LineRow(IntNum(2), "2", 0.5, 0.5, true)])
            == Ok([1, 2])
  {
    var floats := [LineRow(FloatNum(1.0), "1", 0.5, 0.5, true), LineRow(FloatNum(2.0), "2", 0.5, 0.5, true)];
    var ints := [LineRow(IntNum(1), "1", 0.5, 0.5, true), LineRow(IntNum(2), "2", 0.5, 0.5, true)];
    assert SitesOfRows(floats) == [1, 2];
    assert SitesOfRows(ints) == [1, 2];
    assert floats[0].x.FloatNum?;
    assert Consecutive([1, 2]);
    ConsecutiveMeetsChecks([1, 2]);
  }

  /** A sorted list of sites that covers its range with exactly as many
      entries as the range has numbers is that range, in order. */
  lemma ConsecutiveFromChecks(xs: seq<int>)
    requires |xs| > 0 && NonDecreasing(xs) && Covers(xs)
    requires |xs| == xs[|xs| - 1] - xs[0] + 1
    ensures Consecutive(xs)
  {
    var n := |xs|;
    forall i | 0 <= i < n - 1
      ensures xs[i + 1] <= xs[i] + 1
    {
      assert xs[i] + 1 <= xs[n - 1] ==> xs[i] + 1 in xs;
    }
    forall i | 0 <= i < n
      ensures xs[i] == xs[0] + i
    {
      UpFromStart(xs, i);
      DownFromEnd(xs, i);
    }
  }

  lemma {:induction false} UpFromStart(xs: seq<int>, i: nat)
    requires i < |xs|
    requires forall k :: 0 <= k < |xs| - 1 ==> xs[k + 1] <= xs[k] + 1
    ensures xs[i] <= xs[0] + i
  {
    if i > 0 {
      UpFromStart(xs, i - 1);
    }
  }

  lemma {:induction false} DownFromEnd(xs: seq<int>, i: nat)
    requires i < |xs|
    requires forall k :: 0 <= k < |xs| - 1 ==> xs[k + 1] <= xs[k] + 1
    ensures xs[i] >= xs[|xs| - 1] - (|xs| - 1 - i)
    decreases |xs| - i
  {
    if i < |xs| - 1 {
      DownFromEnd(xs, i + 1);
    }
  }

  // --------------------------------------------------------------- limits

  function Heights(rows: seq<LineRow>): (hs: seq<real>)
    ensures |hs| == |rows| && forall i :: 0 <= i < |rows| ==> hs[i] == rows[i].height
  {
    seq(|rows|, i requires 0 <= i < |rows| => rows[i].height)
  }

  function Heights2(rows: seq<LineRow>): (hs: seq<real>)
    ensures |hs| == |rows| && forall i :: 0 <= i < |rows| ==> hs[i] == rows[i].height2
  {
    seq(|rows|, i requires 0 <= i < |rows| => rows[i].height2)
  }

  /** `ydata_min, ydata_max`: the data range, widened to zero when the setter
      includes zero, then widened by the second heights. */
  function DataRange(s: Setter, h1: seq<real>, h2: Option<seq<real>>): (d: (real, real))
    requires |h1| > 0 && (h2.Some? ==> |h2.value| > 0)
    ensures forall i :: 0 <= i < |h1| ==> d.0 <= h1[i] <= d.1
    ensures h2.Some? ==> forall i :: 0 <= i < |h2.value| ==> d.0 <= h2.value[i] <= d.1
    ensures s.includeZero ==> d.0 <= 0.0 <= d.1
  {
    var lo1 := if s.includeZero then Min2(0.0, Min(h1)) else Min(h1);
    var hi1 := if s.includeZero then Max2(0.0, Max(h1)) else Max(h1);
    if h2.Some? then (Min2(lo1, Min(h2.value)), Max2(hi1, Max(h2.value))) else (lo1, hi1)
  }

  /** The setter's limits of the first heights, widened by those of the
      second heights when there are any. */
  function SetterLimits(s: Setter, h1: seq<real>, h2: Option<seq<real>>): (r: Result<(real, real)>)
    requires Valid(s) && |h1| > 0 && (h2.Some? ==> |h2.value| > 0)
    ensures r.Ok? ==> forall i :: 0 <= i < |h1| ==> r.value.0 <= h1[i] <= r.value.1
    ensures r.Ok? && h2.Some? ==> forall i :: 0 <= i < |h2.value| ==> r.value.0 <= h2.value[i] <= r.value.1
    ensures r.Ok? && s.includeZero ==> r.value.0 <= 0.0 <= r.value.1
    ensures r.Ok? <==> GetLims(s, h1).Ok? && (h2.Some? ==> GetLims(s, h2.value).Ok?)
    ensures GetLims(s, h1).Err? ==> r == GetLims(s, h1)
    ensures GetLims(s, h1).Ok? && h2.Some? && GetLims(s, h2.value).Err? ==> r == GetLims(s, h2.value)
  {
    match GetLims(s, h1)
    case Err(e) => Err(e)
    case Ok(lim1) =>
      if h2.None? then Ok(lim1)
      else
        match GetLims(s, h2.value)
        case Err(e) => Err(e)
        case Ok(lim2) => Ok((Min2(lim1.0, lim2.0), Max2(lim1.1, lim2.1)))
  }

  /** The fixed limits: a maximum below the data's maximum or a minimum
      above its minimum is an error (the maximum is checked first);
      otherwise each given one replaces the setter's. */
  function FixedLimits(lim: (real, real), d: (real, real), fixedYmin: Option<real>, fixedYmax: Option<real>)
    : (r: Result<(real, real)>)
    ensures fixedYmax.Some? && fixedYmax.value < d.1 ==> r == Err(FixedYmaxTooSmall)
    ensures (fixedYmax.None? || fixedYmax.value >= d.1) && fixedYmin.Some? && fixedYmin.value > d.0 ==>
      r == Err(FixedYminTooLarge)
    ensures r.Ok? <==> (fixedYmax.None? || fixedYmax.value >= d.1) && (fixedYmin.None? || fixedYmin.value <= d.0)
    ensures r.Ok? ==> r.value.0 == (if fixedYmin.Some? then fixedYmin.value else lim.0)
    ensures r.Ok? ==> r.value.1 == (if fixedYmax.Some? then fixedYmax.value else lim.1)
  {
    if fixedYmax.Some? && fixedYmax.value < d.1 then Err(FixedYmaxTooSmall)
    else if fixedYmin.Some? && fixedYmin.value > d.0 then Err(FixedYminTooLarge)
    else Ok((if fixedYmin.Some? then fixedYmin.value else lim.0,
             if fixedYmax.Some? then fixedYmax.value else lim.1))
  }

  /** The y-limits of `draw_line`. Whatever fixed limits are given, the
      limits hold every height (and zero when the setter includes zero). */
  function LineYLimits(s: Setter, h1: seq<real>, h2: Option<seq<real>>,
                       fixedYmin: Option<real>, fixedYmax: Option<real>): (r: Result<(real, real)>)
    requires Valid(s) && |h1| > 0 && (h2.Some? ==> |h2.value| > 0)
    ensures r.Ok? ==> forall i :: 0 <= i < |h1| ==> r.value.0 <= h1[i] <= r.value.1
    ensures r.Ok? && h2.Some? ==> forall i :: 0 <= i < |h2.value| ==> r.value.0 <= h2.value[i] <= r.value.1
    ensures r.Ok? && s.includeZero ==> r.value.0 <= 0.0 <= r.value.1
    ensures SetterLimits(s, h1, h2).Err? ==> r == SetterLimits(s, h1, h2)
    ensures SetterLimits(s, h1, h2).Ok? ==>
      r == FixedLimits(SetterLimits(s, h1, h2).value, DataRange(s, h1, h2), fixedYmin, fixedYmax)
  {
    match SetterLimits(s, h1, h2)
    case Err(e) => Err(e)
    case Ok(lim) => FixedLimits(lim, DataRange(s, h1, h2), fixedYmin, fixedYmax)
  }

  // ------------------------------------------------------ figure and axis

  /** `min(700, max(100, xlen))`. */
  function ClampSites(xlen: int): (c: int)
    ensures 100 <= c <= 700
    ensures 100 <= xlen <= 700 ==> c == xlen
  {
    if xlen < 100 then 100 else if xlen > 700 then 700 else xlen
  }

  /** The figure width per site, in inches: 0.02 up to 100 sites, falling
      linearly to 0.007 at 700 sites and beyond. */
  function XWidth(xlen: int): (w: real)
    ensures 0.007 <= w <= 0.02
    ensures xlen <= 100 ==> w == 0.02
    ensures xlen >= 700 ==> w == 0.007
  {
    0.02 - 0.013 * (ClampSites(xlen) - 100) as real / 600.0
  }

  /** More sites never get more width each. */
  lemma XWidthNonIncreasing(m: int, n: int)
    requires m <= n
    ensures XWidth(n) <= XWidth(m)
  {
    assert ClampSites(m) <= ClampSites(n);
  }

  /** `fig.set_size_inches(...)` for a run of `xlen` sites: the axis adds a
      fixed half inch of width. */
  function LineFigureSize(xlen: nat, widthscale: real, heightscale: real, hideAxis: bool, title: Option<string>)
    : (real, real)
  {
    (widthscale * XWidth(xlen) * xlen as real + 0.5 * Flag(!hideAxis),
     heightscale * (2.0 + 0.5 * Flag(!hideAxis) + 0.5 * Flag(TruthyString(title))))
  }

  /** The width of the line figure grows with the run: by at most 0.02
      inches (times `widthscale`) per site, and never by less than 0.007. */
  lemma LineFigureWidthBounds(xlen: nat, widthscale: real, heightscale: real, hideAxis: bool, title: Option<string>)
    requires widthscale >= 0.0
    ensures var w := LineFigureSize(xlen, widthscale, heightscale, hideAxis, title).0 - 0.5 * Flag(!hideAxis);
      0.007 * widthscale * xlen as real <= w <= 0.02 * widthscale * xlen as real
  {
    var x := XWidth(xlen);
    var c := widthscale * xlen as real;
    assert c >= 0.0;
    ScaleWithin(c, x, 0.007, 0.02);
    assert widthscale * x * xlen as real == c * x;
  }

  lemma ScaleWithin(c: real, x: real, lo: real, hi: real)
    requires c >= 0.0 && lo <= x <= hi
    ensures c * lo <= c * x <= c * hi
  {
    assert c * x - c * lo == c * (x - lo);
    assert c * hi - c * x == c * (hi - x);
  }

  /** `ax.set_xlim(...)`: the run of sites plus half a site on each side and
      a margin of 0.02 per site. */
  function LineXLimits(xmin: int, xmax: int, xlen: nat): (real, real) {
    (xmin as real - 0.5 - 0.02 * xlen as real, xmax as real + 0.5 + 0.02 * xlen as real)
  }

  /** `max(4, xlen // 50)`: the number of ticks asked of the locator. */
  function TickCount(xlen: nat): (n: nat)
    ensures n >= 4 && n >= xlen / 50
    ensures n == 4 || n == xlen / 50
    ensures xlen < 250 ==> n == 4
  {
    if xlen / 50 > 4 then xlen / 50 else 4
  }

  // -------------------------------------------------------------- the line

  /** The points handed to `ax.step(..., where='mid')`: the sites with half
      a site added before the first and after the last, the first and last
      heights repeated there. */
  function StepPath(xmin: int, xmax: int, xs: seq<int>, ys: seq<real>): (p: (seq<real>, seq<real>))
    requires |xs| == |ys| > 0
    ensures |p.0| == |p.1| == |xs| + 2
    ensures p.0[0] == xmin as real - 0.5 && p.0[|xs| + 1] == xmax as real + 0.5
    ensures forall i :: 0 <= i < |xs| ==> p.0[i + 1] == xs[i] as real && p.1[i + 1] == ys[i]
    ensures p.1[0] == ys[0] && p.1[|xs| + 1] == ys[|ys| - 1]
  {
    var n := |xs|;
    (seq(n + 2, k requires 0 <= k < n + 2 =>
       if k == 0 then xmin as real - 0.5 else if k == n + 1 then xmax as real + 0.5 else xs[k - 1] as real),
     seq(n + 2, k requires 0 <= k < n + 2 =>
       if k == 0 then ys[0] else if k == n + 1 then ys[n - 1] else ys[k - 1]))
  }

  /** The height a `where='mid'` step plot shows at `t`: each point's value
      holds from the midpoint with its left neighbour to the midpoint with
      its right neighbour. */
  function StepAt(px: seq<real>, py: seq<real>, t: real): real
    requires |px| == |py| > 0
  {
    var n := |px| - 1;
    if n == 0 then py[0]
    else if (px[n - 1] + px[n]) / 2.0 <= t then py[n]
    else StepAt(px[..n], py[..n], t)
  }

  predicate Increasing(px: seq<real>) {
    forall i, j :: 0 <= i < j < |px| ==> px[i] < px[j]
  }

  /** Between its two midpoints, the step plot shows a point's value. */
  lemma {:induction false} StepAtPoint(px: seq<real>, py: seq<real>, t: real, j: int)
    requires |px| == |py| > 0 && Increasing(px) && 0 <= j < |px|
    requires j == 0 || (px[j - 1] + px[j]) / 2.0 <= t
    requires j == |px| - 1 || t < (px[j] + px[j + 1]) / 2.0
    ensures StepAt(px, py, t) == py[j]
  {
    var n := |px| - 1;
    if n > 0 && j < n {
      assert (px[j] + px[j + 1]) / 2.0 <= (px[n - 1] + px[n]) / 2.0 by {
        if j + 1 < n { assert px[j] < px[n - 1] && px[j + 1] < px[n]; }
      }
      assert px[..n][j] == px[j] && py[..n][j] == py[j];
      assert j + 1 < n ==> px[..n][j + 1] == px[j + 1];
      assert j > 0 ==> px[..n][j - 1] == px[j - 1];
      StepAtPoint(px[..n], py[..n], t, j);
    }
  }

  /** The step path of an unbroken run has strictly increasing x. */
  lemma StepPathIncreasing(xs: seq<int>, ys: seq<real>)
    requires |xs| == |ys| > 0 && Consecutive(xs)
    ensures Increasing(StepPath(xs[0], xs[|xs| - 1], xs, ys).0)
  {
    var p := StepPath(xs[0], xs[|xs| - 1], xs, ys);
    var n := |xs|;
    forall a | 0 < a < n + 1 ensures p.0[a] == (xs[0] + a - 1) as real {
      assert p.0[a] == xs[a - 1] as real;
    }
    forall a, b | 0 <= a < b < |p.0| ensures p.0[a] < p.0[b] {
      if 0 < a && b < n + 1 {
        assert p.0[a] == (xs[0] + a - 1) as real && p.0[b] == (xs[0] + b - 1) as real;
      } else if 0 < a {
        assert p.0[a] == (xs[0] + a - 1) as real;
      } else if b < n + 1 {
        assert p.0[b] == (xs[0] + b - 1) as real;
      }
    }
  }

  /** On a path of increasing x whose point `k` sits at `x`, with its
      neighbours a whole site away (or half a site at the ends of the
      path), the step plot shows point `k`'s value over `[x - 0.5, x + 0.5)`;
      at the ends that value is repeated by the outer point. */
  lemma StepUnitCell(px: seq<real>, py: seq<real>, t: real, k: int, x: real)
    requires |px| == |py| && 0 < k < |px| - 1 && Increasing(px)
    requires px[k] == x && x - 0.5 <= t < x + 0.5
    requires px[k - 1] == (if k == 1 then x - 0.5 else x - 1.0)
    requires px[k + 1] == (if k == |px| - 2 then x + 0.5 else x + 1.0)
    requires k == 1 ==> py[0] == py[1]
    requires k == |px| - 2 ==> py[k + 1] == py[k]
    ensures StepAt(px, py, t) == py[k]
  {
    if k == 1 && t < x - 0.25 {
      StepAtPoint(px, py, t, 0);
    } else if k == |px| - 2 && t >= x + 0.25 {
      StepAtPoint(px, py, t, k + 1);
    } else {
      StepAtPoint(px, py, t, k);
    }
  }

  /** Around site `i` of an unbroken run, the step path has the shape
      `StepUnitCell` asks for. */
  lemma StepPathAroundSite(xs: seq<int>, ys: seq<real>, i: int)
    requires |xs| == |ys| > 0 && Consecutive(xs) && 0 <= i < |xs|
    ensures var p := StepPath(xs[0], xs[|xs| - 1], xs, ys);
      var x := xs[i] as real;
      && |p.0| == |p.1| == |xs| + 2 && Increasing(p.0)
      && p.0[i + 1] == x && p.1[i + 1] == ys[i]
      && p.0[i] == (if i + 1 == 1 then x - 0.5 else x - 1.0)
      && p.0[i + 2] == (if i + 1 == |p.0| - 2 then x + 0.5 else x + 1.0)
      && (i + 1 == 1 ==> p.1[0] == p.1[1])
      && (i + 1 == |p.0| - 2 ==> p.1[i + 2] == p.1[i + 1])
  {
    var p := StepPath(xs[0], xs[|xs| - 1], xs, ys);
    var n := |xs|;
    var x := xs[i] as real;
    StepPathIncreasing(xs, ys);
    assert p.0[i + 1] == x && p.1[i + 1] == ys[i];
    assert p.0[i] == (if i == 0 then x - 0.5 else x - 1.0) by {
      if i > 0 { assert p.0[i] == xs[i - 1] as real; assert xs[i - 1] == xs[0] + i - 1; }
    }
    assert p.0[i + 2] == (if i == n - 1 then x + 0.5 else x + 1.0) by {
      if i + 1 < n { assert p.0[i + 2] == xs[i + 1] as real; assert xs[i + 1] == xs[0] + i + 1; }
    }
  }

  /** The line of an unbroken run shows each site's height over the whole
      unit cell `[x - 0.5, x + 0.5)` of that site. */
  lemma StepCoversSite(xs: seq<int>, ys: seq<real>, i: int, t: real)
    requires |xs| == |ys| > 0 && Consecutive(xs) && 0 <= i < |xs|
    requires xs[i] as real - 0.5 <= t < xs[i] as real + 0.5
    ensures var p := StepPath(xs[0], xs[|xs| - 1], xs, ys);
      StepAt(p.0, p.1, t) == ys[i]
  {
    var p := StepPath(xs[0], xs[|xs| - 1], xs, ys);
    StepPathAroundSite(xs, ys, i);
    StepUnitCell(p.0, p.1, t, i + 1, xs[i] as real);
  }

  // ------------------------------------------------------------ underlines

  /** What rendering supplies for `data_units_from_linewidth`: the figure in
      inches and the axes' position as fractions of it. */
  datatype LineMeasure = LineMeasure(figWidth: real, figHeight: real, posWidth: real, posHeight: real)

  /** `data_units_from_linewidth(linewidth, ax, reference)`: a width in
      points as data units along `reference`. */
  function DataUnits(linewidth: real, reference: string, m: LineMeasure, xlim: (real, real), ylim: (real, real))
    : (r: Result<real>)
    ensures reference != "x" && reference != "y" ==> r == Err(InvalidReference(reference))
    ensures r.Ok? ==> reference == "x" || reference == "y"
    ensures r.Ok? ==>
      var length := if reference == "x" then m.figWidth * m.posWidth else m.figHeight * m.posHeight;
      var range := if reference == "x" then xlim.1 - xlim.0 else ylim.1 - ylim.0;
      length != 0.0 && range != 0.0 && r.value * (length * 72.0) / range == linewidth
  {
    if reference != "x" && reference != "y" then Err(InvalidReference(reference))
    else
      var length := if reference == "x" then m.figWidth * m.posWidth else m.figHeight * m.posHeight;
      var range := if reference == "x" then xlim.1 - xlim.0 else ylim.1 - ylim.0;
      if length == 0.0 || range == 0.0 then Err(DivisionByZero)
      else
        PointsRoundTrip(linewidth, length * 72.0, range);
        Ok(linewidth / (length * 72.0 / range))
  }

  /** Converting points to data units and back is the identity. */
  lemma PointsRoundTrip(lw: real, points: real, range: real)
    requires points != 0.0 && range != 0.0
    ensures lw / (points / range) * points / range == lw
  {
    var q := points / range;
    assert q != 0.0;
    assert lw / q * q == lw;
    assert lw / q * points / range == lw / q * q;
  }

  /** A rectangle by its lower-left corner, width and height. */
  datatype Rect = Rect(x0: real, y0: real, width: real, height: real)

  /** The underline of site `x` as the source draws it: it starts half a
      site plus a line width left of the site and is `2 + lw` wide. */
  function UnderlineAsWritten(x: int, ymin: real, ydataMin: real, lwx: real, lwy: real): (r: Rect)
    ensures r.x0 == x as real - 0.5 - lwx && r.x0 + r.width == x as real + 1.5
    ensures r.y0 == ymin && r.y0 + r.height == ydataMin - lwy
  {
    Rect(x as real - 0.5 - lwx, ymin, 2.0 + 1.0 * lwx, (ydataMin - ymin) - lwy)
  }

  /** The as-written underline reaches a whole site past its own cell: it
      covers the next site's cell `[x + 0.5, x + 1.5]` entirely, and for a
      line narrower than a site it reaches farther right of its site than
      left of it. */
  lemma UnderlineAsWrittenSpills(x: int, ymin: real, ydataMin: real, lwx: real, lwy: real)
    requires 0.0 <= lwx < 1.0
    ensures var r := UnderlineAsWritten(x, ymin, ydataMin, lwx, lwy);
      && r.x0 + r.width == x as real + 1.5
      && (r.x0 + r.width) - x as real > x as real - r.x0
  {
  }

  /** The underline of site `x`: its unit cell widened by one line width on
      each side, from the axis bottom up to a line width below the data. */
  function Underline(x: int, ymin: real, ydataMin: real, lwx: real, lwy: real): (r: Rect)
    ensures r.x0 == x as real - 0.5 - lwx && r.x0 + r.width == x as real + 0.5 + lwx
    ensures r.x0 + r.width / 2.0 == x as real
    ensures r.y0 == ymin && r.y0 + r.height == ydataMin - lwy
  {
    Rect(x as real - 0.5 - lwx, ymin, 1.0 + 2.0 * lwx, (ydataMin - ymin) - lwy)
  }

  /** The number of rows whose `show_col` is true. */
  function CountShown(rows: seq<LineRow>): (n: nat)
    ensures n <= |rows|
  {
    if |rows| == 0 then 0
    else CountShown(rows[..|rows| - 1]) + if rows[|rows| - 1].show then 1 else 0
  }

  /** The underlines of the shown sites, in site order: one per shown row
      and nothing else. */
  function Underlines(rows: seq<LineRow>, xs: seq<int>, ymin: real, ydataMin: real, lwx: real, lwy: real)
    : (us: seq<Rect>)
    requires |xs| == |rows|
    ensures |us| == CountShown(rows)
    ensures forall k :: 0 <= k < |us| ==>
      exists i :: 0 <= i < |rows| && rows[i].show && us[k] == Underline(xs[i], ymin, ydataMin, lwx, lwy)
  {
    if |rows| == 0 then []
    else
      var n := |rows| - 1;
      var prev := Underlines(rows[..n], xs[..n], ymin, ydataMin, lwx, lwy);
      assert forall k :: 0 <= k < |prev| ==>
        exists i :: 0 <= i < |rows[..n]| && rows[..n][i].show && prev[k] == Underline(xs[..n][i], ymin, ydataMin, lwx, lwy);
      forall k | 0 <= k < |prev|
        ensures exists i :: 0 <= i < |rows| && rows[i].show && prev[k] == Underline(xs[i], ymin, ydataMin, lwx, lwy)
      {
        var i :| 0 <= i < n && rows[..n][i].show && prev[k] == Underline(xs[..n][i], ymin, ydataMin, lwx, lwy);
        assert rows[..n][i] == rows[i] && xs[..n][i] == xs[i];
      }
      var us := if rows[n].show then prev + [Underline(xs[n], ymin, ydataMin, lwx, lwy)] else prev;
      assert forall k :: 0 <= k < |prev| ==> us[k] == prev[k];
      assert |us| == CountShown(rows);
      us
  }

  /** The underline of a shown row comes right after those of the shown
      rows before it. */
  lemma {:induction false} UnderlineOfShownRow(rows: seq<LineRow>, xs: seq<int>, ymin: real, ydataMin: real,
                                               lwx: real, lwy: real, i: int)
    requires |xs| == |rows| && 0 <= i < |rows| && rows[i].show
    ensures var us := Underlines(rows, xs, ymin, ydataMin, lwx, lwy);
      CountShown(rows[..i]) < |us| && us[CountShown(rows[..i])] == Underline(xs[i], ymin, ydataMin, lwx, lwy)
  {
    var n := |rows| - 1;
    var us := Underlines(rows, xs, ymin, ydataMin, lwx, lwy);
    var prev := Underlines(rows[..n], xs[..n], ymin, ydataMin, lwx, lwy);
    var u := Underline(xs[n], ymin, ydataMin, lwx, lwy);
    assert us == if rows[n].show then prev + [u] else prev;
    var c := CountShown(rows[..i]);
    if i < n {
      UnderlineOfShownRow(rows[..n], xs[..n], ymin, ydataMin, lwx, lwy, i);
      assert rows[..n][..i] == rows[..i];
      assert rows[..n][i] == rows[i] && xs[..n][i] == xs[i];
      assert c < |prev| && prev[c] == Underline(xs[i], ymin, ydataMin, lwx, lwy);
      assert us[c] == prev[c];
    } else {
      assert rows[..n] == rows[..i];
      assert c == |prev| && us == prev + [u];
    }
  }

  // -------------------------------------------------------------- draw_line

  /** What `draw_line` draws. */
  datatype LinePlot = LinePlot(
    line: (seq<real>, seq<real>),
    line2: Option<(seq<real>, seq<real>)>,
    xlim: (real, real),
    ylim: (real, real),
    figureSize: Option<(real, real)>,
    tickCount: nat,
    ticks: Option<(seq<int>, seq<string>)>,
    axisLabels: Option<(string, string)>,
    underlines: seq<Rect>)

  function XValues(rows: seq<LineRow>): (xi: seq<Num>)
    ensures |xi| == |rows| && forall i :: 0 <= i < |rows| ==> xi[i] == rows[i].x
  {
    seq(|rows|, i requires 0 <= i < |rows| => rows[i].x)
  }

  function TickLabels(rows: seq<LineRow>): (ls: seq<string>)
    ensures |ls| == |rows| && forall i :: 0 <= i < |rows| ==> ls[i] == rows[i].xtick
  {
    seq(|rows|, i requires 0 <= i < |rows| => rows[i].xtick)
  }

  /** The rows `draw_line` plots: the columns read, without duplicates,
      sorted by site. */
  function PlotRows(a: LineArgs, t: LineTable): seq<LineRow> {
    SortByX(Dedup(ProjectAll(a, t.rows)))
  }

  /** The x ticks, unless the axis is hidden. */
  function AxisTicks(a: LineArgs, rows: seq<LineRow>, candidates: seq<real>)
    : (r: Result<Option<(seq<int>, seq<string>)>>)
    ensures a.hideAxis ==> r == Ok(None)
    ensures !a.hideAxis && BreaksAndLabels(XValues(rows), TickLabels(rows), candidates).Ok? ==>
      r == Ok(Some(BreaksAndLabels(XValues(rows), TickLabels(rows), candidates).value))
    ensures !a.hideAxis && BreaksAndLabels(XValues(rows), TickLabels(rows), candidates).Err? ==>
      r == Err(BreaksAndLabels(XValues(rows), TickLabels(rows), candidates).error)
  {
    if a.hideAxis then Ok(None)
    else
      match BreaksAndLabels(XValues(rows), TickLabels(rows), candidates)
      case Ok(bl) => Ok(Some(bl))
      case Err(e) => Err(e)
  }

  /** The underlines, drawn when there is a `show_col` and a `show_color`. */
  function ShowUnderlines(a: LineArgs, rows: seq<LineRow>, xs: seq<int>, m: LineMeasure,
                          xlim: (real, real), ylim: (real, real), ydataMin: real): (r: Result<seq<Rect>>)
    requires |xs| == |rows|
    ensures !(TruthyString(a.showCol) && a.showColor.Some?) ==> r == Ok([])
    ensures TruthyString(a.showCol) && a.showColor.Some? && DataUnits(a.linewidth, "x", m, xlim, ylim).Err? ==>
      r == Err(DataUnits(a.linewidth, "x", m, xlim, ylim).error)
    ensures (&& TruthyString(a.showCol) && a.showColor.Some?
             && DataUnits(a.linewidth, "x", m, xlim, ylim).Ok?
             && DataUnits(a.linewidth, "y", m, xlim, ylim).Err?) ==>
      r == Err(DataUnits(a.linewidth, "y", m, xlim, ylim).error)
    ensures (&& TruthyString(a.showCol) && a.showColor.Some?
             && DataUnits(a.linewidth, "x", m, xlim, ylim).Ok?
             && DataUnits(a.linewidth, "y", m, xlim, ylim).Ok?) ==>
      r == Ok(Underlines(rows, xs, ylim.0, ydataMin, DataUnits(a.linewidth, "x", m, xlim, ylim).value,
                         DataUnits(a.linewidth, "y", m, xlim, ylim).value))
  {
    if !(TruthyString(a.showCol) && a.showColor.Some?) then Ok([])
    else
      match DataUnits(a.linewidth, "x", m, xlim, ylim)
      case Err(e) => Err(e)
      case Ok(lwx) =>
        match DataUnits(a.linewidth, "y", m, xlim, ylim)
        case Err(e) => Err(e)
        case Ok(lwy) => Ok(Underlines(rows, xs, ylim.0, ydataMin, lwx, lwy))
  }

  /** What `draw_line` draws once the y-limits are known. */
  function PlotWithin(a: LineArgs, rows: seq<LineRow>, xs: seq<int>, ylim: (real, real), ydataMin: real,
                      candidates: seq<real>, m: LineMeasure): (r: Result<LinePlot>)
    requires |rows| == |xs| > 0
    ensures r.Ok? ==>
      && r.value.ylim == ylim
      && r.value.xlim == LineXLimits(xs[0], xs[|xs| - 1], |xs|)
      && r.value.line == StepPath(xs[0], xs[|xs| - 1], xs, Heights(rows))
      && (a.height2Col.Some? <==> r.value.line2.Some?)
      && (a.height2Col.Some? ==> r.value.line2.value == StepPath(xs[0], xs[|xs| - 1], xs, Heights2(rows)))
      && r.value.tickCount == TickCount(|xs|)
      && AxisTicks(a, rows, candidates) == Ok(r.value.ticks)
      && (a.hideAxis <==> r.value.axisLabels.None?)
      && (!a.hideAxis ==> r.value.axisLabels.value == (XLabelOf(a), YLabelOf(a)))
      && (a.ownAxis <==> r.value.figureSize.Some?)
      && (a.ownAxis ==>
            r.value.figureSize.value == LineFigureSize(|xs|, a.widthscale, a.heightscale, a.hideAxis, a.title))
    ensures r.Ok? <==>
      (AxisTicks(a, rows, candidates).Ok?
       && ShowUnderlines(a, rows, xs, m, LineXLimits(xs[0], xs[|xs| - 1], |xs|), ylim, ydataMin).Ok?)
  {
    var xlen := |xs|;
    var size := if a.ownAxis
      then Some(LineFigureSize(xlen, a.widthscale, a.heightscale, a.hideAxis, a.title))
      else None;
    var xlim := LineXLimits(xs[0], xs[xlen - 1], xlen);
    match AxisTicks(a, rows, candidates)
    case Err(e) => Err(e)
    case Ok(ticks) =>
      var line := StepPath(xs[0], xs[xlen - 1], xs, Heights(rows));
      var line2 := if a.height2Col.Some? then Some(StepPath(xs[0], xs[xlen - 1], xs, Heights2(rows))) else None;
      match ShowUnderlines(a, rows, xs, m, xlim, ylim, ydataMin)
      case Err(e) => Err(e)
      case Ok(us) =>
        var labels := if a.hideAxis then None else Some((XLabelOf(a), YLabelOf(a)));
        Ok(LinePlot(line, line2, xlim, ylim, size, TickCount(xlen), ticks, labels, us))
  }

  /** Everything `draw_line` does after the site checks: the y-limits, then
      the drawing within them. */
  function PlotSites(a: LineArgs, rows: seq<LineRow>, xs: seq<int>, s: Setter, candidates: seq<real>, m: LineMeasure)
    : (r: Result<LinePlot>)
    requires Valid(s) && |rows| == |xs| > 0
    ensures var h2 := if a.height2Col.Some? then Some(Heights2(rows)) else None;
      && (LineYLimits(s, Heights(rows), h2, a.fixedYmin, a.fixedYmax).Err? ==>
            r == Err(LineYLimits(s, Heights(rows), h2, a.fixedYmin, a.fixedYmax).error))
      && (r.Ok? ==> LineYLimits(s, Heights(rows), h2, a.fixedYmin, a.fixedYmax) == Ok(r.value.ylim))
      && (r.Ok? ==> r == PlotWithin(a, rows, xs, r.value.ylim, DataRange(s, Heights(rows), h2).0, candidates, m))
  {
    var h2 := if a.height2Col.Some? then Some(Heights2(rows)) else None;
    match LineYLimits(s, Heights(rows), h2, a.fixedYmin, a.fixedYmax)
    case Err(e) => Err(e)
    case Ok(ylim) => PlotWithin(a, rows, xs, ylim, DataRange(s, Heights(rows), h2).0, candidates, m)
  }

  /** `draw_line(data, ...)`. */
  function DrawLine(a: LineArgs, t: LineTable, s: Setter, candidates: seq<real>, m: LineMeasure)
    : (r: Result<LinePlot>)
    requires Valid(s)
    ensures CheckLineColumns(a, t).Err? ==> r == Err(CheckLineColumns(a, t).error)
    ensures CheckLineColumns(a, t).Ok? && CheckSites(PlotRows(a, t)).Err? ==>
      r == Err(CheckSites(PlotRows(a, t)).error)
    ensures r.Ok? ==>
      && CheckLineColumns(a, t).Ok?
      && WholeSites(PlotRows(a, t)) && |PlotRows(a, t)| > 0
      && Consecutive(SitesOfRows(PlotRows(a, t)))
      && r == PlotSites(a, PlotRows(a, t), SitesOfRows(PlotRows(a, t)), s, candidates, m)
  {
    match CheckLineColumns(a, t)
    case Err(e) => Err(e)
    case Ok(_) =>
      var rows := PlotRows(a, t);
      match CheckSites(rows)
      case Err(e) => Err(e)
      case Ok(xs) => PlotSites(a, rows, xs, s, candidates, m)
  }

  /** A drawn line plot contains all of its data: the x-limits hold the
      whole step path with room to spare, and the y-limits hold every
      plotted height. */
  lemma LinePlotContainsData(a: LineArgs, t: LineTable, s: Setter, candidates: seq<real>, m: LineMeasure)
    requires Valid(s) && DrawLine(a, t, s, candidates, m).Ok?
    ensures var p := DrawLine(a, t, s, candidates, m).value;
      && p.xlim.0 < p.line.0[0] && p.line.0[|p.line.0| - 1] < p.xlim.1
      && forall i :: 0 <= i < |p.line.1| ==> p.ylim.0 <= p.line.1[i] <= p.ylim.1
  {
    var rows := PlotRows(a, t);
    var xs := SitesOfRows(rows);
    var p := DrawLine(a, t, s, candidates, m).value;
    var hs := Heights(rows);
    assert p.line == StepPath(xs[0], xs[|xs| - 1], xs, hs);
    forall i | 0 <= i < |p.line.1|
      ensures p.ylim.0 <= p.line.1[i] <= p.ylim.1
    {
      if i == 0 { assert p.line.1[i] == hs[0]; }
      else if i == |xs| + 1 { assert p.line.1[i] == hs[|hs| - 1]; }
      else { assert p.line.1[i] == hs[i - 1]; }
    }
  }
}

=== FILE: logo.dfy ===
/** `draw_logo` of dmslogo/logo.py: validation, the column layout, the
    zero-line policy, the figure size, the y-limits from an `AxLimSetter`
    (overridden by fixed limits), the break lines, and the letter placement.
    The setter is passed in already constructed (the default one is
    `MakeSetter(DefaultArgs)`), and so are the renderer's measurements. */
module Logo {
  import opened Results
  import opened Reals
  import opened Tables
  import opened AxLim
  import opened LogoLayout
  import opened Glyphs

  /** The arguments of `draw_logo` beyond the layout's. `ownAxis` says no
      `ax` was passed, so `draw_logo` makes and sizes its own figure. */
  datatype LogoArgs = LogoArgs(
    layout: LayoutArgs,
    xlabel: Option<string>,
    ylabel: Option<string>,
    title: Option<string>,
    widthscale: real,
    heightscale: real,
    hideAxis: bool,
    fontaspect: real,
    letterpad: real,
    letterheightscale: real,
    ownAxis: bool,
    fixedYmin: Option<real>,
    fixedYmax: Option<real>,
    drawLineAtZero: string)

  /** Tick positions, tick labels and axis labels, shown unless the axis is
      hidden. */
  datatype AxisText = AxisText(xticks: seq<real>, xticklabels: seq<string>, xlabel: string, ylabel: string)

  /** What `draw_logo` draws. */
  datatype Logo = Logo(
    glyphs: seq<seq<Glyph>>,
    breakLines: seq<real>,
    lineAtZero: bool,
    xlim: (real, real),
    ylim: (real, real),
    figureSize: Option<(real, real)>,
    title: Option<string>,
    axis: Option<AxisText>)

  /** The x-axis is padded by this many data units on each side. */
  const Xpad: real := 0.2

  // ---------------------------------------------------------- line at zero

  /** The `draw_line_at_zero` policy: `'always'`, `'never'`, or
      `'if_negative'` (a line when some site sum is negative; `min` of no
      sums raises). */
  function LineAtZero(policy: string, minBySite: seq<real>): (r: Result<bool>)
    ensures policy == "always" ==> r == Ok(true)
    ensures policy == "never" ==> r == Ok(false)
    ensures policy == "if_negative" && |minBySite| == 0 ==> r == Err(EmptyData)
    ensures policy == "if_negative" && |minBySite| > 0 ==>
      r.Ok? && (r.value <==> exists c :: 0 <= c < |minBySite| && minBySite[c] < 0.0)
    ensures policy != "always" && policy != "never" && policy != "if_negative" ==>
      r == Err(InvalidLineAtZero(policy))
  {
    if policy == "always" then Ok(true)
    else if policy == "never" then Ok(false)
    else if policy == "if_negative" then
      if |minBySite| == 0 then Err(EmptyData) else Ok(Min(minBySite) < 0.0)
    else Err(InvalidLineAtZero(policy))
  }

  /** A site's negative sum is never positive, and is negative exactly when
      one of its heights is. */
  lemma {:induction false} NegativeSumSign(g: seq<Clean>)
    ensures NegativeSum(g) <= 0.0
    ensures NegativeSum(g) < 0.0 <==> exists i :: 0 <= i < |g| && g[i].height < 0.0
  {
    if |g| > 0 {
      var n := |g| - 1;
      NegativeSumSign(g[..n]);
      assert forall i :: 0 <= i < n ==> g[..n][i] == g[i];
      if NegativeSum(g[..n]) < 0.0 {
        var i :| 0 <= i < n && g[..n][i].height < 0.0;
        assert g[i].height < 0.0;
      }
    }
  }

  /** Every entry of `min_by_site` is a break column's zero or some site's
      negative sum. */
  predicate Covered(l: Layout) {
    forall c :: 0 <= c < |l.minBySite| ==> l.minBySite[c] == 0.0 || l.minBySite[c] in l.minNonempty
  }

  lemma AddBreakCovered(l: Layout)
    requires Covered(l)
    ensures Covered(AddBreak(l))
  {
  }

  lemma AddSiteCovered(l: Layout, stack: seq<Entry>, lo: real, hi: real, tickLabel: string)
    requires Covered(l)
    ensures Covered(AddSite(l, stack, lo, hi, tickLabel))
  {
    var l' := AddSite(l, stack, lo, hi, tickLabel);
    forall c | 0 <= c < |l'.minBySite|
      ensures l'.minBySite[c] == 0.0 || l'.minBySite[c] in l'.minNonempty
    {
      if c < |l.minBySite| && l.minBySite[c] != 0.0 {
        assert l.minBySite[c] in l'.minNonempty;
      }
    }
  }

  /** The loop keeps `min_by_site` covered. */
  lemma {:induction false} BySiteCovered(a: LayoutArgs, rows: seq<Clean>, ss: seq<int>)
    requires SitesPresent(rows, ss) && LayoutOf(a, rows, ss).Ok?
    ensures Covered(LayoutOf(a, rows, ss).value)
  {
    if |ss| > 0 {
      PrefixFacts(a, rows, ss);
      var p := LayoutOf(a, rows, ss[..|ss| - 1]).value;
      BySiteCovered(a, rows, ss[..|ss| - 1]);
      var l := LayoutOf(a, rows, ss).value;
      assert l == Step(a, rows, ss, p);
      var n := |ss| - 1;
      var withBreak := if BreakBefore(a.addBreaks, ss, n) then AddBreak(p) else p;
      if BreakBefore(a.addBreaks, ss, n) {
        AddBreakCovered(p);
      }
      var g := Group(rows, ss[n]);
      AddSiteCovered(withBreak, StackOf(a, rows, ss[n]), SiteNegative(rows, ss[n]), SitePositive(rows, ss[n]), SiteTick(rows, ss[n]));
    }
  }

  /** What the layout records for the `k`-th site: its negative sum, both
      among the real sites and at its column. */
  lemma SiteSums(a: LayoutArgs, rows: seq<Clean>, l: Layout, k: int)
    requires LayoutRows(a, rows) == Ok(l)
    requires 0 <= k < |SitesOf(rows)|
    ensures var ss := SitesOf(rows);
      var c := SiteColumn(a.addBreaks, ss, k);
      && |l.minNonempty| == |ss| && c < |l.minBySite|
      && l.minBySite[c] == l.minNonempty[k] == NegativeSum(Group(rows, ss[k]))
  {
  }

  /** Some site's negative sum is negative exactly when some height is. */
  lemma NegativeSiteIffNegativeRow(a: LayoutArgs, rows: seq<Clean>, l: Layout)
    requires LayoutRows(a, rows) == Ok(l)
    ensures (exists k :: 0 <= k < |l.minNonempty| && l.minNonempty[k] < 0.0) <==>
            (exists i :: 0 <= i < |rows| && rows[i].height < 0.0)
  {
    var ss := SitesOf(rows);
    assert |l.minNonempty| == |ss| by {
      if |ss| > 0 { SiteSums(a, rows, l, 0); }
    }
    if k :| 0 <= k < |l.minNonempty| && l.minNonempty[k] < 0.0 {
      var g := Group(rows, ss[k]);
      SiteSums(a, rows, l, k);
      NegativeSumSign(g);
      var j :| 0 <= j < |g| && g[j].height < 0.0;
      GroupMemberIsRow(rows, ss[k], g[j]);
      var i :| 0 <= i < |rows| && rows[i] == g[j];
    }
    if i :| 0 <= i < |rows| && rows[i].height < 0.0 {
      var s := rows[i].site;
      assert HasSite(rows, s);
      var k :| 0 <= k < |ss| && ss[k] == s;
      var g := Group(rows, s);
      RowInGroup(rows, i);
      NegativeSumSign(g);
      SiteSums(a, rows, l, k);
    }
  }

  /** A break column's zero never makes `min_by_site` negative: it has a
      negative entry exactly when `min_by_site_nonempty` has one. */
  lemma SameNegatives(a: LayoutArgs, rows: seq<Clean>, l: Layout)
    requires LayoutRows(a, rows) == Ok(l)
    ensures (exists c :: 0 <= c < |l.minBySite| && l.minBySite[c] < 0.0) <==>
            (exists k :: 0 <= k < |l.minNonempty| && l.minNonempty[k] < 0.0)
  {
    var ss := SitesOf(rows);
    BySiteCovered(a, rows, ss);
    if k :| 0 <= k < |l.minNonempty| && l.minNonempty[k] < 0.0 {
      SiteSums(a, rows, l, k);
    }
  }

  /** With `'if_negative'`, the line at zero is drawn exactly when some
      (validated, possibly clipped) letter height is negative. */
  lemma LineAtZeroIffNegativeHeight(a: LayoutArgs, rows: seq<Clean>, l: Layout)
    requires LayoutRows(a, rows) == Ok(l) && |rows| > 0
    ensures LineAtZero("if_negative", l.minBySite) == Ok(exists i :: 0 <= i < |rows| && rows[i].height < 0.0)
  {
    assert |l.minBySite| > 0 by {
      assert HasSite(rows, rows[0].site);
      SiteSums(a, rows, l, 0);
    }
    var r := LineAtZero("if_negative", l.minBySite);
    assert r.Ok? && (r.value <==> exists c :: 0 <= c < |l.minBySite| && l.minBySite[c] < 0.0);
    assert (exists c :: 0 <= c < |l.minBySite| && l.minBySite[c] < 0.0)
       <==> (exists i :: 0 <= i < |rows| && rows[i].height < 0.0) by {
      SameNegatives(a, rows, l);
      NegativeSiteIffNegativeRow(a, rows, l);
    }
  }

  // ----------------------------------------------------------- figure size

  /** `fig.set_size_inches(...)` for a logo of `n` columns. */
  function FigureSize(n: nat, widthscale: real, heightscale: real, hideAxis: bool, title: Option<string>)
    : (real, real)
  {
    (widthscale * 0.35 * (n as real + Flag(!hideAxis)),
     heightscale * (2.0 + 0.5 * Flag(!hideAxis) + 0.5 * Flag(TruthyString(title))))
  }

  /** Each column adds 0.35 inches (times `widthscale`) to the width and
      nothing to the height. */
  lemma FigureWidthPerColumn(n: nat, widthscale: real, heightscale: real, hideAxis: bool, title: Option<string>)
    ensures FigureSize(n + 1, widthscale, heightscale, hideAxis, title).0
         == FigureSize(n, widthscale, heightscale, hideAxis, title).0 + 0.35 * widthscale
    ensures FigureSize(n + 1, widthscale, heightscale, hideAxis, title).1
         == FigureSize(n, widthscale, heightscale, hideAxis, title).1
  {
  }

  /** The height is 2 to 3 inches (times `heightscale`): half an inch more
      for the axis and half an inch more for a title. */
  lemma FigureHeightBounds(n: nat, widthscale: real, heightscale: real, hideAxis: bool, title: Option<string>)
    requires heightscale >= 0.0
    ensures 2.0 * heightscale <= FigureSize(n, widthscale, heightscale, hideAxis, title).1 <= 3.0 * heightscale
    ensures hideAxis && !TruthyString(title) ==> FigureSize(n, widthscale, heightscale, hideAxis, title).1 == 2.0 * heightscale
  {
  }

  // -------------------------------------------------------------- y-limits

  /** The y-limits: the setter's limits of the negative and of the positive
      site sums, combined into the wider range, each end then replaced by a
      fixed limit when one is given. */
  function YLimits(s: Setter, minNonempty: seq<real>, maxNonempty: seq<real>,
                   fixedYmin: Option<real>, fixedYmax: Option<real>): (r: Result<(real, real)>)
    requires Valid(s)
    ensures r.Ok? <==> GetLims(s, minNonempty).Ok? && GetLims(s, maxNonempty).Ok?
    ensures GetLims(s, minNonempty).Err? ==> r == GetLims(s, minNonempty)
    ensures GetLims(s, minNonempty).Ok? && GetLims(s, maxNonempty).Err? ==> r == GetLims(s, maxNonempty)
    ensures r.Ok? && fixedYmin.Some? ==> r.value.0 == fixedYmin.value
    ensures r.Ok? && fixedYmax.Some? ==> r.value.1 == fixedYmax.value
    ensures r.Ok? && fixedYmin.None? ==>
      && r.value.0 == Min2(GetLims(s, minNonempty).value.0, GetLims(s, maxNonempty).value.0)
      && r.value.0 <= Min(minNonempty) && r.value.0 <= Min(maxNonempty)
      && (s.includeZero ==> r.value.0 <= 0.0)
    ensures r.Ok? && fixedYmax.None? ==>
      && r.value.1 == Max2(GetLims(s, minNonempty).value.1, GetLims(s, maxNonempty).value.1)
      && r.value.1 >= Max(minNonempty) && r.value.1 >= Max(maxNonempty)
      && (s.includeZero ==> r.value.1 >= 0.0)
    ensures r.Ok? && fixedYmin.None? && fixedYmax.None? ==> r.value.0 < r.value.1
  {
    match GetLims(s, minNonempty)
    case Err(e) => Err(e)
    case Ok(lim1) =>
      match GetLims(s, maxNonempty)
      case Err(e) => Err(e)
      case Ok(lim2) => Ok(Wider(lim1, lim2, fixedYmin, fixedYmax))
  }

  /** The wider of two ranges, each end replaced by its fixed limit when
      one is given. */
  function Wider(lim1: (real, real), lim2: (real, real), fixedYmin: Option<real>, fixedYmax: Option<real>)
    : (y: (real, real))
    ensures fixedYmin.Some? ==> y.0 == fixedYmin.value
    ensures fixedYmax.Some? ==> y.1 == fixedYmax.value
    ensures fixedYmin.None? ==> y.0 == Min2(lim1.0, lim2.0) && y.0 <= lim1.0 && y.0 <= lim2.0
    ensures fixedYmax.None? ==> y.1 == Max2(lim1.1, lim2.1) && y.1 >= lim1.1 && y.1 >= lim2.1
    ensures fixedYmin.None? && fixedYmax.None? && lim1.0 < lim1.1 ==> y.0 < y.1
  {
    (if fixedYmin.Some? then fixedYmin.value else Min2(lim1.0, lim2.0),
     if fixedYmax.Some? then fixedYmax.value else Max2(lim1.1, lim2.1))
  }

  // ------------------------------------------------------------ draw_logo

  /** `ax.set_xlim(-xpad, len(height_matrix) + xpad)`. */
  function XLimits(n: nat): (real, real) {
    (-Xpad, n as real + Xpad)
  }

  /** The placement arguments for the chosen y-limits. */
  function PlaceArgsOf(args: LogoArgs, ylim: (real, real)): PlaceArgs {
    PlaceArgs(ylim.0, ylim.1, args.fontaspect, args.letterpad, args.letterheightscale, Xpad)
  }

  /** The axis text, or none when the axis is hidden; the x label defaults
      to the tick column and the y label to the height column. */
  function AxisTextOf(args: LogoArgs, l: Layout): Option<AxisText> {
    if args.hideAxis then None
    else
      Some(AxisText(l.xticks, l.labels,
                    if args.xlabel.Some? then args.xlabel.value else XtickCol(args.layout),
                    if args.ylabel.Some? then args.ylabel.value else args.layout.heightCol))
  }

  /** Everything `draw_logo` does once the layout is built. */
  function DrawLayout(args: LogoArgs, l: Layout, s: Setter, m: Measure): (r: Result<Logo>)
    requires Valid(s) && m.Valid()
    ensures r.Ok? ==>
      && LineAtZero(args.drawLineAtZero, l.minBySite) == Ok(r.value.lineAtZero)
      && YLimits(s, l.minNonempty, l.maxNonempty, args.fixedYmin, args.fixedYmax) == Ok(r.value.ylim)
      && Place(l.columns, l.minBySite, PlaceArgsOf(args, r.value.ylim), m) == Ok(r.value.glyphs)
    ensures r.Ok? ==>
      && r.value.xlim == XLimits(|l.columns|)
      && |r.value.breakLines| == |l.breaks|
      && (forall b :: 0 <= b < |l.breaks| ==> r.value.breakLines[b] == l.breaks[b] as real + 0.5)
      && (args.ownAxis <==> r.value.figureSize.Some?)
      && (args.ownAxis ==>
            r.value.figureSize.value
              == FigureSize(|l.columns|, args.widthscale, args.heightscale, args.hideAxis, args.title))
      && r.value.axis == AxisTextOf(args, l)
    ensures LineAtZero(args.drawLineAtZero, l.minBySite).Err? ==>
      r == Err(LineAtZero(args.drawLineAtZero, l.minBySite).error)
  {
    match LineAtZero(args.drawLineAtZero, l.minBySite)
    case Err(e) => Err(e)
    case Ok(line) =>
      match YLimits(s, l.minNonempty, l.maxNonempty, args.fixedYmin, args.fixedYmax)
      case Err(e) => Err(e)
      case Ok(ylim) =>
        match Place(l.columns, l.minBySite, PlaceArgsOf(args, ylim), m)
        case Err(e) => Err(e)
        case Ok(glyphs) => Ok(Assembled(args, l, glyphs, line, ylim))
  }

  /** The drawn logo once its glyphs, zero line and y-limits are known. */
  function Assembled(args: LogoArgs, l: Layout, glyphs: seq<seq<Glyph>>, line: bool,
                     ylim: (real, real)): (lg: Logo)
    ensures lg.glyphs == glyphs && lg.lineAtZero == line && lg.ylim == ylim
    ensures lg.xlim == XLimits(|l.columns|)
    ensures |lg.breakLines| == |l.breaks|
    ensures forall b :: 0 <= b < |l.breaks| ==> lg.breakLines[b] == l.breaks[b] as real + 0.5
    ensures args.ownAxis <==> lg.figureSize.Some?
    ensures args.ownAxis ==>
      lg.figureSize.value == FigureSize(|l.columns|, args.widthscale, args.heightscale, args.hideAxis, args.title)
    ensures lg.axis == AxisTextOf(args, l)
  {
    var size := if args.ownAxis
      then Some(FigureSize(|l.columns|, args.widthscale, args.heightscale, args.hideAxis, args.title))
      else None;
    var breakLines := seq(|l.breaks|, b requires 0 <= b < |l.breaks| => l.breaks[b] as real + 0.5);
    Logo(glyphs, breakLines, line, XLimits(|l.columns|), ylim, size,
         if TruthyString(args.title) then args.title else None, AxisTextOf(args, l))
  }

  /** `draw_logo(data, ...)` without shading. */
  function DrawLogo(args: LogoArgs, t: Table, s: Setter, m: Measure): (r: Result<Logo>)
    requires Valid(s) && m.Valid()
    ensures Validate(args.layout, t).Err? ==> r == Err(Validate(args.layout, t).error)
    ensures Validate(args.layout, t).Ok? && LayoutRows(args.layout, Validate(args.layout, t).value).Err? ==>
      r == Err(LayoutRows(args.layout, Validate(args.layout, t).value).error)
    ensures r.Ok? ==>
      && Validate(args.layout, t).Ok?
      && LayoutRows(args.layout, Validate(args.layout, t).value).Ok?
      && r == DrawLayout(args, LayoutRows(args.layout, Validate(args.layout, t).value).value, s, m)
  {
    match Validate(args.layout, t)
    case Err(e) => Err(e)
    case Ok(rows) =>
      match LayoutRows(args.layout, rows)
      case Err(e) => Err(e)
      case Ok(l) => DrawLayout(args, l, s, m)
  }

  /** In a drawn logo, the `j`-th letter of site `k` (in ascending height)
      is drawn in the site's column with its letter and its resolved
      colour, and break columns draw nothing. */
  lemma SiteLettersDrawn(args: LogoArgs, t: Table, s: Setter, m: Measure, k: int, j: int)
    requires Valid(s) && m.Valid() && DrawLogo(args, t, s, m).Ok?
    requires var rows := Validate(args.layout, t).value;
      0 <= k < |SitesOf(rows)| && 0 <= j < |Group(rows, SitesOf(rows)[k])|
    ensures var rows := Validate(args.layout, t).value;
      var ss := SitesOf(rows);
      var g := Group(rows, ss[k]);
      var c := SiteColumn(args.layout.addBreaks, ss, k);
      var gs := DrawLogo(args, t, s, m).value.glyphs;
      && c < |gs| && |gs[c]| == |g|
      && gs[c][j].x == c
      && gs[c][j].letter == g[j].letter
      && gs[c][j].color == ResolveColor(ColoringOf(args.layout), g[j].letter, g[j].color).value
  {
    var rows := Validate(args.layout, t).value;
    var l := LayoutRows(args.layout, rows).value;
    var ss := SitesOf(rows);
    var c := SiteColumn(args.layout.addBreaks, ss, k);
    var lg := DrawLogo(args, t, s, m).value;
    assert lg == DrawLayout(args, l, s, m).value;
    PlacedGlyphs(l.columns, l.minBySite, PlaceArgsOf(args, lg.ylim), m, lg.glyphs);
    assert l.columns[c] == SiteStack(args.layout, rows, ss[k]).value;
  }
}

=== FILE: reals.dfy ===
/** Sums, extrema, sorting and quantiles of real sequences, and the
    integer conversions the library applies to numbers. */
module Reals {

  /** A cell of a numeric column: Python keeps `int` and `float` values
      apart, and some checks look at that distinction. */
  datatype Num = IntNum(i: int) | FloatNum(f: real) {

    function AsReal(): real {
      match this
      case IntNum(i) => i as real
      case FloatNum(f) => f
    }

    /** `x == int(x)`: the value (not the type) is a whole number. */
    predicate IsWhole() {
      AsReal() == AsReal().Floor as real
    }
  }

  function Sum(xs: seq<real>): real
  {
    if |xs| == 0 then 0.0 else Sum(xs[..|xs| - 1]) + xs[|xs| - 1]
  }

  function Min(xs: seq<real>): (m: real)
    requires |xs| > 0
    ensures forall i :: 0 <= i < |xs| ==> m <= xs[i]
    ensures exists i :: 0 <= i < |xs| && m == xs[i]
  {
    if |xs| == 1 then xs[0]
    else
      var rest := Min(xs[1..]);
      assert forall i :: 1 <= i < |xs| ==> xs[1..][i - 1] == xs[i];
      if xs[0] <= rest then xs[0] else rest
  }

  function Max(xs: seq<real>): (m: real)
    requires |xs| > 0
    ensures forall i :: 0 <= i < |xs| ==> xs[i] <= m
    ensures exists i :: 0 <= i < |xs| && m == xs[i]
  {
    if |xs| == 1 then xs[0]
    else
      var rest := Max(xs[1..]);
      assert forall i :: 1 <= i < |xs| ==> xs[1..][i - 1] == xs[i];
      if xs[0] >= rest then xs[0] else rest
  }

  /** `int(b)` of a Python bool, as a real. */
  function Flag(b: bool): real { if b then 1.0 else 0.0 }

  function Min2(a: real, b: real): real { if a <= b then a else b }
  function Max2(a: real, b: real): real { if a >= b then a else b }

  /** Python's `int(x)` on a float: truncation toward zero. */
  function Trunc(x: real): (n: int)
    ensures x >= 0.0 ==> n as real <= x < n as real + 1.0
    ensures x < 0.0 ==> n as real - 1.0 < x <= n as real
  {
    if x >= 0.0 then x.Floor else -((-x).Floor)
  }

  /** Truncating a value that lies between two whole numbers keeps it there. */
  lemma TruncBetween(x: real, lo: int, hi: int)
    requires lo as real <= x <= hi as real
    ensures lo <= Trunc(x) <= hi
  {
  }

  predicate StrictlyIncreasing(xs: seq<int>) {
    forall i, j :: 0 <= i < j < |xs| ==> xs[i] < xs[j]
  }

  ghost predicate Sorted(s: seq<real>) {
    forall i, j :: 0 <= i < j < |s| ==> s[i] <= s[j]
  }

  function Insert(s: seq<real>, x: real): (r: seq<real>)
    requires Sorted(s)
    ensures Sorted(r)
    ensures multiset(r) == multiset(s) + multiset{x}
    ensures |r| == |s| + 1
    ensures r[0] == x || (|s| > 0 && r[0] == s[0])
  {
    if |s| == 0 then [x]
    else if x <= s[0] then [x] + s
    else
      var tail := Insert(s[1..], x);
      assert s == [s[0]] + s[1..];
      assert s[0] <= tail[0];
      [s[0]] + tail
  }

  /** Ascending insertion sort: `sorted(data)`. */
  function Sort(s: seq<real>): (r: seq<real>)
    ensures Sorted(r)
    ensures multiset(r) == multiset(s)
    ensures |r| == |s|
  {
    if |s| == 0 then []
    else
      assert s == s[..|s| - 1] + [s[|s| - 1]];
      Insert(Sort(s[..|s| - 1]), s[|s| - 1])
  }

  /** Every element of `s` lies between its minimum and maximum. */
  lemma MemberBetweenExtrema(s: seq<real>, x: real)
    requires |s| > 0 && x in multiset(s)
    ensures Min(s) <= x <= Max(s)
  {
    assert x in s;
    var i :| 0 <= i < |s| && s[i] == x;
  }

  /** Linear interpolation from `a` to `b` at fraction `t`. */
  function Lerp(a: real, b: real, t: real): (r: real)
    requires a <= b && 0.0 <= t <= 1.0
    ensures a <= r <= b
  {
    var d := b - a;
    assert 0.0 <= t * d <= d by { ScaleBetween(d, t); }
    a + t * d
  }

  lemma ScaleBetween(d: real, t: real)
    requires d >= 0.0 && 0.0 <= t <= 1.0
    ensures 0.0 <= t * d <= d
  {
    assert t * d <= 1.0 * d;
  }

  /** The value at fractional position `h` of the sorted sequence `s`,
      interpolating between the two neighbouring entries. */
  function Interpolate(s: seq<real>, h: real): (r: real)
    requires |s| > 0 && Sorted(s)
    requires 0.0 <= h <= (|s| - 1) as real
    ensures s[0] <= r <= s[|s| - 1]
  {
    var lo := h.Floor;
    assert 0 <= lo <= |s| - 1;
    if lo == |s| - 1 then s[lo]
    else Lerp(s[lo], s[lo + 1], h - lo as real)
  }

  /** The ends of the sorted copy of `data` are its extrema. */
  lemma SortedEnds(data: seq<real>)
    requires |data| > 0
    ensures Min(data) <= Sort(data)[0]
    ensures Sort(data)[|data| - 1] <= Max(data)
  {
    var s := Sort(data);
    assert s[0] in multiset(s);
    assert s[|s| - 1] in multiset(s);
    MemberBetweenExtrema(data, s[0]);
    MemberBetweenExtrema(data, s[|s| - 1]);
  }

  /** The fractional index `q * last` of the `q`-quantile. */
  function Position(last: nat, q: real): (h: real)
    requires 0.0 <= q <= 1.0
    ensures 0.0 <= h <= last as real
  {
    ScaleBetween(last as real, q);
    q * last as real
  }

  /** The `q`-quantile of `data` by linear interpolation between the two
      nearest order statistics (numpy's default `quantile` method). */
  function Quantile(data: seq<real>, q: real): (r: real)
    requires |data| > 0
    requires 0.0 <= q <= 1.0
    ensures Min(data) <= r <= Max(data)
  {
    SortedEnds(data);
    Interpolate(Sort(data), Position(|data| - 1, q))
  }

  /** A value of `xs` that no element undercuts is its minimum. */
  lemma MinIs(xs: seq<real>, v: real)
    requires v in xs && forall i :: 0 <= i < |xs| ==> v <= xs[i]
    ensures Min(xs) == v
  {
  }

  /** A value of `xs` that no element exceeds is its maximum. */
  lemma MaxIs(xs: seq<real>, v: real)
    requires v in xs && forall i :: 0 <= i < |xs| ==> xs[i] <= v
    ensures Max(xs) == v
  {
  }

  /** Two sorted arrangements of the same multiset are the same sequence,
      so `Sort` is determined by its contract. */
  lemma {:induction false} SortedUnique(a: seq<real>, b: seq<real>)
    requires Sorted(a) && Sorted(b) && multiset(a) == multiset(b)
    ensures a == b
    decreases |a|
  {
    assert |a| == |multiset(a)| == |multiset(b)| == |b|;
    if |a| > 0 {
      assert b[0] in multiset(a) && a[0] in multiset(b);
      assert a[0] == b[0];
      assert a == [a[0]] + a[1..] && b == [b[0]] + b[1..];
      assert multiset(a) == multiset{a[0]} + multiset(a[1..]);
      assert multiset(b) == multiset{b[0]} + multiset(b[1..]);
      assert multiset(a[1..]) == multiset(a) - multiset{a[0]};
      assert multiset(b[1..]) == multiset(b) - multiset{b[0]};
      SortedUnique(a[1..], b[1..]);
    }
  }

  /** `Sort` returns the one sorted arrangement of its input. */
  lemma SortIs(data: seq<real>, sorted: seq<real>)
    requires Sorted(sorted) && multiset(data) == multiset(sorted)
    ensures Sort(data) == sorted
  {
    SortedUnique(Sort(data), sorted);
  }

  function DigitChar(d: nat): char
    requires d < 10
  {
    "0123456789"[d]
  }

  /** Python's `str` of a non-negative integer: decimal digits, no leading
      zero. */
  function NatToString(n: nat): (s: string)
    ensures |s| > 0
    ensures forall i :: 0 <= i < |s| ==> '0' <= s[i] <= '9'
    ensures |s| > 1 ==> s[0] != '0'
  {
    if n < 10 then [DigitChar(n)] else NatToString(n / 10) + [DigitChar(n % 10)]
  }

  /** Python's `str` of an integer. */
  function IntToString(i: int): string
  {
    if i < 0 then "-" + NatToString(-i) else NatToString(i)
  }
}

=== FILE: results.dfy ===
/** Failure-compatible result type and the failure conditions of the
    plotting library, one `Error` constructor per condition, named after
    what it reports. Most are the library's `ValueError`s. `EmptyData` is an
    `IndexError` or a `min`/`max` of nothing; `DivisionByZero` is a division
    by zero (raised by Python, or an infinite value from numpy);
    `AmbiguousTickLabel` in the older loops is an `assert`; `FloatSiteRange`
    is the `TypeError` of `range()` on float bounds; `NanHeight` is
    the model's own rejection of a kept NaN height. */
module Results {

  datatype Option<+T> = None | Some(value: T)

  datatype Error =
    // column and table checks
    | MissingColumn(name: string)
    | ReservedColumn(name: string)
    | LettersNotUppercase
    | NoDataAfterDroppingNan
    | NanHeight
    | NegativeHeight
    | NonIntegerSite
    | AmbiguousTickLabel
    | NotOneToOne
    | DuplicateLetter(site: int)
    | InvalidLetter(letter: string)
    | NoColor(letter: string)
    | InvalidLineAtZero(policy: string)
    | AxNotSupported
    | EmptyData
    // site shading
    | ShadeColorWithoutAlpha
    | ShadeAlphaWithoutColor
    | NotOneShadeColor(site: int)
    | NotOneShadeAlpha(site: int)
    | ShadeAlphaOutOfRange(site: int)
    // glyph placement
    | LengthMismatch
    | StackTooTall
    | PositiveYmin
    | YstartBelowYmin
    | InvalidPadLoc(padLoc: string)
    | DivisionByZero
    // axis limits and ticks
    | InvalidSetting(setting: string)
    | AllEqualData
    | NonIntegerTicks
    | TicksNotSortedUnique
    | BreakNotAmongTicks(value: int)
    // line plots
    | NotSequential
    | NotUniqueMapping
    | FloatSiteRange
    | ShowColNotBool
    | FixedYmaxTooSmall
    | FixedYminTooLarge
    | InvalidReference(reference: string)
    // faceting
    | InconsistentGroups(column: string)
    | ForbiddenKwarg(key: string)
    | NoDataForFunction
    | NoDrawFunction
    | KwargConflict(key: string)
    | InconsistentMeasure(key: string)
    | InvalidSetYlims
    | SetYlimTooNarrow
    | MissingRow(row: string)
    | NoDataForRow(row: string)
    | RowCountMismatch
    | InvalidAxisType(axisType: string)
    | EmptyAxList
    | MultipleLabelProperties(property: string)
    // value-to-color map
    | MaxNotAboveMin
    | ValueOutOfRange
    | InvalidColorFormat(format: string)

  datatype Result<+T> = Ok(value: T) | Err(error: Error) {

    predicate IsFailure() {
      Err?
    }

    function PropagateFailure<U>(): Result<U>
      requires Err?
    {
      Err(error)
    }

    function Extract(): T
      requires Ok?
    {
      value
    }
  }

  /** `Ok(())` when `cond` holds, otherwise the given error; used with `:-`. */
  function Check(cond: bool, e: Error): (r: Result<()>)
    ensures r.Ok? <==> cond
  {
    if cond then Ok(()) else Err(e)
  }

  /** The values of results `k` onwards when all of them succeed, otherwise
      the first error among them. */
  function CollectFrom<T>(rs: seq<Result<T>>, k: nat): (r: Result<seq<T>>)
    requires k <= |rs|
    ensures r.Ok? <==> forall j :: k <= j < |rs| ==> rs[j].Ok?
    ensures r.Ok? ==> |r.value| == |rs| - k && forall j :: k <= j < |rs| ==> r.value[j - k] == rs[j].value
    ensures r.Err? ==>
      exists j :: && k <= j < |rs| && rs[j].Err? && r.error == rs[j].error
                  && forall i :: k <= i < j ==> rs[i].Ok?
    decreases |rs| - k
  {
    if k == |rs| then Ok([])
    else if rs[k].Err? then Err(rs[k].error)
    else
      match CollectFrom(rs, k + 1)
      case Err(e) => Err(e)
      case Ok(rest) => Ok([rs[k].value] + rest)
  }
}

=== FILE: shading.dfy ===
/** The site shading at the end of `draw_logo` (dmslogo/logo.py): with a
    shade-colour column and a shade-alpha column, every site whose rows
    agree on one colour and one alpha gets a band over its own column,
    unless that colour is null or empty. Giving only one of the two columns
    is an error, and so is a site with several colours or alphas, or with an
    alpha outside `[0, 1]`. */
module Shading {
  import opened Results
  import opened Reals
  import opened Tables
  import opened AxLim
  import opened LogoLayout
  import opened Glyphs
  import Logo

  /** `shade_color_col` and `shade_alpha_col`. */
  datatype ShadeArgs = ShadeArgs(colorCol: Option<string>, alphaCol: Option<string>)

  /** One `axvspan`: the x-range it covers, its face colour and alpha. */
  datatype Band = Band(xmin: real, xmax: real, color: string, alpha: real)

  /** A logo with its shading drawn over it. */
  datatype ShadedLogo = ShadedLogo(logo: Logo.Logo, bands: seq<Band>)

  /** The rows of site `s` carry one shade colour (`unique()` has length 1). */
  predicate OneShadeColor(rows: seq<Clean>, s: int) {
    forall i, j :: 0 <= i < |rows| && 0 <= j < |rows| && rows[i].site == s && rows[j].site == s ==>
      rows[i].shade.color == rows[j].shade.color
  }

  /** The rows of site `s` carry one shade alpha. */
  predicate OneShadeAlpha(rows: seq<Clean>, s: int) {
    forall i, j :: 0 <= i < |rows| && 0 <= j < |rows| && rows[i].site == s && rows[j].site == s ==>
      rows[i].shade.alpha == rows[j].shade.alpha
  }

  /** `0 <= alpha <= 1` holds: a null alpha fails the comparison. */
  predicate AlphaInRange(alpha: Option<real>) {
    alpha.Some? && 0.0 <= alpha.value <= 1.0
  }

  /** The shading cells of one row of site `s`. */
  function SiteShade(rows: seq<Clean>, s: int): (sh: Shade)
    requires HasSite(rows, s)
    ensures exists i :: 0 <= i < |rows| && rows[i].site == s && rows[i].shade == sh
  {
    var g := Group(rows, s);
    GroupMemberIsRow(rows, s, g[0]);
    g[0].shade
  }

  /** When a site's rows agree, every one of them carries `SiteShade`. */
  lemma AgreedShade(rows: seq<Clean>, s: int)
    requires HasSite(rows, s) && OneShadeColor(rows, s) && OneShadeAlpha(rows, s)
    ensures forall i :: 0 <= i < |rows| && rows[i].site == s ==> rows[i].shade == SiteShade(rows, s)
  {
    var sh := SiteShade(rows, s);
    var w :| 0 <= w < |rows| && rows[w].site == s && rows[w].shade == sh;
    forall i | 0 <= i < |rows| && rows[i].site == s
      ensures rows[i].shade == sh
    {
      assert rows[i].shade.color == rows[w].shade.color;
      assert rows[i].shade.alpha == rows[w].shade.alpha;
    }
  }

  /** One turn of the shading loop, for site `s` whose tick is at `xtick`:
      the site's rows must agree on the colour, then on the alpha; a null or
      empty colour leaves the site bare; otherwise the alpha must lie in
      `[0, 1]` and the band is one unit wide, centred on the tick. */
  function SiteBand(rows: seq<Clean>, s: int, xtick: real): (r: Result<Option<Band>>)
    requires HasSite(rows, s)
    ensures !OneShadeColor(rows, s) ==> r == Err(NotOneShadeColor(s))
    ensures OneShadeColor(rows, s) && !OneShadeAlpha(rows, s) ==> r == Err(NotOneShadeAlpha(s))
    ensures r.Ok? ==> OneShadeColor(rows, s) && OneShadeAlpha(rows, s)
    ensures r.Err? && OneShadeColor(rows, s) && OneShadeAlpha(rows, s) ==> r == Err(ShadeAlphaOutOfRange(s))
    ensures r.Ok? && r.value.Some? ==> r.value.value.xmin == xtick - 0.5 && r.value.value.xmax == xtick + 0.5
  {
    var sh := SiteShade(rows, s);
    if !OneShadeColor(rows, s) then Err(NotOneShadeColor(s))
    else if !OneShadeAlpha(rows, s) then Err(NotOneShadeAlpha(s))
    else if !TruthyString(sh.color) then Ok(None)
    else if !AlphaInRange(sh.alpha) then Err(ShadeAlphaOutOfRange(s))
    else Ok(Some(Band(xtick - 0.5, xtick + 0.5, sh.color.value, sh.alpha.value)))
  }

  /** What one turn decides, in terms of every row of the site: it skips
      the site exactly when the rows agree and name no colour, it rejects
      the alpha exactly when they agree on a colour and an alpha outside
      `[0, 1]`, and a band carries the colour and alpha of every row. */
  lemma SiteBandMeaning(rows: seq<Clean>, s: int, xtick: real)
    requires HasSite(rows, s)
    ensures var r := SiteBand(rows, s, xtick);
      && (r == Ok(None) <==>
          && OneShadeColor(rows, s) && OneShadeAlpha(rows, s)
          && forall i :: 0 <= i < |rows| && rows[i].site == s ==> !TruthyString(rows[i].shade.color))
      && (r == Err(ShadeAlphaOutOfRange(s)) <==>
          && OneShadeColor(rows, s) && OneShadeAlpha(rows, s)
          && forall i :: 0 <= i < |rows| && rows[i].site == s ==>
               TruthyString(rows[i].shade.color) && !AlphaInRange(rows[i].shade.alpha))
      && (r.Ok? && r.value.Some? ==>
          && r.value.value.color != "" && 0.0 <= r.value.value.alpha <= 1.0
          && forall i :: 0 <= i < |rows| && rows[i].site == s ==>
               rows[i].shade == Shade(Some(r.value.value.color), Some(r.value.value.alpha)))
  {
    if OneShadeColor(rows, s) && OneShadeAlpha(rows, s) {
      AgreedShade(rows, s);
    }
  }

  /** The shading loop over the ascending sites `ss` with their ticks
      `xticks`: the first failing site's error, or else the bands of the
      shaded sites in site order. */
  function Bands(rows: seq<Clean>, ss: seq<int>, xticks: seq<real>): (r: Result<seq<Band>>)
    requires SitesPresent(rows, ss) && |xticks| == |ss|
    ensures r.Ok? <==> forall k :: 0 <= k < |ss| ==> SiteBand(rows, ss[k], xticks[k]).Ok?
    ensures r.Err? ==> FailsFirstWith(rows, ss, xticks, r.error)
    ensures r.Ok? ==> forall b :: b in r.value <==> BandOfSomeSite(rows, ss, xticks, b)
  {
    if |ss| == 0 then Ok([])
    else
      var n := |ss| - 1;
      BandsPrefix(rows, ss, xticks);
      var prev := Bands(rows, ss[..n], xticks[..n]);
      if prev.Err? then
        PrefixFailure(rows, ss, xticks, prev.error);
        Err(prev.error)
      else
        var last := SiteBand(rows, ss[n], xticks[n]);
        if last.Err? then
          assert FirstFailure(rows, ss, xticks, n);
          assert FailsFirstWith(rows, ss, xticks, last.error);
          Err(last.error)
        else
          var r := prev.value + if last.value.Some? then [last.value.value] else [];
          ExtendBands(rows, ss, xticks, prev.value, r);
          Ok(r)
  }

  /** The prefix without the last site is a list of present sites, and its
      turns are the first turns of the whole list. */
  lemma BandsPrefix(rows: seq<Clean>, ss: seq<int>, xticks: seq<real>)
    requires SitesPresent(rows, ss) && |xticks| == |ss| > 0
    ensures SitesPresent(rows, ss[..|ss| - 1])
    ensures forall k :: 0 <= k < |ss| - 1 ==> ss[..|ss| - 1][k] == ss[k] && xticks[..|ss| - 1][k] == xticks[k]
  {
  }

  /** A failure within the prefix is the first failure of the whole list. */
  lemma PrefixFailure(rows: seq<Clean>, ss: seq<int>, xticks: seq<real>, e: Error)
    requires SitesPresent(rows, ss) && |xticks| == |ss| > 0
    requires SitesPresent(rows, ss[..|ss| - 1])
    requires FailsFirstWith(rows, ss[..|ss| - 1], xticks[..|ss| - 1], e)
    ensures FailsFirstWith(rows, ss, xticks, e)
  {
    var n := |ss| - 1;
    var k :| FirstFailure(rows, ss[..n], xticks[..n], k) && e == SiteBand(rows, ss[..n][k], xticks[..n][k]).error;
    assert forall j :: 0 <= j <= k ==> ss[..n][j] == ss[j] && xticks[..n][j] == xticks[j];
    assert FirstFailure(rows, ss, xticks, k);
  }

  /** Appending the last site's band (if any) to the prefix's bands gives
      exactly the bands of all sites. */
  lemma ExtendBands(rows: seq<Clean>, ss: seq<int>, xticks: seq<real>, prev: seq<Band>, r: seq<Band>)
    requires SitesPresent(rows, ss) && |xticks| == |ss| > 0
    requires SitesPresent(rows, ss[..|ss| - 1])
    requires forall b :: b in prev <==> BandOfSomeSite(rows, ss[..|ss| - 1], xticks[..|ss| - 1], b)
    requires SiteBand(rows, ss[|ss| - 1], xticks[|ss| - 1]).Ok?
    requires var last := SiteBand(rows, ss[|ss| - 1], xticks[|ss| - 1]).value;
      r == prev + if last.Some? then [last.value] else []
    ensures forall b :: b in r <==> BandOfSomeSite(rows, ss, xticks, b)
  {
    forall b | b in r
      ensures BandOfSomeSite(rows, ss, xticks, b)
    {
      ExtendedBandDrawn(rows, ss, xticks, prev, r, b);
    }
    forall b | BandOfSomeSite(rows, ss, xticks, b)
      ensures b in r
    {
      var k :| 0 <= k < |ss| && SiteBand(rows, ss[k], xticks[k]) == Ok(Some(b));
      if k < |ss| - 1 {
        PrefixBandKept(rows, ss, xticks, b, k);
      } else {
        assert r[|prev|] == b;
      }
    }
  }

  /** A band of the extended list is drawn by some site. */
  lemma ExtendedBandDrawn(rows: seq<Clean>, ss: seq<int>, xticks: seq<real>, prev: seq<Band>, r: seq<Band>, b: Band)
    requires SitesPresent(rows, ss) && |xticks| == |ss| > 0
    requires SitesPresent(rows, ss[..|ss| - 1])
    requires b in prev ==> BandOfSomeSite(rows, ss[..|ss| - 1], xticks[..|ss| - 1], b)
    requires SiteBand(rows, ss[|ss| - 1], xticks[|ss| - 1]).Ok?
    requires var last := SiteBand(rows, ss[|ss| - 1], xticks[|ss| - 1]).value;
      r == prev + if last.Some? then [last.value] else []
    requires b in r
    ensures BandOfSomeSite(rows, ss, xticks, b)
  {
    var n := |ss| - 1;
    if b in prev {
      var k :| 0 <= k < n && SiteBand(rows, ss[..n][k], xticks[..n][k]) == Ok(Some(b));
      assert ss[..n][k] == ss[k] && xticks[..n][k] == xticks[k];
    } else {
      assert SiteBand(rows, ss[n], xticks[n]) == Ok(Some(b));
    }
  }

  /** The band an earlier site `k` draws is one of the prefix's bands. */
  lemma PrefixBandKept(rows: seq<Clean>, ss: seq<int>, xticks: seq<real>, b: Band, k: int)
    requires SitesPresent(rows, ss) && |xticks| == |ss| > 0
    requires SitesPresent(rows, ss[..|ss| - 1])
    requires 0 <= k < |ss| - 1 && SiteBand(rows, ss[k], xticks[k]) == Ok(Some(b))
    ensures BandOfSomeSite(rows, ss[..|ss| - 1], xticks[..|ss| - 1], b)
  {
    var pss, pxt := ss[..|ss| - 1], xticks[..|ss| - 1];
    assert pss[k] == ss[k] && pxt[k] == xticks[k];
  }

  /** Site `k` is the first whose turn fails. */
  ghost predicate FirstFailure(rows: seq<Clean>, ss: seq<int>, xticks: seq<real>, k: int)
    requires SitesPresent(rows, ss) && |xticks| == |ss|
  {
    && 0 <= k < |ss|
    && SiteBand(rows, ss[k], xticks[k]).Err?
    && forall j :: 0 <= j < k ==> SiteBand(rows, ss[j], xticks[j]).Ok?
  }

  /** The first failing turn fails with error `e`. */
  ghost predicate FailsFirstWith(rows: seq<Clean>, ss: seq<int>, xticks: seq<real>, e: Error)
    requires SitesPresent(rows, ss) && |xticks| == |ss|
  {
    exists k :: FirstFailure(rows, ss, xticks, k) && e == SiteBand(rows, ss[k], xticks[k]).error
  }

  /** Band `b` is what the turn of some site draws. */
  ghost predicate BandOfSomeSite(rows: seq<Clean>, ss: seq<int>, xticks: seq<real>, b: Band)
    requires SitesPresent(rows, ss) && |xticks| == |ss|
  {
    exists k :: 0 <= k < |ss| && SiteBand(rows, ss[k], xticks[k]) == Ok(Some(b))
  }

  /** The shading step, after the letters: both columns or neither, both
      present in the frame, then the loop over the sites of the drawn rows. */
  function ShadeSites(sa: ShadeArgs, columns: set<string>, rows: seq<Clean>, xticks: seq<real>): (r: Result<seq<Band>>)
    requires |xticks| == |SitesOf(rows)|
    ensures sa.colorCol.None? && sa.alphaCol.None? ==> r == Ok([])
    ensures sa.colorCol.None? && sa.alphaCol.Some? ==> r == Err(ShadeAlphaWithoutColor)
    ensures sa.colorCol.Some? && sa.alphaCol.None? ==> r == Err(ShadeColorWithoutAlpha)
    ensures sa.colorCol.Some? && sa.alphaCol.Some? && sa.colorCol.value !in columns ==>
      r == Err(MissingColumn(sa.colorCol.value))
    ensures sa.colorCol.Some? && sa.alphaCol.Some? && sa.colorCol.value in columns && sa.alphaCol.value !in columns ==>
      r == Err(MissingColumn(sa.alphaCol.value))
    ensures r.Ok? && r.value != [] ==>
      && sa.colorCol.Some? && sa.alphaCol.Some? && sa.colorCol.value in columns && sa.alphaCol.value in columns
    ensures sa.colorCol.Some? && sa.alphaCol.Some? && sa.colorCol.value in columns && sa.alphaCol.value in columns ==>
      r == Bands(rows, SitesOf(rows), xticks)
  {
    var ss := SitesOf(rows);
    assert SitesPresent(rows, ss);
    match sa.colorCol
    case Some(colorCol) =>
      if sa.alphaCol.None? then Err(ShadeColorWithoutAlpha)
      else if colorCol !in columns then Err(MissingColumn(colorCol))
      else if sa.alphaCol.value !in columns then Err(MissingColumn(sa.alphaCol.value))
      else Bands(rows, ss, xticks)
    case None =>
      if sa.alphaCol.Some? then Err(ShadeAlphaWithoutColor) else Ok([])
  }

  /** `draw_logo` with shading: the logo, then the shading over the sites
      of the validated rows at their layout ticks; an error in either
      fails the whole call. */
  function DrawShadedLogo(args: Logo.LogoArgs, sa: ShadeArgs, t: Table, s: Setter, m: Measure): (r: Result<ShadedLogo>)
    requires Valid(s) && m.Valid()
    ensures Logo.DrawLogo(args, t, s, m).Err? ==> r == Err(Logo.DrawLogo(args, t, s, m).error)
    ensures r.Ok? ==>
      && Logo.DrawLogo(args, t, s, m) == Ok(r.value.logo)
      && var rows := Validate(args.layout, t).value;
         var l := LayoutRows(args.layout, rows).value;
         |l.xticks| == |SitesOf(rows)| && ShadeSites(sa, t.columns, rows, l.xticks) == Ok(r.value.bands)
  {
    var lg :- Logo.DrawLogo(args, t, s, m);
    var rows := Validate(args.layout, t).value;
    var l := LayoutRows(args.layout, rows).value;
    var bands :- ShadeSites(sa, t.columns, rows, l.xticks);
    Ok(ShadedLogo(lg, bands))
  }

  // ------------------------------------------------------------ properties

  /** Each site's tick sits half a unit into the site's column. */
  predicate TicksAtColumns(addBreaks: bool, ss: seq<int>, xticks: seq<real>) {
    && |xticks| == |ss|
    && forall k :: 0 <= k < |ss| ==> xticks[k] == SiteColumn(addBreaks, ss, k) as real + 0.5
  }

  /** Band `b` spans the column of site `k` and carries that site's shade. */
  predicate BandCoversSite(addBreaks: bool, rows: seq<Clean>, ss: seq<int>, k: int, b: Band)
    requires 0 <= k < |ss|
  {
    && b.xmin == SiteColumn(addBreaks, ss, k) as real
    && b.xmax == b.xmin + 1.0
    && b.color != "" && 0.0 <= b.alpha <= 1.0
    && forall i :: 0 <= i < |rows| && rows[i].site == ss[k] ==> rows[i].shade == Shade(Some(b.color), Some(b.alpha))
  }

  /** The layout puts each site's tick half a unit into its column. */
  lemma LayoutTicks(a: LayoutArgs, rows: seq<Clean>)
    requires LayoutRows(a, rows).Ok?
    ensures TicksAtColumns(a.addBreaks, SitesOf(rows), LayoutRows(a, rows).value.xticks)
  {
    var ss := SitesOf(rows);
    var l := LayoutRows(a, rows).value;
    assert SitesPresent(rows, ss);
    forall k | 0 <= k < |ss|
      ensures l.xticks[k] == SiteColumn(a.addBreaks, ss, k) as real + 0.5
    {
      assert SiteAt(a, rows, ss, l, k, SiteColumn(a.addBreaks, ss, k));
    }
  }

  /** Each band of the loop covers exactly the column of one site. */
  lemma BandsOnColumns(addBreaks: bool, rows: seq<Clean>, ss: seq<int>, xticks: seq<real>, b: Band)
    requires SitesPresent(rows, ss) && TicksAtColumns(addBreaks, ss, xticks)
    requires Bands(rows, ss, xticks).Ok? && b in Bands(rows, ss, xticks).value
    ensures exists k :: 0 <= k < |ss| && BandCoversSite(addBreaks, rows, ss, k, b)
  {
    assert BandOfSomeSite(rows, ss, xticks, b);
    var k :| 0 <= k < |ss| && SiteBand(rows, ss[k], xticks[k]) == Ok(Some(b));
    SiteBandMeaning(rows, ss[k], xticks[k]);
    assert BandCoversSite(addBreaks, rows, ss, k, b);
  }

  /** A site's column starts a band of the loop exactly when the site's
      rows name a non-empty colour. */
  lemma BandsIffColored(addBreaks: bool, rows: seq<Clean>, ss: seq<int>, xticks: seq<real>, k: int)
    requires SitesPresent(rows, ss) && TicksAtColumns(addBreaks, ss, xticks)
    requires Bands(rows, ss, xticks).Ok? && 0 <= k < |ss|
    ensures (exists b :: b in Bands(rows, ss, xticks).value && b.xmin == SiteColumn(addBreaks, ss, k) as real)
      <==> forall i :: 0 <= i < |rows| && rows[i].site == ss[k] ==> TruthyString(rows[i].shade.color)
  {
    var c := SiteColumn(addBreaks, ss, k);
    if exists b :: b in Bands(rows, ss, xticks).value && b.xmin == c as real {
      ShadedSiteColored(addBreaks, rows, ss, xticks, k);
    }
    if forall i :: 0 <= i < |rows| && rows[i].site == ss[k] ==> TruthyString(rows[i].shade.color) {
      ColoredSiteShaded(addBreaks, rows, ss, xticks, k);
    }
  }

  /** A band at a site's column means the site's rows all name a
      non-empty colour. */
  lemma ShadedSiteColored(addBreaks: bool, rows: seq<Clean>, ss: seq<int>, xticks: seq<real>, k: int)
    requires SitesPresent(rows, ss) && TicksAtColumns(addBreaks, ss, xticks)
    requires Bands(rows, ss, xticks).Ok? && 0 <= k < |ss|
    requires exists b :: b in Bands(rows, ss, xticks).value && b.xmin == SiteColumn(addBreaks, ss, k) as real
    ensures forall i :: 0 <= i < |rows| && rows[i].site == ss[k] ==> TruthyString(rows[i].shade.color)
  {
    var b :| b in Bands(rows, ss, xticks).value && b.xmin == SiteColumn(addBreaks, ss, k) as real;
    BandsOnColumns(addBreaks, rows, ss, xticks, b);
    var j :| 0 <= j < |ss| && BandCoversSite(addBreaks, rows, ss, j, b);
    ColumnOwner(addBreaks, rows, ss, j, k, b);
  }

  /** A band over one site's column starts at no other site's column. */
  lemma ColumnOwner(addBreaks: bool, rows: seq<Clean>, ss: seq<int>, j: int, k: int, b: Band)
    requires 0 <= j < |ss| && 0 <= k < |ss|
    requires BandCoversSite(addBreaks, rows, ss, j, b) && b.xmin == SiteColumn(addBreaks, ss, k) as real
    ensures j == k
  {
    if j < k {
      SiteColumnIncreasing(addBreaks, ss, j, k);
    } else if k < j {
      SiteColumnIncreasing(addBreaks, ss, k, j);
    }
  }

  /** A site whose rows all name a non-empty colour gets a band. */
  lemma ColoredSiteShaded(addBreaks: bool, rows: seq<Clean>, ss: seq<int>, xticks: seq<real>, k: int)
    requires SitesPresent(rows, ss) && TicksAtColumns(addBreaks, ss, xticks)
    requires Bands(rows, ss, xticks).Ok? && 0 <= k < |ss|
    requires forall i :: 0 <= i < |rows| && rows[i].site == ss[k] ==> TruthyString(rows[i].shade.color)
    ensures exists b :: b in Bands(rows, ss, xticks).value && b.xmin == SiteColumn(addBreaks, ss, k) as real
  {
    var sb := SiteBand(rows, ss[k], xticks[k]);
    SiteBandMeaning(rows, ss[k], xticks[k]);
    var w :| 0 <= w < |rows| && rows[w].site == ss[k];
    assert TruthyString(rows[w].shade.color);
    assert sb.Ok? && sb != Ok(None);
    assert BandOfSomeSite(rows, ss, xticks, sb.value.value);
  }

  /** What a successful shaded logo is made of: the loop over the sites
      of the validated rows, at ticks inside their columns. */
  lemma ShadedParts(args: Logo.LogoArgs, sa: ShadeArgs, t: Table, s: Setter, m: Measure)
    requires Valid(s) && m.Valid() && DrawShadedLogo(args, sa, t, s, m).Ok?
    ensures var rows := Validate(args.layout, t).value;
      var ss := SitesOf(rows);
      var xticks := LayoutRows(args.layout, rows).value.xticks;
      && SitesPresent(rows, ss) && TicksAtColumns(args.layout.addBreaks, ss, xticks)
      && ShadeSites(sa, t.columns, rows, xticks) == Ok(DrawShadedLogo(args, sa, t, s, m).value.bands)
  {
    var rows := Validate(args.layout, t).value;
    LayoutTicks(args.layout, rows);
  }

  /** Each band of a shaded logo covers exactly the column of one site,
      `[c, c + 1]`, and every row of that site asked for its colour and
      alpha. */
  lemma BandOnSiteColumn(args: Logo.LogoArgs, sa: ShadeArgs, t: Table, s: Setter, m: Measure, b: Band)
    requires Valid(s) && m.Valid() && DrawShadedLogo(args, sa, t, s, m).Ok?
    requires b in DrawShadedLogo(args, sa, t, s, m).value.bands
    ensures var rows := Validate(args.layout, t).value;
      var ss := SitesOf(rows);
      exists k :: 0 <= k < |ss| && BandCoversSite(args.layout.addBreaks, rows, ss, k, b)
  {
    var rows := Validate(args.layout, t).value;
    var xticks := LayoutRows(args.layout, rows).value.xticks;
    ShadedParts(args, sa, t, s, m);
    BandsOnColumns(args.layout.addBreaks, rows, SitesOf(rows), xticks, b);
  }

  /** Two different bands of one shaded logo never overlap: they sit on
      the columns of different sites, which are different columns. */
  lemma BandsDisjoint(args: Logo.LogoArgs, sa: ShadeArgs, t: Table, s: Setter, m: Measure, b1: Band, b2: Band)
    requires Valid(s) && m.Valid() && DrawShadedLogo(args, sa, t, s, m).Ok?
    requires b1 in DrawShadedLogo(args, sa, t, s, m).value.bands
    requires b2 in DrawShadedLogo(args, sa, t, s, m).value.bands
    requires b1 != b2
    ensures b1.xmax <= b2.xmin || b2.xmax <= b1.xmin
  {
    var rows := Validate(args.layout, t).value;
    var ss := SitesOf(rows);
    BandOnSiteColumn(args, sa, t, s, m, b1);
    BandOnSiteColumn(args, sa, t, s, m, b2);
    var k1 :| 0 <= k1 < |ss| && BandCoversSite(args.layout.addBreaks, rows, ss, k1, b1);
    var k2 :| 0 <= k2 < |ss| && BandCoversSite(args.layout.addBreaks, rows, ss, k2, b2);
    SeparateColumns(args.layout.addBreaks, rows, ss, k1, k2, b1, b2);
  }

  /** Bands over two sites' columns are one band, or do not overlap. */
  lemma SeparateColumns(addBreaks: bool, rows: seq<Clean>, ss: seq<int>, k1: int, k2: int, b1: Band, b2: Band)
    requires SitesPresent(rows, ss) && 0 <= k1 < |ss| && 0 <= k2 < |ss|
    requires BandCoversSite(addBreaks, rows, ss, k1, b1) && BandCoversSite(addBreaks, rows, ss, k2, b2)
    ensures b1 == b2 || b1.xmax <= b2.xmin || b2.xmax <= b1.xmin
  {
    var c1 := SiteColumn(addBreaks, ss, k1);
    var c2 := SiteColumn(addBreaks, ss, k2);
    if k1 < k2 {
      SiteColumnIncreasing(addBreaks, ss, k1, k2);
      assert (c1 + 1) as real <= c2 as real;
    } else if k2 < k1 {
      SiteColumnIncreasing(addBreaks, ss, k2, k1);
      assert (c2 + 1) as real <= c1 as real;
    } else {
      var w :| 0 <= w < |rows| && rows[w].site == ss[k1];
      assert rows[w].shade == Shade(Some(b1.color), Some(b1.alpha)) == Shade(Some(b2.color), Some(b2.alpha));
    }
  }

  /** With both shading columns given, a site of a shaded logo is shaded
      exactly when its rows name a non-empty colour: then a band starts at
      its column. */
  lemma ShadedIffColored(args: Logo.LogoArgs, sa: ShadeArgs, t: Table, s: Setter, m: Measure, k: int)
    requires Valid(s) && m.Valid() && DrawShadedLogo(args, sa, t, s, m).Ok?
    requires sa.colorCol.Some? && sa.alphaCol.Some?
    requires 0 <= k < |SitesOf(Validate(args.layout, t).value)|
    ensures var rows := Validate(args.layout, t).value;
      var ss := SitesOf(rows);
      var c := SiteColumn(args.layout.addBreaks, ss, k);
      (exists b :: b in DrawShadedLogo(args, sa, t, s, m).value.bands && b.xmin == c as real)
      <==> forall i :: 0 <= i < |rows| && rows[i].site == ss[k] ==> TruthyString(rows[i].shade.color)
  {
    var rows := Validate(args.layout, t).value;
    var xticks := LayoutRows(args.layout, rows).value.xticks;
    ShadedParts(args, sa, t, s, m);
    BandsIffColored(args.layout.addBreaks, rows, SitesOf(rows), xticks, k);
  }
}

=== FILE: tables.dfy ===
/** The data-frame side shared by the three logo-drawing functions
    (dmslogo/logo.py, and the older dmslogo/dmslogo.py and
    dmslogo/draw_logo.py): rows of (site, letter, height, tick label,
    colour), the per-site grouping `sort_values([x, height]).groupby(x)`,
    break detection between non-consecutive sites, and colour choice. */
module Tables {
  import opened Results
  import opened Reals

  /** One data-frame row, read through the columns the caller names:
      `site` from `x_col`, `letter` from `letter_col`, `height` from
      `letter_height_col` (`None` for NaN), `tick` the `str` of the
      `xtick_col` value, and `color` the `color_col` value (only read when
      a colour column is given), and `shade` the shading cells. */
  datatype Row = Row(site: Num, letter: string, height: Option<real>, tick: string, color: string, shade: Shade)

  /** The `shade_color_col` and `shade_alpha_col` cells of a row (`None`
      for a null), only read when shading is asked for. */
  datatype Shade = Shade(color: Option<string>, alpha: Option<real>)

  /** The shading cells of a frame without shading columns. */
  const NoShade := Shade(None, None)

  /** A data frame: its column names and its rows. */
  datatype Table = Table(columns: set<string>, rows: seq<Row>)

  /** A row once its height is known and its site is an integer. */
  datatype Clean = Clean(site: int, letter: string, height: real, tick: string, color: string, shade: Shade)

  // ------------------------------------------------------------ column checks

  /** `required[i]` is the first of `required` missing from `columns`. */
  predicate FirstMissing(columns: set<string>, required: seq<string>, i: int)
    requires 0 <= i < |required|
  {
    required[i] !in columns && forall j :: 0 <= j < i ==> required[j] in columns
  }

  /** `for col in required: if col not in data.columns: raise`. */
  function CheckColumns(columns: set<string>, required: seq<string>): (r: Result<()>)
    ensures r.Ok? <==> forall i :: 0 <= i < |required| ==> required[i] in columns
    ensures r.Err? ==>
      exists i :: 0 <= i < |required| && FirstMissing(columns, required, i) && r.error == MissingColumn(required[i])
  {
    if |required| == 0 then Ok(())
    else if required[0] !in columns then Err(MissingColumn(required[0]))
    else
      var r := CheckColumns(columns, required[1..]);
      assert forall i :: 1 <= i < |required| ==> required[i] == required[1..][i - 1];
      if r.Err? then
        var i :| 0 <= i < |required[1..]| && FirstMissing(columns, required[1..], i)
          && r.error == MissingColumn(required[1..][i]);
        assert FirstMissing(columns, required, i + 1);
        r
      else r
  }

  /** A colour column, when given, must be a column too. */
  function CheckOptionalColumn(columns: set<string>, col: Option<string>): (r: Result<()>)
    ensures r.Ok? <==> col.None? || col.value in columns
    ensures r.Err? ==> r.error == MissingColumn(col.value)
  {
    if col.Some? && col.value !in columns then Err(MissingColumn(col.value)) else Ok(())
  }

  // ---------------------------------------------------------- letter checks

  /** `c.upper() != c`, for the first 256 code points: `a`-`z`, the micro
      sign (upper-cased to Greek `Μ`), and the Latin-1 lower-case letters
      `ß`-`ö` and `ø`-`ÿ` (`ß` becomes `SS`). Code points above these are
      treated as unchanged. */
  predicate ChangedByUpper(c: char) {
    || 'a' <= c <= 'z'
    || c == 'µ'
    || 'ß' <= c <= 'ö'
    || 'ø' <= c <= 'ÿ'
  }

  /** `str(letters).upper() == str(letters)`: upper-casing changes no
      character of any letter. */
  predicate AllUppercase(rows: seq<Row>) {
    forall i, k :: 0 <= i < |rows| && 0 <= k < |rows[i].letter| ==> !ChangedByUpper(rows[i].letter[k])
  }

  /** Accented and Latin-1 lower-case letters are refused, their upper-case
      forms and the signs `×` and `÷` between them are not. */
  lemma UppercaseLatin1()
    ensures !AllUppercase([Row(IntNum(1), "é", Some(1.0), "1", "red", NoShade)])
    ensures !AllUppercase([Row(IntNum(1), "ß", Some(1.0), "1", "red", NoShade)])
    ensures AllUppercase([Row(IntNum(1), "É", Some(1.0), "1", "red", NoShade),
                          Row(IntNum(1), "×", Some(1.0), "1", "red", NoShade),
                          Row(IntNum(1), "÷", Some(1.0), "1", "red", NoShade)])
  {
    var lower := [Row(IntNum(1), "é", Some(1.0), "1", "red", NoShade)];
    assert ChangedByUpper(lower[0].letter[0]);
    var sharp := [Row(IntNum(1), "ß", Some(1.0), "1", "red", NoShade)];
    assert ChangedByUpper(sharp[0].letter[0]);
  }

  /** `isinstance(letter, str) and len(letter) == 1`. */
  function CheckLetter(letter: string): (r: Result<()>)
    ensures r.Ok? <==> |letter| == 1
    ensures r.Err? ==> r.error == InvalidLetter(letter)
  {
    if |letter| == 1 then Ok(()) else Err(InvalidLetter(letter))
  }

  /** `len(letters) == letters.nunique()`: no letter repeats at the site. */
  predicate DistinctLetters(g: seq<Clean>) {
    forall i, j :: 0 <= i < j < |g| ==> g[i].letter != g[j].letter
  }

  // ------------------------------------------------------------ colour choice

  /** Where colours come from: the colour column, or else a scheme (a dict
      keyed by letter) with a fallback `missing_color` (`None` raises). */
  datatype Coloring = Coloring(useColorCol: bool, scheme: map<char, string>, missingColor: Option<string>)

  /** Python truthiness of an optional string. */
  predicate TruthyString(s: Option<string>) {
    s.Some? && s.value != ""
  }

  /** The colour of one letter: the colour column wins when given; otherwise
      the scheme's entry; otherwise `missing_color` when it is truthy;
      otherwise an error. */
  function ResolveColor(c: Coloring, letter: string, colorCell: string): (r: Result<string>)
    requires |letter| == 1
    ensures c.useColorCol ==> r == Ok(colorCell)
    ensures !c.useColorCol && letter[0] in c.scheme ==> r == Ok(c.scheme[letter[0]])
    ensures !c.useColorCol && letter[0] !in c.scheme ==>
      r == if TruthyString(c.missingColor) then Ok(c.missingColor.value) else Err(NoColor(letter))
  {
    if c.useColorCol then Ok(colorCell)
    else if letter[0] in c.scheme then Ok(c.scheme[letter[0]])
    else if TruthyString(c.missingColor) then Ok(c.missingColor.value)
    else Err(NoColor(letter))
  }

  // ----------------------------------------------------------- site grouping

  /** Adds `s` to a strictly increasing sequence of sites. */
  function InsertSite(ss: seq<int>, s: int): (r: seq<int>)
    requires StrictlyIncreasing(ss)
    ensures StrictlyIncreasing(r)
    ensures forall t :: t in r <==> t in ss || t == s
    ensures |r| > 0 && (r[0] == s || (|ss| > 0 && r[0] == ss[0]))
  {
    if |ss| == 0 then [s]
    else if s < ss[0] then [s] + ss
    else if s == ss[0] then ss
    else
      var tail := InsertSite(ss[1..], s);
      assert forall t :: t in ss <==> t == ss[0] || t in ss[1..];
      [ss[0]] + tail
  }

  predicate HasSite(rows: seq<Clean>, t: int) {
    exists i :: 0 <= i < |rows| && rows[i].site == t
  }

  /** The distinct sites, ascending: the keys `groupby(x_col)` visits. */
  function SitesOf(rows: seq<Clean>): (ss: seq<int>)
    ensures StrictlyIncreasing(ss)
    ensures forall t :: t in ss <==> HasSite(rows, t)
  {
    if |rows| == 0 then []
    else
      var prefix := rows[..|rows| - 1];
      var ss := InsertSite(SitesOf(prefix), rows[|rows| - 1].site);
      assert forall t :: HasSite(rows, t) <==> HasSite(prefix, t) || t == rows[|rows| - 1].site by {
        forall t | HasSite(rows, t) && t != rows[|rows| - 1].site
          ensures HasSite(prefix, t)
        {
          var i :| 0 <= i < |rows| && rows[i].site == t;
          assert prefix[i] == rows[i];
        }
        forall t | HasSite(prefix, t)
          ensures HasSite(rows, t)
        {
          var i :| 0 <= i < |prefix| && prefix[i].site == t;
          assert rows[i] == prefix[i];
        }
      }
      ss
  }

  /** The rows at site `s`, in data-frame order. */
  function RowsAt(rows: seq<Clean>, s: int): (g: seq<Clean>)
    ensures forall i :: 0 <= i < |g| ==> g[i].site == s
    ensures |g| > 0 <== HasSite(rows, s)
  {
    if |rows| == 0 then []
    else
      var prefix := rows[..|rows| - 1];
      var last := rows[|rows| - 1];
      var g := RowsAt(prefix, s);
      assert HasSite(rows, s) ==> HasSite(prefix, s) || last.site == s by {
        if HasSite(rows, s) && last.site != s {
          var i :| 0 <= i < |rows| && rows[i].site == s;
          assert prefix[i] == rows[i];
        }
      }
      if last.site == s then g + [last] else g
  }

  /** `RowsAt` keeps every row of site `s`, as often as it occurs. */
  lemma {:induction false} RowsAtCounts(rows: seq<Clean>, s: int, x: Clean)
    requires x.site == s
    ensures multiset(RowsAt(rows, s))[x] == multiset(rows)[x]
  {
    if |rows| > 0 {
      var prefix := rows[..|rows| - 1];
      assert rows == prefix + [rows[|rows| - 1]];
      RowsAtCounts(prefix, s, x);
    }
  }

  /** Ordered by height. */
  ghost predicate ByHeightSorted(g: seq<Clean>) {
    forall i, j :: 0 <= i < j < |g| ==> g[i].height <= g[j].height
  }

  /** The rows of `g` whose height is `h`, in their order in `g`. */
  function WithHeight(g: seq<Clean>, h: real): (r: seq<Clean>)
    ensures forall i :: 0 <= i < |r| ==> r[i].height == h && r[i] in g
    ensures |r| <= |g|
  {
    if |g| == 0 then []
    else (if g[0].height == h then [g[0]] else []) + WithHeight(g[1..], h)
  }

  /** Puts `x` into the sorted `g` before every row at least as high, so
      that `x` precedes the rows of its own height. */
  function InsertByHeight(g: seq<Clean>, x: Clean): (r: seq<Clean>)
    requires ByHeightSorted(g)
    ensures ByHeightSorted(r)
    ensures multiset(r) == multiset(g) + multiset{x}
    ensures |r| == |g| + 1
    ensures r[0] == x || (|g| > 0 && r[0] == g[0])
  {
    if |g| == 0 then [x]
    else if x.height <= g[0].height then [x] + g
    else
      var tail := InsertByHeight(g[1..], x);
      assert g == [g[0]] + g[1..];
      assert g[0].height <= tail[0].height;
      [g[0]] + tail
  }

  /** An inserted row comes first among the rows of its height, and the
      other rows of every height keep their order. */
  lemma {:induction false} InsertKeepsTies(g: seq<Clean>, x: Clean, h: real)
    requires ByHeightSorted(g)
    ensures WithHeight(InsertByHeight(g, x), h) == (if x.height == h then [x] else []) + WithHeight(g, h)
  {
    var r := InsertByHeight(g, x);
    if |g| == 0 {
      assert r[1..] == [];
    } else if x.height <= g[0].height {
      assert r[1..] == g;
    } else {
      var tail := InsertByHeight(g[1..], x);
      InsertKeepsTies(g[1..], x, h);
      assert r[0] == g[0] && r[1..] == tail;
      var here := if g[0].height == h then [g[0]] else [];
      assert WithHeight(r, h) == here + WithHeight(tail, h);
      assert WithHeight(g, h) == here + WithHeight(g[1..], h);
      if g[0].height == h {
        assert x.height != h;
        assert WithHeight(tail, h) == WithHeight(g[1..], h);
      } else {
        assert here + WithHeight(tail, h) == WithHeight(tail, h);
        assert here + WithHeight(g[1..], h) == WithHeight(g[1..], h);
      }
    }
  }

  /** `sort_values(letter_height_col)` within one site: a stable sort. */
  function SortByHeight(g: seq<Clean>): (r: seq<Clean>)
    ensures ByHeightSorted(r)
    ensures multiset(r) == multiset(g)
    ensures |r| == |g|
  {
    if |g| == 0 then []
    else
      assert g == [g[0]] + g[1..];
      InsertByHeight(SortByHeight(g[1..]), g[0])
  }

  /** The sort is stable: the rows of each height come out in the order
      they went in, as pandas' multi-column `sort_values` keeps them. */
  lemma {:induction false} SortKeepsTies(g: seq<Clean>, h: real)
    ensures WithHeight(SortByHeight(g), h) == WithHeight(g, h)
  {
    if |g| > 0 {
      SortKeepsTies(g[1..], h);
      InsertKeepsTies(SortByHeight(g[1..]), g[0], h);
    }
  }

  /** The group `groupby(x_col)` yields for site `s`, after
      `sort_values([x_col, letter_height_col])`. */
  function Group(rows: seq<Clean>, s: int): (g: seq<Clean>)
    ensures ByHeightSorted(g)
    ensures forall i :: 0 <= i < |g| ==> g[i].site == s
    ensures HasSite(rows, s) ==> |g| > 0
    ensures forall h :: WithHeight(g, h) == WithHeight(RowsAt(rows, s), h)
  {
    var a := RowsAt(rows, s);
    var g := SortByHeight(a);
    forall h
      ensures WithHeight(g, h) == WithHeight(a, h)
    {
      SortKeepsTies(a, h);
    }
    forall i | 0 <= i < |g|
      ensures g[i].site == s
    {
      assert g[i] in multiset(a);
    }
    g
  }

  /** Two letters of equal height at one site stack in frame order. */
  lemma GroupTieInFrameOrder()
    ensures var a := Clean(1, "A", 1.0, "1", "red", NoShade);
      var b := Clean(1, "B", 1.0, "1", "red", NoShade);
      Group([a, b], 1) == [a, b]
  {
    var a := Clean(1, "A", 1.0, "1", "red", NoShade);
    var b := Clean(1, "B", 1.0, "1", "red", NoShade);
    assert [a, b][..1] == [a] && [a][..0] == [];
    assert RowsAt([a], 1) == [a];
    assert RowsAt([a, b], 1) == [a, b];
    assert [a, b][1..] == [b];
    assert SortByHeight([b]) == [b];
  }

  /** A site's group holds exactly that site's rows, as often as they
      occur in the data. */
  lemma GroupCounts(rows: seq<Clean>, s: int, x: Clean)
    requires x.site == s
    ensures multiset(Group(rows, s))[x] == multiset(rows)[x]
  {
    RowsAtCounts(rows, s, x);
  }

  /** A row of the data lies in its site's group. */
  lemma RowInGroup(rows: seq<Clean>, i: int)
    requires 0 <= i < |rows|
    ensures rows[i] in Group(rows, rows[i].site)
  {
    GroupCounts(rows, rows[i].site, rows[i]);
    assert rows[i] in multiset(rows);
  }

  /** A member of a group is a row of the data. */
  lemma GroupMemberIsRow(rows: seq<Clean>, s: int, x: Clean)
    requires x in Group(rows, s)
    ensures x in rows
  {
    GroupCounts(rows, s, x);
    assert x in multiset(Group(rows, s));
  }

  // ----------------------------------------------------------------- breaks

  /** A break column goes before the `j`-th site when breaks are on and the
      site does not follow its predecessor (`x != lastx + 1`). */
  predicate BreakBefore(addBreaks: bool, ss: seq<int>, j: int)
    requires 0 <= j < |ss|
  {
    addBreaks && j > 0 && ss[j] != ss[j - 1] + 1
  }

  /** The number of break columns inserted among the sites `ss`. */
  function BreakCount(addBreaks: bool, ss: seq<int>): (n: nat)
    ensures n <= |ss|
    ensures !addBreaks ==> n == 0
  {
    if |ss| == 0 then 0
    else BreakCount(addBreaks, ss[..|ss| - 1]) + if BreakBefore(addBreaks, ss, |ss| - 1) then 1 else 0
  }

  /** The column index of the `j`-th site: its own index plus the breaks
      inserted up to and including it. */
  function SiteColumn(addBreaks: bool, ss: seq<int>, j: int): nat
    requires 0 <= j < |ss|
  {
    j + BreakCount(addBreaks, ss[..j + 1])
  }

  /** Breaks only accumulate as the list of sites grows. */
  lemma {:induction false} BreakCountGrows(addBreaks: bool, ss: seq<int>, j: int)
    requires 0 <= j <= |ss|
    ensures BreakCount(addBreaks, ss[..j]) <= BreakCount(addBreaks, ss)
    decreases |ss|
  {
    if j < |ss| {
      var n := |ss| - 1;
      assert ss[..n][..j] == ss[..j];
      BreakCountGrows(addBreaks, ss[..n], j);
    } else {
      assert ss[..j] == ss;
    }
  }

  /** A later site sits in a later column. */
  lemma SiteColumnIncreasing(addBreaks: bool, ss: seq<int>, j: int, k: int)
    requires 0 <= j < k < |ss|
    ensures SiteColumn(addBreaks, ss, j) < SiteColumn(addBreaks, ss, k)
  {
    assert ss[..k + 1][..j + 1] == ss[..j + 1];
    BreakCountGrows(addBreaks, ss[..k + 1], j + 1);
  }

  // ------------------------------------------------------------- site sums

  /** `clip(None, 0).sum()`: the total of the negative heights. */
  function NegativeSum(g: seq<Clean>): real
  {
    if |g| == 0 then 0.0 else NegativeSum(g[..|g| - 1]) + Min2(g[|g| - 1].height, 0.0)
  }

  /** `clip(0, None).sum()`: the total of the positive heights. */
  function PositiveSum(g: seq<Clean>): real
  {
    if |g| == 0 then 0.0 else PositiveSum(g[..|g| - 1]) + Max2(g[|g| - 1].height, 0.0)
  }
}

=== FILE: ticks.dfy ===
/** Re-labelling a numeric axis (`breaksAndLabels` in dmslogo/utils.py):
    candidate tick positions from a "nice numbers" locator are kept when
    they fall within the axis points, truncated to integers, and labelled
    with the string of the axis point they hit. */
module Ticks {
  import opened Results
  import opened Reals

  /** `list.index`: the first position holding `v`. */
  function IndexOf(xs: seq<int>, v: int): (k: nat)
    requires v in xs
    ensures k < |xs| && xs[k] == v
    ensures forall j :: 0 <= j < k ==> xs[j] != v
  {
    if xs[0] == v then 0 else 1 + IndexOf(xs[1..], v)
  }

  predicate AllInts(xi: seq<Num>) {
    forall i :: 0 <= i < |xi| ==> xi[i].IntNum?
  }

  function Ints(xi: seq<Num>): (ns: seq<int>)
    requires AllInts(xi)
    ensures |ns| == |xi| && forall i :: 0 <= i < |xi| ==> ns[i] == xi[i].i
  {
    seq(|xi|, i requires 0 <= i < |xi| => xi[i].i)
  }

  /** The candidates within `[lo, hi]`, in order, each truncated to an
      integer (`int(i)` in the source). */
  function InRange(candidates: seq<real>, lo: int, hi: int): (bs: seq<int>)
    ensures forall k :: 0 <= k < |bs| ==> lo <= bs[k] <= hi
    ensures |bs| <= |candidates|
  {
    if |candidates| == 0 then []
    else
      var rest := InRange(candidates[1..], lo, hi);
      var c := candidates[0];
      if lo as real <= c <= hi as real then
        TruncBetween(c, lo, hi);
        [Trunc(c)] + rest
      else rest
  }

  /** The label of each break, or the first break that is not an axis point
      (where `xi.index` raises). */
  function LabelsFor(breaks: seq<int>, xs: seq<int>, x: seq<string>): (r: Result<seq<string>>)
    requires |xs| == |x|
    ensures r.Ok? <==> forall k :: 0 <= k < |breaks| ==> breaks[k] in xs
    ensures r.Ok? ==> |r.value| == |breaks|
    ensures r.Ok? ==> forall k :: 0 <= k < |breaks| ==> r.value[k] == x[IndexOf(xs, breaks[k])]
  {
    if |breaks| == 0 then Ok([])
    else if breaks[0] !in xs then Err(BreakNotAmongTicks(breaks[0]))
    else
      var rest :- LabelsFor(breaks[1..], xs, x);
      assert forall k :: 1 <= k < |breaks| ==> breaks[k] == breaks[1..][k - 1];
      Ok([x[IndexOf(xs, breaks[0])]] + rest)
  }

  /** `breaksAndLabels(xi, x, n)`, with the locator's candidate ticks for
      `n` passed in as `candidates`. */
  function BreaksAndLabels(xi: seq<Num>, x: seq<string>, candidates: seq<real>)
    : (r: Result<(seq<int>, seq<string>)>)
    ensures |xi| != |x| ==> r == Err(LengthMismatch)
    ensures |xi| == |x| && !AllInts(xi) ==> r == Err(NonIntegerTicks)
    ensures r.Ok? ==> |xi| == |x| && AllInts(xi) && StrictlyIncreasing(Ints(xi)) && |xi| > 0
    ensures r.Ok? ==> |r.value.0| == |r.value.1|
    ensures r.Ok? ==> forall k :: 0 <= k < |r.value.0| ==>
      && xi[0].i <= r.value.0[k] <= xi[|xi| - 1].i
      && r.value.0[k] in Ints(xi)
      && r.value.1[k] == x[IndexOf(Ints(xi), r.value.0[k])]
  {
    if |xi| != |x| then Err(LengthMismatch)
    else if !AllInts(xi) then Err(NonIntegerTicks)
    else
      var xs := Ints(xi);
      if !StrictlyIncreasing(xs) then Err(TicksNotSortedUnique)
      else if |xs| == 0 then Err(EmptyData)
      else
        var breaks := InRange(candidates, xs[0], xs[|xs| - 1]);
        var labels :- LabelsFor(breaks, xs, x);
        Ok((breaks, labels))
  }

  /** On the consecutive axis points `0..n-1` every value is its own index. */
  lemma IndexOfConsecutive(xs: seq<int>, v: int)
    requires forall i :: 0 <= i < |xs| ==> xs[i] == i
    requires 0 <= v < |xs|
    ensures v in xs && IndexOf(xs, v) == v
  {
    assert xs[v] == v;
  }

  /** The axis points `0..n-1`. */
  function Consecutive(n: nat): (xi: seq<Num>)
    ensures |xi| == n && AllInts(xi)
    ensures forall i :: 0 <= i < n ==> xi[i] == IntNum(i)
  {
    seq(n, i => IntNum(i))
  }

  /** The labels `str(i + 1)` for the axis points `0..n-1`. */
  function OneBasedLabels(n: nat): (x: seq<string>)
    ensures |x| == n && forall i :: 0 <= i < n ==> x[i] == IntToString(i + 1)
  {
    seq(n, i => IntToString(i + 1))
  }

  lemma ConsecutiveIncreasing(n: nat)
    ensures StrictlyIncreasing(Ints(Consecutive(n)))
    ensures forall i :: 0 <= i < n ==> Ints(Consecutive(n))[i] == i
  {
  }

  lemma DocstringBreaks()
    ensures InRange([0.0, 50.0, 100.0, 150.0, 200.0, 250.0], 0, 212) == [0, 50, 100, 150, 200]
  {
  }

  lemma DocstringStrings()
    ensures IntToString(1) == "1" && IntToString(51) == "51" && IntToString(101) == "101"
    ensures IntToString(151) == "151" && IntToString(201) == "201"
  {
    assert NatToString(5) == "5" && NatToString(10) == "10" && NatToString(15) == "15";
    assert NatToString(20) == "20";
  }

  lemma DocstringLabels(n: nat, breaks: seq<int>)
    requires forall k :: 0 <= k < |breaks| ==> 0 <= breaks[k] < n
    ensures var r := LabelsFor(breaks, Ints(Consecutive(n)), OneBasedLabels(n));
      r.Ok? && |r.value| == |breaks|
      && forall k :: 0 <= k < |breaks| ==> r.value[k] == IntToString(breaks[k] + 1)
  {
    var xs := Ints(Consecutive(n));
    ConsecutiveIncreasing(n);
    forall k | 0 <= k < |breaks|
      ensures breaks[k] in xs && IndexOf(xs, breaks[k]) == breaks[k]
    {
      IndexOfConsecutive(xs, breaks[k]);
    }
  }

  /** On well-formed axis points the result is the in-range breaks and
      their labels. */
  lemma WellFormedAxis(xi: seq<Num>, x: seq<string>, candidates: seq<real>)
    requires |xi| == |x| && AllInts(xi) && |xi| > 0 && StrictlyIncreasing(Ints(xi))
    ensures var breaks := InRange(candidates, xi[0].i, xi[|xi| - 1].i);
      var labels := LabelsFor(breaks, Ints(xi), x);
      BreaksAndLabels(xi, x, candidates)
        == if labels.Ok? then Ok((breaks, labels.value)) else Err(labels.error)
  {
  }

  /** Docstring example: `xi = 0..212`, labels `str(i + 1)`, and the
      locator's candidates `0, 50, ..., 250` for five ticks give breaks
      `[0, 50, 100, 150, 200]` labelled `['1', '51', '101', '151', '201']`. */
  lemma FiveElements(s: seq<string>, a: string, b: string, c: string, d: string, e: string)
    requires |s| == 5 && s[0] == a && s[1] == b && s[2] == c && s[3] == d && s[4] == e
    ensures s == [a, b, c, d, e]
  {
  }

  lemma DocstringLabelValues(n: nat, breaks: seq<int>)
    requires n == 213 && breaks == [0, 50, 100, 150, 200]
    ensures LabelsFor(breaks, Ints(Consecutive(n)), OneBasedLabels(n))
      == Ok(["1", "51", "101", "151", "201"])
  {
    DocstringLabels(n, breaks);
    var labels := LabelsFor(breaks, Ints(Consecutive(n)), OneBasedLabels(n));
    var v := labels.value;
    assert v[0] == IntToString(1) && v[1] == IntToString(51) && v[2] == IntToString(101);
    assert v[3] == IntToString(151) && v[4] == IntToString(201);
    DocstringStrings();
    FiveElements(v, "1", "51", "101", "151", "201");
  }

  lemma DocstringExample()
    ensures BreaksAndLabels(Consecutive(213), OneBasedLabels(213), [0.0, 50.0, 100.0, 150.0, 200.0, 250.0])
        == Ok(([0, 50, 100, 150, 200], ["1", "51", "101", "151", "201"]))
  {
    var xi, x := Consecutive(213), OneBasedLabels(213);
    var candidates := [0.0, 50.0, 100.0, 150.0, 200.0, 250.0];
    DocstringLabelValues(213, [0, 50, 100, 150, 200]);
    assert xi[0].i == 0 && xi[212].i == 212;
    DocstringBreaks();
    ConsecutiveIncreasing(213);
    WellFormedAxis(xi, x, candidates);
  }
}
